=== FILE: README.md ===
# Workspace web UI core, modelled in Dafny

This project models the decision logic of the workspace web UI. The UI starts
agent operations on a workspace, streams their output into a log view, and
manages workspace directories, READMEs, TODO files and branches. The model
covers three groups of logic.

- **Operation orchestration** (`lib/process-manager.ts`, `lib/claude-sdk.ts`).
  - `Pipeline` models `startOperationPipeline`:
    - ordered single, group and function phases;
    - one status record per phase;
    - the `onPhaseComplete` policy (continue, skip, abort);
    - the final complete event.
  - `EventBus` models the bounded event buffer that `emitEvent` trims from the front, and the listener set.
  - `Registry` models the table of managed operations: lookup, subscribe, `killOperation`, `submitAnswer` and `wireChild`.
  - `ClaudeSdk` models the handle that `runClaude` returns: the early-event buffer, handler replay, pending questions, the end-of-run events and the tool-permission decision.
  - `Events` holds the event record and the two wire formats this code writes and reads back: `{"exitCode":n}` and `__phaseUpdate:<json>`.
- **Text parsers and builders.**
  - `StreamParser` (`parseStreamEvent`, `summarizeToolInput`)
  - `TodoParser`
  - `ReadmeParser`
  - `ReviewParser`
  - `ReviewViewer.FormatTimestamp`
  - From `workspace-ops.ts`:
    - `WorkspaceOps`: slugs, directory names and dates;
    - `WorkspaceRepo`: alias parsing and branch naming. A ticket id only gets the ticket branch when it has the shape `[A-Za-z]+-?\d+`. Another hyphen-free id, such as `#456`, is read as the front of the description. The correction under "## Findings" keeps this for every such id that is not all letters. Conversely, without a ticket id, a slug whose first word is letters followed by digits (`oauth2-login`) is read as a ticket, and its branch loses the date;
    - `WorkspaceReadme`: the README template, and reading it back;
    - `WorkspaceSnapshot`: the snapshot commit message;
    - `WorkspaceTime`: workspace age and staleness, and the review timestamp.
  - Every regular expression except `extractOutputFilePath`'s is written out as an explicit search over `seq<char>`. `Text` holds the character classes of JavaScript's `\s`, `\d` and `.`, together with `trim`, `split`, `join` and number printing.
- **Log-view derivations.**
  - `OperationLog` covers the shared `operation-log.tsx`: events to entries, live phase statuses, phase filtering and the pending question.
  - `DisplayTree` covers `buildDisplayNodes`, `getChildLabel` and `groupByChildLabel`.
  - `LegacyLog` covers the older `operation-log.tsx`. Its `findPendingAsk` is identical to the shared one, so it is modelled once, as `OperationLog.FindPendingAsk`.
  - `NextActions` covers `getNextActions` and the click rule.
- `Seqs` and `Wrappers` hold the generic sequence helpers and `Option`.

The model is pure: immutable datatypes and total functions. Asynchronous work is replaced by its inputs:
- the agent's messages;
- each child's exit code;
- what a function phase returned or threw;
- the policy's answers;
- the result of `JSON.parse`;
- the current time.

## Model

| member | source | states |
|---|---|---|
| ReviewParser.Count | webui/src/lib/review-parser.ts:7-19 | A count is the numeric value of the digit run in the first occurrence of the bold label that is followed, after optional whitespace, by digits; it is 0 when no occurrence of the label is followed by digits |
| ReviewParser.ParseReviewSummary | webui/src/lib/review-parser.ts:3-21 | The session keeps the timestamp and takes repositories, critical issues, warnings and suggestions each from its own label |
| ReviewParser.NoLabelsNoCounts | webui/src/lib/review-parser.ts:14-20 | A report without any bold text yields a session whose four counts are all 0 |
| ReviewParser.CountInLine | webui/src/lib/review-parser.ts:7-12 | A summary line `label n` read inside a larger report gives back n, provided the text before it cannot hold the label |
| ReviewParser.SummaryRoundTrip | webui/src/lib/review-parser.ts:3-21 | Parsing the four summary lines written for a session returns that same session |
| ReadmeParser.LastNonTerminator | webui/src/lib/readme-parser.ts:15 | The last character of a range that `.` accepts, with every later character of the range a line terminator; None when the whole range is line terminators |
| ReadmeParser.TitleText | webui/src/lib/readme-parser.ts:15 | The captured title after `Task:` is non-empty and holds no line terminator |
| ReadmeParser.TaskTitle | webui/src/lib/readme-parser.ts:15 | The title captured after the `#` is non-empty and stays on one line |
| ReadmeParser.TitleAt | webui/src/lib/readme-parser.ts:15 | A title match can only begin with `#` at the start of a line, and its capture is a non-empty single line |
| ReadmeParser.Title | webui/src/lib/readme-parser.ts:15-33 | The title is the capture at the leftmost position where the pattern matches, and there is none exactly when the pattern matches at no position |
| ReadmeParser.TitleTextOf | webui/src/lib/readme-parser.ts:15 | After `Task:`, a space and a line starting with a non-space character, the capture is that whole line |
| ReadmeParser.TitleOfFirstLine | webui/src/lib/readme-parser.ts:15 | A document whose first line is `# Task: d` has title d |
| ReadmeParser.TitleAtStart | webui/src/lib/readme-parser.ts:15 | A title pattern that matches at the very start of the content is the match that is reported |
| ReadmeParser.Quoted | webui/src/lib/readme-parser.ts:22 | A backtick-quoted field captures a non-empty run without backticks and consumes at least the two quotes |
| ReadmeParser.RepoTail | webui/src/lib/readme-parser.ts:22 | The part of the repository pattern after the alias captures a quoted path and a quoted base branch |
| ReadmeParser.LazyAlias | webui/src/lib/readme-parser.ts:22 | The lazy alias is the shortest run of non-space characters after which the rest of the pattern matches |
| ReadmeParser.LazyAliasStops | webui/src/lib/readme-parser.ts:22 | A non-space run that first lets the rest of the pattern match at length n is the alias the lazy group takes |
| ReadmeParser.RepoAt | webui/src/lib/readme-parser.ts:22-29 | A repository entry starts with `- **`, has a non-empty non-space alias and quoted path and branch, and consumes input |
| ReadmeParser.ReposFrom | webui/src/lib/readme-parser.ts:20-30 | The global search loop lists only well-formed repositories |
| ReadmeParser.ReposFromNone | webui/src/lib/readme-parser.ts:24 | Text in which the entry pattern matches at no position lists no repositories |
| ReadmeParser.RepoLineParses | webui/src/lib/readme-parser.ts:22-29 | A rendered repository line `- **alias**: `path` (base: `branch`)` parses back to that repository, leaving the text after it |
| ReadmeParser.RenderReposParses | webui/src/lib/readme-parser.ts:20-30 | A rendered list of repositories parses back to the same list, in order |
| ReadmeParser.ParseReadmeMeta | webui/src/lib/readme-parser.ts:14-39 | Each field is its pattern's capture or its default (`Untitled`, `unknown`, empty), the title is never empty, and every listed repository is well formed |
| ReadmeParser.EmptyReadmeDefaults | webui/src/lib/readme-parser.ts:32-38 | An empty README gets every default and no repositories |
| TodoParser.MarkerStatus | webui/src/lib/todo-parser.ts:3-8 | Exactly the markers `x`, space, `!` and `~` map to completed, pending, blocked and in progress |
| TodoParser.MarkerChar | webui/src/lib/todo-parser.ts:3-8 | Every status has a marker that reads back as that status |
| TodoParser.Checkbox | webui/src/lib/todo-parser.ts:14-25 | A line yields an item exactly when it has a checkbox; the indent is the leading whitespace length, the status comes from the marker, the text is the rest of the line trimmed, and there are no children |
| TodoParser.CheckboxRender | webui/src/lib/todo-parser.ts:3-22 | Reading a written item line gives back its text, status and indent |
| TodoParser.Heading | webui/src/lib/todo-parser.ts:51-56 | A line is a heading exactly when it starts with `## ` and another character on the same line follows; the heading is the rest of the line trimmed |
| TodoParser.LineKindsDisjoint | webui/src/lib/todo-parser.ts:48-69 | A title line is never a heading, and neither a title nor a heading is a checkbox line |
| TodoParser.ItemStep | webui/src/lib/todo-parser.ts:13-36 | A checkbox line appends its item; any other non-blank line that is indented deeper than the last item becomes that item's child, trimmed; every other line changes nothing |
| TodoParser.ItemsAreCheckboxes | webui/src/lib/todo-parser.ts:10-39 | The items are one per checkbox line, in line order, with that line's indent, status and text; only the children come from other lines |
| TodoParser.Flush | webui/src/lib/todo-parser.ts:99-101 | The current section is pushed exactly when it has items or notes |
| TodoParser.SectionStep | webui/src/lib/todo-parser.ts:46-97 | Each line keeps the section state valid: every finished section is non-empty |
| TodoParser.SectionStepRules | webui/src/lib/todo-parser.ts:46-96 | A title line changes nothing. A heading pushes the current section unless it is empty and opens an empty section under the new heading. A note line is appended, trimmed, to the current section's notes, closes the open item, and leaves the items and the pushed sections unchanged |
| TodoParser.StepAgrees | webui/src/lib/todo-parser.ts:46-97 | After each line the loop state agrees with a line-by-line reading: the open item's indent, the heading in force, and the notes and items seen so far, each tagged with its heading |
| TodoParser.SectionsFollowLines | webui/src/lib/todo-parser.ts:41-104 | The sections hold exactly the file's note lines and checkbox items, in file order, each under the heading of the last heading line above it. A note line is a non-blank line that is not the title, a heading or a checkbox line, and is not indented deeper than an item that no heading or note has closed |
| TodoParser.ParseTodoSections | webui/src/lib/todo-parser.ts:41-104 | No returned section is without both items and notes |
| TodoParser.SectionsAgreeWithItems | webui/src/lib/todo-parser.ts:10-104 | The sections hold exactly the items the flat item parser finds, in the same order and with the same text, status and indent |
| TodoParser.CountsSum | webui/src/lib/todo-parser.ts:112-116 | The completed, pending, blocked and in-progress counts add up to the number of items |
| TodoParser.Progress | webui/src/lib/todo-parser.ts:117 | The progress is 0 without items and otherwise the whole percentage nearest to completed/total, halves rounded up, never above 100 |
| TodoParser.ProgressEnds | webui/src/lib/todo-parser.ts:117 | Everything completed shows 100% and nothing completed shows 0% |
| TodoParser.RepoName | webui/src/lib/todo-parser.ts:120 | Removing the prefix and the suffix never lengthens the name |
| TodoParser.RepoNameOfFile | webui/src/lib/todo-parser.ts:119-120 | The file `TODO-<repo>.md` gives back the name `<repo>` |
| TodoParser.RepoNameUntouched | webui/src/lib/todo-parser.ts:120 | A file name that neither starts with `TODO-` nor ends with `.md` is kept whole |
| TodoParser.ParseTodoFile | webui/src/lib/todo-parser.ts:106-134 | The file name and the repository name derived from it are kept. Each count is the number of items with its status, and the four counts partition the items. The progress is the rounded percentage of completed items, 100 when everything is completed |
| TodoParser.CountStatusIsFilter | webui/src/lib/todo-parser.ts:112-115 | Each status count is the length of the items filtered by that status |
| ReviewViewer.FormatTimestamp | webui/src/components/workspace/review-viewer.tsx:83-88 | A string that is not eight digits, a hyphen and six digits is shown unchanged; a matching one becomes the 19-character `YYYY-MM-DD HH:MM:SS` shape |
| ReviewViewer.FormatKeepsDigits | webui/src/components/workspace/review-viewer.tsx:83-88 | Formatting only inserts separators: the digits shown are the input's digits in the same order |
| WorkspaceOps.SlugChar | webui/src/lib/workspace-ops.ts:38-39 | Every character becomes a slug character: lower-case letters, digits and hyphens stay, upper-case ASCII letters are lowered, everything else becomes a hyphen |
| WorkspaceOps.Collapse | webui/src/lib/workspace-ops.ts:40 | Collapsing hyphen runs keeps the first and last characters, adds no character, never lengthens the text and leaves no two adjacent hyphens |
| WorkspaceOps.CollapseKeepsOthers | webui/src/lib/workspace-ops.ts:40 | Collapsing hyphen runs keeps every non-hyphen character in order |
| WorkspaceOps.CollapseNoDoubles | webui/src/lib/workspace-ops.ts:40 | Text without a doubled hyphen is unchanged by collapsing |
| WorkspaceOps.TrimHyphens | webui/src/lib/workspace-ops.ts:41 | Trimming leaves a contiguous slice that neither starts nor ends with a hyphen, and is empty exactly when the text is all hyphens |
| WorkspaceOps.TrimKeepsOthers | webui/src/lib/workspace-ops.ts:41 | Trimming hyphens keeps every non-hyphen character in order |
| WorkspaceOps.TrimmedSlug | webui/src/lib/workspace-ops.ts:37-41 | Lowering, replacing, collapsing and trimming give a clean slug: only a-z, 0-9 and `-`, no `--`, no hyphen at either end |
| WorkspaceOps.DropTrailingHyphens | webui/src/lib/workspace-ops.ts:44 | Dropping trailing hyphens leaves a prefix that does not end with a hyphen, and only hyphens were removed |
| WorkspaceOps.Truncate | webui/src/lib/workspace-ops.ts:43-45 | Truncation keeps the slug clean and within maxLength, changes nothing when the slug already fits, and empties it only for maxLength 0 |
| WorkspaceOps.FallbackIsClean | webui/src/lib/workspace-ops.ts:47 | The fallback `workspace` is a clean slug of length 9 |
| WorkspaceOps.SanitizeSlug | webui/src/lib/workspace-ops.ts:36-48 | The result is a non-empty clean slug, no longer than maxLength whenever maxLength is at least 9 |
| WorkspaceOps.SanitizeClean | webui/src/lib/workspace-ops.ts:36-48 | A non-empty clean slug within maxLength is returned unchanged |
| WorkspaceOps.SanitizeIdempotent | webui/src/lib/workspace-ops.ts:36-48 | For maxLength of at least 9, sanitizing twice gives the same slug as sanitizing once |
| WorkspaceOps.SanitizeKeepsWords | webui/src/lib/workspace-ops.ts:36-48 | When the input has some letter or digit and no truncation happens, the slug keeps exactly the input's letters and digits, lowered and in order |
| WorkspaceOps.DropPrefix | webui/src/lib/workspace-ops.ts:225 | An anchored-prefix replacement removes the prefix when it is there and otherwise changes nothing |
| WorkspaceOps.DropSuffix | webui/src/lib/workspace-ops.ts:227 | An anchored-suffix replacement removes the suffix when it is there and otherwise changes nothing |
| WorkspaceOps.ReplaceAll | webui/src/lib/workspace-ops.ts:226 | Replacing every `-ticket-` with `-` keeps text made of slug characters |
| WorkspaceOps.ReplaceAllAbsent | webui/src/lib/workspace-ops.ts:226 | A pattern that occurs nowhere leaves the text unchanged |
| WorkspaceOps.StripTicket | webui/src/lib/workspace-ops.ts:222-231 | After the ticket is stripped the slug is never empty and never starts or ends with a hyphen, and it still holds only slug characters |
| WorkspaceOps.StripAbsent | webui/src/lib/workspace-ops.ts:222-231 | A clean slug that does not contain the lowered ticket id is kept as it is |
| WorkspaceOps.StripLeading | webui/src/lib/workspace-ops.ts:225 | A slug that starts with the lowered ticket id and a hyphen loses exactly that prefix |
| WorkspaceOps.WorkspaceSlug | webui/src/lib/workspace-ops.ts:216-231 | The slug used in the directory name is never empty, never starts or ends with a hyphen and holds only slug characters; without a ticket it is a clean slug |
| WorkspaceOps.CompactDate | webui/src/lib/workspace-ops.ts:233 | The compact date holds no hyphen |
| WorkspaceOps.DateRoundTrip | webui/src/lib/workspace-ops.ts:233-253 | For an ISO date, the compact date is its eight digits, and formatting it back gives the `YYYY-MM-DD` prefix |
| WorkspaceRepo.ParseAlias | webui/src/lib/workspace-ops.ts:328-336 | Without a `:` the argument is the path and the directory and there is no alias; the path never contains a `:` |
| WorkspaceRepo.AliasParts | webui/src/lib/workspace-ops.ts:332-336 | With a `:`, the argument is the path, a `:` and the alias, and the directory is `path___alias` |
| WorkspaceRepo.AliasRoundTrip | webui/src/lib/workspace-ops.ts:332-336 | `path:alias` with a colon-free path parses to that path and alias, even when the alias holds further colons |
| WorkspaceRepo.LastSegment | webui/src/lib/workspace-ops.ts:338 | The last segment holds no `/`, ends the path, and is preceded by a `/` when it is not the whole path |
| WorkspaceRepo.BasenameOf | webui/src/lib/workspace-ops.ts:338 | The basename of `dir/name` is name |
| WorkspaceRepo.TicketSegmentShape | webui/src/lib/workspace-ops.ts:374 | A ticket segment starts with a letter, ends with a digit and holds only letters, digits and hyphens |
| WorkspaceRepo.TicketSegmentOf | webui/src/lib/workspace-ops.ts:374 | Letters, an optional hyphen and digits form a ticket segment |
| WorkspaceRepo.NoDigitNoTicket | webui/src/lib/workspace-ops.ts:374 | A segment without a digit is never a ticket |
| WorkspaceRepo.NameDate | webui/src/lib/workspace-ops.ts:368-369 | The date is the trailing eight digits of the name, or today's date when the name does not end in eight digits |
| WorkspaceRepo.TaskTypeOf | webui/src/lib/workspace-ops.ts:366-367 | The task type is the hyphen-free prefix of the name before its first hyphen |
| WorkspaceRepo.ParseName | webui/src/lib/workspace-ops.ts:366-383 | The parsed name keeps the task type and date, and its ticket is empty or a ticket segment |
| WorkspaceRepo.ParseNameTicket | webui/src/lib/workspace-ops.ts:374-375 | A ticket is found exactly when the second hyphen-separated segment is letters followed by digits, and it is that segment |
| WorkspaceRepo.Branch | webui/src/lib/workspace-ops.ts:386-395 | The branch is `taskType/...`; it ends in `-alias` when there is an alias, in `-date` when there is neither ticket nor alias, and puts the ticket first when there is one |
| WorkspaceRepo.BranchName | webui/src/lib/workspace-ops.ts:365-395 | Every branch name starts with the workspace's task type and a `/` |
| WorkspaceRepo.TicketNameParts | webui/src/lib/workspace-ops.ts:366-378 | A directory named with a ticket id without a hyphen of the shape `[A-Za-z]+-?\d+` (letters, then digits) parses back to its task type, ticket, slug and date |
| WorkspaceRepo.PlainNameParts | webui/src/lib/workspace-ops.ts:366-383 | A directory named without a ticket parses back to its task type, slug and date, provided the slug does not itself start with a ticket-like segment |
| WorkspaceRepo.TicketBranch | webui/src/lib/workspace-ops.ts:386-390 | For a workspace named with a ticket id without a hyphen of the shape `[A-Za-z]+-?\d+` (letters, then digits), the branch is `type/ticket-slug`, followed by `-alias` when there is an alias |
| WorkspaceRepo.PlainBranch | webui/src/lib/workspace-ops.ts:391-394 | For a workspace named without a ticket whose slug's first word does not have the ticket shape, the branch is `type/slug-alias`, or `type/slug-date` without an alias |
| WorkspaceRepo.TicketLikeSlugBranch | webui/src/lib/workspace-ops.ts:366-394 | Without a ticket id, a slug whose first word has the ticket shape is read as a ticket: the branch is `type/word-rest`, with `-alias` when there is one, and never carries the date |
| WorkspaceRepo.OAuthSlugBranch | webui/src/lib/workspace-ops.ts:366-394 | The slug `oauth2-login` without a ticket id gets the branch `feature/oauth2-login`, without the workspace's date |
| WorkspaceRepo.HyphenTicketMissed | webui/src/lib/workspace-ops.ts:366-383 | As written, a workspace named with a ticket such as `ABC-123` parses with no ticket; the ticket becomes part of the description |
| WorkspaceRepo.HyphenTicketBranch | webui/src/lib/workspace-ops.ts:366-395 | As written, such a workspace gets the branch `type/ABC-123-slug-date`, or `type/ABC-123-slug-alias` with an alias, not the ticket form |
| WorkspaceRepo.TicketOfParts | webui/src/lib/workspace-ops.ts:374-375 | The corrected ticket detection returns empty or a ticket segment |
| WorkspaceRepo.ParseNameFixed | webui/src/lib/workspace-ops.ts:366-383 | The corrected parse keeps the task type and date, and its ticket is empty or a ticket segment |
| WorkspaceRepo.FixedHyphenParts | webui/src/lib/workspace-ops.ts:374 | The corrected parse reads a hyphenated ticket back whole, with the slug and date |
| WorkspaceRepo.TicketFixedParts | webui/src/lib/workspace-ops.ts:366-378 | The corrected parse gives back the task type, ticket, slug and date of a workspace named with any ticket id of the shape `[A-Za-z]+-?\d+`, with or without the hyphen |
| WorkspaceRepo.TicketBranchFixed | webui/src/lib/workspace-ops.ts:386-390 | With the corrected parse, a workspace named with any ticket id of the shape `[A-Za-z]+-?\d+` gets the branch `type/ticket-slug`, followed by `-alias` when there is an alias |
| WorkspaceRepo.OtherTicketParts | webui/src/lib/workspace-ops.ts:366-383 | A ticket id without a hyphen that lacks the ticket shape, such as `#456`, parses as no ticket; it becomes the front of the description |
| WorkspaceRepo.OtherTicketBranch | webui/src/lib/workspace-ops.ts:366-394 | Such a ticket id never gets the ticket branch: the branch is `type/ticket-slug-alias`, or `type/ticket-slug-date` without an alias |
| WorkspaceRepo.FixedAgrees | webui/src/lib/workspace-ops.ts:374-375 | The corrected parse equals the parse as written whenever the second piece of the name is not all letters |
| WorkspaceRepo.OtherTicketFixed | webui/src/lib/workspace-ops.ts:374-375 | The correction changes nothing for a hyphen-free ticket id that lacks the ticket shape and is not all letters |
| WorkspaceRepo.HashTicketBranch | webui/src/lib/workspace-ops.ts:91 | The prompt's example ticket id `#456` gives the branch `feature/#456-login-<date>`, both as written and with the correction |
| WorkspaceReadme.TicketText | webui/src/lib/workspace-ops.ts:257 | A missing ticket id is written as `N/A`, a present one as itself |
| WorkspaceReadme.ReadmeTitle | webui/src/lib/readme-parser.ts:15 | The title parsed from a generated README is the description, when the description is non-empty, does not start with whitespace, has no line break and holds none of the task type, ticket id and date labels |
| WorkspaceReadme.ReadmeTaskType | webui/src/lib/readme-parser.ts:16 | The task type parsed from a generated README is the one written into it, when the title is as above and the task type is a non-empty run of characters that are neither whitespace nor `*` |
| WorkspaceReadme.ReadmeTicket | webui/src/lib/readme-parser.ts:17 | The ticket id parsed from a generated README is the one written into it, when the title is as above and the task type and ticket id are each a non-empty run of characters that are neither whitespace nor `*` |
| WorkspaceReadme.ReadmeDate | webui/src/lib/readme-parser.ts:18 | The date parsed from a generated README is the one written into it, when the title is as above and the task type, ticket id and date are each a non-empty run of characters that are neither whitespace nor `*` |
| WorkspaceReadme.ReadmeRoundTrip | webui/src/lib/readme-parser.ts:14-39 | Parsing the README that workspace setup writes returns the description, the task type, the ticket id or `N/A`, and the `YYYY-MM-DD` date, when the description is one non-empty line that does not start with a blank and holds none of the `**Task Type**:`, `**Ticket ID**:` and `**Date**:` labels, and the task type and ticket text are non-empty and free of blanks and `*` |
| WorkspaceSnapshot.Mark | webui/src/lib/workspace-ops.ts:505-508 | A line counts toward the snapshot exactly when it has whitespace, `- [`, one of the four markers and `]` |
| WorkspaceSnapshot.MarkAndCheckbox | webui/src/lib/workspace-ops.ts:505-508 | An item line of the TODO parser is exactly a counted line followed by whitespace, with the same status |
| WorkspaceSnapshot.Marks | webui/src/lib/workspace-ops.ts:499-510 | The completed count never exceeds the total, which never exceeds the number of lines |
| WorkspaceSnapshot.MarksCoverItems | webui/src/lib/workspace-ops.ts:504-509 | The snapshot counts at least as many items and completed items as the TODO parser finds, and exactly as many when every counted line is followed by whitespace |
| WorkspaceSnapshot.FileCountsCoverItems | webui/src/lib/workspace-ops.ts:501-510 | For one TODO file, the snapshot total and completed count bound the parsed item and completed counts |
| WorkspaceSnapshot.FilesTally | webui/src/lib/workspace-ops.ts:484-510 | The completed count over the workspace's files never exceeds the total |
| WorkspaceSnapshot.FilesTallyOne | webui/src/lib/workspace-ops.ts:484-510 | A single file adds its marked lines when it is named `TODO-*.md`, and nothing otherwise |
| WorkspaceSnapshot.FilesTallyAppend | webui/src/lib/workspace-ops.ts:499-510 | The counts over a list of files are the sums of the counts over any split of the list |
| WorkspaceSnapshot.OnlyTodoFilesCount | webui/src/lib/workspace-ops.ts:484 | Files none of which is named `TODO-*.md` count nothing |
| WorkspaceSnapshot.SnapshotMessage | webui/src/lib/workspace-ops.ts:496-514 | A given message is used as it is. Otherwise, when some TODO line is marked, the message reads back to the completed and total counts over all TODO files. When none is, it is `Snapshot: workspace updated` |
| WorkspaceSnapshot.CountsReadBack | webui/src/lib/workspace-ops.ts:511-512 | `Snapshot: c/t TODO items completed` determines c and t: reading the message gives them back |
| WorkspaceSnapshot.MessageOfParts | webui/src/lib/workspace-ops.ts:496-513 | Without a caller's message, a workspace whose files split in two parts reports the sum of both parts' counts |
| WorkspaceSnapshot.FixedMessageIffNoMarks | webui/src/lib/workspace-ops.ts:511-513 | The automatic message is `Snapshot: workspace updated` exactly when no item line is counted |
| WorkspaceSnapshot.SingleFileMessage | webui/src/lib/workspace-ops.ts:511-512 | With one TODO file holding items, the message is `Snapshot: c/t TODO items completed` with that file's counts |
| WorkspaceTime.AgeDays | webui/src/lib/workspace-ops.ts:601 | The age in days is the whole number of days elapsed, rounded down, also for a modification time in the future |
| WorkspaceTime.StaleIffOld | webui/src/lib/workspace-ops.ts:601-606 | A workspace is stale exactly when at least staleDays whole days of milliseconds have passed since its modification |
| WorkspaceTime.AgeMonotone | webui/src/lib/workspace-ops.ts:601 | A later clock never gives a smaller age |
| WorkspaceTime.StaysStale | webui/src/lib/workspace-ops.ts:601-606 | A stale workspace stays stale as time passes |
| WorkspaceTime.StaleTestsAgree | webui/src/lib/workspace-ops.ts:563-606 | The threshold test of the stale listing and the age test agree, except exactly at the boundary, where only the age test calls the workspace stale |
| WorkspaceTime.TimestampFields | webui/src/lib/workspace-ops.ts:623-633 | A review timestamp with a four-digit year is eight digits, a hyphen and six digits whose fields read back as the year, month, day, hours, minutes and seconds |
| ReviewViewer.ReviewTimestampFormats | webui/src/lib/workspace-ops.ts:623-633 | Every review timestamp with a four-digit year matches the display pattern and is shown as `YYYY-MM-DD HH:MM:SS` with its own fields |
| StreamParser.Field | webui/src/lib/stream-parser.ts:56-76 | A missing input or a missing field reads as the empty string, a present field as its value |
| StreamParser.SummarizeToolInput | webui/src/lib/stream-parser.ts:56-77 | The summary is `$ command` for Bash, the file path for Read, Write and Edit, `/pattern/` for Grep, the description or the first 80 characters of the prompt for Task, and empty for any tool not in the table |
| StreamParser.TaskSummaryBound | webui/src/lib/stream-parser.ts:69 | Without a description, a Task summary is a prefix of the prompt of at most 80 characters |
| StreamParser.ToQuestion | webui/src/lib/stream-parser.ts:125-131 | A question keeps its text, its options default to none and multiSelect holds only when it was given as true |
| StreamParser.ToQuestions | webui/src/lib/stream-parser.ts:125-132 | Questions are converted one for one, in order |
| StreamParser.BlockEntry | webui/src/lib/stream-parser.ts:116-143 | A shown block becomes a thinking, text, ask or tool-call entry carrying the message's parent id; AskUserQuestion with questions is an ask, every other tool use a tool call with its summary |
| StreamParser.BlockEntries | webui/src/lib/stream-parser.ts:115-145 | The blocks give at most one entry each, all thinking, text, ask or tool-call entries with the message's parent id |
| StreamParser.BlockEntriesInOrder | webui/src/lib/stream-parser.ts:115-145 | The entries are exactly one per non-empty thinking block, non-empty text block and tool-use block, in block order |
| StreamParser.NonEmptyTexts | webui/src/lib/stream-parser.ts:157-160 | Only non-empty texts are kept |
| StreamParser.NonEmptyTextsFilter | webui/src/lib/stream-parser.ts:157-160 | The kept texts are exactly the items' texts, a missing text read as empty, with the empty ones dropped, in item order |
| StreamParser.ResultTextLines | webui/src/lib/stream-parser.ts:156-161 | Splitting an array result's text at line breaks gives back its non-empty one-line texts |
| StreamParser.ResultEntries | webui/src/lib/stream-parser.ts:151-171 | A user message gives one tool-result entry per tool_result block, in block order. Entry k carries block k's `tool_use_id`, its shown text, its error flag and the message's parent id |
| StreamParser.SingleResult | webui/src/lib/stream-parser.ts:152-169 | A tool_result block becomes an entry with its tool id, its text and its error flag |
| StreamParser.ResultParts | webui/src/lib/stream-parser.ts:186-192 | The parts are the result text when it is non-empty, followed by the errors when the message is an error: the errors form the end of the parts |
| StreamParser.ResultMessageEntries | webui/src/lib/stream-parser.ts:185-207 | A result message gives an entry exactly when it has result text, errors, a cost or a duration; its content falls back to `Completed` on success and `Error: <subtype>` otherwise |
| StreamParser.UsageInfo | webui/src/lib/stream-parser.ts:224-228 | The usage lists a duration when it is non-zero and a tool count when it is non-zero, nothing without usage |
| StreamParser.SystemEntries | webui/src/lib/stream-parser.ts:209-243 | Only the init, task_started and task_notification subtypes give an entry; task_started is marked running, and task_notification carries the status, task id, tool-use id and output file |
| StreamParser.ParseStreamEvent | webui/src/lib/stream-parser.ts:79-250 | Input that does not parse gives exactly one raw entry holding the input; parsed input never gives a raw or complete entry, and a message of any other type gives nothing |
| StreamParser.AuthStatusEntries | webui/src/lib/stream-parser.ts:90-98 | An auth_status message gives one error entry when it carries an error and none otherwise |
| StreamParser.AssistantEntries | webui/src/lib/stream-parser.ts:103-146 | An assistant message gives a leading error entry when it has an error, then one entry per shown block in block order, all with the message's parent id |
| StreamParser.SilentMessages | webui/src/lib/stream-parser.ts:148-242 | A user message without content, or a system message of any other subtype, gives no entries |
| Events.StatusNamed | webui/src/lib/process-manager.ts:131-137 | A status name decodes only to the status of that name |
| Events.StatusNamedName | webui/src/components/shared/operation-log.tsx:121-124 | Every phase status decodes back from its own name |
| Events.ParseCanonicalNat | webui/src/components/shared/operation-log.tsx:121 | A decoded natural number prints back as exactly the digits it was read from |
| Events.ParseCanonicalNatToString | webui/src/components/shared/operation-log.tsx:121 | Printing a natural number and reading it back gives the number |
| Events.ParseCanonicalInt | webui/src/components/shared/operation-log.tsx:79-82 | A decoded integer prints back as the text it was read from, except for `-0` |
| Events.ParseCanonicalIntToString | webui/src/components/shared/operation-log.tsx:79-82 | Printing an integer and reading it back gives the integer |
| Events.DecodeExitCode | webui/src/components/shared/operation-log.tsx:77-95 | An exit code is decoded only from the exact `{"exitCode":n}` text that encodes it |
| Events.DecodeCompleteData | webui/src/components/shared/operation-log.tsx:77-86 | The complete event's data written for any exit code decodes to that exit code |
| Events.UnescapeEscape | webui/src/components/shared/operation-log.tsx:121 | Reading back an escaped string, up to its closing quote, gives the string and the text after the quote |
| Events.UnquoteQuote | webui/src/components/shared/operation-log.tsx:121 | A JSON string literal written for any string is read back as that string, followed by the rest of the text |
| Events.DecodePhaseUpdateJson | webui/src/components/shared/operation-log.tsx:121-124 | The phase-update JSON written for any index, label and status decodes to that index, label and status |
| Events.DecodePhaseUpdateMessage | webui/src/components/shared/operation-log.tsx:119-124 | A phase-update status message starts with `__phaseUpdate:` and what follows decodes to the update it was written for |
| EventBus.TrimBuffer | webui/src/lib/process-manager.ts:49-51 | The trimmed buffer is a suffix of the buffer, at most 5000 long, unchanged up to 5000 events and cut to the last 3000 beyond |
| EventBus.Emit | webui/src/lib/process-manager.ts:47-55 | After an emit the buffer holds at most 5000 events, ends with the new event and is a suffix of the old buffer plus the event; every current listener receives the event and no listener is added or removed |
| EventBus.Subscribe | webui/src/lib/process-manager.ts:360-366 | Subscribing adds the listener without touching the buffer or the other listeners |
| EventBus.Unsubscribe | webui/src/lib/process-manager.ts:367 | Unsubscribing removes the listener and nothing else |
| EventBus.EmitAllBuffer | webui/src/lib/process-manager.ts:47-55 | After any run of emits the buffer never exceeds 5000 events, is a suffix of everything emitted, and keeps at least the last 3000 events, or all of them when there were fewer |
| EventBus.EmitAllListener | webui/src/lib/process-manager.ts:52-54 | A listener present throughout receives every emitted event, in order |
| EventBus.LateSubscriber | webui/src/lib/process-manager.ts:360-366 | A listener that subscribes receives exactly the events emitted after it subscribed |
| Pipeline.PhaseLabel | webui/src/lib/process-manager.ts:121-124 | A single or function phase is labelled by its own label; a group by `Phase n: ` with its 1-based position and its children's labels joined by `, ` |
| Pipeline.Every | webui/src/lib/process-manager.ts:306 | `every` holds exactly when every element holds, so it holds for none |
| Pipeline.CountTrue | webui/src/lib/process-manager.ts:309 | The number of successes is at most the group size, and equals it exactly when every child succeeded |
| Pipeline.GroupVerdict | webui/src/lib/process-manager.ts:298-306 | A group phase succeeds exactly when every child's complete event has exit code 0, so an empty group succeeds |
| Pipeline.ChildStatusFor | webui/src/lib/process-manager.ts:110-112 | A finished child record is completed exactly on success and failed otherwise, never left running |
| Pipeline.SpawnRecords | webui/src/lib/process-manager.ts:262-275 | Children a function phase starts are recorded in start order with consecutive `-fn-k` ids, each completed exactly when it exited with 0 |
| Pipeline.GroupRecords | webui/src/lib/process-manager.ts:298-303 | A group's children are recorded in order with ids `-child-j`, each completed exactly when it exited with 0 |
| Pipeline.PhaseRecords | webui/src/lib/process-manager.ts:243-312 | A single phase records one child by its exit code; a function phase records its own child by its verdict, followed by the children it started |
| Pipeline.InitialPhases | webui/src/lib/process-manager.ts:204-208 | One pending record per declared phase, with its index and its label |
| Pipeline.Update | webui/src/lib/process-manager.ts:127-141 | A phase update sets that record's status when the index exists and emits the update event either way |
| Pipeline.RunPhase | webui/src/lib/process-manager.ts:234-314 | Running phase i records that it ran and leaves its record completed or failed by its verdict, with every other record untouched |
| Pipeline.PhaseUpdatesBracket | webui/src/lib/process-manager.ts:241-314 | A phase's events open with its `running` update and close with its `completed` or `failed` update. In between come only status events and `emitResult` output events, all tagged with that phase |
| Pipeline.StartedChildrenAnnounced | webui/src/lib/process-manager.ts:260-274 | A function phase emits one `Initializing...` event per query it starts, in start order, labelled like that query's child record, and no other child-labelled event |
| Pipeline.Step | webui/src/lib/process-manager.ts:234-336 | One iteration runs phase i; `skip` marks phase i+1 skipped and moves to i+2 even after a failure, `abort` stops, and `continue` moves to i+1 only after success |
| Pipeline.RunFrom | webui/src/lib/process-manager.ts:234-336 | The loop keeps every record's index and label and only starts phases at or after where it begins, within the declared range |
| Pipeline.StartRecords | webui/src/lib/process-manager.ts:203-218 | A new pipeline operation is running, has no children and one pending record per declared phase, labelled by the phase label |
| Pipeline.FinishEvent | webui/src/lib/process-manager.ts:73-82 | A finished operation is no longer running and its last event is a complete event without child or phase tags, with exit code 0 exactly when the operation completed |
| Pipeline.RunFromFollows | webui/src/lib/process-manager.ts:234-336 | The phases the loop starts follow the loop's rules: each is where the previous moved on to, and the loop ends after a phase that does not move on or when it passes the last phase |
| Pipeline.FollowsIncreasing | webui/src/lib/process-manager.ts:234-326 | Started phases come strictly in declaration order |
| Pipeline.FollowsSuccess | webui/src/lib/process-manager.ts:316-335 | The pipeline succeeds exactly when every phase it started moved the loop on |
| Pipeline.AbortFails | webui/src/lib/process-manager.ts:316-322 | An `abort` answer after any phase fails the operation, even when that phase succeeded |
| Pipeline.FinalRecords | webui/src/lib/process-manager.ts:234-336 | In the finished operation a phase that ran is completed or failed by its verdict, a phase jumped over by `skip` is skipped, and every other phase is still pending; skipping after the last phase changes no record |
| Pipeline.FirstFailure | webui/src/lib/process-manager.ts:331-335 | The first failing phase at or after i: every earlier phase succeeds |
| Pipeline.NoPolicy | webui/src/lib/process-manager.ts:234-338 | Without a policy phases 0, 1, … run up to and including the first failure, which is failed; later phases stay pending; the operation completes exactly when no phase failed |
| Pipeline.FinalChildren | webui/src/lib/process-manager.ts:243-312 | The finished operation's children are each started phase's records, in the order the phases ran |
| Registry.Register | webui/src/lib/process-manager.ts:228 | Registering stores the operation under its id, keeps every other operation, and appends a new id to the insertion order |
| Registry.GetOperations | webui/src/lib/process-manager.ts:348-350 | All operations, one per registered id, in insertion order |
| Registry.GetOperation | webui/src/lib/process-manager.ts:352-354 | An operation is found exactly when its id is registered |
| Registry.GetOperationEvents | webui/src/lib/process-manager.ts:356-358 | The buffered events of a registered operation, and none for an unknown id |
| Registry.RegisterThenGet | webui/src/lib/process-manager.ts:348-358 | A newly registered operation is found by its id, with its events, and is listed last |
| Registry.SubscribeTo | webui/src/lib/process-manager.ts:360-366 | Subscribing to an unknown id changes nothing; otherwise only that operation's listeners change |
| Registry.UnsubscribeFrom | webui/src/lib/process-manager.ts:365-367 | Unsubscribing from an unknown id changes nothing; otherwise only that operation's listeners change |
| Registry.SubscribeUnsubscribe | webui/src/lib/process-manager.ts:360-368 | For a listener not already subscribed, calling the function a subscription returns restores the registry as it was |
| Registry.KillOperation | webui/src/lib/process-manager.ts:370-376 | Killing answers true exactly for a known running operation, even one without live children; then the main query and every live child are killed, and nothing else changes |
| Registry.KillResolvesQuestions | webui/src/lib/process-manager.ts:370-376 | After a kill every query of the operation is aborted and has no pending question left |
| Registry.RouteAnswer | webui/src/lib/process-manager.ts:386-389 | An answer is accepted exactly when some live child waits for that question; it goes to the first such child and no other child changes |
| Registry.SubmitAnswerTo | webui/src/lib/process-manager.ts:378-390 | Submitting answers false for an unknown or finished operation; otherwise true exactly when the main query or a live child waits for the question, the main query being asked first |
| Registry.AnswerOnce | webui/src/lib/process-manager.ts:378-390 | When only one query waits for a question, a second answer to it is refused |
| Registry.SetLive | webui/src/lib/process-manager.ts:95 | Setting a live child stores it under its id and keeps every other live child |
| Registry.DropLive | webui/src/lib/process-manager.ts:113 | Deleting a live child removes exactly that id |
| Registry.SetChildStatus | webui/src/lib/process-manager.ts:111-112 | Only the first child record with the id gets the new status |
| Registry.WireStart | webui/src/lib/process-manager.ts:95-96 | Wiring a child stores it as live and emits its `Initializing...` status event with the child label and phase tags |
| Registry.ChildEvent | webui/src/lib/process-manager.ts:99-115 | Every child event is emitted tagged with the operation id, child label and phase; a complete event resolves the child by whether its exit code is 0, sets its record's status and removes it from the live children |
| Registry.ChildEventsBus | webui/src/lib/process-manager.ts:99-106 | All of a child's events reach the buffer tagged, in order |
| Registry.ChildOutputs | webui/src/lib/process-manager.ts:99-116 | Events other than complete change neither the operation, nor the live children, and resolve nothing |
| Registry.ChildRun | webui/src/lib/process-manager.ts:88-118 | A child that emits its outputs and completes with code c resolves with c == 0, records that status, leaves the live children, and a listener receives all its events tagged |
| ClaudeSdk.AnswersJson | webui/src/lib/claude-sdk.ts:104 | The answers become a JSON object with exactly the same keys, each mapped to its answer as a string |
| ClaudeSdk.CanUseTool | webui/src/lib/claude-sdk.ts:82-111 | Every tool is allowed; a tool other than AskUserQuestion keeps its input unchanged, and AskUserQuestion gets just the original questions plus the received answers |
| ClaudeSdk.NewHandle | webui/src/lib/claude-sdk.ts:45-53 | A new handle starts in a valid state: no handler, no early event and no pending question |
| ClaudeSdk.Emit | webui/src/lib/claude-sdk.ts:55-61 | Without a handler the event is buffered; otherwise every handler receives it and nothing is buffered |
| ClaudeSdk.OnEvent | webui/src/lib/claude-sdk.ts:163-170 | A new handler first receives the buffered events in order, and the buffer is then empty |
| ClaudeSdk.Ask | webui/src/lib/claude-sdk.ts:86-88 | Asking adds the question id to the pending questions and removes none |
| ClaudeSdk.SubmitAnswer | webui/src/lib/claude-sdk.ts:172-178 | A submission succeeds exactly when the question is pending; success resolves it with the answers and removes it, and a failed submission changes nothing |
| ClaudeSdk.Kill | webui/src/lib/claude-sdk.ts:88-96 | Killing aborts the handle and resolves every pending question with an empty answer map, leaving none pending; killing twice changes nothing |
| ClaudeSdk.EndEvents | webui/src/lib/claude-sdk.ts:124-158 | A normal end emits one complete event with exit code 0; a failure emits complete with exit code 1, preceded by an error event unless the handle was aborted |
| ClaudeSdk.End | webui/src/lib/claude-sdk.ts:131-133 | A failure clears all pending questions without resolving them; a normal end keeps them |
| ClaudeSdk.RunView | webui/src/lib/claude-sdk.ts:55-170 | Whatever happens during a run, the first handler's view (or the buffer before any handler exists) grows by exactly the emitted events, and every existing handler receives all of them in order |
| ClaudeSdk.EmittedMessages | webui/src/lib/claude-sdk.ts:115-122 | Each SDK message is emitted as one output event, in order |
| ClaudeSdk.NormalRun | webui/src/lib/claude-sdk.ts:115-130 | A run that finishes normally emits its outputs followed by exactly one complete event with exit code 0 |
| ClaudeSdk.FailedRun | webui/src/lib/claude-sdk.ts:131-158 | A failed run clears the pending questions; it emits only complete with exit code 1 when aborted, and otherwise an error event followed by complete with exit code 1 |
| ClaudeSdk.SubmitOnce | webui/src/lib/claude-sdk.ts:172-178 | A successful submission cannot be repeated: the second one for the same question returns false |
| ClaudeSdk.AbortResolvesPending | webui/src/lib/claude-sdk.ts:88-96 | Aborting while a question is pending resolves it with an empty answer map, and an answer submitted afterwards is refused |
| OperationLog.TagAll | webui/src/components/shared/operation-log.tsx:61-68 | Tagging the entries of an output event keeps their number, bodies and parent ids |
| OperationLog.EventEntriesTagged | webui/src/components/shared/operation-log.tsx:58-107 | Every entry derived from an event carries that event's child label, phase index and phase label (an output event's entries only the labels that are non-empty); an output event's entries are the parsed entries, same bodies and parents, in order |
| OperationLog.CompleteEventExitCode | webui/src/components/shared/operation-log.tsx:77-95 | A complete event gives a complete entry with the exit code its data encodes, and -1 when its data does not decode |
| OperationLog.EntriesAppend | webui/src/components/shared/operation-log.tsx:58-107 | The entries of a run of events are the entries of each event in event order |
| OperationLog.UpdateOf | webui/src/components/shared/operation-log.tsx:119-121 | A phase update is read only from a system entry whose content starts with `__phaseUpdate:` |
| OperationLog.Declared | webui/src/components/shared/operation-log.tsx:113-116 | The phase map is keyed by each declared phase's own index |
| OperationLog.DeclaredIsLast | webui/src/components/shared/operation-log.tsx:113-116 | When two declared phases share an index, the later one is kept; an index no phase declares is absent |
| OperationLog.DeclaredKeys | webui/src/components/shared/operation-log.tsx:113-116 | Every declared phase's index is in the phase map |
| OperationLog.Applied | webui/src/components/shared/operation-log.tsx:118-130 | Applying updates never adds or removes a phase and never changes a phase's index or name |
| OperationLog.AppliedIsLast | webui/src/components/shared/operation-log.tsx:118-130 | Each phase's status is the one in the last decodable update for its index, or its declared status when there is none |
| OperationLog.LivePhases | webui/src/components/shared/operation-log.tsx:110-111 | There are live phases exactly when initial phases are given |
| OperationLog.LivePhasesSpec | webui/src/components/shared/operation-log.tsx:110-133 | The live phases are in strictly increasing index order, each one is the last declared phase for its index with its current status, and every declared index appears |
| OperationLog.PhaseUpdateEventApplies | webui/src/components/shared/operation-log.tsx:96-125 | After a phase-update status event for a declared index, that phase's live status is the update's status |
| OperationLog.FilterByPhase | webui/src/components/shared/operation-log.tsx:145-154 | With the all-phases tab or no live phases every entry is kept; otherwise exactly the entries that are not phase updates and carry no phase index or the tab's index |
| OperationLog.CleanEntries | webui/src/components/shared/operation-log.tsx:158-164 | The entries shown come from the log; when live phases exist no phase update is among them; without live phases all entries are shown |
| OperationLog.AllPhasesShowsEverything | webui/src/components/shared/operation-log.tsx:160-162 | In the all-phases view, a log without phase updates is shown whole and in order |
| OperationLog.AnsweredIds | webui/src/components/shared/operation-log.tsx:1043-1048 | An id is answered exactly when some tool-result entry carries it |
| OperationLog.FindPendingAsk | webui/src/components/shared/operation-log.tsx:1041-1060 | The result is the last ask whose tool id appears on no tool result, and there is none exactly when every ask has been answered |
| DisplayTree.StripTaskStarted | webui/src/components/shared/operation-log.tsx:310 | Without the `Task started:` prefix the content is unchanged; with it the result is the content's tail after the prefix and the blanks that follow it |
| DisplayTree.StripTaskStartedOf | webui/src/components/shared/operation-log.tsx:310 | The prefix followed by blanks and a description that does not start with a blank gives back the description |
| DisplayTree.InfoOf | webui/src/components/shared/operation-log.tsx:307 | The lookup finds a task exactly when its id is recorded |
| DisplayTree.LastReport | webui/src/components/shared/operation-log.tsx:305-325 | The report found carries the id, and none is found only when no entry reports on that id |
| DisplayTree.LastReportWins | webui/src/components/shared/operation-log.tsx:305-325 | A task is recorded exactly when some entry reports on it, and its status, summary and usage come from the last such report; a running report resets the description to the content without the `Task started:` prefix |
| DisplayTree.LastTaskId | webui/src/components/shared/operation-log.tsx:312-320 | The task id remembered was carried by a report on the same id |
| DisplayTree.TaskIdRemembered | webui/src/components/shared/operation-log.tsx:305-325 | The shared log remembers the task id of the last report that carried one; the older log keeps neither task id nor output file |
| DisplayTree.TaskCallIds | webui/src/components/shared/operation-log.tsx:329-333 | The ids collected are exactly those of the `Task` tool calls |
| DisplayTree.ParentIds | webui/src/components/shared/operation-log.tsx:335-339 | The ids collected are exactly the non-empty parent ids |
| DisplayTree.ReportIds | webui/src/components/shared/operation-log.tsx:341-343 | The ids collected are exactly those reported on |
| DisplayTree.InfoKeys | webui/src/components/shared/operation-log.tsx:305-343 | The task records are keyed by exactly the reported ids |
| DisplayTree.AgentIds | webui/src/components/shared/operation-log.tsx:328-343 | The sub-agent ids are the `Task` call ids, parent ids and reported ids, each once |
| DisplayTree.FoundFile | webui/src/components/shared/operation-log.tsx:347-350 | An output file is taken only from a non-empty path in the result of a sub-agent's tool call |
| DisplayTree.WithOutputFiles | webui/src/components/shared/operation-log.tsx:347-357 | Attaching output files changes no task record except its output file, and never replaces one it already has |
| DisplayTree.FirstFileKept | webui/src/components/shared/operation-log.tsx:347-357 | A task without an output file gets the file of the first tool result that names one |
| DisplayTree.Bucket | webui/src/components/shared/operation-log.tsx:368-384 | A sub-agent's bucket holds exactly the entries whose parent is that sub-agent and that are not reports on a known sub-agent |
| DisplayTree.Section | webui/src/components/shared/operation-log.tsx:390-437 | A section carries its id and that id's bucket. Its header is the task's information when there is some. Otherwise it is the given fallback description, status `running`, and no summary, usage, task id or output file |
| DisplayTree.FirstCallSummary | webui/src/components/shared/operation-log.tsx:387-394 | The summary of the first `Task` call outside every section with the given id, present exactly when there is such a call |
| DisplayTree.OpeningCallFallback | webui/src/components/shared/operation-log.tsx:387-394 | The `Task` call that opens a section in the main loop is the first one for its id, so its summary is the section's fallback description |
| DisplayTree.TopTaskCalls | webui/src/components/shared/operation-log.tsx:386-401 | The sections opened in the walk are exactly the `Task` calls that are not inside a sub-agent |
| DisplayTree.BuildDisplayNodes | webui/src/components/shared/operation-log.tsx:289-443 | The top-level entries, in log order, are exactly the log entries that are neither passed over nor the first top-level `Task` call of their id. Each sub-agent gets at most one section, and exactly those with a top-level `Task` call, a report or bucketed entries get one. Every section holds its bucket, with the info's header or else the opening call's summary or `Sub-agent` and the first eight characters of the id |
| DisplayTree.WalkShows | webui/src/components/shared/operation-log.tsx:368-415 | The main loop pushes exactly the shown entries, in order |
| DisplayTree.WalkStepShows | webui/src/components/shared/operation-log.tsx:368-415 | One iteration pushes its entry exactly when the entry is neither passed over nor the first top-level `Task` call of its id |
| DisplayTree.FinishKeepsEntries | webui/src/components/shared/operation-log.tsx:419-440 | The loop over unemitted ids adds sections only |
| DisplayTree.VisibleEntryShown | webui/src/components/shared/operation-log.tsx:413-414 | An entry that is not passed over and is not a `Task` call gets a top-level node of its own |
| DisplayTree.NestedEntryPlaced | webui/src/components/shared/operation-log.tsx:380-384 | An entry with a known parent is shown in its parent's section, in no other section and not at top level |
| DisplayTree.FirstLabel | webui/src/components/shared/operation-log.tsx:449-457 | A section's child label is the first non-empty label among its entries, and none when no entry has one |
| DisplayTree.Unlabeled | webui/src/components/shared/operation-log.tsx:472-475 | The unlabelled nodes are exactly the nodes without a child label |
| DisplayTree.LabelsOf | webui/src/components/shared/operation-log.tsx:464-471 | The labels collected are exactly the non-empty child labels |
| DisplayTree.WithLabelMembers | webui/src/components/shared/operation-log.tsx:471-482 | A group's members are exactly the nodes with its label |
| DisplayTree.Groups | webui/src/components/shared/operation-log.tsx:481-497 | One group per label, in label order |
| DisplayTree.GroupByChildLabel | webui/src/components/shared/operation-log.tsx:478-479 | Without any child label the nodes are returned unchanged |
| DisplayTree.GroupingKeepsNodes | webui/src/components/shared/operation-log.tsx:459-500 | Grouping neither loses nor duplicates a node: the unlabelled nodes and the groups' members together are the input, as a multiset |
| DisplayTree.GroupsShape | webui/src/components/shared/operation-log.tsx:459-500 | With labels, the result is the unlabelled nodes in order followed by one non-empty, correctly labelled group per label in first-seen order |
| DisplayTree.GroupStatusSpec | webui/src/components/shared/operation-log.tsx:483-494 | A group failed exactly when some member is a non-zero complete or a failed sub-agent; it completed exactly when nothing failed, some member completed and no sub-agent is still running; otherwise it is running |
| LegacyLog.LegacyNodes | webui/src/components/operation-log.tsx:112-243 | The older log shows entries and sub-agent sections only, never a child group |
| LegacyLog.LegacyEventSpec | webui/src/components/operation-log.tsx:44-61 | Status events show nothing; a complete event shows the code its data encodes, or -1 when the data does not decode; no entry carries a child or phase tag |
| LegacyLog.SameEventEntries | webui/src/components/operation-log.tsx:44-61 | An untagged event other than a status event gives the same entries in both logs |
| LegacyLog.SameEntries | webui/src/components/operation-log.tsx:44-61 | For a run without tags or status events, both logs derive exactly the same entries |
| NextActions.NextActionsFor | webui/src/components/shared/next-action-suggestions.tsx:13-65 | Every suggestion carries the body `{ workspace }`, only the first can be primary, and none proposes the type that just completed |
| NextActions.PrimaryIsSuccessor | webui/src/components/shared/next-action-suggestions.tsx:13-65 | There is a primary suggestion exactly when the completed type has a successor in the init/update-todo, execute, review, create-pr workflow, and it proposes that successor; a type without a successor gets no suggestion at all; the only other suggestion is to execute again after a review |
| NextActions.WorkflowFromInit | webui/src/components/shared/next-action-suggestions.tsx:17-61 | Following the primary suggestions from init reaches create-pr in three steps, after which nothing is suggested |
| NextActions.ClickOn | webui/src/components/shared/next-action-suggestions.tsx:67-102 | A click navigates exactly when navigation is on and the action runs in the Operations tab; otherwise it starts that action with its own body |
| NextActions.ClickUrlsDistinct | webui/src/components/shared/next-action-suggestions.tsx:94-98 | Different Operations-tab actions navigate to different URLs |
| Seqs.Dedupe | webui/src/components/shared/operation-log.tsx:460-470 | The label order holds each label once, and exactly the labels seen |
| Seqs.DedupeOrder | webui/src/components/shared/operation-log.tsx:464-470 | The label order is first-seen order |
| Seqs.Filter | webui/src/components/shared/operation-log.tsx:147-153 | A filter keeps exactly the elements that pass |
| Seqs.FilterAppend | webui/src/components/shared/operation-log.tsx:147-153 | Filtering distributes over concatenation |
| Text.Trim | webui/src/lib/todo-parser.ts:18-31 | The result is the slice of the input left when the whitespace at both ends is cut away: what is cut is blank, and the result has no blank at either end, so it is empty only when the input is blank |
| Text.TrimEmptyIffBlank | webui/src/lib/todo-parser.ts:31-32 | Trimming gives the empty string exactly when the input is blank |
| Text.JoinSplit | webui/src/lib/workspace-ops.ts:366 | Joining the pieces of a split with the separator gives back the string |
| Text.SplitJoin | webui/src/lib/workspace-ops.ts:366 | Splitting pieces joined with a separator none of them contains gives back the pieces |
| Text.DigitsValueNatToString | webui/src/lib/workspace-ops.ts:623-633 | The decimal digits of a number read back as that number |
| Text.FindLabelSpec | webui/src/lib/readme-parser.ts:16-18 | A label search finds the first position where the label is followed by a token, and nothing only when there is no such position |

## Left out

- The agent SDK itself is not modelled: `query`, async iteration, `AbortController`, and resolving the CLI path. A run is a sequence of steps: messages, an abort, a normal end or a throw.
- Concurrency is not modelled. That covers the `Promise.all` interleaving of group phases and of children started by function phases, and listeners added while an event is being delivered. A group contributes only its children's exit codes, in order. A function phase is a given trace of `emitStatus`, `emitResult` and query starts, in the order the function made them. The body that produces the trace is not modelled.
- ClaudeSdk.Ask: a question id that is already pending leaves the handle unchanged. The source's `pendingAnswers.set` would replace the stored resolver, so the earlier waiter would never be resolved. Pending questions hold ids only, not resolvers, and the SDK gives each tool use a distinct id, so the model does not track which resolver is stored.
- A pipeline's own event log is reduced to the events the pipeline emits itself: status events, phase updates, the results a function phase reports through `emitResult`, and the final complete event. The children's output events are modelled separately, by `Registry.ChildEvent`.
- Timestamps on events and operations are not modelled. `new Date()` is left out, and the current time and dates are parameters.
- Effects in `workspace-ops.ts` are left to the caller:
  - git, gh and `exec` calls;
  - file-system reads and writes;
  - `detectBaseBranch`, `checkExistingPR` and `getRepoChanges`;
  - deleting workspaces;
  - walking directories, and sorting the workspace list;
  - the LLM call in `analyzeTaskDescription`. Its result (task type and slug) is an input.
- `path.join` and `path.basename` are modelled only for `/`-separated paths.
- Ticket ids and task types are treated as literal text where the source splices them into a `RegExp`, so regex metacharacters in them are not modelled.
- `$` patterns and `{{...}}` placeholders inside the values substituted into the README template are not modelled.
- `toLowerCase` in `sanitizeSlug` is modelled for ASCII only. Every other character counts as non-alphanumeric.
- `JSON.parse` of an agent output line is a parameter. A parsed line is an already-typed SDK message. So a line that parses to something other than an object is not modelled. For example, for the line `null` the source's `parsed.type` throws a TypeError, which the typed parameter cannot express.
- `parseInt` and JSON numbers are IEEE doubles in the source, but the model reads them as unbounded naturals and integers. This covers review counts, exit codes and phase indices, so precision loss on very long digit runs is not modelled.
- `toFixed` formatting of cost, duration and elapsed time becomes opaque strings.
- For `{"exitCode":n}` and `__phaseUpdate:` data, only the canonical text that `JSON.stringify` writes is decoded. Other JSON that `JSON.parse` would accept is treated as undecodable. The same goes for complete data without an `exitCode` field (the source's `?? -1`), and for a `phaseStatus` that is not one of the five status names.
- React rendering and hooks are not modelled. That includes the phase tab that switches automatically to the running phase, the ref recording that the user picked a tab, SSE and EventSource handling, and localStorage.
- The regular expression in `extractOutputFilePath` is a parameter of `DisplayTree.FoundFile`.
- Next.js route handlers, the sub-agent output tailer and the prompt builders only compose the core, and are not part of this model.

## Findings

| source | as written | input that shows it | evidently intended | confidence | as-written member | corrected member |
|---|---|---|---|---|---|---|
| webui/src/lib/workspace-ops.ts:366-378 | The ticket test runs on the second `-`-separated piece of the workspace name. The regex allows a hyphen inside the ticket (`[A-Z]+[-]?\d+`), but that hyphen has already been used to split the name. | Workspace `feature-ABC-123-login-20250101`: piece 1 is `ABC`, so no ticket is found, and the branch becomes `feature/ABC-123-login-20250101` instead of `feature/ABC-123-login` | A hyphenated ticket such as `ABC-123` is recognised when the name contains it | not executed | WorkspaceRepo.HyphenTicketMissed | WorkspaceRepo.TicketBranchFixed |

=== FILE: claude_sdk.dfy ===
/**
 * The state of the handle `runClaude` returns for one agent query: the
 * handlers registered through `onEvent`, the early-event buffer that holds
 * events emitted before the first handler, the questions waiting for an
 * answer, the abort flag, and the fixed rules for the events emitted when the
 * query ends. The query itself is an input: a sequence of steps.
 */
module ClaudeSdk {
  import opened Wrappers
  import opened Events

  /** The answers map a user submits for one question. */
  type Answers = map<string, string>

  /** A JSON value as the agent SDK hands it to `canUseTool`. */
  datatype Json =
    | JNull
    | JBool(b: bool)
    | JNumber(n: int)
    | JString(s: string)
    | JArray(items: seq<Json>)
    | JObject(fields: map<string, Json>)

  const AskToolName: string := "AskUserQuestion"

  /** The permission result `canUseTool` resolves with; it always allows. */
  datatype Decision = Allow(updatedInput: map<string, Json>)

  function AnswersJson(answers: Answers): (j: Json)
    ensures j.JObject? && j.fields.Keys == answers.Keys
    ensures forall k :: k in answers ==> j.fields[k] == JString(answers[k])
  {
    JObject(map k | k in answers :: JString(answers[k]))
  }

  /**
   * `canUseTool`, once the answers for an AskUserQuestion call are known:
   * every other tool keeps its input, AskUserQuestion gets its original
   * `questions` (dropped when absent, as JSON.stringify drops `undefined`)
   * next to the answers.
   */
  function CanUseTool(toolName: string, input: map<string, Json>, answers: Answers): (d: Decision)
    ensures toolName != AskToolName ==> d.updatedInput == input
    ensures toolName == AskToolName ==>
      && "answers" in d.updatedInput
      && d.updatedInput["answers"] == AnswersJson(answers)
      && ("questions" in d.updatedInput <==> "questions" in input)
      && ("questions" in input ==> d.updatedInput["questions"] == input["questions"])
      && d.updatedInput.Keys <= {"questions", "answers"}
  {
    if toolName != AskToolName then Allow(input)
    else if "questions" in input then
      Allow(map["questions" := input["questions"], "answers" := AnswersJson(answers)])
    else
      Allow(map["answers" := AnswersJson(answers)])
  }

  /**
   * `delivered[k]` is everything the k-th registered handler has been given;
   * `resolutions` logs, in order, each answer a waiting question was resolved
   * with (by `submitAnswer` or by the abort listener).
   */
  datatype Handle = Handle(
    operationId: string,
    early: seq<Event>,
    delivered: seq<seq<Event>>,
    pending: seq<string>,
    resolutions: seq<(string, Answers)>,
    aborted: bool)

  /** Events are buffered only while no handler is registered. */
  predicate Valid(h: Handle) {
    |h.delivered| > 0 ==> h.early == []
  }

  function NewHandle(operationId: string): (h: Handle)
    ensures Valid(h)
  {
    Handle(operationId, [], [], [], [], false)
  }

  function OutputEvent(operationId: string, data: string): Event {
    Event(Output, operationId, data, None, None, None)
  }

  function ErrorEvent(operationId: string, message: string): Event {
    Event(Error, operationId, message, None, None, None)
  }

  function CompleteEvent(operationId: string, exitCode: int): Event {
    Event(Complete, operationId, CompleteData(exitCode), None, None, None)
  }

  /** `emit`: buffer while nobody listens, otherwise hand to every handler. */
  function Emit(h: Handle, e: Event): (r: Handle)
    requires Valid(h)
    ensures Valid(r)
    ensures |r.delivered| == |h.delivered|
    ensures |h.delivered| == 0 ==> r.early == h.early + [e]
    ensures forall k :: 0 <= k < |h.delivered| ==> r.delivered[k] == h.delivered[k] + [e]
    ensures r.pending == h.pending && r.resolutions == h.resolutions
    ensures r.aborted == h.aborted && r.operationId == h.operationId
  {
    if |h.delivered| == 0 then h.(early := h.early + [e])
    else h.(delivered := seq(|h.delivered|, k requires 0 <= k < |h.delivered| => h.delivered[k] + [e]))
  }

  function EmitSeq(h: Handle, es: seq<Event>): (r: Handle)
    requires Valid(h)
    ensures Valid(r)
    ensures |r.delivered| == |h.delivered|
    ensures r.pending == h.pending && r.resolutions == h.resolutions
    ensures r.aborted == h.aborted && r.operationId == h.operationId
    decreases |es|
  {
    if es == [] then h else EmitSeq(Emit(h, es[0]), es[1..])
  }

  /** `onEvent`: register the handler and replay the buffered events to it. */
  function OnEvent(h: Handle): (r: Handle)
    requires Valid(h)
    ensures Valid(r)
    ensures r.early == []
    ensures r.delivered == h.delivered + [h.early]
  {
    h.(early := [], delivered := h.delivered + [h.early])
  }

  /** `canUseTool` for AskUserQuestion: park the question under its tool-use id. */
  function Ask(h: Handle, toolUseId: string): (r: Handle)
    ensures toolUseId in r.pending
    ensures forall id :: id in h.pending ==> id in r.pending
    ensures forall id :: id in r.pending ==> id in h.pending || id == toolUseId
  {
    if toolUseId in h.pending then h else h.(pending := h.pending + [toolUseId])
  }

  function Remove(ids: seq<string>, x: string): (r: seq<string>)
    ensures x !in r
    ensures forall y :: y in r <==> y in ids && y != x
  {
    if ids == [] then []
    else if ids[0] == x then Remove(ids[1..], x)
    else [ids[0]] + Remove(ids[1..], x)
  }

  /** The handle's `submitAnswer`: answer a pending question exactly once. */
  function SubmitAnswer(h: Handle, toolUseId: string, answers: Answers): (r: (bool, Handle))
    ensures r.0 <==> toolUseId in h.pending
    ensures !r.0 ==> r.1 == h
    ensures r.0 ==> r.1.resolutions == h.resolutions + [(toolUseId, answers)]
    ensures toolUseId !in r.1.pending
    ensures forall id :: id != toolUseId ==> (id in r.1.pending <==> id in h.pending)
    ensures r.1.early == h.early && r.1.delivered == h.delivered && r.1.aborted == h.aborted
  {
    if toolUseId !in h.pending then (false, h)
    else (true, h.(pending := Remove(h.pending, toolUseId),
                   resolutions := h.resolutions + [(toolUseId, answers)]))
  }

  /** Resolve every id with an empty answers map, in order. */
  function EmptyResolutions(ids: seq<string>): (r: seq<(string, Answers)>)
    ensures |r| == |ids|
    ensures forall k :: 0 <= k < |ids| ==> r[k] == (ids[k], map[])
  {
    if ids == [] then [] else [(ids[0], map[])] + EmptyResolutions(ids[1..])
  }

  /**
   * `kill`: abort the controller. The first abort fires every waiting
   * question's listener, which drops it and resolves it with `{}`; a second
   * abort changes nothing (listeners added after the first abort never fire).
   */
  function Kill(h: Handle): (r: Handle)
    ensures r.aborted
    ensures !h.aborted ==> r.pending == []
    ensures !h.aborted ==> r.resolutions == h.resolutions + EmptyResolutions(h.pending)
    ensures h.aborted ==> r == h
    ensures r.early == h.early && r.delivered == h.delivered
  {
    if h.aborted then h
    else h.(aborted := true, pending := [], resolutions := h.resolutions + EmptyResolutions(h.pending))
  }

  /** How the background query loop ended. */
  datatype RunEnd = Finished | Threw(message: string)

  /**
   * The events the handle emits when the query loop ends: complete with exit
   * code 0 after a normal finish; after an exception, complete with exit
   * code 1, preceded by an error event unless the handle was aborted.
   */
  function EndEvents(h: Handle, end: RunEnd): (es: seq<Event>)
    ensures end.Finished? ==> es == [CompleteEvent(h.operationId, 0)]
    ensures end.Threw? && h.aborted ==> es == [CompleteEvent(h.operationId, 1)]
    ensures end.Threw? && !h.aborted ==>
      es == [ErrorEvent(h.operationId, end.message), CompleteEvent(h.operationId, 1)]
  {
    match end
    case Finished => [CompleteEvent(h.operationId, 0)]
    case Threw(message) =>
      if h.aborted then [CompleteEvent(h.operationId, 1)]
      else [ErrorEvent(h.operationId, message), CompleteEvent(h.operationId, 1)]
  }

  /** The query ends: a failing run first clears the waiting questions, unresolved. */
  function End(h: Handle, end: RunEnd): (r: Handle)
    requires Valid(h)
    ensures Valid(r)
    ensures end.Threw? ==> r.pending == []
    ensures end.Finished? ==> r.pending == h.pending
    ensures r.resolutions == h.resolutions
  {
    var h1 := if end.Threw? then h.(pending := []) else h;
    EmitSeq(h1, EndEvents(h, end))
  }

  /** One thing that can happen to a handle. */
  datatype Step =
    | Message(data: string)           // the query yields a message
    | Register                        // `onEvent(handler)`
    | AskQuestion(toolUseId: string)  // `canUseTool` for AskUserQuestion
    | Answer(toolUseId: string, answers: Answers)
    | Abort                           // `kill()`
    | Stop(end: RunEnd)               // the query loop ends

  /** The events one step emits. */
  function StepEvents(h: Handle, s: Step): seq<Event> {
    match s
    case Message(data) => [OutputEvent(h.operationId, data)]
    case Stop(end) => EndEvents(h, end)
    case _ => []
  }

  function Apply(h: Handle, s: Step): (r: Handle)
    requires Valid(h)
    ensures Valid(r)
    ensures r.operationId == h.operationId
  {
    match s
    case Message(data) => Emit(h, OutputEvent(h.operationId, data))
    case Register => OnEvent(h)
    case AskQuestion(id) => Ask(h, id)
    case Answer(id, answers) => SubmitAnswer(h, id, answers).1
    case Abort => Kill(h)
    case Stop(end) => End(h, end)
  }

  function Run(h: Handle, steps: seq<Step>): (r: Handle)
    requires Valid(h)
    ensures Valid(r)
    decreases |steps|
  {
    if steps == [] then h else Run(Apply(h, steps[0]), steps[1..])
  }

  /** Every event emitted while running `steps`, in emission order. */
  function Emitted(h: Handle, steps: seq<Step>): seq<Event>
    requires Valid(h)
    decreases |steps|
  {
    if steps == [] then [] else StepEvents(h, steps[0]) + Emitted(Apply(h, steps[0]), steps[1..])
  }

  /** What the first handler has seen, or the buffer while there is none. */
  function FirstView(h: Handle): seq<Event> {
    if |h.delivered| == 0 then h.early else h.delivered[0]
  }

  lemma EmitSeqView(h: Handle, es: seq<Event>)
    requires Valid(h)
    ensures FirstView(EmitSeq(h, es)) == FirstView(h) + es
    ensures forall k :: 0 <= k < |h.delivered| ==> EmitSeq(h, es).delivered[k] == h.delivered[k] + es
  {
    EmitSeqFirst(h, es);
    forall k | 0 <= k < |h.delivered|
      ensures EmitSeq(h, es).delivered[k] == h.delivered[k] + es
    {
      EmitSeqDelivered(h, es, k);
    }
  }

  lemma {:induction false} EmitSeqFirst(h: Handle, es: seq<Event>)
    requires Valid(h)
    ensures FirstView(EmitSeq(h, es)) == FirstView(h) + es
    decreases |es|
  {
    if es != [] {
      var h1 := Emit(h, es[0]);
      EmitSeqFirst(h1, es[1..]);
      assert es == [es[0]] + es[1..];
      assert FirstView(h1) == FirstView(h) + [es[0]];
    }
  }

  lemma {:induction false} EmitSeqDelivered(h: Handle, es: seq<Event>, k: nat)
    requires Valid(h) && k < |h.delivered|
    ensures EmitSeq(h, es).delivered[k] == h.delivered[k] + es
    decreases |es|
  {
    if es != [] {
      var h1 := Emit(h, es[0]);
      EmitSeqDelivered(h1, es[1..], k);
      assert es == [es[0]] + es[1..];
      assert h1.delivered[k] == h.delivered[k] + [es[0]];
    }
  }

  lemma ApplyView(h: Handle, s: Step)
    requires Valid(h)
    ensures FirstView(Apply(h, s)) == FirstView(h) + StepEvents(h, s)
    ensures |Apply(h, s).delivered| >= |h.delivered|
    ensures forall k :: 0 <= k < |h.delivered| ==>
      Apply(h, s).delivered[k] == h.delivered[k] + StepEvents(h, s)
  {
    match s
    case Message(data) =>
      EmitSeqView(h, [OutputEvent(h.operationId, data)]);
      assert Emit(h, OutputEvent(h.operationId, data)) == EmitSeq(h, [OutputEvent(h.operationId, data)]);
    case Stop(end) =>
      var h1 := if end.Threw? then h.(pending := []) else h;
      EmitSeqView(h1, EndEvents(h, end));
    case Register =>
      assert StepEvents(h, s) == [];
    case AskQuestion(_) =>
      assert StepEvents(h, s) == [];
    case Answer(_, _) =>
      assert StepEvents(h, s) == [];
    case Abort =>
      assert StepEvents(h, s) == [];
  }

  /**
   * Early buffering and replay lose nothing and reorder nothing: whenever
   * the first handler registers, it ends up having seen every event the
   * handle emitted, in emission order. A handler registered earlier than the
   * run receives exactly what the run emits.
   */
  lemma RunView(h: Handle, steps: seq<Step>)
    requires Valid(h)
    ensures FirstView(Run(h, steps)) == FirstView(h) + Emitted(h, steps)
    ensures |Run(h, steps).delivered| >= |h.delivered|
    ensures forall k :: 0 <= k < |h.delivered| ==>
      Run(h, steps).delivered[k] == h.delivered[k] + Emitted(h, steps)
  {
    RunFirst(h, steps);
    forall k | 0 <= k < |h.delivered|
      ensures Run(h, steps).delivered[k] == h.delivered[k] + Emitted(h, steps)
    {
      RunDelivered(h, steps, k);
    }
  }

  lemma {:induction false} RunFirst(h: Handle, steps: seq<Step>)
    requires Valid(h)
    ensures FirstView(Run(h, steps)) == FirstView(h) + Emitted(h, steps)
    ensures |Run(h, steps).delivered| >= |h.delivered|
    decreases |steps|
  {
    if steps != [] {
      var h1 := Apply(h, steps[0]);
      ApplyView(h, steps[0]);
      RunFirst(h1, steps[1..]);
      var a := StepEvents(h, steps[0]);
      var rest := Emitted(h1, steps[1..]);
      assert FirstView(h) + a + rest == FirstView(h) + (a + rest);
    }
  }

  lemma {:induction false} RunDelivered(h: Handle, steps: seq<Step>, k: nat)
    requires Valid(h) && k < |h.delivered|
    ensures k < |Run(h, steps).delivered|
    ensures Run(h, steps).delivered[k] == h.delivered[k] + Emitted(h, steps)
    decreases |steps|
  {
    if steps != [] {
      var h1 := Apply(h, steps[0]);
      ApplyView(h, steps[0]);
      RunDelivered(h1, steps[1..], k);
      var a := StepEvents(h, steps[0]);
      var rest := Emitted(h1, steps[1..]);
      assert h.delivered[k] + a + rest == h.delivered[k] + (a + rest);
    }
  }

  function Messages(data: seq<string>): (steps: seq<Step>)
    ensures |steps| == |data|
    ensures forall k :: 0 <= k < |data| ==> steps[k] == Message(data[k])
  {
    if data == [] then [] else [Message(data[0])] + Messages(data[1..])
  }

  function OutputEvents(operationId: string, data: seq<string>): (es: seq<Event>)
    ensures |es| == |data|
    ensures forall k :: 0 <= k < |data| ==> es[k] == OutputEvent(operationId, data[k])
  {
    if data == [] then [] else [OutputEvent(operationId, data[0])] + OutputEvents(operationId, data[1..])
  }

  lemma {:induction false} EmittedMessages(h: Handle, data: seq<string>, tail: seq<Step>)
    requires Valid(h)
    ensures Emitted(h, Messages(data) + tail) ==
      OutputEvents(h.operationId, data) + Emitted(Run(h, Messages(data)), tail)
    ensures Run(h, Messages(data) + tail) == Run(Run(h, Messages(data)), tail)
    ensures Run(h, Messages(data)).aborted == h.aborted
    ensures Run(h, Messages(data)).operationId == h.operationId
    decreases |data|
  {
    if data != [] {
      var steps := Messages(data) + tail;
      assert steps[0] == Message(data[0]);
      assert steps[1..] == Messages(data[1..]) + tail;
      assert Messages(data)[1..] == Messages(data[1..]);
      var h1 := Apply(h, Message(data[0]));
      EmittedMessages(h1, data[1..], tail);
      assert OutputEvents(h.operationId, data) ==
        [OutputEvent(h.operationId, data[0])] + OutputEvents(h.operationId, data[1..]);
    } else {
      assert Messages(data) + tail == tail;
    }
  }

  /**
   * A query that yields messages and then finishes normally emits one output
   * event per message followed by exactly one complete event with exit
   * code 0. By `RunView`, the first handler sees exactly these events,
   * whether it registers before the run or after some early events were
   * buffered.
   */
  lemma NormalRun(operationId: string, data: seq<string>)
    ensures var h := NewHandle(operationId);
      Emitted(h, Messages(data) + [Stop(Finished)]) ==
        OutputEvents(operationId, data) + [CompleteEvent(operationId, 0)]
  {
    var h := NewHandle(operationId);
    EmittedMessages(h, data, [Stop(Finished)]);
    var h1 := Run(h, Messages(data));
    assert Emitted(h1, [Stop(Finished)]) == EndEvents(h1, Finished) + [];
  }

  /**
   * A query that throws emits only complete with exit code 1 when it was
   * aborted, and an error event followed by complete with exit code 1
   * otherwise; either way no question is left waiting.
   */
  lemma FailedRun(h: Handle, message: string)
    requires Valid(h)
    ensures Run(h, [Stop(Threw(message))]).pending == []
    ensures h.aborted ==> Emitted(h, [Stop(Threw(message))]) == [CompleteEvent(h.operationId, 1)]
    ensures !h.aborted ==>
      Emitted(h, [Stop(Threw(message))]) ==
        [ErrorEvent(h.operationId, message), CompleteEvent(h.operationId, 1)]
  {
    assert Emitted(h, [Stop(Threw(message))]) == EndEvents(h, Threw(message)) + [];
  }

  /** A successful submission consumes the question: repeating it fails. */
  lemma SubmitOnce(h: Handle, toolUseId: string, a1: Answers, a2: Answers)
    requires SubmitAnswer(h, toolUseId, a1).0
    ensures !SubmitAnswer(SubmitAnswer(h, toolUseId, a1).1, toolUseId, a2).0
  {
  }

  /** Aborting while questions wait resolves each of them with an empty answers map. */
  lemma AbortResolvesPending(h: Handle, toolUseId: string)
    requires !h.aborted && toolUseId in h.pending
    ensures (toolUseId, map[]) in Kill(h).resolutions
    ensures !SubmitAnswer(Kill(h), toolUseId, map[]).0
  {
    var k :| 0 <= k < |h.pending| && h.pending[k] == toolUseId;
    assert Kill(h).resolutions[|h.resolutions| + k] == (toolUseId, map[]);
  }
}

=== FILE: display_tree.dfy ===
/**
 * The log view's display tree (`buildDisplayNodes`, `getChildLabel`,
 * `groupByChildLabel`): the log entries of an operation are arranged into
 * top-level entries and one collapsible section per sub-agent (a `Task`
 * tool call), and the sections and entries of an operation group or
 * pipeline are then gathered under one node per child label.
 *
 * Both the shared log component and the older stand-alone one build the
 * tree the same way; the shared one also keeps each task's id and output
 * file, which it reads from the tool results of background tasks.
 */
module DisplayTree {
  import opened Wrappers
  import opened Text
  import opened Seqs
  import opened StreamParser

  /**
   * Which of the two components builds the tree. `extract` is the shared
   * component's `extractOutputFilePath`, a regular expression search left
   * as a parameter.
   */
  datatype Variant = Shared(extract: string -> Option<string>) | Legacy

  /** What the task reports (`task_started` / `task_notification` entries) say about one sub-agent. */
  datatype TaskInfo = TaskInfo(
    description: string,
    status: string,
    summary: Option<string>,
    usage: Option<string>,
    taskId: Option<string>,
    outputFile: Option<string>)

  /** A sub-agent section: the tool-use id of its `Task` call, its header, and its entries. */
  datatype SubAgent = SubAgent(
    toolUseId: string,
    description: string,
    status: string,
    summary: Option<string>,
    usage: Option<string>,
    taskId: Option<string>,
    outputFile: Option<string>,
    entries: seq<LogEntry>)

  datatype GroupStatus = GroupRunning | GroupCompleted | GroupFailed

  datatype DisplayNode =
    | EntryNode(entry: LogEntry)
    | SubAgentNode(agent: SubAgent)
    | ChildGroup(name: string, status: GroupStatus, children: seq<DisplayNode>)

  // -------------------------------------------------------------------------
  // Task reports
  // -------------------------------------------------------------------------

  /** A system entry about a sub-agent: its `taskToolUseId` is truthy. */
  predicate IsTaskReport(e: LogEntry) {
    e.body.SystemEntry? && Truthy(e.body.taskToolUseId)
  }

  function ReportId(e: LogEntry): string
    requires IsTaskReport(e)
  {
    e.body.taskToolUseId.value
  }

  /** A task report with a truthy status: the reports that set the task's information. */
  predicate Records(e: LogEntry) {
    IsTaskReport(e) && Truthy(e.body.taskStatus)
  }

  const TaskStartedPrefix: string := "Task started:"

  /** `content.replace(/^Task started:\s*\/, "")`. */
  function StripTaskStarted(content: string): (r: string)
    ensures !(TaskStartedPrefix <= content) ==> r == content
    ensures TaskStartedPrefix <= content ==>
      && |TaskStartedPrefix| + |r| <= |content|
      && content[|content| - |r|..] == r
      && IsBlank(content[|TaskStartedPrefix|..|content| - |r|])
      && (r == [] || !IsSpace(r[0]))
  {
    if TaskStartedPrefix <= content then
      var rest := content[|TaskStartedPrefix|..];
      var n := LeadingSpaces(rest);
      assert content[|TaskStartedPrefix|..|content| - |rest[n..]|] == rest[..n];
      rest[n..]
    else content
  }

  /** The description of a started task reads back from its report's text. */
  lemma StripTaskStartedOf(spaces: string, description: string)
    requires IsBlank(spaces) && (description == [] || !IsSpace(description[0]))
    ensures StripTaskStarted(TaskStartedPrefix + spaces + description) == description
  {
    var content := TaskStartedPrefix + spaces + description;
    var rest := content[|TaskStartedPrefix|..];
    assert rest == spaces + description;
    assert forall k :: 0 <= k < |spaces| ==> rest[k] == spaces[k];
    assert |spaces| < |rest| ==> rest[|spaces|] == description[0];
  }

  function InfoOf(m: map<string, TaskInfo>, id: string): (r: Option<TaskInfo>)
    ensures r.Some? <==> id in m
    ensures id in m ==> r.value == m[id]
  {
    if id in m then Some(m[id]) else None
  }

  /**
   * One step of the fold over the entries: a running report starts the
   * task afresh, any other truthy status completes it, keeping the
   * description the task started with. The task id (and, for a finished
   * task, the output file) falls back to the one known before.
   */
  function NoteTask(m: map<string, TaskInfo>, e: LogEntry, v: Variant): map<string, TaskInfo> {
    if !Records(e) then m
    else
      var b := e.body;
      var id := ReportId(e);
      var prior := InfoOf(m, id);
      var taskId := if v.Shared? then b.taskId.OrElse(if prior.Some? then prior.value.taskId else None) else None;
      if b.taskStatus.value == "running" then
        m[id := TaskInfo(StripTaskStarted(b.content), "running", None, None, taskId, None)]
      else
        var outputFile :=
          if v.Shared? then b.taskOutputFile.OrElse(if prior.Some? then prior.value.outputFile else None) else None;
        var description := if prior.Some? then prior.value.description else b.content;
        m[id := TaskInfo(description, b.taskStatus.value, b.taskSummary, b.taskUsage, taskId, outputFile)]
  }

  /** `taskInfo` after the first loop. */
  function Infos(es: seq<LogEntry>, v: Variant): map<string, TaskInfo>
    decreases |es|
  {
    if es == [] then map[] else NoteTask(Infos(es[..|es| - 1], v), Last(es), v)
  }

  /** The most recent report that sets the information of task `id`. */
  function LastReport(es: seq<LogEntry>, id: string): (r: Option<LogEntry>)
    ensures r.Some? ==> Records(r.value) && ReportId(r.value) == id
    ensures r.None? ==> forall k :: 0 <= k < |es| ==> !(Records(es[k]) && ReportId(es[k]) == id)
    decreases |es|
  {
    if es == [] then None
    else if Records(Last(es)) && ReportId(Last(es)) == id then Some(Last(es))
    else
      var r := LastReport(es[..|es| - 1], id);
      assert forall k :: 0 <= k < |es| - 1 ==> es[k] == es[..|es| - 1][k];
      r
  }

  /**
   * The last report wins: a task has information exactly when some report
   * sets it, and then its status is the latest report's; a running report
   * gives the description of the task it starts and clears the summary and
   * usage, a finishing one brings its own summary and usage.
   */
  lemma {:induction false} LastReportWins(es: seq<LogEntry>, v: Variant, id: string)
    ensures id in Infos(es, v) <==> LastReport(es, id).Some?
    ensures LastReport(es, id).Some? ==>
      var b := LastReport(es, id).value.body;
      var info := Infos(es, v)[id];
      && info.status == b.taskStatus.value
      && (b.taskStatus.value == "running" ==>
            info.description == StripTaskStarted(b.content) && info.summary.None? && info.usage.None?)
      && (b.taskStatus.value != "running" ==> info.summary == b.taskSummary && info.usage == b.taskUsage)
    decreases |es|
  {
    if es != [] {
      LastReportWins(es[..|es| - 1], v, id);
    }
  }

  /** The most recent task id a report for `id` carried. */
  function LastTaskId(es: seq<LogEntry>, id: string): (r: Option<string>)
    ensures r.Some? ==> exists k :: 0 <= k < |es| && Records(es[k]) && ReportId(es[k]) == id && es[k].body.taskId == r
    decreases |es|
  {
    if es == [] then None
    else if Records(Last(es)) && ReportId(Last(es)) == id && Last(es).body.taskId.Some? then Last(es).body.taskId
    else
      var r := LastTaskId(es[..|es| - 1], id);
      assert forall k :: 0 <= k < |es| - 1 ==> es[k] == es[..|es| - 1][k];
      r
  }

  /**
   * The shared component remembers a task's id across its reports: it is
   * the latest one any report gave. The legacy component keeps neither
   * task ids nor output files.
   */
  lemma {:induction false} TaskIdRemembered(es: seq<LogEntry>, v: Variant, id: string)
    requires id in Infos(es, v)
    ensures v.Shared? ==> Infos(es, v)[id].taskId == LastTaskId(es, id)
    ensures v.Legacy? ==> Infos(es, v)[id].taskId.None? && Infos(es, v)[id].outputFile.None?
    decreases |es|
  {
    var init := es[..|es| - 1];
    if id in Infos(init, v) {
      TaskIdRemembered(init, v, id);
    } else if v.Shared? {
      LastReportWins(init, v, id);
      assert LastTaskId(init, id).None?;
    }
  }

  // -------------------------------------------------------------------------
  // Sub-agent ids
  // -------------------------------------------------------------------------

  predicate IsTaskCall(e: LogEntry) {
    e.body.ToolCall? && e.body.toolName == "Task"
  }

  /** The ids of the `Task` tool calls, in order. */
  function TaskCallIds(es: seq<LogEntry>): (r: seq<string>)
    ensures forall k :: 0 <= k < |es| && IsTaskCall(es[k]) ==> es[k].body.toolId in r
    ensures forall x :: x in r ==> exists k :: 0 <= k < |es| && IsTaskCall(es[k]) && es[k].body.toolId == x
    decreases |es|
  {
    if es == [] then []
    else
      var r := TaskCallIds(es[..|es| - 1]);
      assert forall k :: 0 <= k < |es| - 1 ==> es[k] == es[..|es| - 1][k];
      r + if IsTaskCall(Last(es)) then [Last(es).body.toolId] else []
  }

  /** The truthy parent tool-use ids of the entries, in order. */
  function ParentIds(es: seq<LogEntry>): (r: seq<string>)
    ensures forall k :: 0 <= k < |es| && Truthy(es[k].parent) ==> es[k].parent.value in r
    ensures forall x :: x in r ==> exists k :: 0 <= k < |es| && es[k].parent == Some(x) && x != ""
    decreases |es|
  {
    if es == [] then []
    else
      var r := ParentIds(es[..|es| - 1]);
      assert forall k :: 0 <= k < |es| - 1 ==> es[k] == es[..|es| - 1][k];
      r + if Truthy(Last(es).parent) then [Last(es).parent.value] else []
  }

  /** The ids the task reports set information for, in order. */
  function ReportIds(es: seq<LogEntry>): (r: seq<string>)
    ensures forall k :: 0 <= k < |es| && Records(es[k]) ==> ReportId(es[k]) in r
    ensures forall x :: x in r ==> exists k :: 0 <= k < |es| && Records(es[k]) && ReportId(es[k]) == x
    decreases |es|
  {
    if es == [] then []
    else
      var r := ReportIds(es[..|es| - 1]);
      assert forall k :: 0 <= k < |es| - 1 ==> es[k] == es[..|es| - 1][k];
      r + if Records(Last(es)) then [ReportId(Last(es))] else []
  }

  /** The tasks with information are the tasks some report is about. */
  lemma {:induction false} InfoKeys(es: seq<LogEntry>, v: Variant)
    ensures forall id :: id in Infos(es, v) <==> id in ReportIds(es)
    decreases |es|
  {
    if es != [] {
      InfoKeys(es[..|es| - 1], v);
    }
  }

  /**
   * `taskToolUseIds` in its iteration order: the `Task` call ids, then the
   * parent ids, then the keys of `taskInfo` (themselves in the order the
   * tasks were first reported), each id once.
   */
  function AgentIds(es: seq<LogEntry>): (r: seq<string>)
    ensures Distinct(r)
    ensures forall x :: x in r <==> x in TaskCallIds(es) || x in ParentIds(es) || x in ReportIds(es)
  {
    Dedupe(TaskCallIds(es) + ParentIds(es) + Dedupe(ReportIds(es)))
  }

  // -------------------------------------------------------------------------
  // Output files of background tasks (shared component only)
  // -------------------------------------------------------------------------

  /** The output file a tool result names, when it is the result of a known task. */
  function FoundFile(e: LogEntry, ids: seq<string>, extract: string -> Option<string>): (r: Option<string>)
    ensures r.Some? ==> e.body.ToolResult? && e.body.toolId in ids && r.value != ""
  {
    if e.body.ToolResult? && e.body.toolId in ids && e.body.content != "" && Truthy(extract(e.body.content))
    then extract(e.body.content)
    else None
  }

  /** The third loop: a task's output file is set from its tool result unless already known. */
  function WithOutputFiles(m: map<string, TaskInfo>, es: seq<LogEntry>, ids: seq<string>,
                           extract: string -> Option<string>): (r: map<string, TaskInfo>)
    ensures r.Keys == m.Keys
    ensures forall id :: id in m ==> r[id] == m[id].(outputFile := r[id].outputFile)
    ensures forall id :: id in m && m[id].outputFile.Some? ==> r[id].outputFile == m[id].outputFile
    decreases |es|
  {
    if es == [] then m
    else
      var r := WithOutputFiles(m, es[..|es| - 1], ids, extract);
      var e := Last(es);
      var found := FoundFile(e, ids, extract);
      if found.Some? && e.body.toolId in r then
        var id := e.body.toolId;
        r[id := r[id].(outputFile := r[id].outputFile.OrElse(found))]
      else r
  }

  /** The first output file the tool results of task `id` name. */
  function FirstFound(es: seq<LogEntry>, ids: seq<string>, extract: string -> Option<string>, id: string): Option<string>
    decreases |es|
  {
    if es == [] then None
    else
      var found := FoundFile(es[0], ids, extract);
      if found.Some? && es[0].body.toolId == id then found else FirstFound(es[1..], ids, extract, id)
  }

  /** A task whose reports gave no output file takes the first one its tool results name. */
  lemma {:induction false} FirstFileKept(m: map<string, TaskInfo>, es: seq<LogEntry>, ids: seq<string>,
                                         extract: string -> Option<string>, id: string)
    requires id in m && m[id].outputFile.None?
    ensures WithOutputFiles(m, es, ids, extract)[id].outputFile == FirstFound(es, ids, extract, id)
    decreases |es|
  {
    if es != [] {
      var init := es[..|es| - 1];
      FirstFileKept(m, init, ids, extract, id);
      FirstFoundSnoc(init, Last(es), ids, extract, id);
      assert init + [Last(es)] == es;
    }
  }

  lemma {:induction false} FirstFoundSnoc(es: seq<LogEntry>, e: LogEntry, ids: seq<string>,
                                          extract: string -> Option<string>, id: string)
    ensures FirstFound(es + [e], ids, extract, id)
      == FirstFound(es, ids, extract, id).OrElse(
           if FoundFile(e, ids, extract).Some? && e.body.toolId == id then FoundFile(e, ids, extract) else None)
    decreases |es|
  {
    if es == [] {
      assert (es + [e])[1..] == [];
    } else {
      assert (es + [e])[1..] == es[1..] + [e];
      FirstFoundSnoc(es[1..], e, ids, extract, id);
    }
  }

  /** `taskInfo` as the main loop reads it. */
  function TaskInfos(es: seq<LogEntry>, v: Variant): map<string, TaskInfo> {
    match v
    case Shared(extract) => WithOutputFiles(Infos(es, v), es, AgentIds(es), extract)
    case Legacy => Infos(es, v)
  }

  // -------------------------------------------------------------------------
  // The main loop
  // -------------------------------------------------------------------------

  /** Rule one: a report about a known task is shown in that task's section header. */
  predicate IsKnownReport(e: LogEntry, ids: seq<string>) {
    IsTaskReport(e) && ReportId(e) in ids
  }

  /** Rule two: an entry a known task produced goes into that task's section. */
  predicate InSubAgent(e: LogEntry, ids: seq<string>) {
    !IsKnownReport(e, ids) && Truthy(e.parent) && e.parent.value in ids
  }

  /** The entries of the section of task `id`, in order: `subagentEntries.get(id)` once the loop is done. */
  function Bucket(es: seq<LogEntry>, ids: seq<string>, id: string): (r: seq<LogEntry>)
    ensures forall e :: e in r <==> e in es && InSubAgent(e, ids) && e.parent.value == id
    decreases |es|
  {
    if es == [] then []
    else
      var r := Bucket(es[..|es| - 1], ids, id);
      assert es == es[..|es| - 1] + [Last(es)];
      r + if InSubAgent(Last(es), ids) && Last(es).parent.value == id then [Last(es)] else []
  }

  /** The entries the main loop passes over without a node of their own. */
  predicate Hidden(e: LogEntry, ids: seq<string>) {
    || IsKnownReport(e, ids)
    || InSubAgent(e, ids)
    || (e.body.ToolResult? && e.body.toolId in ids)
    || (e.body.ToolProgressEntry? && Truthy(e.body.taskId))
  }

  /** What the main loop reads: every entry, `taskToolUseIds` in order, and `taskInfo`. */
  datatype Ctx = Ctx(all: seq<LogEntry>, ids: seq<string>, infos: map<string, TaskInfo>)

  function Context(es: seq<LogEntry>, v: Variant): Ctx {
    Ctx(es, AgentIds(es), TaskInfos(es, v))
  }

  /**
   * The section of task `id`: its header from the task's information, with
   * `fallback` as the description and "running" as the status when there is
   * none, and its entries the task's whole bucket.
   */
  function Section(c: Ctx, id: string, fallback: string): (a: SubAgent)
    ensures a.toolUseId == id && a.entries == Bucket(c.all, c.ids, id)
    ensures InfoOf(c.infos, id).Some? ==>
      var i := InfoOf(c.infos, id).value;
      && a.description == i.description && a.status == i.status && a.summary == i.summary
      && a.usage == i.usage && a.taskId == i.taskId && a.outputFile == i.outputFile
    ensures InfoOf(c.infos, id).None? ==>
      && a.description == fallback && a.status == "running"
      && a.summary.None? && a.usage.None? && a.taskId.None? && a.outputFile.None?
  {
    match InfoOf(c.infos, id)
    case Some(i) => SubAgent(id, i.description, i.status, i.summary, i.usage, i.taskId, i.outputFile, Bucket(c.all, c.ids, id))
    case None => SubAgent(id, fallback, "running", None, None, None, None, Bucket(c.all, c.ids, id))
  }

  /** The ids of the `Task` calls that reach rule three, those not inside another task's section. */
  function TopTaskCalls(es: seq<LogEntry>, ids: seq<string>): (r: seq<string>)
    ensures forall k :: 0 <= k < |es| && IsTaskCall(es[k]) && !InSubAgent(es[k], ids) ==> es[k].body.toolId in r
    ensures forall x :: x in r ==>
      exists k :: 0 <= k < |es| && IsTaskCall(es[k]) && !InSubAgent(es[k], ids) && es[k].body.toolId == x
    decreases |es|
  {
    if es == [] then []
    else
      var r := TopTaskCalls(es[..|es| - 1], ids);
      assert forall k :: 0 <= k < |es| - 1 ==> es[k] == es[..|es| - 1][k];
      r + if IsTaskCall(Last(es)) && !InSubAgent(Last(es), ids) then [Last(es).body.toolId] else []
  }

  /** Some `Task` call among `es` that is not inside a section has tool-use id `id`. */
  predicate HasTopCall(es: seq<LogEntry>, ids: seq<string>, id: string) {
    exists k :: 0 <= k < |es| && IsTaskCall(es[k]) && !InSubAgent(es[k], ids) && es[k].body.toolId == id
  }

  /** The summary of the first `Task` call with tool-use id `id` that is not inside a section. */
  function FirstCallSummary(es: seq<LogEntry>, ids: seq<string>, id: string): (r: Option<string>)
    ensures r.None? <==> !HasTopCall(es, ids, id)
    decreases |es|
  {
    if es == [] then None
    else if IsTaskCall(es[0]) && !InSubAgent(es[0], ids) && es[0].body.toolId == id then Some(es[0].body.summary)
    else
      var r := FirstCallSummary(es[1..], ids, id);
      assert forall k :: 1 <= k < |es| ==> es[k] == es[1..][k - 1];
      r
  }

  lemma {:induction false} FirstCallSummaryAppend(p: seq<LogEntry>, q: seq<LogEntry>, ids: seq<string>, id: string)
    ensures FirstCallSummary(p + q, ids, id) == FirstCallSummary(p, ids, id).OrElse(FirstCallSummary(q, ids, id))
    decreases |p|
  {
    if p == [] {
      assert p + q == q;
    } else {
      assert (p + q)[0] == p[0] && (p + q)[1..] == p[1..] + q;
      FirstCallSummaryAppend(p[1..], q, ids, id);
    }
  }

  /**
   * A section's description when its task has no information: the summary
   * of the `Task` call that opened it, or `Sub-agent ` and the first eight
   * characters of the id when no such call was seen.
   */
  function Fallback(c: Ctx, id: string): string {
    match FirstCallSummary(c.all, c.ids, id)
    case Some(s) => s
    case None => UnnamedPrefix + Prefix(id, 8)
  }

  /** The state of the loops: the nodes pushed so far and the `emitted` set. */
  datatype Layout = Layout(nodes: seq<DisplayNode>, emitted: set<string>)

  /** The main loop over the entries so far. */
  function Walk(c: Ctx, es: seq<LogEntry>): Layout
    decreases |es|
  {
    if es == [] then Layout([], {})
    else
      var w := Walk(c, es[..|es| - 1]);
      var e := Last(es);
      if IsKnownReport(e, c.ids) || InSubAgent(e, c.ids) then w
      else if IsTaskCall(e) && e.body.toolId !in w.emitted then
        Layout(w.nodes + [SubAgentNode(Section(c, e.body.toolId, e.body.summary))], w.emitted + {e.body.toolId})
      else if Hidden(e, c.ids) then w
      else Layout(w.nodes + [EntryNode(e)], w.emitted)
  }

  const UnnamedPrefix: string := "Sub-agent "

  /** The last loop, over the ids so far: a section for each task not yet shown that has information or entries. */
  function Finish(c: Ctx, ids: seq<string>, start: Layout): Layout
    decreases |ids|
  {
    if ids == [] then start
    else
      var w := Finish(c, ids[..|ids| - 1], start);
      var id := Last(ids);
      if id !in w.emitted && (id in c.infos || Bucket(c.all, c.ids, id) != []) then
        Layout(w.nodes + [SubAgentNode(Section(c, id, UnnamedPrefix + Prefix(id, 8)))], w.emitted + {id})
      else w
  }

  /**
   * The entries shown at the top level, in log order: every entry the loop
   * does not pass over, except the first `Task` call of each id outside a
   * section, which opens that task's section instead.
   */
  function ShownEntries(es: seq<LogEntry>, ids: seq<string>): seq<LogEntry>
    decreases |es|
  {
    if es == [] then []
    else
      var init, e := es[..|es| - 1], Last(es);
      ShownEntries(init, ids)
        + if Hidden(e, ids) || (IsTaskCall(e) && !HasTopCall(init, ids, e.body.toolId)) then [] else [e]
  }

  /** The entries of the top-level entry nodes, in order. */
  function EntriesOf(nodes: seq<DisplayNode>): seq<LogEntry>
    decreases |nodes|
  {
    if nodes == [] then []
    else EntriesOf(nodes[..|nodes| - 1]) + if Last(nodes).EntryNode? then [Last(nodes).entry] else []
  }

  lemma EntriesOfSnoc(nodes: seq<DisplayNode>, n: DisplayNode)
    ensures EntriesOf(nodes + [n]) == EntriesOf(nodes) + if n.EntryNode? then [n.entry] else []
  {
    assert (nodes + [n])[..|nodes|] == nodes;
  }

  /** `buildDisplayNodes`. */
  function BuildDisplayNodes(es: seq<LogEntry>, v: Variant): (r: seq<DisplayNode>)
    ensures EntriesOf(r) == ShownEntries(es, AgentIds(es))
    ensures Distinct(AgentIdsOf(r))
    ensures forall x :: x in AgentIdsOf(r) <==>
      x in TopTaskCalls(es, AgentIds(es)) || x in ReportIds(es) || Bucket(es, AgentIds(es), x) != []
    ensures forall k :: 0 <= k < |r| ==> NodeOk(Context(es, v), r[k])
  {
    var c := Context(es, v);
    BuildFacts(es, v);
    WalkShows(c, es);
    FinishKeepsEntries(c, c.ids, Walk(c, es));
    Finish(c, c.ids, Walk(c, es)).nodes
  }

  // -------------------------------------------------------------------------
  // What the loops keep true
  // -------------------------------------------------------------------------

  /** The tool-use ids of the sections among `nodes`, in order. */
  function AgentIdsOf(nodes: seq<DisplayNode>): (r: seq<string>)
    ensures forall k :: 0 <= k < |nodes| && nodes[k].SubAgentNode? ==> nodes[k].agent.toolUseId in r
    ensures forall x :: x in r ==> exists k :: 0 <= k < |nodes| && nodes[k].SubAgentNode? && nodes[k].agent.toolUseId == x
    decreases |nodes|
  {
    if nodes == [] then []
    else
      var r := AgentIdsOf(nodes[..|nodes| - 1]);
      assert forall k :: 0 <= k < |nodes| - 1 ==> nodes[k] == nodes[..|nodes| - 1][k];
      r + if Last(nodes).SubAgentNode? then [Last(nodes).agent.toolUseId] else []
  }

  /**
   * A top-level entry is one the loop does not pass over; a section is built
   * from its task's information and bucket, with the fallback header.
   */
  predicate NodeOk(c: Ctx, n: DisplayNode) {
    match n
    case EntryNode(e) => e in c.all && !Hidden(e, c.ids)
    case SubAgentNode(a) => a == Section(c, a.toolUseId, Fallback(c, a.toolUseId))
    case ChildGroup(_, _, _) => false
  }

  /** One section per emitted id, each id once, and every node well formed. */
  ghost predicate Consistent(c: Ctx, w: Layout) {
    && (forall x :: x in AgentIdsOf(w.nodes) <==> x in w.emitted)
    && Distinct(AgentIdsOf(w.nodes))
    && (forall k :: 0 <= k < |w.nodes| ==> NodeOk(c, w.nodes[k]))
  }

  lemma ConsistentSnoc(c: Ctx, w: Layout, n: DisplayNode)
    requires Consistent(c, w) && NodeOk(c, n)
    requires n.SubAgentNode? ==> n.agent.toolUseId !in w.emitted
    ensures Consistent(c, Layout(w.nodes + [n], if n.SubAgentNode? then w.emitted + {n.agent.toolUseId} else w.emitted))
  {
    var ns := w.nodes + [n];
    assert ns[..|w.nodes|] == w.nodes;
    if n.SubAgentNode? {
      DistinctSnoc(AgentIdsOf(w.nodes), n.agent.toolUseId);
    }
  }

  lemma {:induction false} WalkConsistent(c: Ctx, es: seq<LogEntry>)
    requires es <= c.all
    ensures Consistent(c, Walk(c, es))
    ensures forall x :: x in Walk(c, es).emitted <==> x in TopTaskCalls(es, c.ids)
    decreases |es|
  {
    if es != [] {
      var init := es[..|es| - 1];
      WalkConsistent(c, init);
      var w := Walk(c, init);
      var e := Last(es);
      assert e == c.all[|es| - 1];
      if IsKnownReport(e, c.ids) || InSubAgent(e, c.ids) {
      } else if IsTaskCall(e) && e.body.toolId !in w.emitted {
        OpeningCallFallback(c, es);
        ConsistentSnoc(c, w, SubAgentNode(Section(c, e.body.toolId, e.body.summary)));
      } else if Hidden(e, c.ids) {
      } else {
        ConsistentSnoc(c, w, EntryNode(e));
      }
    }
  }

  /** The main loop pushes exactly the shown entries, in order. */
  lemma {:induction false} WalkShows(c: Ctx, es: seq<LogEntry>)
    requires es <= c.all
    ensures EntriesOf(Walk(c, es).nodes) == ShownEntries(es, c.ids)
    decreases |es|
  {
    if es != [] {
      WalkShows(c, es[..|es| - 1]);
      WalkStepShows(c, es);
    }
  }

  /** One step of the main loop pushes the last entry exactly when it is shown. */
  lemma WalkStepShows(c: Ctx, es: seq<LogEntry>)
    requires es <= c.all && es != []
    ensures var init, e := es[..|es| - 1], Last(es);
      EntriesOf(Walk(c, es).nodes) == EntriesOf(Walk(c, init).nodes)
        + if Hidden(e, c.ids) || (IsTaskCall(e) && !HasTopCall(init, c.ids, e.body.toolId)) then [] else [e]
  {
    var init, e := es[..|es| - 1], Last(es);
    WalkConsistent(c, init);
    var w := Walk(c, init);
    if IsTaskCall(e) {
      assert e.body.toolId in w.emitted <==> HasTopCall(init, c.ids, e.body.toolId);
    }
    if IsKnownReport(e, c.ids) || InSubAgent(e, c.ids) {
    } else if IsTaskCall(e) && e.body.toolId !in w.emitted {
      EntriesOfSnoc(w.nodes, SubAgentNode(Section(c, e.body.toolId, e.body.summary)));
    } else if Hidden(e, c.ids) {
    } else {
      EntriesOfSnoc(w.nodes, EntryNode(e));
    }
  }

  lemma {:induction false} ShownContains(es: seq<LogEntry>, ids: seq<string>, k: nat)
    requires k < |es| && !Hidden(es[k], ids) && !IsTaskCall(es[k])
    ensures es[k] in ShownEntries(es, ids)
    decreases |es|
  {
    if k < |es| - 1 {
      assert es[..|es| - 1][k] == es[k];
      ShownContains(es[..|es| - 1], ids, k);
    }
  }

  lemma {:induction false} EntriesOfMember(nodes: seq<DisplayNode>, e: LogEntry)
    requires e in EntriesOf(nodes)
    ensures exists j :: 0 <= j < |nodes| && nodes[j] == EntryNode(e)
    decreases |nodes|
  {
    var init := nodes[..|nodes| - 1];
    if e in EntriesOf(init) {
      EntriesOfMember(init, e);
      var j :| 0 <= j < |init| && init[j] == EntryNode(e);
      assert nodes[j] == init[j];
    } else {
      assert Last(nodes) == EntryNode(e);
    }
  }

  /** An entry the loop does not pass over and that is not a `Task` call gets a top-level node of its own. */
  lemma VisibleEntryShown(es: seq<LogEntry>, v: Variant, k: nat)
    requires k < |es| && !Hidden(es[k], AgentIds(es)) && !IsTaskCall(es[k])
    ensures var r := BuildDisplayNodes(es, v);
      exists j :: 0 <= j < |r| && r[j] == EntryNode(es[k])
  {
    ShownContains(es, AgentIds(es), k);
    EntriesOfMember(BuildDisplayNodes(es, v), es[k]);
  }

  /** The last loop adds sections only. */
  lemma {:induction false} FinishKeepsEntries(c: Ctx, ids: seq<string>, start: Layout)
    ensures EntriesOf(Finish(c, ids, start).nodes) == EntriesOf(start.nodes)
    decreases |ids|
  {
    if ids != [] {
      var init := ids[..|ids| - 1];
      FinishKeepsEntries(c, init, start);
      var w := Finish(c, init, start);
      var id := Last(ids);
      if id !in w.emitted && (id in c.infos || Bucket(c.all, c.ids, id) != []) {
        EntriesOfSnoc(w.nodes, SubAgentNode(Section(c, id, UnnamedPrefix + Prefix(id, 8))));
      }
    }
  }

  /** The `Task` call that opens a section in the main loop is the first one for its id, so its summary is the fallback. */
  lemma OpeningCallFallback(c: Ctx, es: seq<LogEntry>)
    requires es <= c.all && es != []
    requires IsTaskCall(Last(es)) && !InSubAgent(Last(es), c.ids)
    requires Last(es).body.toolId !in TopTaskCalls(es[..|es| - 1], c.ids)
    ensures Fallback(c, Last(es).body.toolId) == Last(es).body.summary
  {
    var init, e := es[..|es| - 1], Last(es);
    var rest := c.all[|es|..];
    assert c.all == init + ([e] + rest);
    FirstCallSummaryAppend(init, [e] + rest, c.ids, e.body.toolId);
    assert ([e] + rest)[0] == e;
  }

  lemma {:induction false} FinishConsistent(c: Ctx, ids: seq<string>, start: Layout)
    requires Consistent(c, start)
    requires forall x :: x in TopTaskCalls(c.all, c.ids) ==> x in start.emitted
    ensures Consistent(c, Finish(c, ids, start))
    ensures forall x :: x in Finish(c, ids, start).emitted <==>
      x in start.emitted || (x in ids && (x in c.infos || Bucket(c.all, c.ids, x) != []))
    decreases |ids|
  {
    if ids != [] {
      var init := ids[..|ids| - 1];
      FinishConsistent(c, init, start);
      var w := Finish(c, init, start);
      var id := Last(ids);
      assert forall x :: x in ids <==> x in init || x == id;
      if id !in w.emitted && (id in c.infos || Bucket(c.all, c.ids, id) != []) {
        assert !HasTopCall(c.all, c.ids, id);
        ConsistentSnoc(c, w, SubAgentNode(Section(c, id, UnnamedPrefix + Prefix(id, 8))));
      }
    }
  }

  lemma BuildFacts(es: seq<LogEntry>, v: Variant)
    ensures var c := Context(es, v);
      var r := Finish(c, c.ids, Walk(c, es));
      && Consistent(c, r)
      && forall x :: x in r.emitted <==>
           x in TopTaskCalls(es, c.ids) || x in ReportIds(es) || Bucket(es, c.ids, x) != []
  {
    var c := Context(es, v);
    WalkConsistent(c, es);
    FinishConsistent(c, c.ids, Walk(c, es));
    InfoKeys(es, v);
    forall x | Bucket(es, c.ids, x) != []
      ensures x in c.ids
    {
      assert Bucket(es, c.ids, x)[0] in Bucket(es, c.ids, x);
    }
    forall x | x in TopTaskCalls(es, c.ids)
      ensures x in c.ids
    {
      assert x in TaskCallIds(es);
    }
  }

  /**
   * An entry a known task produced is shown inside that task's section and
   * nowhere else: the section exists, no other section holds the entry,
   * and it is not a top-level entry.
   */
  lemma NestedEntryPlaced(es: seq<LogEntry>, v: Variant, e: LogEntry)
    requires e in es && Truthy(e.parent) && !IsKnownReport(e, AgentIds(es))
    ensures var r := BuildDisplayNodes(es, v);
      && (exists k :: 0 <= k < |r| && r[k].SubAgentNode? && r[k].agent.toolUseId == e.parent.value
                      && e in r[k].agent.entries)
      && (forall k :: 0 <= k < |r| && r[k].SubAgentNode? && e in r[k].agent.entries ==>
            r[k].agent.toolUseId == e.parent.value)
      && (forall k :: 0 <= k < |r| && r[k].EntryNode? ==> r[k].entry != e)
  {
    var ids := AgentIds(es);
    var i :| 0 <= i < |es| && es[i] == e;
    assert e.parent.value in ParentIds(es);
    assert e in Bucket(es, ids, e.parent.value);
    var c, r := Context(es, v), BuildDisplayNodes(es, v);
    forall k | 0 <= k < |r|
      ensures NodePlaced(c, r[k])
    {
      assert NodeOk(c, r[k]);
    }
    SectionHolds(c, r, e);
  }

  /** What placement needs of a node: a top-level entry is not hidden, a section holds its task's bucket. */
  predicate NodePlaced(c: Ctx, n: DisplayNode) {
    match n
    case EntryNode(e) => !Hidden(e, c.ids)
    case SubAgentNode(a) => a.entries == Bucket(c.all, c.ids, a.toolUseId)
    case ChildGroup(_, _, _) => false
  }

  lemma SectionHolds(c: Ctx, r: seq<DisplayNode>, e: LogEntry)
    requires forall k :: 0 <= k < |r| ==> NodePlaced(c, r[k])
    requires InSubAgent(e, c.ids) && e in c.all && e.parent.value in AgentIdsOf(r)
    ensures exists k :: 0 <= k < |r| && r[k].SubAgentNode? && r[k].agent.toolUseId == e.parent.value
                        && e in r[k].agent.entries
    ensures forall k :: 0 <= k < |r| && r[k].SubAgentNode? && e in r[k].agent.entries ==>
      r[k].agent.toolUseId == e.parent.value
    ensures forall k :: 0 <= k < |r| && r[k].EntryNode? ==> r[k].entry != e
  {
    var k :| 0 <= k < |r| && r[k].SubAgentNode? && r[k].agent.toolUseId == e.parent.value;
    assert NodePlaced(c, r[k]);
    forall j | 0 <= j < |r| && r[j].SubAgentNode? && e in r[j].agent.entries
      ensures r[j].agent.toolUseId == e.parent.value
    {
      assert NodePlaced(c, r[j]);
    }
    forall j | 0 <= j < |r| && r[j].EntryNode?
      ensures r[j].entry != e
    {
      assert NodePlaced(c, r[j]);
    }
  }

  // -------------------------------------------------------------------------
  // Grouping by child label
  // -------------------------------------------------------------------------

  /** The first truthy child label among the entries. */
  function FirstLabel(es: seq<LogEntry>): (r: Option<string>)
    ensures r.Some? ==> r.value != "" && exists k :: 0 <= k < |es| && es[k].childLabel == r
    ensures r.None? ==> forall k :: 0 <= k < |es| ==> !Truthy(es[k].childLabel)
    decreases |es|
  {
    if es == [] then None
    else if Truthy(es[0].childLabel) then es[0].childLabel
    else
      var r := FirstLabel(es[1..]);
      assert forall k :: 1 <= k < |es| ==> es[k] == es[1..][k - 1];
      r
  }

  /** `getChildLabel`: an entry's own label, the first label among a section's entries. */
  function ChildLabel(n: DisplayNode): Option<string> {
    match n
    case EntryNode(e) => e.childLabel
    case SubAgentNode(a) => FirstLabel(a.entries)
    case ChildGroup(_, _, _) => None
  }

  /** A node `groupByChildLabel` gathers into a group: its child label is truthy. */
  predicate Labeled(n: DisplayNode) {
    Truthy(ChildLabel(n))
  }

  /** The nodes that stay at the top, in order. */
  function Unlabeled(nodes: seq<DisplayNode>): (r: seq<DisplayNode>)
    ensures forall n :: n in r <==> n in nodes && !Labeled(n)
    decreases |nodes|
  {
    if nodes == [] then []
    else
      var r := Unlabeled(nodes[..|nodes| - 1]);
      assert nodes == nodes[..|nodes| - 1] + [Last(nodes)];
      r + if Labeled(Last(nodes)) then [] else [Last(nodes)]
  }

  /** The truthy labels of the nodes, in order, repeats included. */
  function LabelsOf(nodes: seq<DisplayNode>): (r: seq<string>)
    ensures forall k :: 0 <= k < |nodes| && Labeled(nodes[k]) ==> ChildLabel(nodes[k]).value in r
    ensures forall x :: x in r ==> exists k :: 0 <= k < |nodes| && ChildLabel(nodes[k]) == Some(x) && x != ""
    decreases |nodes|
  {
    if nodes == [] then []
    else
      var r := LabelsOf(nodes[..|nodes| - 1]);
      assert forall k :: 0 <= k < |nodes| - 1 ==> nodes[k] == nodes[..|nodes| - 1][k];
      r + if Labeled(Last(nodes)) then [ChildLabel(Last(nodes)).value] else []
  }

  /** The nodes with child label `name`, in order. */
  function WithLabel(nodes: seq<DisplayNode>, name: string): seq<DisplayNode>
    decreases |nodes|
  {
    if nodes == [] then []
    else
      WithLabel(nodes[..|nodes| - 1], name)
        + if Labeled(Last(nodes)) && ChildLabel(Last(nodes)).value == name then [Last(nodes)] else []
  }

  /** A group holds exactly the nodes of its label. */
  lemma {:induction false} WithLabelMembers(nodes: seq<DisplayNode>, name: string)
    ensures forall n :: n in WithLabel(nodes, name) <==> n in nodes && Labeled(n) && ChildLabel(n).value == name
    decreases |nodes|
  {
    if nodes != [] {
      WithLabelMembers(nodes[..|nodes| - 1], name);
      assert nodes == nodes[..|nodes| - 1] + [Last(nodes)];
    }
  }

  function Group(nodes: seq<DisplayNode>, name: string): DisplayNode {
    var children := WithLabel(nodes, name);
    ChildGroup(name, GroupStatusOf(children), children)
  }

  function Groups(nodes: seq<DisplayNode>, names: seq<string>): (r: seq<DisplayNode>)
    ensures |r| == |names| && forall k :: 0 <= k < |names| ==> r[k] == Group(nodes, names[k])
  {
    seq(|names|, k requires 0 <= k < |names| => Group(nodes, names[k]))
  }

  /**
   * `groupByChildLabel`: the unlabeled nodes first, then one group per
   * label in the order the labels first appear; with no label at all, the
   * nodes unchanged.
   */
  function GroupByChildLabel(nodes: seq<DisplayNode>): (r: seq<DisplayNode>)
    ensures (forall k :: 0 <= k < |nodes| ==> !Labeled(nodes[k])) ==> r == nodes
  {
    var order := Dedupe(LabelsOf(nodes));
    if order == [] then nodes
    else
      assert order[0] in LabelsOf(nodes);
      Unlabeled(nodes) + Groups(nodes, order)
  }

  /** The nodes of a list with each group replaced by its children. */
  function Ungroup(nodes: seq<DisplayNode>): seq<DisplayNode>
    decreases |nodes|
  {
    if nodes == [] then []
    else (if nodes[0].ChildGroup? then nodes[0].children else [nodes[0]]) + Ungroup(nodes[1..])
  }

  /** The children of the groups for `names`, one group after the other. */
  function Gathered(nodes: seq<DisplayNode>, names: seq<string>): seq<DisplayNode>
    decreases |names|
  {
    if names == [] then [] else WithLabel(nodes, names[0]) + Gathered(nodes, names[1..])
  }

  lemma {:induction false} UngroupAppend(a: seq<DisplayNode>, b: seq<DisplayNode>)
    ensures Ungroup(a + b) == Ungroup(a) + Ungroup(b)
    decreases |a|
  {
    if a == [] {
      assert a + b == b;
    } else {
      assert (a + b)[1..] == a[1..] + b;
      UngroupAppend(a[1..], b);
    }
  }

  lemma {:induction false} UngroupFlat(nodes: seq<DisplayNode>)
    requires forall k :: 0 <= k < |nodes| ==> !nodes[k].ChildGroup?
    ensures Ungroup(nodes) == nodes
    decreases |nodes|
  {
    if nodes != [] {
      UngroupFlat(nodes[1..]);
    }
  }

  lemma {:induction false} UngroupGroups(nodes: seq<DisplayNode>, names: seq<string>)
    ensures Ungroup(Groups(nodes, names)) == Gathered(nodes, names)
    decreases |names|
  {
    if names != [] {
      assert Groups(nodes, names)[1..] == Groups(nodes, names[1..]);
      UngroupGroups(nodes, names[1..]);
    }
  }

  lemma {:induction false} GatheredAppend(nodes: seq<DisplayNode>, a: seq<string>, b: seq<string>)
    ensures Gathered(nodes, a + b) == Gathered(nodes, a) + Gathered(nodes, b)
    decreases |a|
  {
    if a == [] {
      assert a + b == b;
    } else {
      assert (a + b)[1..] == a[1..] + b;
      GatheredAppend(nodes, a[1..], b);
    }
  }

  lemma WithLabelSnoc(nodes: seq<DisplayNode>, n: DisplayNode, name: string)
    ensures WithLabel(nodes + [n], name)
      == WithLabel(nodes, name) + if Labeled(n) && ChildLabel(n).value == name then [n] else []
  {
    assert (nodes + [n])[..|nodes|] == nodes;
  }

  lemma DistinctTail<T>(names: seq<T>)
    requires names != [] && Distinct(names)
    ensures Distinct(names[1..]) && names[0] !in names[1..]
  {
    assert forall a, b :: 0 <= a < b < |names| - 1 ==> names[1..][a] == names[a + 1] && names[1..][b] == names[b + 1];
    assert forall k :: 0 <= k < |names| - 1 ==> names[1..][k] == names[k + 1];
  }

  /** Adding `n` to at most one of two sequences adds it to their concatenation once or not at all. */
  lemma AddOneOfTwo<T>(a: seq<T>, a': seq<T>, b: seq<T>, b': seq<T>, n: T, inA: bool, inB: bool)
    requires !(inA && inB)
    requires a' == a + if inA then [n] else []
    requires multiset(b') == multiset(b) + if inB then multiset{n} else multiset{}
    ensures multiset(a' + b') == multiset(a + b) + if inA || inB then multiset{n} else multiset{}
  {
  }

  /** Where one more node goes among the groups for distinct `names`: into its own label's group, if that is one of them. */
  lemma {:induction false} GatheredSnoc(nodes: seq<DisplayNode>, n: DisplayNode, names: seq<string>)
    requires Distinct(names)
    ensures multiset(Gathered(nodes + [n], names)) == multiset(Gathered(nodes, names))
      + if Labeled(n) && ChildLabel(n).value in names then multiset{n} else multiset{}
    decreases |names|
  {
    if names != [] {
      var x, rest := names[0], names[1..];
      var nodes' := nodes + [n];
      DistinctTail(names);
      GatheredSnoc(nodes, n, rest);
      WithLabelSnoc(nodes, n, x);
      var hit := Labeled(n) && ChildLabel(n).value == x;
      var hitRest := Labeled(n) && ChildLabel(n).value in rest;
      assert Gathered(nodes', names) == WithLabel(nodes', x) + Gathered(nodes', rest);
      assert Gathered(nodes, names) == WithLabel(nodes, x) + Gathered(nodes, rest);
      assert (Labeled(n) && ChildLabel(n).value in names) == (hit || hitRest) by {
        assert names == [x] + rest;
      }
      AddOneOfTwo(WithLabel(nodes, x), WithLabel(nodes', x), Gathered(nodes, rest), Gathered(nodes', rest), n, hit, hitRest);
    }
  }

  lemma {:induction false} WithLabelNone(nodes: seq<DisplayNode>, name: string)
    requires name !in LabelsOf(nodes)
    ensures WithLabel(nodes, name) == []
    decreases |nodes|
  {
    if nodes != [] {
      var init := nodes[..|nodes| - 1];
      LabelsOfSnoc(init, Last(nodes));
      assert init + [Last(nodes)] == nodes;
      WithLabelNone(init, name);
    }
  }

  /** A label that occurs has a group with at least one child, each child carrying that label. */
  lemma WithLabelSome(nodes: seq<DisplayNode>, name: string)
    requires name in LabelsOf(nodes)
    ensures WithLabel(nodes, name) != []
  {
    var j :| 0 <= j < |nodes| && ChildLabel(nodes[j]) == Some(name) && name != "";
    WithLabelMembers(nodes, name);
    assert nodes[j] in WithLabel(nodes, name);
  }

  lemma UnlabeledSnoc(init: seq<DisplayNode>, n: DisplayNode)
    ensures Unlabeled(init + [n]) == Unlabeled(init) + if Labeled(n) then [] else [n]
  {
    assert (init + [n])[..|init|] == init;
  }

  lemma LabelsOfSnoc(init: seq<DisplayNode>, n: DisplayNode)
    ensures LabelsOf(init + [n]) == LabelsOf(init) + if Labeled(n) then [ChildLabel(n).value] else []
  {
    assert (init + [n])[..|init|] == init;
  }

  /** The multiset the partition lemma is about. */
  function Parts(nodes: seq<DisplayNode>): multiset<DisplayNode> {
    multiset(Unlabeled(nodes)) + multiset(Gathered(nodes, Dedupe(LabelsOf(nodes))))
  }

  lemma PartitionSnocUnlabeled(nodes: seq<DisplayNode>, init: seq<DisplayNode>, n: DisplayNode)
    requires nodes == init + [n]
    requires !Labeled(n)
    ensures Parts(nodes) == Parts(init) + multiset{n}
  {
    var d := Dedupe(LabelsOf(init));
    UnlabeledSnoc(init, n);
    LabelsOfSnoc(init, n);
    assert LabelsOf(nodes) == LabelsOf(init);
    GatheredSnoc(init, n, d);
  }

  lemma PartitionSnocOld(nodes: seq<DisplayNode>, init: seq<DisplayNode>, n: DisplayNode)
    requires nodes == init + [n]
    requires Labeled(n) && ChildLabel(n).value in Dedupe(LabelsOf(init))
    ensures Parts(nodes) == Parts(init) + multiset{n}
  {
    var d := Dedupe(LabelsOf(init));
    UnlabeledSnoc(init, n);
    assert Unlabeled(nodes) == Unlabeled(init);
    LabelsOfSnoc(init, n);
    assert Dedupe(LabelsOf(nodes)) == d by {
      var l := LabelsOf(nodes);
      assert l[..|l| - 1] == LabelsOf(init);
    }
    GatheredSnoc(init, n, d);
  }

  lemma NewLabelOrder(nodes: seq<DisplayNode>, init: seq<DisplayNode>, n: DisplayNode)
    requires nodes == init + [n]
    requires Labeled(n) && ChildLabel(n).value !in Dedupe(LabelsOf(init))
    ensures Dedupe(LabelsOf(nodes)) == Dedupe(LabelsOf(init)) + [ChildLabel(n).value]
  {
    LabelsOfSnoc(init, n);
    var l := LabelsOf(nodes);
    assert l[..|l| - 1] == LabelsOf(init);
  }

  lemma NewLabelGathered(nodes: seq<DisplayNode>, init: seq<DisplayNode>, n: DisplayNode, d: seq<string>)
    requires nodes == init + [n] && Distinct(d)
    requires Labeled(n) && ChildLabel(n).value !in d && ChildLabel(n).value !in LabelsOf(init)
    ensures multiset(Gathered(nodes, d + [ChildLabel(n).value])) == multiset(Gathered(init, d)) + multiset{n}
  {
    var name := ChildLabel(n).value;
    GatheredAppend(nodes, d, [name]);
    GatheredSnoc(init, n, d);
    WithLabelNone(init, name);
    assert Gathered(init, [name]) == [];
    GatheredSnoc(init, n, [name]);
  }

  lemma PartitionSnocNew(nodes: seq<DisplayNode>, init: seq<DisplayNode>, n: DisplayNode)
    requires nodes == init + [n]
    requires Labeled(n) && ChildLabel(n).value !in Dedupe(LabelsOf(init))
    ensures Parts(nodes) == Parts(init) + multiset{n}
  {
    var d := Dedupe(LabelsOf(init));
    UnlabeledSnoc(init, n);
    NewLabelOrder(nodes, init, n);
    NewLabelGathered(nodes, init, n, d);
  }

  /** Every node is either unlabeled or in the group of its label, exactly once. */
  lemma {:induction false} Partition(nodes: seq<DisplayNode>)
    ensures multiset(nodes) == Parts(nodes)
    decreases |nodes|
  {
    if nodes != [] {
      var init, n := nodes[..|nodes| - 1], Last(nodes);
      Partition(init);
      assert nodes == init + [n];
      if !Labeled(n) {
        PartitionSnocUnlabeled(nodes, init, n);
      } else if ChildLabel(n).value in Dedupe(LabelsOf(init)) {
        PartitionSnocOld(nodes, init, n);
      } else {
        PartitionSnocNew(nodes, init, n);
      }
    }
  }

  /**
   * Grouping loses and duplicates nothing: spreading the groups back out
   * gives the nodes it was given, up to order.
   */
  lemma GroupingKeepsNodes(nodes: seq<DisplayNode>)
    requires forall k :: 0 <= k < |nodes| ==> !nodes[k].ChildGroup?
    ensures multiset(Ungroup(GroupByChildLabel(nodes))) == multiset(nodes)
  {
    var order := Dedupe(LabelsOf(nodes));
    Partition(nodes);
    UngroupFlat(nodes);
    if order != [] {
      var u := Unlabeled(nodes);
      assert forall k :: 0 <= k < |u| ==> u[k] in u;
      UngroupFlat(u);
      UngroupAppend(u, Groups(nodes, order));
      UngroupGroups(nodes, order);
    }
  }

  /**
   * A well-formed group for label `name`: non-empty, holding only nodes of
   * that label taken from `nodes`, and carrying the status of its children.
   */
  predicate GroupOf(g: DisplayNode, nodes: seq<DisplayNode>, name: string) {
    && g.ChildGroup?
    && g.name == name
    && g.children != []
    && g.status == GroupStatusOf(g.children)
    && forall n :: n in g.children ==> n in nodes && ChildLabel(n) == Some(name)
  }

  lemma GroupWellFormed(nodes: seq<DisplayNode>, name: string)
    requires name in LabelsOf(nodes)
    ensures GroupOf(Group(nodes, name), nodes, name)
  {
    WithLabelSome(nodes, name);
    WithLabelMembers(nodes, name);
  }

  /** With a labeled node there is at least one group. */
  lemma SomeLabel(nodes: seq<DisplayNode>)
    requires exists k :: 0 <= k < |nodes| && Labeled(nodes[k])
    ensures LabelsOf(nodes) != []
  {
    var j :| 0 <= j < |nodes| && Labeled(nodes[j]);
    assert ChildLabel(nodes[j]).value in LabelsOf(nodes);
  }

  lemma UnlabeledAreUnlabeled(nodes: seq<DisplayNode>)
    ensures forall k :: 0 <= k < |Unlabeled(nodes)| ==> !Labeled(Unlabeled(nodes)[k])
  {
    var u := Unlabeled(nodes);
    assert forall k :: 0 <= k < |u| ==> u[k] in u;
  }

  lemma GroupsWellFormed(nodes: seq<DisplayNode>, names: seq<string>)
    requires forall x :: x in names ==> x in LabelsOf(nodes)
    ensures forall k :: 0 <= k < |names| ==> GroupOf(Groups(nodes, names)[k], nodes, names[k])
  {
    forall k | 0 <= k < |names|
      ensures GroupOf(Groups(nodes, names)[k], nodes, names[k])
    {
      assert names[k] in names;
      GroupWellFormed(nodes, names[k]);
    }
  }

  /**
   * The shape of the grouped list when some node is labeled: the unlabeled
   * nodes first, in their order; then one well-formed group per label, in
   * the order the labels first appear.
   */
  lemma GroupsShape(nodes: seq<DisplayNode>)
    requires LabelsOf(nodes) != []
    ensures var r := GroupByChildLabel(nodes);
      var u := |Unlabeled(nodes)|;
      var order := Dedupe(LabelsOf(nodes));
      && |r| == u + |order|
      && r[..u] == Unlabeled(nodes)
      && (forall k :: 0 <= k < u ==> !Labeled(r[k]))
      && (forall k :: 0 <= k < |order| ==> GroupOf(r[u + k], nodes, order[k]))
  {
    var order := Dedupe(LabelsOf(nodes));
    assert LabelsOf(nodes)[0] in order;
    var u := Unlabeled(nodes);
    var g := Groups(nodes, order);
    assert GroupByChildLabel(nodes) == u + g;
    UnlabeledAreUnlabeled(nodes);
    GroupsWellFormed(nodes, order);
  }

  // -------------------------------------------------------------------------
  // A group's status
  // -------------------------------------------------------------------------

  predicate IsComplete(n: DisplayNode) {
    n.EntryNode? && n.entry.body.CompleteEntry?
  }

  /** A node that fails its group: a complete entry with a nonzero exit code, or a failed section. */
  predicate FailsGroup(n: DisplayNode) {
    (IsComplete(n) && n.entry.body.exitCode != 0) || (n.SubAgentNode? && n.agent.status == "failed")
  }

  predicate RunningAgent(n: DisplayNode) {
    n.SubAgentNode? && n.agent.status == "running"
  }

  /** The status loop from child `i` on, given the status and `hasComplete` so far; a failure breaks out. */
  function ScanStatus(children: seq<DisplayNode>, i: nat, status: GroupStatus, hasComplete: bool): (GroupStatus, bool)
    requires i <= |children|
    decreases |children| - i
  {
    if i == |children| then (status, hasComplete)
    else
      var n := children[i];
      if IsComplete(n) && n.entry.body.exitCode != 0 then (GroupFailed, true)
      else if n.SubAgentNode? && n.agent.status == "failed" then (GroupFailed, hasComplete)
      else ScanStatus(children, i + 1, if RunningAgent(n) then GroupRunning else status, hasComplete || IsComplete(n))
  }

  function GroupStatusOf(children: seq<DisplayNode>): GroupStatus {
    var (status, hasComplete) := ScanStatus(children, 0, GroupCompleted, false);
    if !hasComplete && status != GroupFailed then GroupRunning else status
  }

  lemma {:induction false} ScanSpec(ch: seq<DisplayNode>, i: nat, status: GroupStatus, hasComplete: bool)
    requires i <= |ch| && status != GroupFailed
    ensures var r := ScanStatus(ch, i, status, hasComplete);
      && (r.0 == GroupFailed <==> exists k :: i <= k < |ch| && FailsGroup(ch[k]))
      && ((forall k :: i <= k < |ch| ==> !FailsGroup(ch[k])) ==>
            && (r.1 <==> hasComplete || exists k :: i <= k < |ch| && IsComplete(ch[k]))
            && (r.0 == GroupRunning <==> status == GroupRunning || exists k :: i <= k < |ch| && RunningAgent(ch[k])))
    decreases |ch| - i
  {
    if i < |ch| {
      var n := ch[i];
      if !FailsGroup(n) {
        ScanSpec(ch, i + 1, if RunningAgent(n) then GroupRunning else status, hasComplete || IsComplete(n));
      }
    }
  }

  /**
   * A group has failed exactly when one of its children fails it; it has
   * completed exactly when none fails, one is a complete entry and no
   * section is still running; otherwise it is running.
   */
  lemma GroupStatusSpec(ch: seq<DisplayNode>)
    ensures GroupStatusOf(ch) == GroupFailed <==> exists k :: 0 <= k < |ch| && FailsGroup(ch[k])
    ensures GroupStatusOf(ch) == GroupCompleted <==>
      && (forall k :: 0 <= k < |ch| ==> !FailsGroup(ch[k]))
      && (exists k :: 0 <= k < |ch| && IsComplete(ch[k]))
      && (forall k :: 0 <= k < |ch| ==> !RunningAgent(ch[k]))
  {
    ScanSpec(ch, 0, GroupCompleted, false);
  }
}

=== FILE: event_bus.dfy ===
/**
 * The per-operation event buffer and listener set kept by the process
 * manager: `emitEvent` appends, trims the buffer from the front once it grows
 * past its bound, and hands the event to every subscribed listener.
 */
module EventBus {
  import opened Events

  /** The buffer is trimmed once it holds more than this many events... */
  const MaxBuffered: nat := 5000
  /** ...down to this many of the most recent ones. */
  const Retained: nat := 3000

  type ListenerId = nat

  /**
   * `events` is the buffered backlog; `listeners` maps each subscribed
   * listener to the events it has been handed since it subscribed.
   */
  datatype Bus = Bus(events: seq<Event>, listeners: map<ListenerId, seq<Event>>)

  const EmptyBus := Bus([], map[])

  predicate IsSuffix<T(==)>(a: seq<T>, b: seq<T>) {
    |a| <= |b| && a == b[|b| - |a|..]
  }

  function Min(a: int, b: int): int {
    if a < b then a else b
  }

  /** `events.slice(-3000)` once the buffer exceeds 5000 entries. */
  function TrimBuffer(events: seq<Event>): (r: seq<Event>)
    ensures IsSuffix(r, events)
    ensures |r| <= MaxBuffered
    ensures |events| <= MaxBuffered ==> r == events
    ensures |events| > MaxBuffered ==> |r| == Retained
  {
    if |events| > MaxBuffered then events[|events| - Retained..] else events
  }

  /** `emitEvent`: append, trim, deliver to every current listener. */
  function Emit(b: Bus, e: Event): (r: Bus)
    ensures |r.events| <= MaxBuffered
    ensures |r.events| > 0 && r.events[|r.events| - 1] == e
    ensures IsSuffix(r.events, b.events + [e])
    ensures |b.events| < MaxBuffered ==> r.events == b.events + [e]
    ensures r.listeners.Keys == b.listeners.Keys
    ensures forall l :: l in b.listeners ==> r.listeners[l] == b.listeners[l] + [e]
  {
    Bus(TrimBuffer(b.events + [e]),
        map l | l in b.listeners :: b.listeners[l] + [e])
  }

  /** Emit a sequence of events in order. */
  function EmitAll(b: Bus, es: seq<Event>): Bus
    decreases |es|
  {
    if es == [] then b else EmitAll(Emit(b, es[0]), es[1..])
  }

  /** `subscribeToOperation` on a known operation: adding a listener twice is a no-op. */
  function Subscribe(b: Bus, l: ListenerId): (r: Bus)
    ensures r.events == b.events
    ensures l in r.listeners
    ensures r.listeners.Keys == b.listeners.Keys + {l}
    ensures l !in b.listeners ==> r.listeners[l] == []
    ensures forall k :: k in b.listeners ==> r.listeners[k] == b.listeners[k]
  {
    if l in b.listeners then b else Bus(b.events, b.listeners[l := []])
  }

  /** The unsubscribe function returned by `subscribeToOperation`. */
  function Unsubscribe(b: Bus, l: ListenerId): (r: Bus)
    ensures r.events == b.events
    ensures r.listeners.Keys == b.listeners.Keys - {l}
    ensures forall k :: k in r.listeners ==> r.listeners[k] == b.listeners[k]
  {
    Bus(b.events, b.listeners - {l})
  }

  lemma SuffixAppend<T>(a: seq<T>, b: seq<T>, c: seq<T>)
    requires IsSuffix(a, b)
    ensures IsSuffix(a + c, b + c)
  {
    assert (b + c)[|b + c| - |a + c|..] == b[|b| - |a|..] + c;
  }

  lemma AppendHead<T>(a: seq<T>, s: seq<T>)
    requires s != []
    ensures a + [s[0]] + s[1..] == a + s
  {
    assert s == [s[0]] + s[1..];
  }

  lemma SuffixOfSuffix<T>(a: seq<T>, b: seq<T>, c: seq<T>)
    requires IsSuffix(a, b) && IsSuffix(b, c)
    ensures IsSuffix(a, c)
  {
    assert c[|c| - |b|..][|b| - |a|..] == c[|c| - |a|..];
  }

  /**
   * Whatever the history, the buffer stays within its bound, is a suffix of
   * everything emitted, and keeps at least the last 3000 events (all of them
   * while fewer were emitted).
   */
  lemma {:induction false} EmitAllBuffer(b: Bus, es: seq<Event>)
    requires |b.events| <= MaxBuffered
    ensures |EmitAll(b, es).events| <= MaxBuffered
    ensures IsSuffix(EmitAll(b, es).events, b.events + es)
    ensures |EmitAll(b, es).events| >= Min(|b.events| + |es|, Retained)
    decreases |es|
  {
    if es == [] {
      assert b.events + es == b.events;
    } else {
      var b1 := Emit(b, es[0]);
      assert EmitAll(b, es) == EmitAll(b1, es[1..]);
      EmitAllBuffer(b1, es[1..]);
      SuffixStep(b.events, es, b1.events, EmitAll(b1, es[1..]).events);
    }
  }

  lemma SuffixStep<T>(prior: seq<T>, es: seq<T>, b1: seq<T>, r: seq<T>)
    requires es != []
    requires IsSuffix(b1, prior + [es[0]]) && IsSuffix(r, b1 + es[1..])
    ensures IsSuffix(r, prior + es)
  {
    SuffixAppend(b1, prior + [es[0]], es[1..]);
    AppendHead(prior, es);
    SuffixOfSuffix(r, b1 + es[1..], prior + es);
  }

  /** A subscribed listener receives exactly the events emitted afterwards, in order. */
  lemma {:induction false} EmitAllListener(b: Bus, es: seq<Event>, l: ListenerId)
    requires l in b.listeners
    ensures l in EmitAll(b, es).listeners
    ensures EmitAll(b, es).listeners[l] == b.listeners[l] + es
    decreases |es|
  {
    if es != [] {
      var b1 := Emit(b, es[0]);
      assert b1.listeners[l] == b.listeners[l] + [es[0]];
      EmitAllListener(b1, es[1..], l);
      assert EmitAll(b, es) == EmitAll(b1, es[1..]);
      AppendHead(b.listeners[l], es);
    }
  }

  /** A listener that subscribes late sees nothing of the backlog through its callback. */
  lemma LateSubscriber(b: Bus, l: ListenerId, es: seq<Event>)
    requires l !in b.listeners
    ensures l in EmitAll(Subscribe(b, l), es).listeners
    ensures EmitAll(Subscribe(b, l), es).listeners[l] == es
  {
    var b1 := Subscribe(b, l);
    EmitAllListener(b1, es, l);
    assert b1.listeners[l] + es == es;
  }
}

=== FILE: events.dfy ===
/**
 * Operation events and the two text formats this codebase writes into an
 * event's `data` field and reads back: the completion signal
 * `{"exitCode":n}` and the `__phaseUpdate:` lifecycle record, both produced
 * with `JSON.stringify`.
 */
module Events {
  import opened Wrappers
  import opened Text

  /** The kinds of operation the web UI starts. */
  datatype OperationType =
    | Init | Execute | Review | CreatePr | UpdateTodo | Delete | PermissionsSuggest | WorkspacePrune

  datatype EventKind = Output | Error | Complete | Status

  /**
   * An operation event. The timestamp is left out (it comes from the clock);
   * the optional tags say which child and phase produced the event.
   */
  datatype Event = Event(
    kind: EventKind,
    operationId: string,
    data: string,
    childLabel: Option<string>,
    phaseIndex: Option<nat>,
    phaseLabel: Option<string>)

  datatype PhaseStatus = Pending | Running | Completed | Failed | Skipped {
    function Name(): string {
      match this
      case Pending => "pending"
      case Running => "running"
      case Completed => "completed"
      case Failed => "failed"
      case Skipped => "skipped"
    }

    predicate IsTerminal() {
      Completed? || Failed? || Skipped?
    }
  }

  function StatusNamed(name: string): (r: Option<PhaseStatus>)
    ensures r.Some? ==> r.value.Name() == name
  {
    if name == "pending" then Some(Pending)
    else if name == "running" then Some(Running)
    else if name == "completed" then Some(Completed)
    else if name == "failed" then Some(Failed)
    else if name == "skipped" then Some(Skipped)
    else None
  }

  lemma StatusNamedName(s: PhaseStatus)
    ensures StatusNamed(s.Name()) == Some(s)
  {}

  /** One record per declared pipeline phase (`name` is the source's `label`, a Dafny keyword). */
  datatype PhaseInfo = PhaseInfo(index: nat, name: string, status: PhaseStatus)

  // -------------------------------------------------------------------------
  // Integers as JSON numbers
  // -------------------------------------------------------------------------

  /** A canonical JSON integer: an optional minus and digits without a leading zero. */
  function ParseCanonicalNat(m: string): (r: Option<nat>)
    ensures r.Some? ==> NatToString(r.value) == m
  {
    if m != [] && (forall k :: 0 <= k < |m| ==> IsDigit(m[k])) && (|m| == 1 || m[0] != '0') then
      NatToStringDigits(m);
      Some(DigitsValue(m))
    else None
  }

  lemma {:induction false} NatToStringDigits(m: string)
    requires m != [] && forall k :: 0 <= k < |m| ==> IsDigit(m[k])
    requires |m| == 1 || m[0] != '0'
    ensures NatToString(DigitsValue(m)) == m
    decreases |m|
  {
    if |m| > 1 {
      var p := m[..|m| - 1];
      assert p[0] == m[0];
      NatToStringDigits(p);
      var v := DigitsValue(m);
      assert v / 10 == DigitsValue(p) && v % 10 == DigitValue(m[|m| - 1]);
      assert v >= 10 by {
        LeadingDigitPositive(p);
      }
    }
  }

  lemma {:induction false} LeadingDigitPositive(p: string)
    requires p != [] && forall k :: 0 <= k < |p| ==> IsDigit(p[k])
    requires p[0] != '0'
    ensures DigitsValue(p) >= 1
    decreases |p|
  {
    if |p| > 1 {
      LeadingDigitPositive(p[..|p| - 1]);
    }
  }

  lemma ParseCanonicalNatToString(n: nat)
    ensures ParseCanonicalNat(NatToString(n)) == Some(n)
  {
    DigitsValueNatToString(n);
  }

  function ParseCanonicalInt(m: string): (r: Option<int>)
    ensures r.Some? ==> (IntToString(r.value) == m || m == "-0")
  {
    if m != [] && m[0] == '-' then
      match ParseCanonicalNat(m[1..])
      case Some(n) => Some(0 - n as int)
      case None => None
    else
      match ParseCanonicalNat(m)
      case Some(n) => Some(n)
      case None => None
  }

  lemma ParseCanonicalIntToString(i: int)
    ensures ParseCanonicalInt(IntToString(i)) == Some(i)
  {
    if i < 0 {
      var s := IntToString(i);
      assert s[1..] == NatToString(-i);
      ParseCanonicalNatToString(-i);
    } else {
      ParseCanonicalNatToString(i);
    }
  }

  // -------------------------------------------------------------------------
  // The completion signal
  // -------------------------------------------------------------------------

  const ExitCodePrefix: string := "{\"exitCode\":"

  /** `JSON.stringify({ exitCode: code })`. */
  function CompleteData(code: int): string {
    ExitCodePrefix + IntToString(code) + "}"
  }

  /**
   * Reading `exitCode` back from a complete event's data, as the log view and
   * the child wiring do; `None` when the text is not the canonical form.
   */
  function DecodeExitCode(data: string): (r: Option<int>)
    ensures r.Some? ==> data == CompleteData(r.value) || data == ExitCodePrefix + "-0}"
  {
    if ExitCodePrefix <= data && |data| > |ExitCodePrefix| && data[|data| - 1] == '}' then
      var m := data[|ExitCodePrefix|..|data| - 1];
      assert data == ExitCodePrefix + m + "}";
      ParseCanonicalInt(m)
    else None
  }

  /** The exit code a consumer reads, `-1` when the data does not parse. */
  function ExitCodeOf(data: string): int {
    DecodeExitCode(data).GetOr(-1)
  }

  lemma DecodeCompleteData(code: int)
    ensures DecodeExitCode(CompleteData(code)) == Some(code)
    ensures ExitCodeOf(CompleteData(code)) == code
  {
    var d := CompleteData(code);
    assert d[|ExitCodePrefix|..|d| - 1] == IntToString(code);
    ParseCanonicalIntToString(code);
  }

  // -------------------------------------------------------------------------
  // JSON string literals
  // -------------------------------------------------------------------------

  function HexDigit(d: nat): (c: char)
    requires d < 16
  {
    if d < 10 then DigitChar(d) else ('a' as int + d - 10) as char
  }

  function HexValue(c: char): (r: Option<nat>)
    ensures r.Some? ==> r.value < 16
  {
    if '0' <= c <= '9' then Some(c as int - '0' as int)
    else if 'a' <= c <= 'f' then Some(c as int - 'a' as int + 10)
    else if 'A' <= c <= 'F' then Some(c as int - 'A' as int + 10)
    else None
  }

  lemma HexValueDigit(d: nat)
    requires d < 16
    ensures HexValue(HexDigit(d)) == Some(d)
  {}

  /** `JSON.stringify` of one character, without the surrounding quotes. */
  function EscapeChar(c: char): string {
    if c == '"' then "\\\""
    else if c == '\\' then "\\\\"
    else if c == '\U{0008}' then "\\b"
    else if c == '\U{000C}' then "\\f"
    else if c == '\n' then "\\n"
    else if c == '\r' then "\\r"
    else if c == '\t' then "\\t"
    else if c < ' ' then
      "\\u00" + [HexDigit(c as int / 16), HexDigit(c as int % 16)]
    else [c]
  }

  function Escape(s: string): string {
    if s == [] then [] else EscapeChar(s[0]) + Escape(s[1..])
  }

  /** `JSON.stringify(s)` for a string `s`. */
  function Quote(s: string): string {
    "\"" + Escape(s) + "\""
  }

  /** The value of a four-digit `\u` escape, when it names a character. */
  function UnicodeEscape(h: string): (r: Option<char>)
    requires |h| == 4
  {
    match (HexValue(h[0]), HexValue(h[1]), HexValue(h[2]), HexValue(h[3]))
    case (Some(a), Some(b), Some(c), Some(d)) =>
      var v := ((a * 16 + b) * 16 + c) * 16 + d;
      if v < 0xD800 || 0xE000 <= v then Some(v as char) else None
    case _ => None
  }

  /**
   * Reads the body of a JSON string literal (after the opening quote) up to
   * the closing quote; returns the decoded text and what follows the quote.
   */
  function UnescapeBody(s: string): (r: Option<(string, string)>)
    ensures r.Some? ==> |r.value.1| < |s|
    decreases |s|
  {
    if s == [] then None
    else if s[0] == '"' then Some(([], s[1..]))
    else if s[0] == '\\' then
      if |s| < 2 then None
      else
        var e := s[1];
        var simple :=
          if e == '"' then Some('"') else if e == '\\' then Some('\\')
          else if e == '/' then Some('/') else if e == 'b' then Some('\U{0008}')
          else if e == 'f' then Some('\U{000C}') else if e == 'n' then Some('\n')
          else if e == 'r' then Some('\r') else if e == 't' then Some('\t')
          else None;
        if simple.Some? then
          match UnescapeBody(s[2..])
          case Some((t, rest)) => Some(([simple.value] + t, rest))
          case None => None
        else if e == 'u' && |s| >= 6 && UnicodeEscape(s[2..6]).Some? then
          match UnescapeBody(s[6..])
          case Some((t, rest)) => Some(([UnicodeEscape(s[2..6]).value] + t, rest))
          case None => None
        else None
    else if s[0] < ' ' then None
    else
      match UnescapeBody(s[1..])
      case Some((t, rest)) => Some(([s[0]] + t, rest))
      case None => None
  }

  /** A two-character escape decodes to the character it stands for. */
  lemma UnescapeSimple(c: char, s: string)
    requires |EscapeChar(c)| == 2
    requires |s| >= 2 && s[0] == '\\' && s[1] == EscapeChar(c)[1]
    ensures UnescapeBody(s) == match UnescapeBody(s[2..])
      case Some((t, rest)) => Some(([c] + t, rest))
      case None => None
  {
  }

  lemma {:induction false} UnescapeEscape(x: string, rest: string)
    ensures UnescapeBody(Escape(x) + "\"" + rest) == Some((x, rest))
    decreases |x|
  {
    if x == [] {
      assert Escape(x) + "\"" + rest == ['"'] + rest;
    } else {
      var c := x[0];
      var tail := Escape(x[1..]) + "\"" + rest;
      UnescapeEscape(x[1..], rest);
      assert Escape(x) + "\"" + rest == EscapeChar(c) + tail;
      UnescapeChar(c, tail, x[1..], rest);
      assert x == [c] + x[1..];
    }
  }

  /** The escape of one character, then text that decodes: the character comes first. */
  lemma UnescapeChar(c: char, tail: string, t: string, rest: string)
    requires UnescapeBody(tail) == Some((t, rest))
    ensures UnescapeBody(EscapeChar(c) + tail) == Some(([c] + t, rest))
  {
    var s := EscapeChar(c) + tail;
    if c < ' ' && c != '\U{0008}' && c != '\U{000C}' && c != '\n' && c != '\r' && c != '\t' {
      UnescapeControl(c, tail);
    } else if EscapeChar(c) == [c] {
      assert s[1..] == tail;
    } else {
      assert |EscapeChar(c)| == 2 && EscapeChar(c)[0] == '\\';
      assert s[0] == '\\' && s[1] == EscapeChar(c)[1];
      assert s[2..] == tail;
      UnescapeSimple(c, s);
    }
  }

  /** A control character without a short escape is written `\u00XY`, which decodes back to it. */
  lemma UnescapeControl(c: char, tail: string)
    requires c < ' ' && c != '\U{0008}' && c != '\U{000C}' && c != '\n' && c != '\r' && c != '\t'
    ensures var s := EscapeChar(c) + tail;
      |s| >= 6 && s[0] == '\\' && s[1] == 'u' && s[6..] == tail && UnicodeEscape(s[2..6]) == Some(c)
  {
    var s := EscapeChar(c) + tail;
    var hi := c as int / 16;
    var lo := c as int % 16;
    HexValueDigit(hi);
    HexValueDigit(lo);
    assert s[2..6] == ['0', '0', HexDigit(hi), HexDigit(lo)];
    assert HexValue('0') == Some(0);
    assert s[6..] == tail;
  }

  /** Reads one JSON string literal at the front of `s`. */
  function Unquote(s: string): (r: Option<(string, string)>)
    ensures r.Some? ==> |r.value.1| < |s|
  {
    if s != [] && s[0] == '"' then UnescapeBody(s[1..]) else None
  }

  lemma UnquoteQuote(x: string, rest: string)
    ensures Unquote(Quote(x) + rest) == Some((x, rest))
  {
    var s := Quote(x) + rest;
    assert s[1..] == Escape(x) + "\"" + rest;
    UnescapeEscape(x, rest);
  }

  // -------------------------------------------------------------------------
  // The phase lifecycle record
  // -------------------------------------------------------------------------

  const PhaseUpdatePrefix: string := "__phaseUpdate:"

  datatype PhaseUpdate = PhaseUpdate(index: nat, name: string, status: PhaseStatus)

  function StatusTail(st: PhaseStatus): string {
    StatusKey + st.Name() + "\"}"
  }

  /** `JSON.stringify({ phaseIndex, phaseLabel, phaseStatus })`. */
  function PhaseUpdateJson(u: PhaseUpdate): string {
    IndexKey + (NatToString(u.index) + (LabelKey + (Quote(u.name) + StatusTail(u.status))))
  }

  /** The text of the status event `emitPhaseUpdate` sends. */
  function PhaseUpdateMessage(u: PhaseUpdate): string {
    PhaseUpdatePrefix + PhaseUpdateJson(u)
  }

  const IndexKey: string := "{\"phaseIndex\":"
  const LabelKey: string := ",\"phaseLabel\":"
  const StatusKey: string := ",\"phaseStatus\":\""

  /** Reads a phase update back; `None` when the text is not the canonical form. */
  function DecodePhaseUpdate(json: string): Option<PhaseUpdate> {
    if !(IndexKey <= json) then None
    else
      match DecodeIndexPart(json[|IndexKey|..])
      case None => None
      case Some((index, afterIndex)) =>
        if !(LabelKey <= afterIndex) then None
        else
          match Unquote(afterIndex[|LabelKey|..])
          case None => None
          case Some((name, rest)) =>
            match DecodeStatusPart(rest)
            case Some(status) => Some(PhaseUpdate(index, name, status))
            case None => None
  }

  /** The leading run of digits as a canonical number, and what follows it. */
  function DecodeIndexPart(s: string): Option<(nat, string)> {
    var n := RunLength(s, 0, IsDigit);
    match ParseCanonicalNat(s[..n])
    case None => None
    case Some(index) => Some((index, s[n..]))
  }

  function DecodeStatusPart(rest: string): Option<PhaseStatus> {
    if StatusKey <= rest && |rest| >= |StatusKey| + 2 && rest[|rest| - 2..] == "\"}" then
      StatusNamed(rest[|StatusKey|..|rest| - 2])
    else None
  }

  lemma DecodeIndexPartDigits(n: nat, rest: string)
    requires rest == [] || !IsDigit(rest[0])
    ensures DecodeIndexPart(NatToString(n) + rest) == Some((n, rest))
  {
    var digits := NatToString(n);
    var s := digits + rest;
    var k := RunLength(s, 0, IsDigit);
    assert forall j :: 0 <= j < |digits| ==> s[j] == digits[j];
    assert |digits| < |s| ==> s[|digits|] == rest[0];
    assert k == |digits|;
    assert s[..k] == digits;
    assert s[k..] == rest;
    ParseCanonicalNatToString(n);
  }

  lemma DecodeStatusPartName(st: PhaseStatus)
    ensures DecodeStatusPart(StatusTail(st)) == Some(st)
  {
    var rest := StatusTail(st);
    assert rest[|StatusKey|..|rest| - 2] == st.Name();
    StatusNamedName(st);
  }

  /** Decoding succeeds when each of its three steps does. */
  lemma DecodePhaseUpdateSteps(json: string, u: PhaseUpdate, afterIndex: string, rest: string)
    requires IndexKey <= json
    requires DecodeIndexPart(json[|IndexKey|..]) == Some((u.index, afterIndex))
    requires LabelKey <= afterIndex
    requires Unquote(afterIndex[|LabelKey|..]) == Some((u.name, rest))
    requires DecodeStatusPart(rest) == Some(u.status)
    ensures DecodePhaseUpdate(json) == Some(u)
  {
  }

  lemma DecodePhaseUpdateJson(u: PhaseUpdate)
    ensures DecodePhaseUpdate(PhaseUpdateJson(u)) == Some(u)
  {
    var rest := StatusTail(u.status);
    var afterIndex := LabelKey + (Quote(u.name) + rest);
    var json := PhaseUpdateJson(u);
    assert json[|IndexKey|..] == NatToString(u.index) + afterIndex;
    DecodeIndexPartDigits(u.index, afterIndex);
    assert afterIndex[|LabelKey|..] == Quote(u.name) + rest;
    UnquoteQuote(u.name, rest);
    DecodeStatusPartName(u.status);
    DecodePhaseUpdateSteps(json, u, afterIndex, rest);
  }

  lemma DecodePhaseUpdateMessage(u: PhaseUpdate)
    ensures PhaseUpdatePrefix <= PhaseUpdateMessage(u)
    ensures DecodePhaseUpdate(PhaseUpdateMessage(u)[|PhaseUpdatePrefix|..]) == Some(u)
  {
    assert PhaseUpdateMessage(u)[|PhaseUpdatePrefix|..] == PhaseUpdateJson(u);
    DecodePhaseUpdateJson(u);
  }
}

=== FILE: legacy_log.dfy ===
/**
 * The older operation log (`components/operation-log.tsx`): the same
 * entries without child or phase tags, status events not shown, and
 * sub-agent sections without task ids or output files. Its
 * `findPendingAsk` is the shared log's, `OperationLog.FindPendingAsk`.
 */
module LegacyLog {
  import opened Wrappers
  import opened Seqs
  import opened Events
  import opened StreamParser
  import opened DisplayTree
  import opened OperationLog

  /** The entries of one event; `parse` is `JSON.parse` on an output line, None when it throws. */
  function LegacyEventEntries(ev: Event, parse: string -> Option<Message>): seq<LogEntry> {
    match ev.kind
    case Output => ParseStreamEvent(ev.data, parse(ev.data))
    case Error => [Plain(ErrorEntry(ev.data))]
    case Complete => [Plain(CompleteEntry(ExitCodeOf(ev.data)))]
    case Status => []
  }

  function LegacyEntries(events: seq<Event>, parse: string -> Option<Message>): seq<LogEntry> {
    FlatMap(events, ev => LegacyEventEntries(ev, parse))
  }

  /** The nodes the older log shows. */
  function LegacyNodes(events: seq<Event>, parse: string -> Option<Message>): (r: seq<DisplayNode>)
    ensures forall k :: 0 <= k < |r| ==> !r[k].ChildGroup?
  {
    var es := LegacyEntries(events, parse);
    var r := BuildDisplayNodes(es, Legacy);
    assert forall k :: 0 <= k < |r| ==> NodeOk(Context(es, Legacy), r[k]);
    r
  }

  /**
   * Status events show nothing; a complete event shows the code its signal
   * carries, or -1 when the data is not a signal; no entry is tagged.
   */
  lemma LegacyEventSpec(ev: Event, parse: string -> Option<Message>, code: int)
    ensures ev.kind == Status ==> LegacyEventEntries(ev, parse) == []
    ensures ev.kind == Complete && ev.data == CompleteData(code) ==>
      LegacyEventEntries(ev, parse) == [Plain(CompleteEntry(code))]
    ensures ev.kind == Complete && DecodeExitCode(ev.data).None? ==>
      LegacyEventEntries(ev, parse) == [Plain(CompleteEntry(-1))]
    ensures forall k :: 0 <= k < |LegacyEventEntries(ev, parse)| ==> Untagged(LegacyEventEntries(ev, parse)[k])
  {
    if ev.kind == Complete && ev.data == CompleteData(code) {
      DecodeCompleteData(code);
    }
  }

  /** An event without tags yields the same entries in both logs, unless it is a status event. */
  lemma SameEventEntries(ev: Event, parse: string -> Option<Message>)
    requires ev.childLabel.None? && ev.phaseIndex.None? && ev.phaseLabel.None?
    requires ev.kind != Status
    ensures LegacyEventEntries(ev, parse) == EventEntries(ev, parse)
  {
    if ev.kind == Output {
      var p := ParseStreamEvent(ev.data, parse(ev.data));
      var r := EventEntries(ev, parse);
      assert |r| == |p|;
      forall k | 0 <= k < |p|
        ensures r[k] == p[k]
      {
        assert Untagged(p[k]);
      }
    }
  }

  /**
   * For a run without children, phases or status events, the older log's
   * entries are exactly the shared log's.
   */
  lemma {:induction false} SameEntries(events: seq<Event>, parse: string -> Option<Message>)
    requires forall k :: 0 <= k < |events| ==>
      events[k].childLabel.None? && events[k].phaseIndex.None? && events[k].phaseLabel.None? && events[k].kind != Status
    ensures LegacyEntries(events, parse) == Entries(events, parse)
    decreases |events|
  {
    if events != [] {
      SameEventEntries(events[0], parse);
      SameEntries(events[1..], parse);
    }
  }
}

=== FILE: next_actions.dfy ===
/**
 * The "Next steps" suggested after an operation completes
 * (`components/shared/next-action-suggestions.tsx`): a fixed table from
 * the completed operation's type to follow-up operations on the same
 * workspace, and the choice between navigating to the Operations tab and
 * starting the operation in place.
 */
module NextActions {
  import opened Wrappers
  import opened Events

  /** A suggested operation; `primary` is the absent-means-false flag of the source. */
  datatype NextAction = NextAction(caption: string, kind: OperationType, body: map<string, string>, primary: bool)

  /** The request body every suggestion carries: `{ workspace }`. */
  function WorkspaceBody(workspace: string): map<string, string> {
    map["workspace" := workspace]
  }

  /** `getNextActions`. */
  function NextActionsFor(completed: OperationType, workspace: string): (r: seq<NextAction>)
    ensures forall k :: 0 <= k < |r| ==> r[k].body == WorkspaceBody(workspace)
    ensures forall k :: 0 <= k < |r| ==> r[k].primary ==> k == 0
    ensures forall k :: 0 <= k < |r| ==> r[k].kind != completed
  {
    var body := WorkspaceBody(workspace);
    match completed
    case Init => [NextAction("Execute", Execute, body, true)]
    case Execute => [NextAction("Review Changes", Review, body, true)]
    case Review => [NextAction("Create PR", CreatePr, body, true), NextAction("Execute", Execute, body, false)]
    case UpdateTodo => [NextAction("Execute", Execute, body, true)]
    case _ => []
  }

  /** The workflow the suggestions follow: set up or re-plan, then execute, review, open a pull request. */
  function Successor(t: OperationType): Option<OperationType> {
    match t
    case Init => Some(Execute)
    case UpdateTodo => Some(Execute)
    case Execute => Some(Review)
    case Review => Some(CreatePr)
    case _ => None
  }

  /**
   * A primary suggestion exists exactly when the completed type has a
   * successor in the workflow, and it proposes that successor; the only
   * other suggestion is to execute again after a review. A type without a
   * successor gets no suggestion at all.
   */
  lemma PrimaryIsSuccessor(completed: OperationType, workspace: string)
    ensures var r := NextActionsFor(completed, workspace);
      && (Successor(completed).Some? <==> r != [] && r[0].primary)
      && (Successor(completed).Some? ==> r[0].kind == Successor(completed).value)
      && (forall k :: 1 <= k < |r| ==> completed == Review && r[k].kind == Execute && !r[k].primary)
      && (Successor(completed).None? ==> r == [])
  {
  }

  /** Following the primary suggestions from `init` reaches `create-pr` in three steps, after which nothing is suggested. */
  lemma WorkflowFromInit(workspace: string)
    ensures NextActionsFor(Init, workspace)[0].kind == Execute
    ensures NextActionsFor(Execute, workspace)[0].kind == Review
    ensures NextActionsFor(Review, workspace)[0].kind == CreatePr
    ensures NextActionsFor(CreatePr, workspace) == []
  {
  }

  /** The operations that run in the Operations tab rather than in place. */
  const OperationsTabActions: set<OperationType> := {Execute, Review, CreatePr}

  /** The wire name of an operation type. */
  function TypeName(t: OperationType): string {
    match t
    case Init => "init"
    case Execute => "execute"
    case Review => "review"
    case CreatePr => "create-pr"
    case UpdateTodo => "update-todo"
    case Delete => "delete"
    case PermissionsSuggest => "permissions-suggest"
    case WorkspacePrune => "workspace-prune"
  }

  /** What a click on a suggestion does. */
  datatype Click = Navigate(url: string) | StartOperation(kind: OperationType, body: map<string, string>)

  /** `handleClick`: navigate to `?action=<type>` when navigation is on and the action belongs to the Operations tab. */
  function ClickOn(action: NextAction, useNavigation: bool, pathname: string): (r: Click)
    ensures r.Navigate? <==> useNavigation && action.kind in OperationsTabActions
    ensures r.StartOperation? ==> r.kind == action.kind && r.body == action.body
  {
    if useNavigation && action.kind in OperationsTabActions then Navigate(pathname + "?action=" + TypeName(action.kind))
    else StartOperation(action.kind, action.body)
  }

  /** Different operation types navigate to different URLs. */
  lemma ClickUrlsDistinct(a: NextAction, b: NextAction, pathname: string)
    requires a.kind in OperationsTabActions && b.kind in OperationsTabActions && a.kind != b.kind
    ensures ClickOn(a, true, pathname).url != ClickOn(b, true, pathname).url
  {
    var ua, ub := ClickOn(a, true, pathname).url, ClickOn(b, true, pathname).url;
    var n := |pathname + "?action="|;
    assert ua[n..] == TypeName(a.kind) && ub[n..] == TypeName(b.kind);
  }
}

=== FILE: operation_log.dfy ===
/**
 * The operation log view (`components/shared/operation-log.tsx`) as pure
 * derivations: operation events become log entries tagged with the child
 * and phase that produced them; the phase bar's statuses follow the
 * `__phaseUpdate:` records in the log; a phase tab shows its own phase's
 * entries and the pipeline's; the shown entries become display nodes
 * grouped by child label; and the question waiting for an answer is the
 * latest unanswered one. `JSON.parse` of an output line is a parameter.
 */
module OperationLog {
  import opened Wrappers
  import opened Text
  import opened Seqs
  import opened Events
  import opened StreamParser
  import opened DisplayTree

  // -------------------------------------------------------------------------
  // Events to entries
  // -------------------------------------------------------------------------

  /**
   * An entry parsed from an output event, with the event's tags: the child
   * and phase labels when truthy, the phase index when present.
   */
  function TagOutput(e: LogEntry, ev: Event): LogEntry {
    e.(childLabel := if Truthy(ev.childLabel) then ev.childLabel else e.childLabel,
       phaseIndex := if ev.phaseIndex.Some? then ev.phaseIndex else e.phaseIndex,
       phaseLabel := if Truthy(ev.phaseLabel) then ev.phaseLabel else e.phaseLabel)
  }

  function TagAll(es: seq<LogEntry>, ev: Event): (r: seq<LogEntry>)
    ensures |r| == |es|
    ensures forall k :: 0 <= k < |es| ==> r[k].body == es[k].body && r[k].parent == es[k].parent
  {
    seq(|es|, k requires 0 <= k < |es| => TagOutput(es[k], ev))
  }

  /** The entry of an error, complete or status event: the event's tags copied as they are. */
  function Tagged(b: Body, ev: Event): LogEntry {
    LogEntry(b, None, ev.childLabel, ev.phaseIndex, ev.phaseLabel)
  }

  /** The entries one event contributes; `parse` is `JSON.parse` on an output line, None when it throws. */
  function EventEntries(ev: Event, parse: string -> Option<Message>): seq<LogEntry>
  {
    match ev.kind
    case Output => TagAll(ParseStreamEvent(ev.data, parse(ev.data)), ev)
    case Error => [Tagged(ErrorEntry(ev.data), ev)]
    case Complete => [Tagged(CompleteEntry(ExitCodeOf(ev.data)), ev)]
    case Status => [Tagged(SystemEntry(ev.data, None, None, None, None, None, None), ev)]
  }

  /** The tags an entry derived from `ev` carries, as the event's tags determine them. */
  predicate CarriesTags(e: LogEntry, ev: Event) {
    if ev.kind == Output then
      && e.childLabel == (if Truthy(ev.childLabel) then ev.childLabel else None)
      && e.phaseIndex == ev.phaseIndex
      && e.phaseLabel == (if Truthy(ev.phaseLabel) then ev.phaseLabel else None)
    else
      e.childLabel == ev.childLabel && e.phaseIndex == ev.phaseIndex && e.phaseLabel == ev.phaseLabel
  }

  /**
   * Every entry of an event carries that event's tags. An output event's
   * entries are the parser's, in order, with their bodies and parents
   * untouched; an empty label on an output event tags nothing.
   */
  lemma EventEntriesTagged(ev: Event, parse: string -> Option<Message>)
    ensures forall k :: 0 <= k < |EventEntries(ev, parse)| ==> CarriesTags(EventEntries(ev, parse)[k], ev)
    ensures ev.kind == Output ==>
      var p := ParseStreamEvent(ev.data, parse(ev.data));
      forall k :: 0 <= k < |p| ==>
        EventEntries(ev, parse)[k].body == p[k].body && EventEntries(ev, parse)[k].parent == p[k].parent
  {
    if ev.kind == Output {
      var p := ParseStreamEvent(ev.data, parse(ev.data));
      var r := EventEntries(ev, parse);
      forall k | 0 <= k < |r|
        ensures CarriesTags(r[k], ev)
      {
        assert Untagged(p[k]);
        assert r[k] == TagOutput(p[k], ev);
      }
    }
  }

  /**
   * The exit code of a complete event: the code the completion signal
   * carries, and -1 when the data is not such a signal.
   */
  lemma CompleteEventExitCode(ev: Event, parse: string -> Option<Message>, code: int)
    requires ev.kind == Complete
    ensures ev.data == CompleteData(code) ==> EventEntries(ev, parse)[0].body == CompleteEntry(code)
    ensures DecodeExitCode(ev.data).None? ==> EventEntries(ev, parse)[0].body == CompleteEntry(-1)
  {
    if ev.data == CompleteData(code) {
      DecodeCompleteData(code);
    }
  }

  /** The entries of a sequence of events, event by event. */
  function Entries(events: seq<Event>, parse: string -> Option<Message>): seq<LogEntry> {
    FlatMap(events, ev => EventEntries(ev, parse))
  }

  /** Entries are derived event by event: later events only append. */
  lemma EntriesAppend(a: seq<Event>, b: seq<Event>, parse: string -> Option<Message>)
    ensures Entries(a + b, parse) == Entries(a, parse) + Entries(b, parse)
  {
    FlatMapAppend(a, b, ev => EventEntries(ev, parse));
  }

  // -------------------------------------------------------------------------
  // Live phase statuses
  // -------------------------------------------------------------------------

  /** A `__phaseUpdate:` entry: a system entry whose text starts with the marker. */
  predicate IsPhaseUpdate(e: LogEntry) {
    e.body.SystemEntry? && PhaseUpdatePrefix <= e.body.content
  }

  /** The record a phase-update entry carries, when the rest of its text reads as one. */
  function UpdateOf(e: LogEntry): (r: Option<PhaseUpdate>)
    ensures r.Some? ==> IsPhaseUpdate(e)
  {
    if IsPhaseUpdate(e) then DecodePhaseUpdate(e.body.content[|PhaseUpdatePrefix|..]) else None
  }

  /** The declared phases keyed by index; a later declaration of an index replaces an earlier one. */
  function Declared(initial: seq<PhaseInfo>): (m: map<nat, PhaseInfo>)
    ensures forall i :: i in m ==> m[i].index == i
    decreases |initial|
  {
    if initial == [] then map[]
    else Declared(initial[..|initial| - 1])[Last(initial).index := Last(initial)]
  }

  /** The map after the log's updates: a record for a declared index sets that phase's status. */
  function Applied(m: map<nat, PhaseInfo>, entries: seq<LogEntry>): (r: map<nat, PhaseInfo>)
    ensures r.Keys == m.Keys
    ensures forall i :: i in r ==> r[i].index == m[i].index && r[i].name == m[i].name
    decreases |entries|
  {
    if entries == [] then m
    else
      var r := Applied(m, entries[..|entries| - 1]);
      match UpdateOf(Last(entries))
      case Some(u) => if u.index in r then r[u.index := r[u.index].(status := u.status)] else r
      case None => r
  }

  /** One more than the largest declared index: every declared index lies below it. */
  function Bound(initial: seq<PhaseInfo>): (n: nat)
    ensures forall k :: 0 <= k < |initial| ==> initial[k].index < n
    decreases |initial|
  {
    if initial == [] then 0
    else
      var n := Bound(initial[..|initial| - 1]);
      assert forall k :: 0 <= k < |initial| - 1 ==> initial[k] == initial[..|initial| - 1][k];
      if Last(initial).index < n then n else Last(initial).index + 1
  }

  /** The map's values for the indices below `n`, in ascending order of index. */
  function Ascending(m: map<nat, PhaseInfo>, n: nat): (r: seq<PhaseInfo>)
    decreases n
  {
    if n == 0 then []
    else Ascending(m, n - 1) + if n - 1 in m then [m[n - 1]] else []
  }

  /** `livePhases`: absent without declared phases; otherwise the phase records sorted by index. */
  function LivePhases(initial: seq<PhaseInfo>, entries: seq<LogEntry>): (r: Option<seq<PhaseInfo>>)
    ensures r.None? <==> initial == []
  {
    if initial == [] then None
    else Some(Ascending(Applied(Declared(initial), entries), Bound(initial)))
  }

  // Reference definitions, read from the end of the sequences.

  /** The last declaration of phase `i`. */
  function LastDeclared(initial: seq<PhaseInfo>, i: nat): (r: Option<PhaseInfo>)
    decreases |initial|
  {
    if initial == [] then None
    else if Last(initial).index == i then Some(Last(initial))
    else LastDeclared(initial[..|initial| - 1], i)
  }

  /** The status the last readable update record for phase `i` announces. */
  function LastUpdate(entries: seq<LogEntry>, i: nat): (r: Option<PhaseStatus>)
    decreases |entries|
  {
    if entries == [] then None
    else
      var u := UpdateOf(Last(entries));
      if u.Some? && u.value.index == i then Some(u.value.status)
      else LastUpdate(entries[..|entries| - 1], i)
  }

  /** What phase `i` shows: its last declaration, with the status of its last update if there is one. */
  function Current(initial: seq<PhaseInfo>, entries: seq<LogEntry>, i: nat): (r: Option<PhaseInfo>)
  {
    match LastDeclared(initial, i)
    case None => None
    case Some(p) => Some(p.(status := LastUpdate(entries, i).GetOr(p.status)))
  }

  lemma {:induction false} DeclaredIsLast(initial: seq<PhaseInfo>)
    ensures forall i :: i in Declared(initial) ==> LastDeclared(initial, i) == Some(Declared(initial)[i])
    ensures forall i :: i !in Declared(initial) ==> LastDeclared(initial, i).None?
    decreases |initial|
  {
    if initial != [] {
      DeclaredIsLast(initial[..|initial| - 1]);
    }
  }

  lemma {:induction false} AppliedIsLast(m: map<nat, PhaseInfo>, entries: seq<LogEntry>)
    ensures forall i :: i in m ==> Applied(m, entries)[i] == m[i].(status := LastUpdate(entries, i).GetOr(m[i].status))
    decreases |entries|
  {
    if entries != [] {
      AppliedIsLast(m, entries[..|entries| - 1]);
    }
  }

  lemma {:induction false} AscendingSpec(m: map<nat, PhaseInfo>, n: nat)
    requires forall i :: i in m ==> m[i].index == i
    ensures forall a, b :: 0 <= a < b < |Ascending(m, n)| ==> Ascending(m, n)[a].index < Ascending(m, n)[b].index
    ensures forall k :: 0 <= k < |Ascending(m, n)| ==>
      var p := Ascending(m, n)[k]; p.index < n && p.index in m && m[p.index] == p
    ensures forall i :: i in m && i < n ==> m[i] in Ascending(m, n)
    decreases n
  {
    if n > 0 {
      AscendingSpec(m, n - 1);
      var r := Ascending(m, n);
      var s := Ascending(m, n - 1);
      assert forall k :: 0 <= k < |s| ==> r[k] == s[k];
      assert forall i :: i in m && i < n - 1 ==> m[i] in r;
    }
  }

  /**
   * The live phases are the declared phases, one record per declared
   * index, in ascending order of index; each shows its last declaration
   * with the status of the last readable update for its index. Updates for
   * undeclared indices and unreadable records change nothing.
   */
  lemma LivePhasesSpec(initial: seq<PhaseInfo>, entries: seq<LogEntry>)
    requires initial != []
    ensures var ps := LivePhases(initial, entries).value;
      && (forall a, b :: 0 <= a < b < |ps| ==> ps[a].index < ps[b].index)
      && (forall k :: 0 <= k < |ps| ==> Current(initial, entries, ps[k].index) == Some(ps[k]))
      && (forall k :: 0 <= k < |initial| ==>
            (Current(initial, entries, initial[k].index).Some?
             && Current(initial, entries, initial[k].index).value in ps))
  {
    var d := Declared(initial);
    var m := Applied(d, entries);
    var n := Bound(initial);
    DeclaredIsLast(initial);
    AppliedIsLast(d, entries);
    AscendingSpec(m, n);
    DeclaredKeys(initial);
  }

  lemma {:induction false} DeclaredKeys(initial: seq<PhaseInfo>)
    ensures forall k :: 0 <= k < |initial| ==> initial[k].index in Declared(initial)
    decreases |initial|
  {
    if initial != [] {
      var init := initial[..|initial| - 1];
      DeclaredKeys(init);
      assert forall k :: 0 <= k < |init| ==> initial[k] == init[k];
    }
  }

  /** The record `emitPhaseUpdate` sends, arriving as a status event, sets its phase's status. */
  lemma PhaseUpdateEventApplies(initial: seq<PhaseInfo>, entries: seq<LogEntry>, ev: Event,
                                parse: string -> Option<Message>, u: PhaseUpdate)
    requires ev.kind == Status && ev.data == PhaseUpdateMessage(u)
    requires LastDeclared(initial, u.index).Some?
    ensures var es := entries + EventEntries(ev, parse);
      Current(initial, es, u.index) == Some(LastDeclared(initial, u.index).value.(status := u.status))
  {
    var es := entries + EventEntries(ev, parse);
    DecodePhaseUpdateMessage(u);
    assert UpdateOf(Last(es)) == Some(u);
  }

  // -------------------------------------------------------------------------
  // The phase tabs
  // -------------------------------------------------------------------------

  /** What a phase tab keeps: no update records; entries of no phase or of this one. */
  predicate InPhaseTab(e: LogEntry, tab: nat) {
    !IsPhaseUpdate(e) && (e.phaseIndex.None? || e.phaseIndex == Some(tab))
  }

  /**
   * `filteredEntries`; `tab` is the selected phase, None for "All phases".
   * Without live phases nothing is filtered; a phase tab shows exactly the
   * entries of that phase and those of no phase, never an update record,
   * in their order in the log.
   */
  function FilterByPhase(entries: seq<LogEntry>, tab: Option<nat>, live: Option<seq<PhaseInfo>>): (r: seq<LogEntry>)
    ensures tab.None? || live.None? ==> r == entries
    ensures tab.Some? && live.Some? ==> forall e :: e in r ==> e in entries && InPhaseTab(e, tab.value)
    ensures tab.Some? && live.Some? ==> forall e :: e in entries && InPhaseTab(e, tab.value) ==> e in r
  {
    if tab.None? || live.None? then entries
    else Filter(entries, e => InPhaseTab(e, tab.value))
  }

  /** The entries the nodes are built from: in "All phases" with live phases, everything but the update records. */
  function CleanEntries(entries: seq<LogEntry>, tab: Option<nat>, live: Option<seq<PhaseInfo>>): (r: seq<LogEntry>)
    ensures forall e :: e in r ==> e in entries
    ensures live.Some? ==> forall e :: e in r ==> !IsPhaseUpdate(e)
    ensures live.None? ==> r == entries
  {
    if tab.None? && live.Some? then Filter(entries, e => !IsPhaseUpdate(e))
    else FilterByPhase(entries, tab, live)
  }

  /** The nodes the log shows: sub-agent sections built from the clean entries, then grouped by child label. */
  function Nodes(entries: seq<LogEntry>, tab: Option<nat>, live: Option<seq<PhaseInfo>>,
                 extract: string -> Option<string>): seq<DisplayNode>
  {
    GroupByChildLabel(BuildDisplayNodes(CleanEntries(entries, tab, live), Shared(extract)))
  }

  /** On the "All phases" tab with live phases, a log without phase-update entries is passed on whole. */
  lemma AllPhasesShowsEverything(entries: seq<LogEntry>, live: seq<PhaseInfo>)
    requires forall k :: 0 <= k < |entries| ==> !IsPhaseUpdate(entries[k])
    ensures CleanEntries(entries, None, Some(live)) == entries
  {
    FilterAll(entries, e => !IsPhaseUpdate(e));
  }

  // -------------------------------------------------------------------------
  // The pending question
  // -------------------------------------------------------------------------

  /** The ids some tool result in the log answers. */
  function AnsweredIds(entries: seq<LogEntry>): (r: set<string>)
    ensures forall id :: id in r <==> exists k :: 0 <= k < |entries| && entries[k].body.ToolResult? && entries[k].body.toolId == id
    decreases |entries|
  {
    if entries == [] then {}
    else
      var init := entries[..|entries| - 1];
      assert forall k :: 0 <= k < |init| ==> entries[k] == init[k];
      AnsweredIds(init) + if Last(entries).body.ToolResult? then {Last(entries).body.toolId} else {}
  }

  /** Entry `i` is a question no tool result answers anywhere in the log. */
  predicate Unanswered(entries: seq<LogEntry>, i: int) {
    && 0 <= i < |entries|
    && entries[i].body.Ask?
    && forall k :: 0 <= k < |entries| ==> !(entries[k].body.ToolResult? && entries[k].body.toolId == entries[i].body.toolId)
  }

  datatype PendingAsk = PendingAsk(toolId: string, questions: seq<AskQuestion>)

  /**
   * `findPendingAsk`: the latest question whose id no tool result carries,
   * anywhere in the log; None when every question is answered.
   */
  method FindPendingAsk(entries: seq<LogEntry>) returns (r: Option<PendingAsk>)
    ensures r.None? <==> forall i :: 0 <= i < |entries| ==> !Unanswered(entries, i)
    ensures r.Some? ==> exists i ::
      (&& Unanswered(entries, i)
       && r.value == PendingAsk(entries[i].body.toolId, entries[i].body.questions)
       && forall j :: i < j < |entries| ==> !Unanswered(entries, j))
  {
    var answered: set<string> := {};
    var k := 0;
    while k < |entries|
      invariant 0 <= k <= |entries|
      invariant answered == AnsweredIds(entries[..k])
    {
      assert entries[..k + 1][..k] == entries[..k];
      answered := answered + if entries[k].body.ToolResult? then {entries[k].body.toolId} else {};
      k := k + 1;
    }
    assert entries[..k] == entries;
    var i := |entries| - 1;
    while i >= 0
      invariant -1 <= i < |entries|
      invariant forall j :: i < j < |entries| ==> !Unanswered(entries, j)
    {
      var e := entries[i];
      if e.body.Ask? && e.body.toolId !in answered {
        assert Unanswered(entries, i);
        return Some(PendingAsk(e.body.toolId, e.body.questions));
      }
      i := i - 1;
    }
    return None;
  }
}

=== FILE: pipeline.dfy ===
/**
 * `startOperationPipeline`: an operation made of ordered phases, each a
 * single agent query, a group of queries run side by side, or a function
 * that may start queries of its own. The phases' results are inputs: the
 * exit code each child reported in its complete event, or what a function
 * phase returned or threw. The optional `onPhaseComplete` policy is an input
 * function.
 */
module Pipeline {
  import opened Wrappers
  import opened Text
  import opened Events

  datatype GroupChild = GroupChild(name: string, prompt: string)

  /** `PipelinePhase`; the agent options and the function body are left out. */
  datatype Phase =
    | Single(name: string, prompt: string)
    | Group(children: seq<GroupChild>)
    | Function(name: string)

  function ChildNames(cs: seq<GroupChild>): (r: seq<string>)
    ensures |r| == |cs|
    ensures forall j :: 0 <= j < |cs| ==> r[j] == cs[j].name
  {
    if cs == [] then [] else [cs[0].name] + ChildNames(cs[1..])
  }

  const GroupLabelPrefix: string := "Phase "

  /** `getPhaseLabel`: a group is labelled by its 1-based position and its children. */
  function PhaseLabel(p: Phase, index: nat): (r: string)
    ensures !p.Group? ==> r == p.name
    ensures p.Group? ==>
      r == GroupLabelPrefix + NatToString(index + 1) + ": " + Join(ChildNames(p.children), ", ")
  {
    match p
    case Single(name, _) => name
    case Function(name) => name
    case Group(children) => GroupLabelPrefix + NatToString(index + 1) + ": " + Join(ChildNames(children), ", ")
  }

  /** What `onPhaseComplete` may answer. */
  datatype Action = Continue | Skip | Abort

  /** A query started by a function phase: its label and the exit code it completed with. */
  datatype Spawn = Spawn(name: string, exitCode: int)

  /**
   * One thing a function phase does through its context, in the order it
   * does them: `emitStatus`, `emitResult`, or starting a query with
   * `runChild` or `runChildGroup`.
   */
  datatype FnStep = Said(message: string) | Reported(result: string) | Started(spawn: Spawn)

  /** What happened while a phase ran. */
  datatype Outcome =
    | SingleExit(exitCode: int)
    | GroupExits(exitCodes: seq<int>)
    | FnReturned(steps: seq<FnStep>, result: bool)
    | FnThrew(steps: seq<FnStep>, message: string)

  /** The queries a function phase started, in start order. */
  function Spawned(steps: seq<FnStep>): (r: seq<Spawn>)
    ensures |r| <= |steps|
    decreases |steps|
  {
    if steps == [] then []
    else (if steps[0].Started? then [steps[0].spawn] else []) + Spawned(steps[1..])
  }

  predicate Fits(p: Phase, o: Outcome) {
    match p
    case Single(_, _) => o.SingleExit?
    case Group(children) => o.GroupExits? && |o.exitCodes| == |children|
    case Function(_) => o.FnReturned? || o.FnThrew?
  }

  /** The value `wireChild` resolves with: `exitCode === 0`. */
  function Successes(codes: seq<int>): (r: seq<bool>)
    ensures |r| == |codes|
    ensures forall j :: 0 <= j < |codes| ==> r[j] == (codes[j] == 0)
  {
    if codes == [] then [] else [codes[0] == 0] + Successes(codes[1..])
  }

  /** `results.every(Boolean)`. */
  function Every(bs: seq<bool>): (r: bool)
    ensures r <==> forall j :: 0 <= j < |bs| ==> bs[j]
  {
    bs == [] || (bs[0] && Every(bs[1..]))
  }

  function CountTrue(bs: seq<bool>): (n: nat)
    ensures n <= |bs|
    ensures n == |bs| <==> Every(bs)
  {
    if bs == [] then 0 else (if bs[0] then 1 else 0) + CountTrue(bs[1..])
  }

  /** The phase's success flag. */
  function Verdict(o: Outcome): bool {
    match o
    case SingleExit(code) => code == 0
    case GroupExits(codes) => Every(Successes(codes))
    case FnReturned(_, result) => result
    case FnThrew(_, _) => false
  }

  /** A group phase succeeds iff every child does, so an empty group succeeds. */
  lemma GroupVerdict(codes: seq<int>)
    ensures Verdict(GroupExits(codes)) <==> forall j :: 0 <= j < |codes| ==> codes[j] == 0
    ensures codes == [] ==> Verdict(GroupExits(codes))
  {
  }

  // -------------------------------------------------------------------------
  // Operation records
  // -------------------------------------------------------------------------

  datatype OpStatus = OpRunning | OpCompleted | OpFailed
  datatype ChildStatus = ChildRunning | ChildCompleted | ChildFailed

  datatype ChildInfo = ChildInfo(id: string, name: string, status: ChildStatus)

  datatype Operation = Operation(
    id: string,
    opType: OperationType,
    workspace: string,
    status: OpStatus,
    children: seq<ChildInfo>,
    phases: seq<PhaseInfo>)

  function ChildStatusFor(success: bool): (s: ChildStatus)
    ensures s == ChildCompleted <==> success
    ensures s != ChildRunning
  {
    if success then ChildCompleted else ChildFailed
  }

  function PhaseChildId(opId: string, i: nat): string {
    opId + "-phase-" + NatToString(i)
  }

  function GroupChildId(opId: string, i: nat, j: nat): string {
    PhaseChildId(opId, i) + "-child-" + NatToString(j)
  }

  function FnChildId(opId: string, i: nat, k: nat): string {
    PhaseChildId(opId, i) + "-fn-" + NatToString(k)
  }

  function SpawnRecords(opId: string, i: nat, spawned: seq<Spawn>, from: nat): (r: seq<ChildInfo>)
    ensures |r| == |spawned|
    ensures forall k :: 0 <= k < |spawned| ==>
      r[k] == ChildInfo(FnChildId(opId, i, from + k), spawned[k].name, ChildStatusFor(spawned[k].exitCode == 0))
    decreases |spawned|
  {
    if spawned == [] then []
    else
      var head := ChildInfo(FnChildId(opId, i, from), spawned[0].name, ChildStatusFor(spawned[0].exitCode == 0));
      [head] + SpawnRecords(opId, i, spawned[1..], from + 1)
  }

  function GroupRecords(opId: string, i: nat, cs: seq<GroupChild>, codes: seq<int>): (r: seq<ChildInfo>)
    requires |codes| == |cs|
    ensures |r| == |cs|
    ensures forall j :: 0 <= j < |cs| ==>
      r[j] == ChildInfo(GroupChildId(opId, i, j), cs[j].name, ChildStatusFor(codes[j] == 0))
  {
    seq(|cs|, j requires 0 <= j < |cs| =>
      ChildInfo(GroupChildId(opId, i, j), cs[j].name, ChildStatusFor(codes[j] == 0)))
  }

  /**
   * The child records a phase pushes onto `operation.children`, with the
   * status each has once the phase is over: a query's record is completed
   * iff its complete event carried exit code 0; a function phase's own
   * record follows the function's verdict.
   */
  function PhaseRecords(opId: string, i: nat, p: Phase, o: Outcome): (r: seq<ChildInfo>)
    requires Fits(p, o)
    ensures p.Single? ==> r == [ChildInfo(PhaseChildId(opId, i), p.name, ChildStatusFor(o.exitCode == 0))]
    ensures p.Group? ==> r == GroupRecords(opId, i, p.children, o.exitCodes)
    ensures p.Function? ==>
      r == [ChildInfo(PhaseChildId(opId, i), p.name, ChildStatusFor(Verdict(o)))] + SpawnRecords(opId, i, Spawned(o.steps), 0)
  {
    match p
    case Single(name, _) => [ChildInfo(PhaseChildId(opId, i), name, ChildStatusFor(o.exitCode == 0))]
    case Group(children) => GroupRecords(opId, i, children, o.exitCodes)
    case Function(name) =>
      [ChildInfo(PhaseChildId(opId, i), name, ChildStatusFor(Verdict(o)))] + SpawnRecords(opId, i, Spawned(o.steps), 0)
  }

  // -------------------------------------------------------------------------
  // The events the loop itself emits
  // -------------------------------------------------------------------------

  /** `emitStatus` with the phase tags (and the child label `wireChild` adds). */
  function StatusEvent(opId: string, message: string, childLabel: Option<string>, i: nat, lbl: string): Event {
    Event(Status, opId, message, childLabel, Some(i), Some(lbl))
  }

  /** The status event `emitPhaseUpdate` emits. */
  function UpdateEvent(opId: string, u: PhaseUpdate): Event {
    Event(Status, opId, PhaseUpdateMessage(u), None, Some(u.index), Some(u.name))
  }

  function Ordinal(i: nat): string {
    NatToString(i + 1)
  }

  function InitEvents(opId: string, names: seq<string>, i: nat, lbl: string): (es: seq<Event>)
    ensures |es| == |names|
    ensures forall j :: 0 <= j < |names| ==> es[j] == StatusEvent(opId, "Initializing...", Some(names[j]), i, lbl)
  {
    if names == [] then []
    else [StatusEvent(opId, "Initializing...", Some(names[0]), i, lbl)] + InitEvents(opId, names[1..], i, lbl)
  }

  /** Status events emitted before a phase's children report back. */
  function StartEvents(opId: string, n: nat, i: nat, p: Phase, lbl: string): seq<Event> {
    var head := "Phase " + Ordinal(i) + "/" + NatToString(n) + ": ";
    match p
    case Single(name, _) =>
      [StatusEvent(opId, head + name, None, i, lbl), StatusEvent(opId, "Initializing...", Some(name), i, lbl)]
    case Group(children) =>
      [StatusEvent(opId, head + "parallel [" + Join(ChildNames(children), ", ") + "]", None, i, lbl)]
        + InitEvents(opId, ChildNames(children), i, lbl)
    case Function(name) =>
      [StatusEvent(opId, head + name, None, i, lbl)]
  }

  /** The `data` of the output event `emitResult` sends: a successful result message. */
  function ResultData(result: string): string {
    "{\"type\":\"result\",\"subtype\":\"success\",\"result\":" + Quote(result) + "}"
  }

  /** The event one step of a function phase emits, tagged with the phase. */
  function StepEvent(opId: string, st: FnStep, i: nat, lbl: string): Event {
    match st
    case Said(m) => StatusEvent(opId, m, None, i, lbl)
    case Reported(m) => Event(Output, opId, ResultData(m), None, Some(i), Some(lbl))
    case Started(sp) => StatusEvent(opId, "Initializing...", Some(sp.name), i, lbl)
  }

  /** The events of a function phase's steps, one per step, in order. */
  function StepEvents(opId: string, steps: seq<FnStep>, i: nat, lbl: string): (es: seq<Event>)
    ensures |es| == |steps|
    ensures forall k :: 0 <= k < |steps| ==> es[k] == StepEvent(opId, steps[k], i, lbl)
  {
    seq(|steps|, k requires 0 <= k < |steps| => StepEvent(opId, steps[k], i, lbl))
  }

  /** The child labels the events carry, in order: the `Initializing...` announcements of a function's queries. */
  function ChildLabels(es: seq<Event>): seq<string>
    decreases |es|
  {
    if es == [] then []
    else (if es[0].childLabel.Some? then [es[0].childLabel.value] else []) + ChildLabels(es[1..])
  }

  /**
   * A function phase announces every query it starts, in start order, with
   * the label its child record carries, and announces nothing else.
   */
  lemma {:induction false} StartedChildrenAnnounced(opId: string, steps: seq<FnStep>, i: nat, lbl: string)
    ensures var labels := ChildLabels(StepEvents(opId, steps, i, lbl));
      var records := SpawnRecords(opId, i, Spawned(steps), 0);
      |labels| == |records| && forall k :: 0 <= k < |records| ==> labels[k] == records[k].name
    decreases |steps|
  {
    if steps != [] {
      StartedChildrenAnnounced(opId, steps[1..], i, lbl);
      var es := StepEvents(opId, steps, i, lbl);
      assert es[1..] == StepEvents(opId, steps[1..], i, lbl);
      var sp := Spawned(steps);
      var rest := Spawned(steps[1..]);
      var labels := ChildLabels(es);
      var restLabels := ChildLabels(es[1..]);
      if steps[0].Started? {
        assert sp == [steps[0].spawn] + rest;
        assert labels == [steps[0].spawn.name] + restLabels;
        forall k | 1 <= k < |sp|
          ensures labels[k] == SpawnRecords(opId, i, sp, 0)[k].name
        {
          assert labels[k] == restLabels[k - 1];
          assert sp[k] == rest[k - 1];
        }
      } else {
        assert sp == rest;
        assert labels == restLabels;
      }
    }
  }

  /**
   * The events a phase emits after its opening status events: a function
   * phase's step events (and its error when it threw), a group's summary.
   */
  function FinishEvents(opId: string, i: nat, p: Phase, o: Outcome, lbl: string): seq<Event> {
    match o
    case GroupExits(codes) =>
      var results := Successes(codes);
      [StatusEvent(opId, "Phase " + Ordinal(i) + " group finished (" + NatToString(CountTrue(results))
        + "/" + NatToString(|results|) + " succeeded)", None, i, lbl)]
    case FnReturned(steps, _) => StepEvents(opId, steps, i, lbl)
    case FnThrew(steps, message) =>
      StepEvents(opId, steps, i, lbl) + [StatusEvent(opId, "Phase " + Ordinal(i) + " error: " + message, None, i, lbl)]
    case _ => []
  }

  /** Everything a phase emits between its `running` update and its final update. */
  function PhaseEvents(opId: string, n: nat, i: nat, p: Phase, o: Outcome, lbl: string): seq<Event> {
    StartEvents(opId, n, i, p, lbl) + FinishEvents(opId, i, p, o, lbl)
  }

  // -------------------------------------------------------------------------
  // The loop
  // -------------------------------------------------------------------------

  /** One pipeline: its id, phases, what each phase will report, and the policy. */
  datatype Plan = Plan(
    opId: string,
    phases: seq<Phase>,
    outcomes: seq<Outcome>,
    policy: Option<(nat, Phase, bool) -> Action>)

  predicate ValidPlan(plan: Plan) {
    |plan.outcomes| == |plan.phases| &&
    forall i :: 0 <= i < |plan.phases| ==> Fits(plan.phases[i], plan.outcomes[i])
  }

  function Label(plan: Plan, i: nat): string
    requires i < |plan.phases|
  {
    PhaseLabel(plan.phases[i], i)
  }

  function Ok(plan: Plan, i: nat): bool
    requires ValidPlan(plan) && i < |plan.phases|
  {
    Verdict(plan.outcomes[i])
  }

  /** What happens after phase i: the policy's answer, or `Continue` without one. */
  function ActionAfter(plan: Plan, i: nat): Action
    requires ValidPlan(plan) && i < |plan.phases|
  {
    match plan.policy
    case None => Continue
    case Some(f) => f(i, plan.phases[i], Ok(plan, i))
  }

  /** The initial records: one pending record per declared phase. */
  function InitialPhases(phases: seq<Phase>): (r: seq<PhaseInfo>)
    ensures |r| == |phases|
    ensures forall i :: 0 <= i < |phases| ==> r[i] == PhaseInfo(i, PhaseLabel(phases[i], i), Pending)
  {
    seq(|phases|, i requires 0 <= i < |phases| => PhaseInfo(i, PhaseLabel(phases[i], i), Pending))
  }

  /** The loop's state: phase records, child records, events so far, phases started. */
  datatype Progress = Progress(
    phases: seq<PhaseInfo>,
    children: seq<ChildInfo>,
    events: seq<Event>,
    ran: seq<nat>)

  function SetStatus(phases: seq<PhaseInfo>, i: nat, st: PhaseStatus): (r: seq<PhaseInfo>)
    ensures |r| == |phases|
    ensures forall j :: 0 <= j < |phases| ==>
      r[j] == if j == i then phases[j].(status := st) else phases[j]
  {
    if i < |phases| then phases[i := phases[i].(status := st)] else phases
  }

  /** `emitPhaseUpdate`: update the record if there is one, emit the update either way. */
  function Update(opId: string, pr: Progress, i: nat, lbl: string, st: PhaseStatus): (r: Progress)
    ensures r.phases == SetStatus(pr.phases, i, st)
    ensures r.events == pr.events + [UpdateEvent(opId, PhaseUpdate(i, lbl, st))]
    ensures r.children == pr.children && r.ran == pr.ran
  {
    pr.(phases := SetStatus(pr.phases, i, st),
        events := pr.events + [UpdateEvent(opId, PhaseUpdate(i, lbl, st))])
  }

  function Note(opId: string, pr: Progress, message: string, i: nat, lbl: string): Progress {
    pr.(events := pr.events + [StatusEvent(opId, message, None, i, lbl)])
  }

  /** Phase i runs: marked running, its children run, marked by its verdict. */
  function RunPhase(plan: Plan, i: nat, pr: Progress): (r: Progress)
    requires ValidPlan(plan) && i < |plan.phases|
    ensures r.ran == pr.ran + [i]
    ensures r.phases == SetStatus(pr.phases, i, if Ok(plan, i) then Completed else Failed)
  {
    var p := plan.phases[i];
    var o := plan.outcomes[i];
    var lbl := Label(plan, i);
    var pr1 := Update(plan.opId, pr, i, lbl, Running);
    var pr2 := pr1.(
      children := pr1.children + PhaseRecords(plan.opId, i, p, o),
      events := pr1.events + PhaseEvents(plan.opId, |plan.phases|, i, p, o, lbl),
      ran := pr1.ran + [i]);
    var r := Update(plan.opId, pr2, i, lbl, if Ok(plan, i) then Completed else Failed);
    assert r.phases == SetStatus(pr.phases, i, if Ok(plan, i) then Completed else Failed) by {
      forall j | 0 <= j < |pr.phases|
        ensures r.phases[j] == SetStatus(pr.phases, i, if Ok(plan, i) then Completed else Failed)[j]
      {
      }
    }
    r
  }

  /**
   * The events a phase adds open with its `running` update and close with
   * its `completed` or `failed` update; in between come only status events
   * tagged with the phase.
   */
  lemma PhaseUpdatesBracket(plan: Plan, i: nat, pr: Progress)
    requires ValidPlan(plan) && i < |plan.phases|
    ensures pr.events <= RunPhase(plan, i, pr).events
    ensures var added := RunPhase(plan, i, pr).events[|pr.events|..];
      && |added| >= 2
      && added[0] == UpdateEvent(plan.opId, PhaseUpdate(i, Label(plan, i), Running))
      && added[|added| - 1] == UpdateEvent(plan.opId, PhaseUpdate(i, Label(plan, i), if Ok(plan, i) then Completed else Failed))
      && forall k :: 0 < k < |added| - 1 ==> (added[k].kind == Status || added[k].kind == Output) && added[k].phaseIndex == Some(i)
  {
    var p, o, lbl := plan.phases[i], plan.outcomes[i], Label(plan, i);
    PhaseEventsTagged(plan.opId, |plan.phases|, i, p, o, lbl);
    RunPhaseEvents(plan, i, pr);
    Bracketed(RunPhase(plan, i, pr).events, pr.events,
      UpdateEvent(plan.opId, PhaseUpdate(i, lbl, Running)),
      PhaseEvents(plan.opId, |plan.phases|, i, p, o, lbl),
      UpdateEvent(plan.opId, PhaseUpdate(i, lbl, if Ok(plan, i) then Completed else Failed)), i);
  }

  lemma Bracketed(all: seq<Event>, prior: seq<Event>, first: Event, mid: seq<Event>, last: Event, i: nat)
    requires all == prior + [first] + mid + [last]
    requires forall k :: 0 <= k < |mid| ==> (mid[k].kind == Status || mid[k].kind == Output) && mid[k].phaseIndex == Some(i)
    ensures prior <= all
    ensures var added := all[|prior|..];
      && |added| >= 2 && added[0] == first && added[|added| - 1] == last
      && forall k :: 0 < k < |added| - 1 ==> (added[k].kind == Status || added[k].kind == Output) && added[k].phaseIndex == Some(i)
  {
    assert all[|prior|..] == [first] + mid + [last];
  }

  lemma RunPhaseEvents(plan: Plan, i: nat, pr: Progress)
    requires ValidPlan(plan) && i < |plan.phases|
    ensures var p, o, lbl := plan.phases[i], plan.outcomes[i], Label(plan, i);
      RunPhase(plan, i, pr).events
      == pr.events + [UpdateEvent(plan.opId, PhaseUpdate(i, lbl, Running))]
        + (PhaseEvents(plan.opId, |plan.phases|, i, p, o, lbl))
        + [UpdateEvent(plan.opId, PhaseUpdate(i, lbl, if Ok(plan, i) then Completed else Failed))]
  {
  }

  /** The status events a phase emits between its two updates all carry the phase's index. */
  lemma PhaseEventsTagged(opId: string, n: nat, i: nat, p: Phase, o: Outcome, lbl: string)
    ensures var mid := PhaseEvents(opId, n, i, p, o, lbl);
      forall k :: 0 <= k < |mid| ==> (mid[k].kind == Status || mid[k].kind == Output) && mid[k].phaseIndex == Some(i)
  {
    var a, b := StartEvents(opId, n, i, p, lbl), FinishEvents(opId, i, p, o, lbl);
    StartTagged(opId, n, i, p, lbl);
    FinishTagged(opId, i, p, o, lbl);
    assert PhaseEvents(opId, n, i, p, o, lbl) == a + b;
  }

  /** Every event of `es` is a status or output event tagged with phase i. */
  predicate AllTagged(es: seq<Event>, i: nat) {
    forall k :: 0 <= k < |es| ==> (es[k].kind == Status || es[k].kind == Output) && es[k].phaseIndex == Some(i)
  }

  lemma StartTagged(opId: string, n: nat, i: nat, p: Phase, lbl: string)
    ensures AllTagged(StartEvents(opId, n, i, p, lbl), i)
  {
  }

  lemma FinishTagged(opId: string, i: nat, p: Phase, o: Outcome, lbl: string)
    ensures AllTagged(FinishEvents(opId, i, p, o, lbl), i)
  {
  }

  /** Where the loop goes after phase k when it moves on. */
  function NextPhase(plan: Plan, k: nat): nat
    requires ValidPlan(plan) && k < |plan.phases|
  {
    if ActionAfter(plan, k) == Skip then k + 2 else k + 1
  }

  /** After phase k the loop moves on (rather than stopping). */
  predicate Advances(plan: Plan, k: nat)
    requires ValidPlan(plan) && k < |plan.phases|
  {
    ActionAfter(plan, k) == Skip || (ActionAfter(plan, k) == Continue && Ok(plan, k))
  }

  /**
   * One iteration of the `for` loop: phase i runs, then the policy's answer
   * is acted on. Returns the progress and the phase the loop goes on to, or
   * None when the pipeline stops as failed. After `skip` the next phase is
   * marked skipped and jumped over, and the failure check is bypassed.
   */
  function Step(plan: Plan, i: nat, pr: Progress): (r: (Progress, Option<nat>))
    requires ValidPlan(plan) && i < |plan.phases|
    ensures r.0.ran == pr.ran + [i]
    ensures r.0.children == pr.children + PhaseRecords(plan.opId, i, plan.phases[i], plan.outcomes[i])
    ensures r.1 == if Advances(plan, i) then Some(NextPhase(plan, i)) else None
    ensures |r.0.phases| == |pr.phases|
    ensures forall j :: 0 <= j < |pr.phases| ==>
      r.0.phases[j].index == pr.phases[j].index && r.0.phases[j].name == pr.phases[j].name
    ensures forall j :: 0 <= j < |pr.phases| ==>
      r.0.phases[j].status ==
        if j == i then (if Ok(plan, i) then Completed else Failed)
        else if j == i + 1 && ActionAfter(plan, i) == Skip then Skipped
        else pr.phases[j].status
  {
    var lbl := Label(plan, i);
    var pr3 := RunPhase(plan, i, pr);
    match ActionAfter(plan, i)
    case Abort =>
      (Note(plan.opId, pr3, "Pipeline aborted after phase " + Ordinal(i), i, lbl), None)
    case Skip =>
      var next := if i + 1 < |plan.phases| then Label(plan, i + 1) else "";
      (Note(plan.opId, Update(plan.opId, pr3, i + 1, next, Skipped),
            "Skipping phase " + Ordinal(i + 1), i, lbl), Some(i + 2))
    case Continue =>
      if !Ok(plan, i) then
        (Note(plan.opId, pr3, "Phase " + Ordinal(i) + " failed, aborting pipeline", i, lbl), None)
      else (pr3, Some(i + 1))
  }

  /** The `for` loop from phase i on; returns the final progress and `pipelineSuccess`. */
  function RunFrom(plan: Plan, i: nat, pr: Progress): (r: (Progress, bool))
    requires ValidPlan(plan) && i <= |plan.phases| + 1
    ensures |r.0.phases| == |pr.phases|
    ensures forall j :: 0 <= j < |pr.phases| ==>
      r.0.phases[j].index == pr.phases[j].index && r.0.phases[j].name == pr.phases[j].name
    ensures pr.ran <= r.0.ran
    ensures forall k :: |pr.ran| <= k < |r.0.ran| ==> i <= r.0.ran[k] < |plan.phases|
    decreases |plan.phases| + 1 - i
  {
    if i >= |plan.phases| then (pr, true)
    else
      var (next, to) := Step(plan, i, pr);
      if to.None? then (next, false) else RunFrom(plan, to.value, next)
  }

  /** The first event: `Starting pipeline with n phases`, with no tags. */
  function StartingEvent(opId: string, n: nat): Event {
    Event(Status, opId, "Starting pipeline with " + NatToString(n) + " phases", None, None, None)
  }

  /** The complete event `markComplete` emits: no child or phase tags. */
  function MarkCompleteEvent(opId: string, success: bool): Event {
    Event(Complete, opId, CompleteData(if success then 0 else 1), None, None, None)
  }

  /** What `startOperationPipeline` returns at once: a running operation. */
  function Start(opId: string, opType: OperationType, workspace: string, phases: seq<Phase>): Operation {
    Operation(opId, opType, workspace, OpRunning, [], InitialPhases(phases))
  }

  /** The operation once the background loop has finished, with every event the loop emitted. */
  function Finish(plan: Plan, opType: OperationType, workspace: string): (r: (Operation, seq<Event>))
    requires ValidPlan(plan)
  {
    var pr0 := Progress(InitialPhases(plan.phases), [], [StartingEvent(plan.opId, |plan.phases|)], []);
    var (pr, success) := RunFrom(plan, 0, pr0);
    (Operation(plan.opId, opType, workspace, if success then OpCompleted else OpFailed, pr.children, pr.phases),
     pr.events + [MarkCompleteEvent(plan.opId, success)])
  }

  /** The phases that ran, in order (the `ran` part of the loop's progress). */
  function Ran(plan: Plan): seq<nat>
    requires ValidPlan(plan)
  {
    RunFrom(plan, 0, Progress(InitialPhases(plan.phases), [], [StartingEvent(plan.opId, |plan.phases|)], [])).0.ran
  }

  /** A new pipeline operation is running, with one pending record per declared phase. */
  lemma StartRecords(opId: string, opType: OperationType, workspace: string, phases: seq<Phase>)
    ensures var op := Start(opId, opType, workspace, phases);
      && op.status == OpRunning
      && op.children == []
      && |op.phases| == |phases|
      && forall i :: 0 <= i < |phases| ==>
           op.phases[i].index == i && op.phases[i].status == Pending &&
           op.phases[i].name == PhaseLabel(phases[i], i)
  {
  }

  /** The final event is the complete event, exit code 0 exactly when the operation completed. */
  lemma FinishEvent(plan: Plan, opType: OperationType, workspace: string)
    requires ValidPlan(plan)
    ensures var (op, events) := Finish(plan, opType, workspace);
      && op.status != OpRunning
      && |events| > 0
      && events[|events| - 1].kind == Complete
      && events[|events| - 1].childLabel.None?
      && events[|events| - 1].phaseIndex.None?
      && ExitCodeOf(events[|events| - 1].data) == (if op.status == OpCompleted then 0 else 1)
  {
    var (op, events) := Finish(plan, opType, workspace);
    DecodeCompleteData(if op.status == OpCompleted then 0 else 1);
  }

  // -------------------------------------------------------------------------
  // Which phases run
  // -------------------------------------------------------------------------

  /**
   * The rules the started phases follow from phase i on: the first is i, each
   * next one is where the previous moved on to, the loop stops after a phase
   * that does not move on or when it runs past the last phase, and the
   * pipeline succeeds iff it ran past the end.
   */
  predicate Follows(plan: Plan, i: nat, ran: seq<nat>, success: bool)
    requires ValidPlan(plan)
  {
    var n := |plan.phases|;
    && (ran == [] <==> i >= n)
    && (ran == [] ==> success)
    && (forall k :: 0 <= k < |ran| ==> ran[k] < n)
    && (ran != [] ==> ran[0] == i)
    && (forall k :: 0 <= k < |ran| - 1 ==>
          Advances(plan, ran[k]) && ran[k + 1] == NextPhase(plan, ran[k]))
    && (ran != [] ==>
          var last := ran[|ran| - 1];
          (success <==> Advances(plan, last)) &&
          (Advances(plan, last) ==> NextPhase(plan, last) >= n))
  }

  /** The loop unrolled by one iteration. */
  lemma RunFromStep(plan: Plan, i: nat, pr: Progress)
    requires ValidPlan(plan) && i < |plan.phases|
    ensures Step(plan, i, pr).1.None? ==> RunFrom(plan, i, pr) == (Step(plan, i, pr).0, false)
    ensures Step(plan, i, pr).1.Some? ==>
      RunFrom(plan, i, pr) == RunFrom(plan, Step(plan, i, pr).1.value, Step(plan, i, pr).0)
  {
  }

  function RanSince(plan: Plan, i: nat, pr: Progress): seq<nat>
    requires ValidPlan(plan) && i <= |plan.phases| + 1
  {
    RunFrom(plan, i, pr).0.ran[|pr.ran|..]
  }

  lemma {:induction false} RunFromFollows(plan: Plan, i: nat, pr: Progress)
    requires ValidPlan(plan) && i <= |plan.phases| + 1
    ensures Follows(plan, i, RanSince(plan, i, pr), RunFrom(plan, i, pr).1)
    decreases |plan.phases| + 1 - i
  {
    if i < |plan.phases| {
      var st := Step(plan, i, pr);
      RunFromStep(plan, i, pr);
      if st.1.Some? {
        RunFromFollows(plan, st.1.value, st.0);
        RanSinceStep(plan, i, pr);
        FollowsCons(plan, i, RanSince(plan, st.1.value, st.0), RunFrom(plan, i, pr).1);
      } else {
        RanSinceStep(plan, i, pr);
      }
    } else {
      assert RanSince(plan, i, pr) == [];
    }
  }

  lemma PrefixSlice(prior: seq<nat>, i: nat, whole: seq<nat>)
    requires prior + [i] <= whole
    ensures whole[|prior|..] == [i] + whole[|prior| + 1..]
  {
    assert whole[|prior|] == i;
  }

  /** What one iteration contributes to the started phases. */
  lemma RanSinceStep(plan: Plan, i: nat, pr: Progress)
    requires ValidPlan(plan) && i < |plan.phases|
    ensures Step(plan, i, pr).1.None? ==> RanSince(plan, i, pr) == [i]
    ensures Step(plan, i, pr).1.Some? ==>
      RanSince(plan, i, pr) == [i] + RanSince(plan, Step(plan, i, pr).1.value, Step(plan, i, pr).0)
  {
    var st := Step(plan, i, pr);
    RunFromStep(plan, i, pr);
    if st.1.Some? {
      var whole := RunFrom(plan, st.1.value, st.0).0.ran;
      assert st.0.ran == pr.ran + [i];
      PrefixSlice(pr.ran, i, whole);
    } else {
      assert RunFrom(plan, i, pr).0.ran == pr.ran + [i];
    }
  }

  lemma FollowsCons(plan: Plan, i: nat, rest: seq<nat>, success: bool)
    requires ValidPlan(plan) && i < |plan.phases| && Advances(plan, i)
    requires Follows(plan, NextPhase(plan, i), rest, success)
    ensures Follows(plan, i, [i] + rest, success)
  {
  }

  /** Started phases come strictly in declaration order. */
  lemma FollowsIncreasing(plan: Plan, i: nat, ran: seq<nat>, success: bool)
    requires ValidPlan(plan) && Follows(plan, i, ran, success)
    ensures forall a, b :: 0 <= a < b < |ran| ==> ran[a] < ran[b]
  {
    forall a, b | 0 <= a < b < |ran|
      ensures ran[a] < ran[b]
    {
      var c := a;
      while c < b
        invariant a <= c <= b
        invariant ran[a] <= ran[c]
        invariant c > a ==> ran[a] < ran[c]
      {
        assert ran[c + 1] == NextPhase(plan, ran[c]);
        c := c + 1;
      }
    }
  }

  /** The pipeline succeeds iff every phase it started moved the loop on. */
  lemma FollowsSuccess(plan: Plan, i: nat, ran: seq<nat>, success: bool)
    requires ValidPlan(plan) && Follows(plan, i, ran, success)
    ensures success <==> forall k :: 0 <= k < |ran| ==> Advances(plan, ran[k])
  {
  }

  /** An `abort` answer fails the pipeline even after a successful phase. */
  lemma AbortFails(plan: Plan)
    requires ValidPlan(plan)
    requires exists k :: 0 <= k < |Ran(plan)| && ActionAfter(plan, Ran(plan)[k]) == Abort
    ensures var (op, _) := Finish(plan, Init, ""); op.status == OpFailed
  {
    var pr0 := Progress(InitialPhases(plan.phases), [], [StartingEvent(plan.opId, |plan.phases|)], []);
    RunFromFollows(plan, 0, pr0);
    assert RanSince(plan, 0, pr0) == Ran(plan);
    FollowsSuccess(plan, 0, Ran(plan), RunFrom(plan, 0, pr0).1);
  }

  // -------------------------------------------------------------------------
  // The final phase records
  // -------------------------------------------------------------------------

  /**
   * A phase that ran is completed or failed by its verdict; a phase jumped
   * over by `skip` is skipped; any other keeps the status it had.
   */
  function StatusAfter(plan: Plan, ran: seq<nat>, j: nat, before: PhaseStatus): PhaseStatus
    requires ValidPlan(plan)
    requires forall k :: 0 <= k < |ran| ==> ran[k] < |plan.phases|
  {
    if j in ran then (if Ok(plan, j) then Completed else Failed)
    else if j >= 1 && j - 1 in ran && ActionAfter(plan, j - 1) == Skip then Skipped
    else before
  }

  lemma {:induction false} RunFromRecords(plan: Plan, i: nat, pr: Progress)
    requires ValidPlan(plan) && i <= |plan.phases| + 1
    requires |pr.phases| == |plan.phases|
    ensures forall k :: 0 <= k < |RanSince(plan, i, pr)| ==> i <= RanSince(plan, i, pr)[k] < |plan.phases|
    ensures forall j :: 0 <= j < |pr.phases| ==>
      RunFrom(plan, i, pr).0.phases[j].status == StatusAfter(plan, RanSince(plan, i, pr), j, pr.phases[j].status)
    decreases |plan.phases| + 1 - i
  {
    if i < |plan.phases| {
      var st := Step(plan, i, pr);
      RunFromStep(plan, i, pr);
      RanSinceStep(plan, i, pr);
      if st.1.Some? {
        RunFromRecords(plan, st.1.value, st.0);
        StatusAfterCons(plan, i, RanSince(plan, st.1.value, st.0), pr.phases, st.0.phases,
                        RunFrom(plan, i, pr).0.phases);
      }
    } else {
      assert RanSince(plan, i, pr) == [];
    }
  }

  /** How one iteration's records combine with the records of the rest of the loop. */
  lemma StatusAfterCons(plan: Plan, i: nat, rest: seq<nat>, before: seq<PhaseInfo>,
                        mid: seq<PhaseInfo>, after: seq<PhaseInfo>)
    requires ValidPlan(plan) && i < |plan.phases| && Advances(plan, i)
    requires forall k :: 0 <= k < |rest| ==> NextPhase(plan, i) <= rest[k] < |plan.phases|
    requires |before| == |mid| == |after|
    requires forall j :: 0 <= j < |before| ==>
      mid[j].status ==
        if j == i then (if Ok(plan, i) then Completed else Failed)
        else if j == i + 1 && ActionAfter(plan, i) == Skip then Skipped
        else before[j].status
    requires forall j :: 0 <= j < |mid| ==> after[j].status == StatusAfter(plan, rest, j, mid[j].status)
    ensures forall j :: 0 <= j < |before| ==> after[j].status == StatusAfter(plan, [i] + rest, j, before[j].status)
  {
    forall j | 0 <= j < |before|
      ensures after[j].status == StatusAfter(plan, [i] + rest, j, before[j].status)
    {
      if j == i || (j == i + 1 && ActionAfter(plan, i) == Skip) {
        assert j !in rest && (j < 1 || j - 1 !in rest);
      }
    }
  }

  /**
   * The records of a finished pipeline: ran phases by verdict, phases jumped
   * over by `skip` skipped, the rest still pending. In particular skipping
   * after the last phase changes no record.
   */
  lemma FinalRecords(plan: Plan, opType: OperationType, workspace: string)
    requires ValidPlan(plan)
    ensures var (op, _) := Finish(plan, opType, workspace);
      && |op.phases| == |plan.phases|
      && forall j :: 0 <= j < |plan.phases| ==>
           op.phases[j] == PhaseInfo(j, Label(plan, j), StatusAfter(plan, Ran(plan), j, Pending))
  {
    var pr0 := Progress(InitialPhases(plan.phases), [], [StartingEvent(plan.opId, |plan.phases|)], []);
    RunFromRecords(plan, 0, pr0);
    assert RanSince(plan, 0, pr0) == Ran(plan);
  }

  // -------------------------------------------------------------------------
  // Without a policy
  // -------------------------------------------------------------------------

  /** The first failing phase at or after i, or the phase count. */
  function FirstFailure(plan: Plan, i: nat): (f: nat)
    requires ValidPlan(plan)
    ensures i <= f || (f == |plan.phases| && i > f)
    ensures f <= |plan.phases| || f == i
    ensures f < |plan.phases| ==> !Ok(plan, f)
    ensures forall k :: i <= k < f && k < |plan.phases| ==> Ok(plan, k)
    decreases |plan.phases| - i
  {
    if i >= |plan.phases| then |plan.phases|
    else if !Ok(plan, i) then i
    else FirstFailure(plan, i + 1)
  }

  function Range(lo: nat, hi: nat): (r: seq<nat>)
    ensures |r| == if lo <= hi then hi - lo else 0
    ensures forall k :: 0 <= k < |r| ==> r[k] == lo + k
    decreases hi - lo
  {
    if lo >= hi then [] else [lo] + Range(lo + 1, hi)
  }

  /** Without a policy the phases run one after another up to the first failure. */
  lemma FollowsNoPolicy(plan: Plan, ran: seq<nat>, success: bool)
    requires ValidPlan(plan) && plan.policy.None? && Follows(plan, 0, ran, success)
    ensures var f := FirstFailure(plan, 0);
      && ran == Range(0, if f < |plan.phases| then f + 1 else f)
      && (success <==> f == |plan.phases|)
  {
    var n := |plan.phases|;
    var f := FirstFailure(plan, 0);
    var c := 0;
    while c < |ran|
      invariant c <= |ran|
      invariant forall k :: 0 <= k < c ==> ran[k] == k
    {
      if c > 0 {
        assert ran[c] == NextPhase(plan, ran[c - 1]);
      }
      c := c + 1;
    }
    forall k | 0 <= k < |ran| - 1
      ensures Ok(plan, k)
    {
      assert Advances(plan, ran[k]);
    }
    if ran != [] {
      var last := |ran| - 1;
      assert ran[last] == last;
      if success {
        assert last + 1 >= n;
        assert f == n;
      } else {
        assert !Ok(plan, last);
        assert f == last;
      }
    }
  }

  /**
   * With no policy the loop runs phases 0, 1, ... up to and including the
   * first failure, whose record is failed; everything after it stays
   * pending; the operation completes iff no phase failed.
   */
  lemma NoPolicy(plan: Plan, opType: OperationType, workspace: string)
    requires ValidPlan(plan) && plan.policy.None?
    ensures var f := FirstFailure(plan, 0);
      var (op, _) := Finish(plan, opType, workspace);
      && Ran(plan) == Range(0, if f < |plan.phases| then f + 1 else f)
      && (op.status == OpCompleted <==> f == |plan.phases|)
      && (op.status == OpFailed <==> f < |plan.phases|)
      && forall j :: 0 <= j < |plan.phases| ==>
           op.phases[j].status == (if j < f then Completed else if j == f then Failed else Pending)
  {
    var pr0 := Progress(InitialPhases(plan.phases), [], [StartingEvent(plan.opId, |plan.phases|)], []);
    RunFromFollows(plan, 0, pr0);
    assert RanSince(plan, 0, pr0) == Ran(plan);
    FollowsNoPolicy(plan, Ran(plan), RunFrom(plan, 0, pr0).1);
    FinalRecords(plan, opType, workspace);
    NoPolicyStatuses(plan, Ran(plan));
  }

  lemma NoPolicyStatuses(plan: Plan, ran: seq<nat>)
    requires ValidPlan(plan) && plan.policy.None?
    requires var f := FirstFailure(plan, 0); ran == Range(0, if f < |plan.phases| then f + 1 else f)
    ensures forall k :: 0 <= k < |ran| ==> ran[k] < |plan.phases|
    ensures var f := FirstFailure(plan, 0);
      forall j :: 0 <= j < |plan.phases| ==>
        StatusAfter(plan, ran, j, Pending) == (if j < f then Completed else if j == f then Failed else Pending)
  {
    var f := FirstFailure(plan, 0);
    forall j | 0 <= j < |plan.phases|
      ensures StatusAfter(plan, ran, j, Pending) == (if j < f then Completed else if j == f then Failed else Pending)
    {
      if j <= f && j < |plan.phases| {
        assert ran[j] == j;
      } else {
        assert j !in ran;
      }
    }
  }

  // -------------------------------------------------------------------------
  // Child records
  // -------------------------------------------------------------------------

  /** The child records of the given phases, in phase order. */
  function RecordsOf(plan: Plan, ran: seq<nat>): seq<ChildInfo>
    requires ValidPlan(plan)
    requires forall k :: 0 <= k < |ran| ==> ran[k] < |plan.phases|
  {
    if ran == [] then []
    else PhaseRecords(plan.opId, ran[0], plan.phases[ran[0]], plan.outcomes[ran[0]]) + RecordsOf(plan, ran[1..])
  }

  lemma Chain<T>(all: seq<T>, base: seq<T>, own: seq<T>, later: seq<T>, mid: seq<T>, combined: seq<T>)
    requires all == mid + later && mid == base + own && combined == own + later
    ensures all == base + combined
  {
  }

  lemma RecordsOfCons(plan: Plan, i: nat, rest: seq<nat>)
    requires ValidPlan(plan) && i < |plan.phases|
    requires forall k :: 0 <= k < |rest| ==> rest[k] < |plan.phases|
    ensures RecordsOf(plan, [i] + rest) == PhaseRecords(plan.opId, i, plan.phases[i], plan.outcomes[i]) + RecordsOf(plan, rest)
  {
    assert ([i] + rest)[1..] == rest;
  }

  lemma {:induction false} RunFromChildren(plan: Plan, i: nat, pr: Progress)
    requires ValidPlan(plan) && i <= |plan.phases| + 1
    ensures forall k :: 0 <= k < |RanSince(plan, i, pr)| ==> RanSince(plan, i, pr)[k] < |plan.phases|
    ensures RunFrom(plan, i, pr).0.children == pr.children + RecordsOf(plan, RanSince(plan, i, pr))
    decreases |plan.phases| + 1 - i
  {
    if i < |plan.phases| {
      var st := Step(plan, i, pr);
      RunFromStep(plan, i, pr);
      RanSinceStep(plan, i, pr);
      var own := PhaseRecords(plan.opId, i, plan.phases[i], plan.outcomes[i]);
      if st.1.Some? {
        var rest := RanSince(plan, st.1.value, st.0);
        RunFromChildren(plan, st.1.value, st.0);
        RecordsOfCons(plan, i, rest);
        Chain(RunFrom(plan, i, pr).0.children, pr.children, own, RecordsOf(plan, rest), st.0.children,
              RecordsOf(plan, [i] + rest));
      } else {
        RecordsOfCons(plan, i, []);
        Chain(RunFrom(plan, i, pr).0.children, pr.children, own, [], st.0.children, RecordsOf(plan, [i]));
      }
    } else {
      assert RanSince(plan, i, pr) == [];
    }
  }

  /** The finished operation's children: each started phase's records, in the order the phases ran. */
  lemma FinalChildren(plan: Plan, opType: OperationType, workspace: string)
    requires ValidPlan(plan)
    ensures forall k :: 0 <= k < |Ran(plan)| ==> Ran(plan)[k] < |plan.phases|
    ensures Finish(plan, opType, workspace).0.children == RecordsOf(plan, Ran(plan))
  {
    var pr0 := Progress(InitialPhases(plan.phases), [], [StartingEvent(plan.opId, |plan.phases|)], []);
    RunFromChildren(plan, 0, pr0);
    assert RanSince(plan, 0, pr0) == Ran(plan);
  }
}

=== FILE: readme_parser.dfy ===
/**
 * Workspace README metadata: the title line, the three bold labels and the
 * repository list, each regular expression written out as a leftmost
 * search with its backtracking decided by hand.
 */
module ReadmeParser {
  import opened Wrappers
  import opened Text

  datatype RepoRef = RepoRef(alias: string, path: string, baseBranch: string)

  datatype WorkspaceMeta = WorkspaceMeta(
    title: string,
    taskType: string,
    ticketId: string,
    date: string,
    repositories: seq<RepoRef>)

  const TaskLabel := "Task:"
  const TaskTypeLabel := "**Task Type**:"
  const TicketIdLabel := "**Ticket ID**:"
  const DateLabel := "**Date**:"

  // -------------------------------------------------------------------------
  // /^#\s+Task:\s+(.+)$/m
  // -------------------------------------------------------------------------

  /** `^` under the `m` flag. */
  predicate LineStart(s: string, p: nat)
    requires p <= |s|
  {
    p == 0 || IsLineTerminator(s[p - 1])
  }

  /** The greatest k with lo <= k < hi whose character `.` accepts. */
  function LastNonTerminator(s: string, lo: nat, hi: nat): (r: Option<nat>)
    requires hi <= |s|
    ensures r.Some? ==> lo <= r.value < hi && !IsLineTerminator(s[r.value])
    ensures r.Some? ==> forall k :: r.value < k < hi ==> IsLineTerminator(s[k])
    ensures r.None? ==> forall k :: lo <= k < hi ==> IsLineTerminator(s[k])
    decreases hi
  {
    if hi <= lo then None
    else if !IsLineTerminator(s[hi - 1]) then Some(hi - 1)
    else LastNonTerminator(s, lo, hi - 1)
  }

  /**
   * `\s+(.+)$` on the text after `Task:`. The whitespace run u[..w] is taken
   * whole and then given back until `.+` can start: right after the run
   * when a non-space character follows it (a non-space is never a line
   * terminator), otherwise, when the run reaches the end of the text, at its
   * last character that is not a terminator. `.+` then runs to the end of
   * that line, where `$` holds.
   */
  function TitleText(u: string): (r: Option<string>)
    ensures r.Some? ==> |r.value| > 0
    ensures r.Some? ==> forall k :: 0 <= k < |r.value| ==> !IsLineTerminator(r.value[k])
  {
    var w := RunLength(u, 0, IsSpace);
    if w == 0 then None
    else
      match LastNonTerminator(u, 1, if w < |u| then w + 1 else |u|)
      case None => None
      case Some(j) => Some(UpToLineEnd(u[j..]))
  }

  /**
   * `\s+Task:\s+(.+)$` on the text after the `#`. A letter ends any
   * whitespace run, so the first run is taken whole.
   */
  function TaskTitle(t: string): (r: Option<string>)
    ensures r.Some? ==> |r.value| > 0
    ensures r.Some? ==> forall k :: 0 <= k < |r.value| ==> !IsLineTerminator(r.value[k])
  {
    var a := RunLength(t, 0, IsSpace);
    if a == 0 || !(TaskLabel <= t[a..]) then None
    else TitleText(t[a + |TaskLabel|..])
  }

  /** The title captured by a match that starts at p, if any. */
  function TitleAt(s: string, p: nat): (r: Option<string>)
    requires p <= |s|
    ensures r.Some? ==> |r.value| > 0
    ensures r.Some? ==> forall k :: 0 <= k < |r.value| ==> !IsLineTerminator(r.value[k])
    ensures r.Some? ==> LineStart(s, p) && p < |s| && s[p] == '#'
  {
    if LineStart(s, p) && p < |s| && s[p] == '#' then TaskTitle(s[p + 1..]) else None
  }

  /** Whether the title pattern matches at position q. */
  function TitleMatches(s: string): nat -> bool {
    (q: nat) => q <= |s| && TitleAt(s, q).Some?
  }

  /** `content.match(/^#\s+Task:\s+(.+)$/m)?.[1]`: the match at the leftmost position. */
  function Title(s: string): (r: Option<string>)
    ensures r.Some? ==> |r.value| > 0
    ensures r.Some? ==> forall k :: 0 <= k < |r.value| ==> !IsLineTerminator(r.value[k])
    ensures r.Some? ==> exists q :: 0 <= q <= |s| && TitleAt(s, q) == r && forall p :: 0 <= p < q ==> TitleAt(s, p).None?
    ensures r.None? <==> forall q :: 0 <= q <= |s| ==> TitleAt(s, q).None?
  {
    match FindFirst(0, |s|, TitleMatches(s))
    case None =>
      assert forall q :: 0 <= q <= |s| ==> !TitleMatches(s)(q);
      assert forall q :: 0 <= q <= |s| ==> TitleAt(s, q).None? by {
        forall q | 0 <= q <= |s| ensures TitleAt(s, q).None? {
          assert !TitleMatches(s)(q);
        }
      }
      None
    case Some(q) =>
      assert forall p :: 0 <= p < q ==> TitleAt(s, p).None? by {
        forall p | 0 <= p < q ensures TitleAt(s, p).None? {
          assert !TitleMatches(s)(p);
        }
      }
      TitleAt(s, q)
  }

  /** After `Task:`, one space and a line that starts with a non-space character. */
  lemma TitleTextOf(d: string, rest: string)
    requires |d| > 0 && !IsSpace(d[0])
    requires forall k :: 0 <= k < |d| ==> !IsLineTerminator(d[k])
    requires rest == [] || IsLineTerminator(rest[0])
    ensures TitleText(" " + (d + rest)) == Some(d)
  {
    var u := " " + (d + rest);
    RunLengthOf(u, 0, " ", IsSpace);
    assert u[1..] == d + rest;
    UpToLineEndOf(d, rest);
  }

  /** After the `#`, one space, the label and the title text. */
  lemma TaskTitleOf(u: string)
    ensures TaskTitle(" " + (TaskLabel + u)) == TitleText(u)
  {
    var t := " " + (TaskLabel + u);
    RunLengthOf(t, 0, " ", IsSpace);
    assert t[1..] == TaskLabel + u;
    assert t[1..][|TaskLabel|..] == u;
  }

  /**
   * A document whose first line is `# Task: d` has title d, when d starts
   * with a non-space character and stays on one line.
   */
  lemma TitleOfFirstLine(d: string, rest: string)
    requires |d| > 0 && !IsSpace(d[0])
    requires forall k :: 0 <= k < |d| ==> !IsLineTerminator(d[k])
    requires rest == [] || IsLineTerminator(rest[0])
    ensures Title("# " + TaskLabel + " " + d + rest) == Some(d)
  {
    var u := " " + (d + rest);
    TitleTextOf(d, rest);
    TaskTitleOf(u);
    TitleLineShape(d, rest);
    TitleAtStart(" " + (TaskLabel + u));
  }

  lemma TitleLineShape(d: string, rest: string)
    ensures "# " + TaskLabel + " " + d + rest == "#" + (" " + (TaskLabel + (" " + (d + rest))))
  {
  }

  /** A title pattern that matches at the very start is the one `match` reports. */
  lemma TitleAtStart(t: string)
    requires TaskTitle(t).Some?
    ensures Title("#" + t) == TaskTitle(t)
  {
    var s := "#" + t;
    assert s[1..] == t;
    assert TitleAt(s, 0) == TaskTitle(t);
    assert TitleMatches(s)(0);
    FindFirstAt(0, |s|, TitleMatches(s), 0);
  }

  // -------------------------------------------------------------------------
  // /- \*\*(\S+?)\*\*:\s*`([^`]+)`\s*\(base:\s*`([^`]+)`\)/g
  //
  // The pattern has no anchors, so a match depends only on the text from
  // its start onwards: the functions below take that suffix and hand back
  // what is left after the match.
  // -------------------------------------------------------------------------

  predicate NotBacktick(c: char) {
    c != '`'
  }

  /** What `[^`]+` accepts. */
  predicate Quote(x: string) {
    |x| > 0 && forall k :: 0 <= k < |x| ==> NotBacktick(x[k])
  }

  /**
   * `` `([^`]+)` ``: the quoted text and what follows the closing quote. A
   * shorter run cannot be followed by a backtick, so the run is taken whole.
   */
  function Quoted(t: string): (r: Option<(string, string)>)
    ensures r.Some? ==> Quote(r.value.0) && |r.value.1| < |t|
  {
    if |t| > 0 && t[0] == '`' then
      var n := RunLength(t, 1, NotBacktick);
      if n > 0 && 1 + n < |t| then Some((t[1..1 + n], t[2 + n..])) else None
    else None
  }

  /**
   * The pieces of the pattern after the alias. Each piece is deterministic
   * once the alias is fixed: whitespace before a literal or a backtick is
   * taken whole, and so is a quoted field.
   */
  datatype Atom = Lit(text: string) | Spaces | Field

  /** Captured groups and the text after the match. */
  datatype Match = Match(captures: seq<string>, rest: string)

  function AtomAt(t: string, atom: Atom): (r: Option<Match>)
    ensures r.Some? ==> |r.value.rest| <= |t|
    ensures r.Some? ==> forall k :: 0 <= k < |r.value.captures| ==> Quote(r.value.captures[k])
  {
    match atom
    case Lit(text) => if text <= t then Some(Match([], t[|text|..])) else None
    case Spaces => Some(Match([], t[RunLength(t, 0, IsSpace)..]))
    case Field =>
      match Quoted(t)
      case None => None
      case Some((q, rest)) => Some(Match([q], rest))
  }

  /** A sequence of atoms matched one after the other. */
  function MatchAll(t: string, atoms: seq<Atom>): (r: Option<Match>)
    ensures r.Some? ==> |r.value.rest| <= |t|
    ensures r.Some? ==> forall k :: 0 <= k < |r.value.captures| ==> Quote(r.value.captures[k])
    decreases |atoms|
  {
    if atoms == [] then Some(Match([], t))
    else match AtomAt(t, atoms[0])
      case None => None
      case Some(m) =>
        match MatchAll(m.rest, atoms[1..])
        case None => None
        case Some(n) => Some(Match(m.captures + n.captures, n.rest))
  }

  /** `` \*\*:\s*`([^`]+)`\s*\(base:\s*`([^`]+)`\) ``. */
  const TailPattern: seq<Atom> := [Lit("**:"), Spaces, Field, Spaces, Lit("(base:"), Spaces, Field, Lit(")")]

  /** What follows the alias in a match: the two quoted fields and the remaining text. */
  datatype Tail = Tail(path: string, branch: string, rest: string)

  function RepoTail(t: string): (r: Option<Tail>)
    ensures r.Some? ==> |r.value.rest| < |t|
    ensures r.Some? ==> Quote(r.value.path) && Quote(r.value.branch)
  {
    match MatchAll(t, TailPattern)
    case None => None
    case Some(m) =>
      if |m.captures| == 2 && |m.rest| < |t| then Some(Tail(m.captures[0], m.captures[1], m.rest)) else None
  }

  /** The continuation of the lazy alias: the rest of the pattern matches here. */
  predicate TailFound(t: string) {
    RepoTail(t).Some?
  }

  /**
   * The lazy `(\S+?)`: the shortest non-space prefix of at least k
   * characters after which `stop` holds.
   */
  function LazyAlias(t: string, k: nat, stop: string -> bool): (r: Option<nat>)
    requires 1 <= k
    ensures r.Some? ==> k <= r.value <= |t| && stop(t[r.value..])
    ensures r.Some? ==> forall m :: k - 1 <= m < r.value ==> IsNotSpace(t[m])
    ensures r.Some? ==> forall m :: k <= m < r.value ==> !stop(t[m..])
    decreases |t| - k
  {
    if k > |t| || !IsNotSpace(t[k - 1]) then None
    else if stop(t[k..]) then Some(k)
    else LazyAlias(t, k + 1, stop)
  }

  /** A non-space prefix after which the continuation first holds at length n is the alias. */
  lemma {:induction false} LazyAliasStops(t: string, k: nat, n: nat, stop: string -> bool)
    requires 1 <= k <= n <= |t|
    requires forall m :: k - 1 <= m < n ==> IsNotSpace(t[m])
    requires forall m :: k <= m < n ==> !stop(t[m..])
    requires stop(t[n..])
    ensures LazyAlias(t, k, stop) == Some(n)
    decreases n - k
  {
    if k < n {
      LazyAliasStops(t, k + 1, n, stop);
    }
  }

  predicate WellFormedRepo(r: RepoRef) {
    && |r.alias| > 0 && (forall k :: 0 <= k < |r.alias| ==> IsNotSpace(r.alias[k]))
    && Quote(r.path) && Quote(r.baseBranch)
  }

  /** A repository entry matching at the start of t, with the text after it. */
  function RepoAt(t: string): (r: Option<(RepoRef, string)>)
    ensures r.Some? ==> |r.value.1| < |t| && WellFormedRepo(r.value.0)
    ensures r.Some? ==> "- **" <= t
  {
    if !("- **" <= t) then None
    else
      var a := t[4..];
      match LazyAlias(a, 1, TailFound)
      case None => None
      case Some(k) =>
        match RepoTail(a[k..])
        case None => None
        case Some(tl) => Some((RepoRef(a[..k], tl.path, tl.branch), tl.rest))
  }

  /**
   * The `exec` loop of a global regular expression: each search starts where
   * the previous match ended and takes the leftmost match from there.
   */
  function ReposFrom(t: string): (r: seq<RepoRef>)
    ensures forall i :: 0 <= i < |r| ==> WellFormedRepo(r[i])
    decreases |t|
  {
    match RepoAt(t)
    case Some((repo, rest)) => [repo] + ReposFrom(rest)
    case None => if t == [] then [] else ReposFrom(t[1..])
  }

  /** Text in which the entry pattern matches nowhere lists no repositories. */
  lemma {:induction false} ReposFromNone(t: string)
    requires forall k :: 0 <= k <= |t| ==> RepoAt(t[k..]).None?
    ensures ReposFrom(t) == []
    decreases |t|
  {
    assert t[0..] == t;
    if t != [] {
      forall k | 0 <= k <= |t[1..]|
        ensures RepoAt(t[1..][k..]).None?
      {
        assert t[1..][k..] == t[k + 1..];
      }
      ReposFromNone(t[1..]);
    }
  }

  // -------------------------------------------------------------------------
  // Rendering a repository list and reading it back
  // -------------------------------------------------------------------------

  /** How a repository appears in a README's repository list. */
  function RepoLine(r: RepoRef): string {
    "- **" + r.alias + TailText(r)
  }

  function TailText(r: RepoRef): string {
    "**: `" + r.path + "` (base: `" + r.baseBranch + "`)"
  }

  /** A repository the list syntax can represent: the alias holds no `*`. */
  predicate Listable(r: RepoRef) {
    WellFormedRepo(r) && '*' !in r.alias
  }

  /** One line per repository, each ending in a newline. */
  function RenderRepos(rs: seq<RepoRef>): string {
    if rs == [] then [] else RepoLine(rs[0]) + "\n" + RenderRepos(rs[1..])
  }

  /** A literal followed by text the remaining atoms match. */
  lemma LitThen(x: string, t: string, more: seq<Atom>, n: Match)
    requires MatchAll(t, more) == Some(n)
    ensures MatchAll(x + t, [Lit(x)] + more) == Some(n)
  {
    assert (x + t)[|x|..] == t;
    assert AtomAt(x + t, Lit(x)) == Some(Match([], t));
    MatchAllCons(x + t, Lit(x), more, Match([], t), n);
    assert [] + n.captures == n.captures;
  }

  /** A single space before text that does not start with whitespace. */
  lemma SpaceThen(t: string, more: seq<Atom>, n: Match)
    requires t == [] || !IsSpace(t[0])
    requires MatchAll(t, more) == Some(n)
    ensures MatchAll(" " + t, [Spaces] + more) == Some(n)
  {
    RunLengthOf(" " + t, 0, " ", IsSpace);
    assert (" " + t)[1..] == t;
    MatchAllCons(" " + t, Spaces, more, Match([], t), n);
    assert [] + n.captures == n.captures;
  }

  /** A quoted field followed by text the remaining atoms match. */
  lemma FieldThen(x: string, t: string, more: seq<Atom>, n: Match)
    requires Quote(x)
    requires MatchAll(t, more) == Some(n)
    ensures MatchAll("`" + x + "`" + t, [Field] + more) == Some(Match([x] + n.captures, n.rest))
  {
    var u := "`" + x + "`" + t;
    assert u == "`" + (x + ("`" + t));
    RunLengthOf(u, 1, x, NotBacktick) by {
      assert u[1..][..|x|] == x;
      assert u[1 + |x|] == '`';
    }
    assert u[1..1 + |x|] == x;
    assert u[2 + |x|..] == t;
    MatchAllCons(u, Field, more, Match([x], t), n);
  }

  /** One step of MatchAll. */
  lemma MatchAllCons(t: string, atom: Atom, more: seq<Atom>, m: Match, n: Match)
    requires AtomAt(t, atom) == Some(m)
    requires MatchAll(m.rest, more) == Some(n)
    ensures MatchAll(t, [atom] + more) == Some(Match(m.captures + n.captures, n.rest))
  {
    assert ([atom] + more)[0] == atom;
    assert ([atom] + more)[1..] == more;
  }

  /** The tail pattern, one atom at a time. */
  lemma TailPatternShape()
    ensures TailPattern == [Lit("**:")] + ([Spaces] + ([Field] + ([Spaces] + BasePattern)))
  {
  }

  /** The rendered tail, one piece at a time. */
  lemma TailTextShape(r: RepoRef, rest: string)
    ensures TailText(r) + rest
      == "**:" + (" " + ("`" + r.path + "`" + (" " + ("(base:" + (" " + ("`" + r.baseBranch + "`" + (")" + rest)))))))
  {
  }

  /** The part of the tail from the base-branch label on. */
  const BasePattern: seq<Atom> := [Lit("(base:")] + ([Spaces] + ([Field] + ([Lit(")")] + [])))

  lemma BaseOfLine(b: string, rest: string)
    requires Quote(b)
    ensures MatchAll("(base:" + (" " + ("`" + b + "`" + (")" + rest))), BasePattern) == Some(Match([b], rest))
  {
    var none := Match([], rest);
    var t7 := ")" + rest;
    LitThen(")", rest, [], none);
    var t6 := "`" + b + "`" + t7;
    FieldThen(b, t7, [Lit(")")] + [], none);
    assert [b] + [] == [b];
    var withBranch := Match([b], rest);
    SpaceThen(t6, [Field] + ([Lit(")")] + []), withBranch);
    LitThen("(base:", " " + t6, [Spaces] + ([Field] + ([Lit(")")] + [])), withBranch);
  }

  /** The text after a rendered alias matches the rest of the pattern. */
  lemma RepoTailOfLine(r: RepoRef, rest: string)
    requires Quote(r.path) && Quote(r.baseBranch)
    ensures RepoTail(TailText(r) + rest) == Some(Tail(r.path, r.baseBranch, rest))
  {
    var p, b := r.path, r.baseBranch;
    var t4 := "(base:" + (" " + ("`" + b + "`" + (")" + rest)));
    var withBranch := Match([b], rest);
    BaseOfLine(b, rest);
    SpaceThen(t4, BasePattern, withBranch);
    var t2 := "`" + p + "`" + (" " + t4);
    FieldThen(p, " " + t4, [Spaces] + BasePattern, withBranch);
    assert [p] + [b] == [p, b];
    var both := Match([p, b], rest);
    SpaceThen(t2, [Field] + ([Spaces] + BasePattern), both);
    LitThen("**:", " " + t2, [Spaces] + ([Field] + ([Spaces] + BasePattern)), both);
    TailPatternShape();
    TailTextShape(r, rest);
  }

  /** A suffix that does not start with `*` cannot continue the pattern. */
  lemma NoTailWithoutStar(t: string)
    requires t != [] && t[0] != '*'
    ensures !TailFound(t)
  {
    assert !("**:" <= t);
  }

  /** A rendered repository line parses back to the repository, followed by the rest of the text. */
  lemma RepoLineParses(r: RepoRef, rest: string)
    requires Listable(r)
    ensures RepoAt(RepoLine(r) + rest) == Some((r, rest))
  {
    var t := RepoLine(r) + rest;
    var n := |r.alias|;
    var a := r.alias + (TailText(r) + rest);
    assert t == "- **" + a;
    assert t[4..] == a;
    RepoTailOfLine(r, rest);
    assert a[n..] == TailText(r) + rest;
    forall m | 1 <= m < n
      ensures !TailFound(a[m..])
    {
      assert a[m..][0] == r.alias[m];
      NoTailWithoutStar(a[m..]);
    }
    LazyAliasStops(a, 1, n, TailFound);
    assert a[..n] == r.alias;
  }

  /** A rendered repository list parses back to the same list. */
  lemma {:induction false} RenderReposParses(rs: seq<RepoRef>)
    requires forall i :: 0 <= i < |rs| ==> Listable(rs[i])
    ensures ReposFrom(RenderRepos(rs)) == rs
    decreases |rs|
  {
    if rs != [] {
      var tail := RenderRepos(rs[1..]);
      RepoLineParses(rs[0], "\n" + tail);
      assert RenderRepos(rs) == RepoLine(rs[0]) + ("\n" + tail);
      assert !("- **" <= "\n" + tail);
      assert ("\n" + tail)[1..] == tail;
      RenderReposParses(rs[1..]);
    }
  }

  // -------------------------------------------------------------------------
  // parseReadmeMeta
  // -------------------------------------------------------------------------

  /** `parseReadmeMeta`: each field falls back to its default when its pattern does not match. */
  function ParseReadmeMeta(content: string): (m: WorkspaceMeta)
    ensures Title(content).None? ==> m.title == "Untitled"
    ensures Title(content).Some? ==> m.title == Title(content).value && |m.title| > 0
    ensures m.taskType == LabelValue(content, TaskTypeLabel, IsNotSpace).GetOr("unknown")
    ensures m.ticketId == LabelValue(content, TicketIdLabel, IsNotSpace).GetOr("")
    ensures m.date == LabelValue(content, DateLabel, IsNotSpace).GetOr("")
    ensures forall i :: 0 <= i < |m.repositories| ==> WellFormedRepo(m.repositories[i])
  {
    WorkspaceMeta(
      Title(content).GetOr("Untitled"),
      LabelValue(content, TaskTypeLabel, IsNotSpace).GetOr("unknown"),
      LabelValue(content, TicketIdLabel, IsNotSpace).GetOr(""),
      LabelValue(content, DateLabel, IsNotSpace).GetOr(""),
      ReposFrom(content))
  }

  /** A README holding none of the patterns gets every default. */
  lemma EmptyReadmeDefaults()
    ensures ParseReadmeMeta("") == WorkspaceMeta("Untitled", "unknown", "", "", [])
  {
    assert TitleAt("", 0).None?;
    assert RepoAt("").None?;
    assert !LabelMatchAt("", TaskTypeLabel, IsNotSpace, 0);
    assert !LabelMatchAt("", TicketIdLabel, IsNotSpace, 0);
    assert !LabelMatchAt("", DateLabel, IsNotSpace, 0);
  }
}

=== FILE: registry.dfy ===
/**
 * The process manager's store of operations: each managed operation keeps
 * its record, the agent processes still running for it, its event buffer
 * and its listeners. `killOperation` and `submitAnswer` act only on running
 * operations; `wireChild` tags a child's events and settles its record when
 * the child completes.
 */
module Registry {
  import opened Wrappers
  import opened Seqs
  import opened Events
  import EventBus
  import ClaudeSdk
  import opened Pipeline

  type Handle = ClaudeSdk.Handle

  /** `ManagedOperation`; `live` is `childProcesses` in insertion order. */
  datatype Managed = Managed(
    op: Operation,
    main: Option<Handle>,
    live: seq<(string, Handle)>,
    bus: EventBus.Bus)

  /** The global map of operations, with its insertion order. */
  datatype Registry = Registry(ops: map<string, Managed>, order: seq<string>)

  predicate Valid(reg: Registry) {
    Distinct(reg.order) && reg.ops.Keys == set id | id in reg.order
  }

  const EmptyRegistry := Registry(map[], [])

  /** `operations.set(id, managed)`: a new id goes last, a known id keeps its place. */
  function Register(reg: Registry, m: Managed): (r: Registry)
    requires Valid(reg)
    ensures Valid(r)
    ensures m.op.id in r.ops && r.ops[m.op.id] == m
    ensures forall id :: id in reg.ops && id != m.op.id ==> id in r.ops && r.ops[id] == reg.ops[id]
    ensures m.op.id !in reg.ops ==> r.order == reg.order + [m.op.id]
    ensures m.op.id in reg.ops ==> r.order == reg.order
  {
    var order := if m.op.id in reg.ops then reg.order else reg.order + [m.op.id];
    Registry(reg.ops[m.op.id := m], order)
  }

  /** `getOperations`: every operation, in the order they were registered. */
  function GetOperations(reg: Registry): (r: seq<Operation>)
    requires Valid(reg)
    ensures |r| == |reg.order|
    ensures forall k :: 0 <= k < |reg.order| ==> r[k] == reg.ops[reg.order[k]].op
  {
    seq(|reg.order|, k requires 0 <= k < |reg.order| && Valid(reg) => reg.ops[reg.order[k]].op)
  }

  /** `getOperation`. */
  function GetOperation(reg: Registry, id: string): (r: Option<Operation>)
    ensures r.Some? <==> id in reg.ops
    ensures r.Some? ==> r.value == reg.ops[id].op
  {
    if id in reg.ops then Some(reg.ops[id].op) else None
  }

  /** `getOperationEvents`: the buffered events, or none for an unknown id. */
  function GetOperationEvents(reg: Registry, id: string): (r: seq<Event>)
    ensures id !in reg.ops ==> r == []
    ensures id in reg.ops ==> r == reg.ops[id].bus.events
  {
    if id in reg.ops then reg.ops[id].bus.events else []
  }

  /** A newly registered operation is found, listed last, and has the events it was created with. */
  lemma RegisterThenGet(reg: Registry, m: Managed)
    requires Valid(reg) && m.op.id !in reg.ops
    ensures GetOperation(Register(reg, m), m.op.id) == Some(m.op)
    ensures GetOperationEvents(Register(reg, m), m.op.id) == m.bus.events
    ensures GetOperations(Register(reg, m)) == GetOperations(reg) + [m.op]
  {
    var r := Register(reg, m);
    assert forall k :: 0 <= k < |reg.order| ==> reg.order[k] != m.op.id;
  }

  // -------------------------------------------------------------------------
  // Subscribing
  // -------------------------------------------------------------------------

  function WithBus(reg: Registry, id: string, bus: EventBus.Bus): (r: Registry)
    requires Valid(reg) && id in reg.ops
    ensures Valid(r) && r.order == reg.order && r.ops.Keys == reg.ops.Keys
    ensures r.ops[id] == reg.ops[id].(bus := bus)
    ensures forall k :: k in reg.ops && k != id ==> r.ops[k] == reg.ops[k]
  {
    Registry(reg.ops[id := reg.ops[id].(bus := bus)], reg.order)
  }

  /** `subscribeToOperation`: an unknown id subscribes nothing. */
  function SubscribeTo(reg: Registry, id: string, l: EventBus.ListenerId): (r: Registry)
    requires Valid(reg)
    ensures Valid(r)
    ensures id !in reg.ops ==> r == reg
    ensures id in reg.ops ==>
      r == WithBus(reg, id, EventBus.Subscribe(reg.ops[id].bus, l))
  {
    if id in reg.ops then WithBus(reg, id, EventBus.Subscribe(reg.ops[id].bus, l)) else reg
  }

  /** The unsubscribe function `subscribeToOperation` returns. */
  function UnsubscribeFrom(reg: Registry, id: string, l: EventBus.ListenerId): (r: Registry)
    requires Valid(reg)
    ensures Valid(r)
    ensures id !in reg.ops ==> r == reg
    ensures id in reg.ops ==> r == WithBus(reg, id, EventBus.Unsubscribe(reg.ops[id].bus, l))
  {
    if id in reg.ops then WithBus(reg, id, EventBus.Unsubscribe(reg.ops[id].bus, l)) else reg
  }

  /** Subscribing then unsubscribing a new listener leaves the listener set as it was. */
  lemma SubscribeUnsubscribe(reg: Registry, id: string, l: EventBus.ListenerId)
    requires Valid(reg) && id in reg.ops && l !in reg.ops[id].bus.listeners
    ensures UnsubscribeFrom(SubscribeTo(reg, id, l), id, l) == reg
  {
    var r := UnsubscribeFrom(SubscribeTo(reg, id, l), id, l);
    assert r.ops[id].bus.listeners == reg.ops[id].bus.listeners;
    assert r.ops[id] == reg.ops[id];
    assert r.ops == reg.ops;
  }

  // -------------------------------------------------------------------------
  // Killing
  // -------------------------------------------------------------------------

  function KillAll(live: seq<(string, Handle)>): (r: seq<(string, Handle)>)
    ensures |r| == |live|
    ensures forall k :: 0 <= k < |live| ==> r[k] == (live[k].0, ClaudeSdk.Kill(live[k].1))
  {
    seq(|live|, k requires 0 <= k < |live| => (live[k].0, ClaudeSdk.Kill(live[k].1)))
  }

  function Running(reg: Registry, id: string): bool {
    id in reg.ops && reg.ops[id].op.status == OpRunning
  }

  /**
   * `killOperation`: refused for an unknown or finished operation; otherwise
   * the main process and every live child are aborted. The operation's
   * record, events and listeners are left to the processes' own complete
   * events.
   */
  function KillOperation(reg: Registry, id: string): (r: (bool, Registry))
    requires Valid(reg)
    ensures Valid(r.1) && r.1.order == reg.order && r.1.ops.Keys == reg.ops.Keys
    ensures r.0 <==> Running(reg, id)
    ensures !r.0 ==> r.1 == reg
    ensures r.0 ==>
      var before := reg.ops[id];
      var after := r.1.ops[id];
      && after.op == before.op && after.bus == before.bus
      && (before.main.Some? <==> after.main.Some?)
      && (after.main.Some? ==> after.main.value == ClaudeSdk.Kill(before.main.value))
      && |after.live| == |before.live|
      && forall k :: 0 <= k < |before.live| ==>
           after.live[k].0 == before.live[k].0 && after.live[k].1 == ClaudeSdk.Kill(before.live[k].1)
    ensures forall k :: k in reg.ops && k != id ==> r.1.ops[k] == reg.ops[k]
  {
    if !Running(reg, id) then (false, reg)
    else
      var m := reg.ops[id];
      var main := if m.main.Some? then Some(ClaudeSdk.Kill(m.main.value)) else None;
      (true, Registry(reg.ops[id := m.(main := main, live := KillAll(m.live))], reg.order))
  }

  /** After a successful kill no process of the operation has a question waiting. */
  lemma KillResolvesQuestions(reg: Registry, id: string)
    requires Valid(reg) && Running(reg, id)
    requires reg.ops[id].main.Some? ==> Settled(reg.ops[id].main.value)
    requires forall k :: 0 <= k < |reg.ops[id].live| ==> Settled(reg.ops[id].live[k].1)
    ensures var after := KillOperation(reg, id).1.ops[id];
      && (after.main.Some? ==> after.main.value.aborted && after.main.value.pending == [])
      && forall k :: 0 <= k < |after.live| ==> after.live[k].1.aborted && after.live[k].1.pending == []
  {
    var before := reg.ops[id];
    var after := KillOperation(reg, id).1.ops[id];
    forall k | 0 <= k < |after.live|
      ensures after.live[k].1.aborted && after.live[k].1.pending == []
    {
      var h := before.live[k].1;
      if h.aborted {
        KilledBefore(h);
      }
    }
    if before.main.Some? && before.main.value.aborted {
      KilledBefore(before.main.value);
    }
  }

  /**
   * An aborted handle has no waiting question, provided questions are only
   * parked on a handle that has not been aborted (the abort listener of a
   * question asked after the abort would otherwise never fire).
   */
  predicate Settled(h: Handle) {
    h.aborted ==> h.pending == []
  }

  lemma KilledBefore(h: Handle)
    requires h.aborted
    ensures ClaudeSdk.Kill(h) == h
  {
  }

  // -------------------------------------------------------------------------
  // Answering
  // -------------------------------------------------------------------------

  /** Child k is the first live child with the question waiting. */
  predicate FirstTaker(live: seq<(string, Handle)>, toolUseId: string, k: int) {
    && 0 <= k < |live|
    && toolUseId in live[k].1.pending
    && forall j :: 0 <= j < k ==> toolUseId !in live[j].1.pending
  }

  /** The live children once child k has taken the answer. */
  function Answered(live: seq<(string, Handle)>, k: nat, toolUseId: string, answers: ClaudeSdk.Answers)
    : seq<(string, Handle)>
    requires k < |live|
  {
    live[k := (live[k].0, ClaudeSdk.SubmitAnswer(live[k].1, toolUseId, answers).1)]
  }

  /** When the first child does not take the answer, the taker among the others is the taker overall. */
  lemma TakerBehind(live: seq<(string, Handle)>, toolUseId: string, answers: ClaudeSdk.Answers, k: nat, rest: seq<(string, Handle)>)
    requires live != [] && toolUseId !in live[0].1.pending
    requires FirstTaker(live[1..], toolUseId, k) && rest == Answered(live[1..], k, toolUseId, answers)
    ensures FirstTaker(live, toolUseId, k + 1) && [live[0]] + rest == Answered(live, k + 1, toolUseId, answers)
  {
    assert forall j :: 1 <= j < k + 1 ==> live[j] == live[1..][j - 1];
    assert ([live[0]] + rest)[1..] == rest;
  }

  /** The first live child whose process accepts the answer, if any. */
  function RouteAnswer(live: seq<(string, Handle)>, toolUseId: string, answers: ClaudeSdk.Answers)
    : (r: (bool, seq<(string, Handle)>))
    ensures |r.1| == |live|
    ensures r.0 <==> exists k :: 0 <= k < |live| && toolUseId in live[k].1.pending
    ensures !r.0 ==> r.1 == live
    ensures r.0 ==> exists k :: FirstTaker(live, toolUseId, k) && r.1 == Answered(live, k, toolUseId, answers)
    decreases |live|
  {
    if live == [] then (false, live)
    else
      var (ok, h) := ClaudeSdk.SubmitAnswer(live[0].1, toolUseId, answers);
      if ok then
        assert FirstTaker(live, toolUseId, 0);
        assert [(live[0].0, h)] + live[1..] == Answered(live, 0, toolUseId, answers);
        (true, [(live[0].0, h)] + live[1..])
      else
        var (found, rest) := RouteAnswer(live[1..], toolUseId, answers);
        if found then
          assert exists k :: FirstTaker(live, toolUseId, k) && [live[0]] + rest == Answered(live, k, toolUseId, answers) by {
            var k' :| FirstTaker(live[1..], toolUseId, k') && rest == Answered(live[1..], k', toolUseId, answers);
            TakerBehind(live, toolUseId, answers, k', rest);
          }
          (true, [live[0]] + rest)
        else
          assert live == [live[0]] + live[1..];
          (false, live)
  }

  /**
   * `submitAnswer`: refused for an unknown or finished operation; otherwise
   * the main process is asked first, then the live children in the order
   * they were started, and the first that has the question waiting takes
   * the answer.
   */
  function SubmitAnswerTo(reg: Registry, id: string, toolUseId: string, answers: ClaudeSdk.Answers)
    : (r: (bool, Registry))
    requires Valid(reg)
    ensures Valid(r.1) && r.1.order == reg.order && r.1.ops.Keys == reg.ops.Keys
    ensures r.0 <==> Running(reg, id) && Waiting(reg.ops[id], toolUseId)
    ensures !r.0 ==> r.1 == reg
    ensures forall k :: k in reg.ops && k != id ==> r.1.ops[k] == reg.ops[k]
    ensures r.0 && reg.ops[id].main.Some? && toolUseId in reg.ops[id].main.value.pending ==>
      r.1.ops[id] == reg.ops[id].(main := Some(ClaudeSdk.SubmitAnswer(reg.ops[id].main.value, toolUseId, answers).1))
  {
    if !Running(reg, id) then (false, reg)
    else
      var m := reg.ops[id];
      if m.main.Some? && toolUseId in m.main.value.pending then
        var (_, h) := ClaudeSdk.SubmitAnswer(m.main.value, toolUseId, answers);
        (true, Registry(reg.ops[id := m.(main := Some(h))], reg.order))
      else
        var (found, live) := RouteAnswer(m.live, toolUseId, answers);
        if found then (true, Registry(reg.ops[id := m.(live := live)], reg.order))
        else (false, reg)
  }

  /** Some process of the operation has the question waiting. */
  predicate Waiting(m: Managed, toolUseId: string) {
    (m.main.Some? && toolUseId in m.main.value.pending)
    || exists k :: 0 <= k < |m.live| && toolUseId in m.live[k].1.pending
  }

  /**
   * While question ids are unique across an operation's processes, a
   * question is answered at most once: after it is taken, submitting to it
   * again is refused.
   */
  lemma AnswerOnce(reg: Registry, id: string, toolUseId: string, a1: ClaudeSdk.Answers, a2: ClaudeSdk.Answers)
    requires Valid(reg) && id in reg.ops
    requires UniquelyWaiting(reg.ops[id], toolUseId)
    ensures var (ok1, reg1) := SubmitAnswerTo(reg, id, toolUseId, a1);
      ok1 ==> !SubmitAnswerTo(reg1, id, toolUseId, a2).0
  {
    var (ok1, reg1) := SubmitAnswerTo(reg, id, toolUseId, a1);
    if ok1 {
      var m := reg.ops[id];
      var m1 := reg1.ops[id];
      if m.main.Some? && toolUseId in m.main.value.pending {
        assert m1.live == m.live;
      } else {
        var k :| FirstTaker(m.live, toolUseId, k) && m1.live == Answered(m.live, k, toolUseId, a1);
        assert m1.main == m.main;
        assert !Waiting(m1, toolUseId);
      }
    }
  }

  /** At most one of the operation's processes has the question waiting. */
  predicate UniquelyWaiting(m: Managed, toolUseId: string) {
    && (m.main.Some? && toolUseId in m.main.value.pending ==>
          forall k :: 0 <= k < |m.live| ==> toolUseId !in m.live[k].1.pending)
    && (forall a, b :: 0 <= a < b < |m.live| && toolUseId in m.live[a].1.pending ==>
          toolUseId !in m.live[b].1.pending)
  }

  // -------------------------------------------------------------------------
  // Wiring a child process
  // -------------------------------------------------------------------------

  /** `Map.set` on the live children: a known id keeps its place. */
  function SetLive(live: seq<(string, Handle)>, childId: string, h: Handle): (r: seq<(string, Handle)>)
    ensures exists k :: 0 <= k < |r| && r[k] == (childId, h)
    ensures forall k :: 0 <= k < |r| ==> r[k].0 == childId || r[k] in live
    ensures forall k :: 0 <= k < |live| && live[k].0 != childId ==> live[k] in r
    decreases |live|
  {
    if live == [] then
      var r := [(childId, h)];
      assert r[0] == (childId, h);
      r
    else if live[0].0 == childId then
      var r := [(childId, h)] + live[1..];
      assert r[0] == (childId, h);
      assert forall k :: 1 <= k < |r| ==> r[k] == live[k];
      r
    else
      var rest := SetLive(live[1..], childId, h);
      assert forall k :: 1 <= k < |live| ==> live[k] == live[1..][k - 1];
      var k :| 0 <= k < |rest| && rest[k] == (childId, h);
      assert ([live[0]] + rest)[k + 1] == (childId, h);
      [live[0]] + rest
  }

  /** `Map.delete` on the live children. */
  function DropLive(live: seq<(string, Handle)>, childId: string): (r: seq<(string, Handle)>)
    ensures forall k :: 0 <= k < |r| ==> r[k].0 != childId && r[k] in live
    ensures forall k :: 0 <= k < |live| && live[k].0 != childId ==> live[k] in r
  {
    if live == [] then []
    else if live[0].0 == childId then DropLive(live[1..], childId)
    else [live[0]] + DropLive(live[1..], childId)
  }

  /** `children.find(c => c.id === childId)` and set its status, if found. */
  function SetChildStatus(children: seq<ChildInfo>, childId: string, st: ChildStatus): (r: seq<ChildInfo>)
    ensures |r| == |children|
    ensures forall k :: 0 <= k < |children| ==>
      r[k] == if children[k].id == childId && (forall j :: 0 <= j < k ==> children[j].id != childId)
              then children[k].(status := st) else children[k]
  {
    if children == [] then []
    else if children[0].id == childId then [children[0].(status := st)] + children[1..]
    else [children[0]] + SetChildStatus(children[1..], childId, st)
  }

  /** A child's event as the operation re-emits it: its id and the child and phase tags. */
  function Tag(e: Event, opId: string, childLabel: string, i: nat, lbl: string): Event {
    e.(operationId := opId, childLabel := Some(childLabel), phaseIndex := Some(i), phaseLabel := Some(lbl))
  }

  /** `wireChild`'s first half: the child becomes live and "Initializing..." is emitted. */
  function WireStart(m: Managed, childId: string, childLabel: string, h: Handle, i: nat, lbl: string): (r: Managed)
    ensures exists k :: 0 <= k < |r.live| && r.live[k] == (childId, h)
    ensures r.op == m.op && r.main == m.main
    ensures r.bus == EventBus.Emit(m.bus, Pipeline.StatusEvent(m.op.id, "Initializing...", Some(childLabel), i, lbl))
  {
    m.(live := SetLive(m.live, childId, h),
       bus := EventBus.Emit(m.bus, Pipeline.StatusEvent(m.op.id, "Initializing...", Some(childLabel), i, lbl)))
  }

  /**
   * `wireChild`'s event handler: re-emit the tagged event; on the complete
   * event, the child succeeded iff its exit code is 0, its record is
   * settled, it stops being live, and the result is reported.
   */
  function ChildEvent(m: Managed, childId: string, childLabel: string, i: nat, lbl: string, e: Event)
    : (r: (Managed, Option<bool>))
    ensures r.0.bus == EventBus.Emit(m.bus, Tag(e, m.op.id, childLabel, i, lbl))
    ensures r.0.main == m.main && r.0.op.id == m.op.id && r.0.op.status == m.op.status
    ensures e.kind != Complete ==> r.1.None? && r.0.op == m.op && r.0.live == m.live
    ensures e.kind == Complete ==>
      && r.1 == Some(DecodeExitCode(e.data) == Some(0))
      && r.0.op.children == SetChildStatus(m.op.children, childId, ChildStatusFor(r.1.value))
      && (forall k :: 0 <= k < |r.0.live| ==> r.0.live[k].0 != childId)
  {
    var bus := EventBus.Emit(m.bus, Tag(e, m.op.id, childLabel, i, lbl));
    if e.kind != Complete then (m.(bus := bus), None)
    else
      var success := DecodeExitCode(e.data) == Some(0);
      var op := m.op.(children := SetChildStatus(m.op.children, childId, ChildStatusFor(success)));
      (m.(op := op, live := DropLive(m.live, childId), bus := bus), Some(success))
  }

  /** The handler applied to a child's event stream; the result is the first one reported. */
  function ChildEvents(m: Managed, childId: string, childLabel: string, i: nat, lbl: string, es: seq<Event>)
    : (r: (Managed, Option<bool>))
    decreases |es|
  {
    if es == [] then (m, None)
    else
      var (m1, res) := ChildEvent(m, childId, childLabel, i, lbl, es[0]);
      var (m2, res2) := ChildEvents(m1, childId, childLabel, i, lbl, es[1..]);
      (m2, if res.Some? then res else res2)
  }

  function TagAll(es: seq<Event>, opId: string, childLabel: string, i: nat, lbl: string): (r: seq<Event>)
    ensures |r| == |es|
    ensures forall k :: 0 <= k < |es| ==> r[k] == Tag(es[k], opId, childLabel, i, lbl)
  {
    seq(|es|, k requires 0 <= k < |es| => Tag(es[k], opId, childLabel, i, lbl))
  }

  /** Whatever the child sends, the operation's bus receives it tagged, in order. */
  lemma {:induction false} ChildEventsBus(m: Managed, childId: string, childLabel: string, i: nat, lbl: string,
                                          es: seq<Event>)
    ensures ChildEvents(m, childId, childLabel, i, lbl, es).0.bus == EventBus.EmitAll(m.bus, TagAll(es, m.op.id, childLabel, i, lbl))
    ensures ChildEvents(m, childId, childLabel, i, lbl, es).0.op.id == m.op.id
    decreases |es|
  {
    if es != [] {
      var (m1, _) := ChildEvent(m, childId, childLabel, i, lbl, es[0]);
      ChildEventsBus(m1, childId, childLabel, i, lbl, es[1..]);
      var t := TagAll(es, m.op.id, childLabel, i, lbl);
      assert t[1..] == TagAll(es[1..], m.op.id, childLabel, i, lbl);
      assert EventBus.EmitAll(m.bus, t) == EventBus.EmitAll(EventBus.Emit(m.bus, t[0]), t[1..]);
    }
  }

  /** Before the complete event nothing but the bus changes. */
  lemma {:induction false} ChildOutputs(m: Managed, childId: string, childLabel: string, i: nat, lbl: string,
                                        es: seq<Event>)
    requires forall k :: 0 <= k < |es| ==> es[k].kind != Complete
    ensures var (m2, res) := ChildEvents(m, childId, childLabel, i, lbl, es);
      res.None? && m2.op == m.op && m2.live == m.live && m2.main == m.main
    decreases |es|
  {
    if es != [] {
      var (m1, _) := ChildEvent(m, childId, childLabel, i, lbl, es[0]);
      ChildOutputs(m1, childId, childLabel, i, lbl, es[1..]);
    }
  }

  /**
   * A child that streams its outputs and then completes with `code`: every
   * event reaches the operation's listeners tagged with the operation's id,
   * the child's label and the phase; the result is `code == 0`; the child's
   * record is settled accordingly and the child is no longer live.
   */
  lemma ChildRun(m: Managed, childId: string, childLabel: string, i: nat, lbl: string,
                 outputs: seq<string>, code: int, l: EventBus.ListenerId)
    requires l in m.bus.listeners
    ensures var es := ClaudeSdk.OutputEvents(childId, outputs) + [ClaudeSdk.CompleteEvent(childId, code)];
      var (m2, res) := ChildEvents(m, childId, childLabel, i, lbl, es);
      && res == Some(code == 0)
      && m2.op.children == SetChildStatus(m.op.children, childId, ChildStatusFor(code == 0))
      && (forall k :: 0 <= k < |m2.live| ==> m2.live[k].0 != childId)
      && l in m2.bus.listeners
      && m2.bus.listeners[l] == m.bus.listeners[l] + TagAll(es, m.op.id, childLabel, i, lbl)
  {
    var outs := ClaudeSdk.OutputEvents(childId, outputs);
    var done := ClaudeSdk.CompleteEvent(childId, code);
    var es := outs + [done];
    ChildEventsAppend(m, childId, childLabel, i, lbl, outs, done);
    ChildOutputs(m, childId, childLabel, i, lbl, outs);
    DecodeCompleteData(code);
    ChildEventsBus(m, childId, childLabel, i, lbl, es);
    EventBus.EmitAllListener(m.bus, TagAll(es, m.op.id, childLabel, i, lbl), l);
  }

  /** Feeding a stream then one more event. */
  lemma {:induction false} ChildEventsAppend(m: Managed, childId: string, childLabel: string, i: nat, lbl: string,
                                             es: seq<Event>, e: Event)
    ensures var (m1, res1) := ChildEvents(m, childId, childLabel, i, lbl, es);
      var (m2, res2) := ChildEvent(m1, childId, childLabel, i, lbl, e);
      ChildEvents(m, childId, childLabel, i, lbl, es + [e]) == (m2, if res1.Some? then res1 else res2)
    decreases |es|
  {
    if es == [] {
      assert es + [e] == [e];
    } else {
      assert (es + [e])[1..] == es[1..] + [e];
      var (m1, _) := ChildEvent(m, childId, childLabel, i, lbl, es[0]);
      ChildEventsAppend(m1, childId, childLabel, i, lbl, es[1..], e);
    }
  }
}

=== FILE: review_parser.dfy ===
/**
 * Review summaries: the four counts a review report states under bold
 * labels, each read as the first digit run after its label.
 */
module ReviewParser {
  import opened Wrappers
  import opened Text

  datatype ReviewSession = ReviewSession(
    timestamp: string,
    repos: nat,
    critical: nat,
    warnings: nat,
    suggestions: nat)

  const ReposLabel := "**Repositories Reviewed**:"
  const CriticalLabel := "**Total Critical Issues**:"
  const WarningsLabel := "**Total Warnings**:"
  const SuggestionsLabel := "**Total Suggestions**:"

  /**
   * `parseInt(content.match(/key\s*(\d+)/)?.[1] ?? "0", 10)`: the value of
   * the first digit run after the label, 0 without one.
   */
  function Count(content: string, key: string): (n: nat)
    ensures LabelValue(content, key, IsDigit).None? ==> n == 0
    ensures LabelValue(content, key, IsDigit).Some? ==> n == DigitsValue(LabelValue(content, key, IsDigit).value)
  {
    match LabelValue(content, key, IsDigit)
    case None => 0
    case Some(ds) => DigitsValue(ds)
  }

  /** `parseReviewSummary`. */
  function ParseReviewSummary(timestamp: string, content: string): (r: ReviewSession)
    ensures r.timestamp == timestamp
    ensures r.repos == Count(content, ReposLabel) && r.critical == Count(content, CriticalLabel)
    ensures r.warnings == Count(content, WarningsLabel) && r.suggestions == Count(content, SuggestionsLabel)
  {
    ReviewSession(
      timestamp,
      Count(content, ReposLabel),
      Count(content, CriticalLabel),
      Count(content, WarningsLabel),
      Count(content, SuggestionsLabel))
  }

  /** A report in which no `**` occurs counts nothing under a bold label. */
  lemma NoMarkNoCount(content: string, key: string)
    requires |key| >= 2 && key[0] == '*' && key[1] == '*'
    requires !Contains(content, "**")
    ensures Count(content, key) == 0
  {
    forall q | 0 <= q <= |content|
      ensures !LabelMatchAt(content, key, IsDigit, q)
    {
      NoMarkAt(content, key, q);
    }
    FindLabelSpec(content, key, IsDigit, 0);
  }

  lemma NoMarkAt(content: string, key: string, q: nat)
    requires |key| >= 2 && key[0] == '*' && key[1] == '*'
    requires q <= |content| && !OccursAt(content, q, "**")
    ensures !OccursAt(content, q, key)
  {
    if q + 2 <= |content| && content[q] == '*' {
      assert content[q..][..2] != "**";
    }
  }

  lemma LabelsAreBold()
    ensures ReposLabel[..2] == CriticalLabel[..2] == WarningsLabel[..2] == SuggestionsLabel[..2] == "**"
  {
  }

  /** A report without any bold text gives every count as 0. */
  lemma NoLabelsNoCounts(timestamp: string, content: string)
    requires !Contains(content, "**")
    ensures ParseReviewSummary(timestamp, content) == ReviewSession(timestamp, 0, 0, 0, 0)
  {
    LabelsAreBold();
    NoMarkNoCount(content, ReposLabel);
    NoMarkNoCount(content, CriticalLabel);
    NoMarkNoCount(content, WarningsLabel);
    NoMarkNoCount(content, SuggestionsLabel);
  }

  /** One summary line: the label, a space, the count and a line break. */
  function Line(key: string, n: nat): string {
    key + " " + NatToString(n) + "\n"
  }

  /** The summary lines a review report carries, in the order a report lists them. */
  function SummaryText(r: ReviewSession): string {
    Line(ReposLabel, r.repos) + Line(CriticalLabel, r.critical)
    + Line(WarningsLabel, r.warnings) + Line(SuggestionsLabel, r.suggestions)
  }

  /** `key n` followed by a non-digit: the token after the key is n's digits. */
  lemma CountToken(prefix: string, key: string, n: nat, rest: string)
    requires rest == [] || !IsDigit(rest[0])
    ensures TokenAfter(prefix + key + (" " + NatToString(n) + rest), |prefix| + |key|, IsDigit) == Some(NatToString(n))
  {
    var tok := NatToString(n);
    assert " " + tok + rest == " " + (tok + rest);
    TokenAfterShift(prefix + key, " " + (tok + rest), 0, IsDigit);
    assert IsDigit(tok[0]);
    TokenAfterSpace(tok, rest, IsDigit);
  }

  /**
   * A summary line read past the text before it, when some character key[j]
   * appears neither in that text nor earlier in the key.
   */
  lemma CountInLine(prefix: string, key: string, n: nat, more: string, j: nat)
    requires j < |key| && key[j] !in prefix && key[j] !in key[..j]
    ensures Count(prefix + Line(key, n) + more, key) == n
  {
    CountToken(prefix, key, n, "\n" + more);
    LabelValueAfter(prefix, key, " " + NatToString(n) + ("\n" + more), IsDigit, j);
    DigitsValueNatToString(n);
    Regroup(prefix, key, " ", NatToString(n), "\n", more);
  }

  lemma Reassociate(a: string, b: string, c: string)
    ensures a + b + c == a + (b + c)
    ensures [] + a == a && a + [] == a
  {
  }

  lemma RegroupLast(a: string, b: string, x: string, c: string, y: string)
    ensures a + (b + x + c + y) == a + b + (x + c + y)
  {
  }

  lemma Regroup(a: string, b: string, x: string, c: string, y: string, d: string)
    ensures a + (b + x + c + y) + d == a + b + (x + c + (y + d))
  {
  }

  /** A character that is not in the label, a space, a digit or a line break is not in the line. */
  lemma NotInLine(c: char, key: string, n: nat)
    requires c !in key && c != ' ' && c != '\n' && !IsDigit(c)
    ensures c !in Line(key, n)
  {
  }

  // The character of each label that tells it apart from the labels before it.

  lemma CriticalMark()
    ensures CriticalLabel[8] == 'C' && 'C' !in CriticalLabel[..8] && 'C' !in ReposLabel
  {
  }

  lemma WarningsMark()
    ensures WarningsLabel[8] == 'W' && 'W' !in WarningsLabel[..8] && 'W' !in ReposLabel && 'W' !in CriticalLabel
  {
  }

  lemma SuggestionsMark()
    ensures SuggestionsLabel[8] == 'S' && 'S' !in SuggestionsLabel[..8]
    ensures 'S' !in ReposLabel && 'S' !in CriticalLabel && 'S' !in WarningsLabel
  {
  }

  // Each line of a four-line summary read back, the other lines left abstract.

  lemma FirstOfFour(k1: string, n1: nat, l2: string, l3: string, l4: string)
    requires |k1| > 0
    ensures Count(Line(k1, n1) + l2 + l3 + l4, k1) == n1
  {
    CountInLine([], k1, n1, l2 + l3 + l4, 0);
    Reassociate([], Line(k1, n1), l2 + l3 + l4);
    Reassociate(Line(k1, n1), l2 + l3, l4);
    Reassociate(Line(k1, n1), l2, l3);
  }

  lemma SecondOfFour(l1: string, k2: string, n2: nat, l3: string, l4: string)
    requires |k2| > 8 && k2[8] !in k2[..8] && k2[8] !in l1
    ensures Count(l1 + Line(k2, n2) + l3 + l4, k2) == n2
  {
    CountInLine(l1, k2, n2, l3 + l4, 8);
    Reassociate(l1 + Line(k2, n2), l3, l4);
  }

  lemma ThirdOfFour(l1: string, l2: string, k3: string, n3: nat, l4: string)
    requires |k3| > 8 && k3[8] !in k3[..8] && k3[8] !in l1 + l2
    ensures Count(l1 + l2 + Line(k3, n3) + l4, k3) == n3
  {
    CountInLine(l1 + l2, k3, n3, l4, 8);
  }

  lemma LastOfFour(l1: string, l2: string, l3: string, k4: string, n4: nat)
    requires |k4| > 8 && k4[8] !in k4[..8] && k4[8] !in l1 + l2 + l3
    ensures Count(l1 + l2 + l3 + Line(k4, n4), k4) == n4
  {
    var prefix := l1 + l2 + l3;
    CountToken(prefix, k4, n4, "\n");
    LabelValueAfter(prefix, k4, " " + NatToString(n4) + "\n", IsDigit, 8);
    DigitsValueNatToString(n4);
    RegroupLast(prefix, k4, " ", NatToString(n4), "\n");
  }

  /** Parsing the summary lines of a session gives the session back. */
  lemma SummaryRoundTrip(r: ReviewSession)
    ensures ParseReviewSummary(r.timestamp, SummaryText(r)) == r
  {
    CriticalMark();
    WarningsMark();
    SuggestionsMark();
    NotInLine('C', ReposLabel, r.repos);
    NotInLine('W', ReposLabel, r.repos);
    NotInLine('W', CriticalLabel, r.critical);
    NotInLine('S', ReposLabel, r.repos);
    NotInLine('S', CriticalLabel, r.critical);
    NotInLine('S', WarningsLabel, r.warnings);
    var l1, l2 := Line(ReposLabel, r.repos), Line(CriticalLabel, r.critical);
    var l3, l4 := Line(WarningsLabel, r.warnings), Line(SuggestionsLabel, r.suggestions);
    FirstOfFour(ReposLabel, r.repos, l2, l3, l4);
    SecondOfFour(l1, CriticalLabel, r.critical, l3, l4);
    ThirdOfFour(l1, l2, WarningsLabel, r.warnings, l4);
    LastOfFour(l1, l2, l3, SuggestionsLabel, r.suggestions);
  }
}

=== FILE: review_viewer.dfy ===
/**
 * The review viewer's display of a review directory's timestamp:
 * `YYYYMMDD-HHMMSS` becomes `YYYY-MM-DD HH:MM:SS`; anything else is shown
 * as it is.
 */
module ReviewViewer {
  import opened Text
  import opened WorkspaceTime

  /** `/^(\d{4})(\d{2})(\d{2})-(\d{2})(\d{2})(\d{2})$/`: eight digits, a hyphen, six digits, nothing else. */
  predicate IsStamp(ts: string) {
    |ts| == 15 && ts[8] == '-' && forall k :: 0 <= k < 15 && k != 8 ==> IsDigit(ts[k])
  }

  /** The digits of a string, in order. */
  function DigitsOf(s: string): (r: string)
    ensures forall k :: 0 <= k < |r| ==> IsDigit(r[k])
    decreases |s|
  {
    if s == [] then []
    else (if IsDigit(s[0]) then [s[0]] else []) + DigitsOf(s[1..])
  }

  /** `formatTimestamp`. */
  function FormatTimestamp(ts: string): (r: string)
    ensures !IsStamp(ts) ==> r == ts
    ensures IsStamp(ts) ==> |r| == 19
    ensures IsStamp(ts) ==> r[4] == '-' && r[7] == '-' && r[10] == ' ' && r[13] == ':' && r[16] == ':'
  {
    if IsStamp(ts) then
      ts[..4] + "-" + ts[4..6] + "-" + ts[6..8] + " " + ts[9..11] + ":" + ts[11..13] + ":" + ts[13..15]
    else ts
  }

  lemma {:induction false} DigitsOfAppend(a: string, b: string)
    ensures DigitsOf(a + b) == DigitsOf(a) + DigitsOf(b)
    decreases |a|
  {
    if a == [] {
      assert a + b == b;
    } else {
      DigitsOfAppend(a[1..], b);
      assert (a + b)[1..] == a[1..] + b;
    }
  }

  lemma {:induction false} DigitsOfDigits(s: string)
    requires forall k :: 0 <= k < |s| ==> IsDigit(s[k])
    ensures DigitsOf(s) == s
    decreases |s|
  {
    if s != [] {
      DigitsOfDigits(s[1..]);
      assert s == [s[0]] + s[1..];
    }
  }

  /** A separator between two pieces contributes no digit. */
  lemma DigitsOfSpliced(x: string, c: char, y: string)
    requires !IsDigit(c) && forall k :: 0 <= k < |y| ==> IsDigit(y[k])
    ensures DigitsOf(x + [c] + y) == DigitsOf(x) + y
  {
    DigitsOfAppend(x + [c], y);
    DigitsOfAppend(x, [c]);
    assert DigitsOf([c]) == [] by {
      assert [c][1..] == [];
    }
    DigitsOfDigits(y);
    assert DigitsOf(x) + [] == DigitsOf(x);
  }

  /** Formatting only inserts separators: the digits are the input's, in the same order. */
  lemma FormatKeepsDigits(ts: string)
    requires IsStamp(ts)
    ensures DigitsOf(FormatTimestamp(ts)) == DigitsOf(ts)
  {
    var a, b, c, d, e, f := ts[..4], ts[4..6], ts[6..8], ts[9..11], ts[11..13], ts[13..15];
    var head, tail := ts[..8], ts[9..];
    assert ts == head + ['-'] + tail;
    DigitsOfDigits(head);
    DigitsOfSpliced(head, '-', tail);
    var r1 := a + ['-'] + b;
    var r2 := r1 + ['-'] + c;
    var r3 := r2 + [' '] + d;
    var r4 := r3 + [':'] + e;
    var r5 := r4 + [':'] + f;
    DigitsOfDigits(a);
    DigitsOfSpliced(a, '-', b);
    DigitsOfSpliced(r1, '-', c);
    DigitsOfSpliced(r2, ' ', d);
    DigitsOfSpliced(r3, ':', e);
    DigitsOfSpliced(r4, ':', f);
    assert FormatTimestamp(ts) == r5;
    assert head == a + b + c && tail == d + e + f;
  }

  /**
   * Every review directory named in a year of four digits is displayed in
   * the formatted shape, with the date and time fields in their places.
   */
  lemma ReviewTimestampFormats(t: LocalTime)
    requires ValidTime(t) && 1000 <= t.year <= 9999
    ensures IsStamp(ReviewTimestamp(t))
    ensures FormatTimestamp(ReviewTimestamp(t))
      == IntToString(t.year) + "-" + Pad2(t.month + 1) + "-" + Pad2(t.day) + " "
         + Pad2(t.hours) + ":" + Pad2(t.minutes) + ":" + Pad2(t.seconds)
  {
    TimestampFields(t);
    var s := ReviewTimestamp(t);
    FourDigits(t.year);
    assert s == IntToString(t.year) + Pad2(t.month + 1) + Pad2(t.day) + "-" + Pad2(t.hours) + Pad2(t.minutes) + Pad2(t.seconds);
    assert s[4..6] == Pad2(t.month + 1) && s[6..8] == Pad2(t.day);
    assert s[9..11] == Pad2(t.hours) && s[11..13] == Pad2(t.minutes) && s[13..15] == Pad2(t.seconds);
  }
}

=== FILE: seqs.dfy ===
/**
 * Sequence helpers shared by the model: the last element, distinctness,
 * and the iteration order of a JavaScript `Set` filled from a sequence.
 */
module Seqs {

  function Last<T>(s: seq<T>): T
    requires s != []
  {
    s[|s| - 1]
  }

  predicate Distinct<T(==)>(s: seq<T>) {
    forall a, b :: 0 <= a < b < |s| ==> s[a] != s[b]
  }

  lemma DistinctSnoc<T>(s: seq<T>, x: T)
    requires Distinct(s) && x !in s
    ensures Distinct(s + [x])
  {
  }

  /** The position of the first occurrence of `x` in `s`. */
  function IndexOf<T(==)>(s: seq<T>, x: T): (i: nat)
    requires x in s
    ensures i < |s| && s[i] == x
    ensures forall j :: 0 <= j < i ==> s[j] != x
  {
    if s[0] == x then 0 else 1 + IndexOf(s[1..], x)
  }

  /**
   * `new Set(s)` read back in iteration order: the elements of `s`, each
   * once, where adding an element that is already there changes nothing.
   */
  function Dedupe<T(==)>(s: seq<T>): (r: seq<T>)
    ensures Distinct(r)
    ensures forall x :: x in r ==> x in s
    ensures forall x :: x in s ==> x in r
    decreases |s|
  {
    if s == [] then []
    else
      var d := Dedupe(s[..|s| - 1]);
      if Last(s) in d then d else d + [Last(s)]
  }

  lemma IndexOfPrefix<T>(s: seq<T>, n: nat, x: T)
    requires n <= |s| && x in s[..n]
    ensures IndexOf(s, x) == IndexOf(s[..n], x)
  {
    var i := IndexOf(s[..n], x);
    assert s[i] == x;
    assert forall j :: 0 <= j < i ==> s[j] == s[..n][j];
  }

  /** A `Set` iterates in first-appearance order: earlier in `Dedupe(s)` means first seen earlier in `s`. */
  lemma {:induction false} DedupeOrder<T>(s: seq<T>)
    ensures forall a, b :: 0 <= a < b < |Dedupe(s)| ==> IndexOf(s, Dedupe(s)[a]) < IndexOf(s, Dedupe(s)[b])
    decreases |s|
  {
    if s != [] {
      var init := s[..|s| - 1];
      var d := Dedupe(init);
      var r := Dedupe(s);
      DedupeOrder(init);
      forall a, b | 0 <= a < b < |r|
        ensures IndexOf(s, r[a]) < IndexOf(s, r[b])
      {
        assert r[a] == d[a] && d[a] in d;
        IndexOfPrefix(s, |s| - 1, r[a]);
        assert IndexOf(s, r[a]) < |s| - 1;
        if b < |d| {
          assert r[b] == d[b] && d[b] in d;
          IndexOfPrefix(s, |s| - 1, r[b]);
        } else {
          assert r[b] == Last(s) && Last(s) !in init;
        }
      }
    }
  }

  /** `s.filter(p)`: the elements that pass `p`, in their order. */
  function Filter<T(==)>(s: seq<T>, p: T -> bool): (r: seq<T>)
    ensures |r| <= |s|
    ensures forall x :: x in r ==> x in s && p(x)
    ensures forall x :: x in s && p(x) ==> x in r
    decreases |s|
  {
    if s == [] then [] else (if p(s[0]) then [s[0]] else []) + Filter(s[1..], p)
  }

  /** Filtering keeps the order: it distributes over concatenation. */
  lemma {:induction false} FilterAppend<T>(a: seq<T>, b: seq<T>, p: T -> bool)
    ensures Filter(a + b, p) == Filter(a, p) + Filter(b, p)
    decreases |a|
  {
    if a == [] {
      assert a + b == b;
    } else {
      assert (a + b)[1..] == a[1..] + b;
      FilterAppend(a[1..], b, p);
    }
  }

  /** A filter every element passes changes nothing. */
  lemma {:induction false} FilterAll<T>(s: seq<T>, p: T -> bool)
    requires forall k :: 0 <= k < |s| ==> p(s[k])
    ensures Filter(s, p) == s
    decreases |s|
  {
    if s != [] {
      FilterAll(s[1..], p);
    }
  }

  /** The results of `f` on each element, concatenated in order. */
  function FlatMap<A, B>(s: seq<A>, f: A -> seq<B>): seq<B>
    decreases |s|
  {
    if s == [] then [] else f(s[0]) + FlatMap(s[1..], f)
  }

  lemma {:induction false} FlatMapAppend<A, B>(a: seq<A>, b: seq<A>, f: A -> seq<B>)
    ensures FlatMap(a + b, f) == FlatMap(a, f) + FlatMap(b, f)
    decreases |a|
  {
    if a == [] {
      assert a + b == b;
    } else {
      assert (a + b)[1..] == a[1..] + b;
      FlatMapAppend(a[1..], b, f);
    }
  }
}

=== FILE: stream_parser.dfy ===
/**
 * `parseStreamEvent`: turns one line of agent output into display entries.
 * The line is first parsed as JSON; that step is an input here (None when
 * the parse throws), and a parsed line is an already-typed SDK message.
 * Absent fields are None; a string field is truthy when present and
 * non-empty, as in JavaScript.
 */
module StreamParser {
  import opened Wrappers
  import opened Text
  import opened Seqs

  // -------------------------------------------------------------------------
  // Parsed SDK messages
  // -------------------------------------------------------------------------

  datatype AskOption = AskOption(caption: string, description: string)

  /** A question as the tool input carries it; `options` and `multiSelect` may be missing. */
  datatype RawQuestion = RawQuestion(question: string, options: Option<seq<AskOption>>, multiSelect: Option<bool>)

  /**
   * A tool's input: its string-valued fields, and the `questions` array when
   * there is one. The input object itself may be missing (`input?.`).
   */
  datatype ToolInput = ToolInput(fields: map<string, string>, questions: Option<seq<RawQuestion>>)

  /** One element of an array-valued tool result; `text` may be missing. */
  datatype ResultItem = ResultItem(text: Option<string>)

  datatype ResultContent =
    | StringContent(s: string)
    | ItemsContent(items: seq<ResultItem>)
    | OtherContent

  datatype Block =
    | ThinkingBlock(thinking: Option<string>)
    | TextBlock(text: Option<string>)
    | ToolUseBlock(id: string, name: string, input: Option<ToolInput>)
    | ToolResultBlock(toolUseId: string, content: ResultContent, isError: bool)
    | OtherBlock

  /**
   * `usage` of a task notification. `durationText` is how the duration in
   * seconds prints with one decimal; floating-point formatting is not
   * modelled.
   */
  datatype Usage = Usage(durationMs: int, durationText: string, toolUses: int)

  datatype SystemFields = SystemFields(
    model: Option<string>,
    sessionId: Option<string>,
    description: Option<string>,
    taskId: Option<string>,
    toolUseId: Option<string>,
    status: Option<string>,
    summary: Option<string>,
    usage: Option<Usage>,
    outputFile: Option<string>)

  /**
   * The SDK messages `parseStreamEvent` distinguishes. `content` of a user
   * message is None unless it is an array. Cost and duration are the
   * already formatted numbers (`toFixed`), present when the field is.
   */
  datatype Message =
    | AuthStatus(error: Option<string>)
    | Assistant(parent: Option<string>, error: Option<string>, content: Option<seq<Block>>)
    | User(parent: Option<string>, blocks: Option<seq<Block>>)
    | ToolProgress(parent: Option<string>, toolUseId: string, toolName: string, elapsed: Option<real>, taskId: Option<string>)
    | Result(subtype: string, result: Option<string>, isError: bool, errors: Option<seq<string>>,
             cost: Option<string>, duration: Option<string>)
    | System(subtype: string, fields: SystemFields)
    | ToolUseSummary(summary: Option<string>)
    | OtherMessage

  // -------------------------------------------------------------------------
  // Log entries
  // -------------------------------------------------------------------------

  datatype AskQuestion = AskQuestion(question: string, options: seq<AskOption>, multiSelect: bool)

  datatype Body =
    | TextEntry(content: string)
    | ThinkingEntry(content: string)
    | ToolCall(toolName: string, toolId: string, summary: string)
    | ToolResult(toolId: string, content: string, isError: bool)
    | Ask(toolId: string, questions: seq<AskQuestion>)
    | ResultEntry(content: string, cost: Option<string>, duration: Option<string>)
    | SystemEntry(content: string, taskToolUseId: Option<string>, taskStatus: Option<string>,
                  taskSummary: Option<string>, taskUsage: Option<string>, taskId: Option<string>,
                  taskOutputFile: Option<string>)
    | ErrorEntry(content: string)
    | CompleteEntry(exitCode: int)
    | Raw(content: string)
    | ToolProgressEntry(toolUseId: string, toolName: string, elapsed: real, taskId: Option<string>)

  /** `LogEntry`: a body and the tags every entry may carry. */
  datatype LogEntry = LogEntry(
    body: Body,
    parent: Option<string>,
    childLabel: Option<string>,
    phaseIndex: Option<nat>,
    phaseLabel: Option<string>)

  /** Carries none of the child and phase tags, which only the operation log adds. */
  predicate Untagged(e: LogEntry) {
    e.childLabel.None? && e.phaseIndex.None? && e.phaseLabel.None?
  }

  function Plain(b: Body): LogEntry {
    LogEntry(b, None, None, None, None)
  }

  function FromParent(b: Body, parent: Option<string>): LogEntry {
    LogEntry(b, parent, None, None, None)
  }

  // -------------------------------------------------------------------------
  // summarizeToolInput
  // -------------------------------------------------------------------------

  /** `input?.key ?? ""`. */
  function Field(input: Option<ToolInput>, key: string): (r: string)
    ensures input.Some? && key in input.value.fields ==> r == input.value.fields[key]
    ensures input.None? || key !in input.value.fields ==> r == ""
  {
    if input.Some? && key in input.value.fields then input.value.fields[key] else ""
  }

  /** `s.slice(0, n)`. */
  function Prefix(s: string, n: nat): (r: string)
    ensures r <= s && |r| == if |s| < n then |s| else n
  {
    if |s| <= n then s else s[..n]
  }

  const PromptSummaryLength: nat := 80

  /** The one-line summary of a tool call shown in the log. */
  function SummarizeToolInput(name: string, input: Option<ToolInput>): (r: string)
    ensures name == "Bash" ==> r == "$ " + Field(input, "command")
    ensures name in {"Read", "Write", "Edit"} ==> r == Field(input, "file_path")
    ensures name == "Glob" ==> r == Field(input, "pattern")
    ensures name == "Grep" ==> r == "/" + Field(input, "pattern") + "/"
    ensures name == "Task" ==>
      r == if input.Some? && "description" in input.value.fields then input.value.fields["description"]
           else Prefix(Field(input, "prompt"), PromptSummaryLength)
    ensures name == "WebFetch" ==> r == Field(input, "url")
    ensures name == "WebSearch" ==> r == Field(input, "query")
    ensures name !in KnownTools ==> r == ""
  {
    if name == "Bash" then "$ " + Field(input, "command")
    else if name == "Read" || name == "Write" || name == "Edit" then Field(input, "file_path")
    else if name == "Glob" then Field(input, "pattern")
    else if name == "Grep" then "/" + Field(input, "pattern") + "/"
    else if name == "Task" then
      if input.Some? && "description" in input.value.fields then input.value.fields["description"]
      else Prefix(Field(input, "prompt"), PromptSummaryLength)
    else if name == "WebFetch" then Field(input, "url")
    else if name == "WebSearch" then Field(input, "query")
    else ""
  }

  const KnownTools: set<string> := {"Bash", "Read", "Write", "Edit", "Glob", "Grep", "Task", "WebFetch", "WebSearch"}

  /** A Task call without a description shows at most the first 80 characters of its prompt. */
  lemma TaskSummaryBound(input: Option<ToolInput>)
    requires input.Some? && "description" !in input.value.fields
    ensures |SummarizeToolInput("Task", input)| <= PromptSummaryLength
    ensures SummarizeToolInput("Task", input) <= Field(input, "prompt")
  {
  }

  // -------------------------------------------------------------------------
  // Blocks
  // -------------------------------------------------------------------------

  const AskToolName: string := "AskUserQuestion"

  /** `q => ({ question, options: q.options ?? [], multiSelect: q.multiSelect ?? false })`. */
  function ToQuestion(q: RawQuestion): (r: AskQuestion)
    ensures r.question == q.question
    ensures r.options == (if q.options.Some? then q.options.value else [])
    ensures r.multiSelect <==> q.multiSelect == Some(true)
  {
    AskQuestion(q.question, q.options.GetOr([]), q.multiSelect.GetOr(false))
  }

  function ToQuestions(qs: seq<RawQuestion>): (r: seq<AskQuestion>)
    ensures |r| == |qs|
    ensures forall k :: 0 <= k < |qs| ==> r[k] == ToQuestion(qs[k])
  {
    seq(|qs|, k requires 0 <= k < |qs| => ToQuestion(qs[k]))
  }

  /** Does an assistant content block produce an entry? */
  predicate Shown(b: Block) {
    match b
    case ThinkingBlock(t) => Truthy(t)
    case TextBlock(t) => Truthy(t)
    case ToolUseBlock(_, _, _) => true
    case _ => false
  }

  /** The entry for one shown assistant block. */
  function BlockEntry(b: Block, parent: Option<string>): (e: LogEntry)
    requires Shown(b)
    ensures e.parent == parent && Untagged(e)
    ensures b.ThinkingBlock? ==> e.body == ThinkingEntry(b.thinking.value)
    ensures b.TextBlock? ==> e.body == TextEntry(b.text.value)
    ensures b.ToolUseBlock? && b.name == AskToolName && b.input.Some? && b.input.value.questions.Some? ==>
      e.body == Ask(b.id, ToQuestions(b.input.value.questions.value))
    ensures b.ToolUseBlock? && !(b.name == AskToolName && b.input.Some? && b.input.value.questions.Some?) ==>
      e.body == ToolCall(b.name, b.id, SummarizeToolInput(b.name, b.input))
  {
    match b
    case ThinkingBlock(t) => FromParent(ThinkingEntry(t.value), parent)
    case TextBlock(t) => FromParent(TextEntry(t.value), parent)
    case ToolUseBlock(id, name, input) =>
      if name == AskToolName && input.Some? && input.value.questions.Some? then
        FromParent(Ask(id, ToQuestions(input.value.questions.value)), parent)
      else FromParent(ToolCall(name, id, SummarizeToolInput(name, input)), parent)
  }

  /** The entries for an assistant message's content, block by block. */
  function BlockEntries(bs: seq<Block>, parent: Option<string>): (es: seq<LogEntry>)
    ensures |es| <= |bs|
    ensures forall k :: 0 <= k < |es| ==> es[k].parent == parent && Untagged(es[k])
    ensures forall k :: 0 <= k < |es| ==>
      es[k].body.ThinkingEntry? || es[k].body.TextEntry? || es[k].body.Ask? || es[k].body.ToolCall?
  {
    if bs == [] then []
    else (if Shown(bs[0]) then [BlockEntry(bs[0], parent)] else []) + BlockEntries(bs[1..], parent)
  }

  /** The blocks that produce entries, in order. */
  function ShownBlocks(bs: seq<Block>): (r: seq<Block>)
    ensures forall k :: 0 <= k < |r| ==> Shown(r[k]) && r[k] in bs
  {
    if bs == [] then []
    else (if Shown(bs[0]) then [bs[0]] else []) + ShownBlocks(bs[1..])
  }

  /**
   * One entry per shown block, in block order: the k-th entry is the
   * k-th shown block's.
   */
  lemma {:induction false} BlockEntriesInOrder(bs: seq<Block>, parent: Option<string>)
    ensures |BlockEntries(bs, parent)| == |ShownBlocks(bs)|
    ensures forall k :: 0 <= k < |ShownBlocks(bs)| ==>
      BlockEntries(bs, parent)[k] == BlockEntry(ShownBlocks(bs)[k], parent)
    decreases |bs|
  {
    if bs != [] {
      BlockEntriesInOrder(bs[1..], parent);
    }
  }

  /** Content splits into independent parts. */
  lemma {:induction false} BlockEntriesAppend(a: seq<Block>, b: seq<Block>, parent: Option<string>)
    ensures BlockEntries(a + b, parent) == BlockEntries(a, parent) + BlockEntries(b, parent)
    decreases |a|
  {
    if a == [] {
      assert a + b == b;
    } else {
      assert (a + b)[1..] == a[1..] + b;
      BlockEntriesAppend(a[1..], b, parent);
    }
  }

  // -------------------------------------------------------------------------
  // Tool results
  // -------------------------------------------------------------------------

  /** `items.map(c => c.text ?? "")`: each item's text, the empty string when it has none. */
  function ItemTexts(items: seq<ResultItem>): (r: seq<string>)
    ensures |r| == |items|
    ensures forall k :: 0 <= k < |items| ==> r[k] == items[k].text.GetOr("")
  {
    seq(|items|, k requires 0 <= k < |items| => items[k].text.GetOr(""))
  }

  /** `items.map(c => c.text ?? "").filter(Boolean)`: the non-empty texts, in item order. */
  function NonEmptyTexts(items: seq<ResultItem>): (r: seq<string>)
    ensures forall k :: 0 <= k < |r| ==> r[k] != ""
    ensures |r| <= |items|
    decreases |items|
  {
    if items == [] then []
    else
      var t := items[0].text.GetOr("");
      (if t != "" then [t] else []) + NonEmptyTexts(items[1..])
  }

  /** The kept texts are exactly the items' texts with the empty ones filtered out, in item order. */
  lemma {:induction false} NonEmptyTextsFilter(items: seq<ResultItem>)
    ensures NonEmptyTexts(items) == Filter(ItemTexts(items), (t: string) => t != "")
    decreases |items|
  {
    if items != [] {
      NonEmptyTextsFilter(items[1..]);
      assert ItemTexts(items)[1..] == ItemTexts(items[1..]);
    }
  }

  /** The text shown for a tool result's content. */
  function ResultText(c: ResultContent): string {
    match c
    case StringContent(s) => s
    case ItemsContent(items) => Join(NonEmptyTexts(items), "\n")
    case OtherContent => ""
  }

  /**
   * When no text of an array result contains a newline, splitting the shown
   * text at newlines gives back exactly the non-empty texts.
   */
  lemma ResultTextLines(items: seq<ResultItem>)
    requires forall k :: 0 <= k < |NonEmptyTexts(items)| ==> '\n' !in NonEmptyTexts(items)[k]
    requires NonEmptyTexts(items) != []
    ensures Split(ResultText(ItemsContent(items)), '\n') == NonEmptyTexts(items)
  {
    assert "\n" == ['\n'];
    SplitJoin(NonEmptyTexts(items), '\n');
  }

  /** The tool-result blocks of a message, in order. */
  function ResultBlocks(bs: seq<Block>): (r: seq<Block>)
    ensures forall k :: 0 <= k < |r| ==> r[k].ToolResultBlock?
    decreases |bs|
  {
    if bs == [] then []
    else (if bs[0].ToolResultBlock? then [bs[0]] else []) + ResultBlocks(bs[1..])
  }

  /** The entry of one tool-result block: its id, its shown text and its error flag. */
  function ToolResultEntry(b: Block, parent: Option<string>): (e: LogEntry)
    requires b.ToolResultBlock?
    ensures e.parent == parent && Untagged(e) && e.body.ToolResult?
  {
    FromParent(ToolResult(b.toolUseId, ResultText(b.content), b.isError), parent)
  }

  /**
   * The entries for a user message's blocks: one per tool-result block, in
   * order, each carrying that block's id, its shown text, its error flag and
   * the message's parent id.
   */
  function ResultEntries(bs: seq<Block>, parent: Option<string>): (es: seq<LogEntry>)
    ensures |es| == |ResultBlocks(bs)|
    ensures forall k :: 0 <= k < |es| ==> es[k] == ToolResultEntry(ResultBlocks(bs)[k], parent)
    ensures forall k :: 0 <= k < |es| ==> es[k].parent == parent && Untagged(es[k]) && es[k].body.ToolResult?
    decreases |bs|
  {
    if bs == [] then []
    else
      var b := bs[0];
      var rest := ResultEntries(bs[1..], parent);
      if b.ToolResultBlock? then [ToolResultEntry(b, parent)] + rest
      else rest
  }

  /** A tool-result block alone yields its id, its shown text and its error flag. */
  lemma SingleResult(id: string, content: ResultContent, isError: bool, parent: Option<string>)
    ensures ResultEntries([ToolResultBlock(id, content, isError)], parent)
      == [FromParent(ToolResult(id, ResultText(content), isError), parent)]
  {
    assert [ToolResultBlock(id, content, isError)][1..] == [];
  }

  // -------------------------------------------------------------------------
  // Results and system messages
  // -------------------------------------------------------------------------

  /** The parts of a result's text: the result if truthy, then the errors of an error result. */
  function ResultParts(result: Option<string>, isError: bool, errors: Option<seq<string>>): (r: seq<string>)
    ensures |r| == (if Truthy(result) then 1 else 0) + (if isError && errors.Some? then |errors.value| else 0)
    ensures Truthy(result) ==> r[0] == result.value
    ensures isError && errors.Some? ==> r[|r| - |errors.value|..] == errors.value
  {
    (if Truthy(result) then [result.value] else [])
      + (if isError && errors.Some? && |errors.value| > 0 then errors.value else [])
  }

  /** The entry for a result message, if any. */
  function ResultMessageEntries(m: Message): (es: seq<LogEntry>)
    requires m.Result?
    ensures |es| <= 1
    ensures es != [] <==> ResultParts(m.result, m.isError, m.errors) != [] || m.cost.Some? || m.duration.Some?
    ensures es != [] ==>
      var text := Join(ResultParts(m.result, m.isError, m.errors), "\n");
      && es[0].parent.None? && Untagged(es[0])
      && es[0].body.ResultEntry?
      && es[0].body.content == (if text != "" then text else if m.subtype == "success" then "Completed" else "Error: " + m.subtype)
      && es[0].body.cost == (if m.cost.Some? then Some("$" + m.cost.value) else None)
      && es[0].body.duration == (if m.duration.Some? then Some(m.duration.value + "s") else None)
  {
    var parts := ResultParts(m.result, m.isError, m.errors);
    var cost := if m.cost.Some? then Some("$" + m.cost.value) else None;
    var duration := if m.duration.Some? then Some(m.duration.value + "s") else None;
    if parts != [] || cost.Some? || duration.Some? then
      var text := Join(parts, "\n");
      var content := if text != "" then text else if m.subtype == "success" then "Completed" else "Error: " + m.subtype;
      [Plain(ResultEntry(content, cost, duration))]
    else []
  }

  /** The usage figures of a task notification: duration if non-zero, tool count if non-zero. */
  function UsageInfo(u: Option<Usage>): (r: seq<string>)
    ensures |r| <= 2
    ensures u.None? ==> r == []
    ensures u.Some? ==> |r| == (if u.value.durationMs != 0 then 1 else 0) + (if u.value.toolUses != 0 then 1 else 0)
  {
    if u.None? then []
    else
      (if u.value.durationMs != 0 then [u.value.durationText + "s"] else [])
        + (if u.value.toolUses != 0 then [IntToString(u.value.toolUses) + " tools"] else [])
  }

  /** A possibly missing value in a template literal. */
  function Template(o: Option<string>): string {
    if o.Some? then o.value else "undefined"
  }

  /** The entry a system message yields, if its subtype is one the log shows. */
  function SystemEntries(subtype: string, f: SystemFields): (es: seq<LogEntry>)
    ensures es != [] <==> subtype in {"init", "task_started", "task_notification"}
    ensures |es| <= 1
    ensures forall k :: 0 <= k < |es| ==> es[k].parent.None? && Untagged(es[k]) && es[k].body.SystemEntry?
    ensures subtype == "task_started" ==>
      es[0].body.taskStatus == Some("running") && es[0].body.taskId == f.taskId
      && es[0].body.taskToolUseId == f.toolUseId
    ensures subtype == "task_notification" ==>
      es[0].body.taskStatus == f.status && es[0].body.taskId == f.taskId
      && es[0].body.taskToolUseId == f.toolUseId && es[0].body.taskOutputFile == f.outputFile
      && (es[0].body.taskSummary.Some? <==> Truthy(f.summary))
      && (es[0].body.taskUsage.Some? <==> UsageInfo(f.usage) != [])
  {
    if subtype == "init" then
      [Plain(SystemEntry("Session initialized (model: " + f.model.GetOr("unknown") + ", session: "
        + f.sessionId.GetOr("unknown") + ")", None, None, None, None, None, None))]
    else if subtype == "task_started" then
      var what := if f.description.Some? then f.description.value else Template(f.taskId);
      [Plain(SystemEntry("Task started: " + what, f.toolUseId, Some("running"), None, None, f.taskId, None))]
    else if subtype == "task_notification" then
      var usage := UsageInfo(f.usage);
      var usageSuffix := if usage != [] then " (" + Join(usage, ", ") + ")" else "";
      var summary := if Truthy(f.summary) then ": " + f.summary.value else "";
      [Plain(SystemEntry("Task " + Template(f.status) + summary + usageSuffix, f.toolUseId, f.status,
        if Truthy(f.summary) then f.summary else None,
        if usage != [] then Some(Join(usage, ", ")) else None,
        f.taskId, f.outputFile))]
    else []
  }

  // -------------------------------------------------------------------------
  // parseStreamEvent
  // -------------------------------------------------------------------------

  const LoginHint: string := "\nRun \"claude login\" in your terminal to re-authenticate."

  function AuthErrorText(error: string): string {
    "Authentication failed: " + error + LoginHint
  }

  function ApiErrorText(error: string): string {
    "API error: " + error + (if error == "authentication_failed" then LoginHint else "")
  }

  /**
   * `parseStreamEvent(raw)` where `parsed` is what `JSON.parse(raw)` gave,
   * or None when it threw.
   */
  function ParseStreamEvent(raw: string, parsed: Option<Message>): (es: seq<LogEntry>)
    ensures parsed.None? ==> es == [Plain(Raw(raw))]
    ensures parsed.Some? ==> forall k :: 0 <= k < |es| ==> !es[k].body.Raw? && !es[k].body.CompleteEntry?
    ensures parsed == Some(OtherMessage) ==> es == []
    ensures forall k :: 0 <= k < |es| ==> Untagged(es[k])
  {
    if parsed.None? then [Plain(Raw(raw))]
    else
      match parsed.value
      case AuthStatus(error) =>
        if Truthy(error) then [Plain(ErrorEntry(AuthErrorText(error.value)))] else []
      case Assistant(parent, error, content) =>
        if content.None? then []
        else
          (if Truthy(error) then [FromParent(ErrorEntry(ApiErrorText(error.value)), parent)] else [])
            + BlockEntries(content.value, parent)
      case User(parent, blocks) =>
        if blocks.None? then [] else ResultEntries(blocks.value, parent)
      case ToolProgress(parent, toolUseId, toolName, elapsed, taskId) =>
        [FromParent(ToolProgressEntry(toolUseId, toolName, elapsed.GetOr(0.0), taskId), parent)]
      case Result(_, _, _, _, _, _) => ResultMessageEntries(parsed.value)
      case System(subtype, fields) => SystemEntries(subtype, fields)
      case ToolUseSummary(summary) =>
        if Truthy(summary) then [Plain(TextEntry(summary.value))] else []
      case OtherMessage => []
  }

  /** An auth status yields one error entry iff its error is truthy, and nothing else. */
  lemma AuthStatusEntries(raw: string, error: Option<string>)
    ensures var es := ParseStreamEvent(raw, Some(AuthStatus(error)));
      && |es| == (if Truthy(error) then 1 else 0)
      && (Truthy(error) ==> es[0] == Plain(ErrorEntry(AuthErrorText(error.value))))
  {
  }

  /**
   * An assistant message with content: an error entry first when the
   * message carries an error, then one entry per shown block, in order, all
   * tagged with the message's parent tool-use id.
   */
  lemma AssistantEntries(raw: string, parent: Option<string>, error: Option<string>, blocks: seq<Block>)
    ensures var es := ParseStreamEvent(raw, Some(Assistant(parent, error, Some(blocks))));
      var lead := if Truthy(error) then 1 else 0;
      && |es| == lead + |ShownBlocks(blocks)|
      && (Truthy(error) ==> es[0] == FromParent(ErrorEntry(ApiErrorText(error.value)), parent))
      && (forall k :: 0 <= k < |es| ==> es[k].parent == parent)
      && (forall k :: 0 <= k < |ShownBlocks(blocks)| ==> es[lead + k] == BlockEntry(ShownBlocks(blocks)[k], parent))
  {
    BlockEntriesInOrder(blocks, parent);
    var es := ParseStreamEvent(raw, Some(Assistant(parent, error, Some(blocks))));
    var head := if Truthy(error) then [FromParent(ErrorEntry(ApiErrorText(error.value)), parent)] else [];
    var tail := BlockEntries(blocks, parent);
    assert es == head + tail;
    forall k | 0 <= k < |ShownBlocks(blocks)|
      ensures es[|head| + k] == BlockEntry(ShownBlocks(blocks)[k], parent)
    {
      assert es[|head| + k] == tail[k];
    }
  }

  /** A user message whose content is not an array, and every unknown system subtype, yield nothing. */
  lemma SilentMessages(raw: string, parent: Option<string>, subtype: string, f: SystemFields)
    ensures ParseStreamEvent(raw, Some(User(parent, None))) == []
    ensures subtype !in {"init", "task_started", "task_notification"} ==>
      ParseStreamEvent(raw, Some(System(subtype, f))) == []
  {
  }
}

=== FILE: text.dfy ===
/**
 * Character classes and string helpers shared by the parsers. They model the
 * JavaScript built-ins the source relies on: `\s`, `\d`, `.` in regular
 * expressions, `String.prototype.trim`, `split`, `join` and number printing.
 */
module Text {
  import opened Wrappers

  /** A string-valued field in a JavaScript truthiness test: present and not empty. */
  predicate Truthy(o: Option<string>) {
    o.Some? && o.value != ""
  }

  /** ECMAScript LineTerminator: the characters `.` does not match. */
  predicate IsLineTerminator(c: char) {
    c == '\n' || c == '\r' || c == '\U{2028}' || c == '\U{2029}'
  }

  /** ECMAScript WhiteSpace or LineTerminator: what `\s` and `trim()` recognise. */
  predicate IsSpace(c: char) {
    if c < '\U{00A0}' then c == ' ' || '\t' <= c <= '\r'
    else
      || c == '\U{00A0}' || c == '\U{1680}' || ('\U{2000}' <= c <= '\U{200A}')
      || c == '\U{2028}' || c == '\U{2029}'
      || c == '\U{202F}' || c == '\U{205F}' || c == '\U{3000}' || c == '\U{FEFF}'
  }

  /** `\d` (without the unicode flag): ASCII digits only. */
  predicate IsDigit(c: char) {
    '0' <= c <= '9'
  }

  predicate IsNotSpace(c: char) {
    !IsSpace(c)
  }

  predicate IsAsciiLetter(c: char) {
    ('a' <= c <= 'z') || ('A' <= c <= 'Z')
  }

  /** ASCII-only `toLowerCase`. */
  function LowerChar(c: char): (r: char)
    ensures 'A' <= c <= 'Z' ==> 'a' <= r <= 'z'
    ensures !('A' <= c <= 'Z') ==> r == c
  {
    if 'A' <= c <= 'Z' then (c as int + 32) as char else c
  }

  function Lower(s: string): (r: string)
    ensures |r| == |s|
    ensures forall i :: 0 <= i < |s| ==> r[i] == LowerChar(s[i])
  {
    if s == [] then [] else [LowerChar(s[0])] + Lower(s[1..])
  }

  /** Length of the longest run of characters satisfying `p` that starts at `i`. */
  function RunLength(s: string, i: nat, p: char -> bool): (n: nat)
    requires i <= |s|
    ensures i + n <= |s|
    ensures forall k :: i <= k < i + n ==> p(s[k])
    ensures i + n == |s| || !p(s[i + n])
    decreases |s| - i
  {
    if i == |s| || !p(s[i]) then 0 else 1 + RunLength(s, i + 1, p)
  }

  function LeadingSpaces(s: string): (n: nat)
    ensures n <= |s|
    ensures forall k :: 0 <= k < n ==> IsSpace(s[k])
    ensures n == |s| || !IsSpace(s[n])
  {
    RunLength(s, 0, IsSpace)
  }

  function TrailingSpaces(s: string): (n: nat)
    ensures n <= |s|
    ensures forall k :: |s| - n <= k < |s| ==> IsSpace(s[k])
    ensures n == |s| || !IsSpace(s[|s| - n - 1])
  {
    if s == [] || !IsSpace(s[|s| - 1]) then 0 else 1 + TrailingSpaces(s[..|s| - 1])
  }

  predicate IsBlank(s: string) {
    forall k :: 0 <= k < |s| ==> IsSpace(s[k])
  }

  /**
   * `String.prototype.trim`: the slice of `s` left when the whitespace on
   * both ends is cut away; it neither starts nor ends with whitespace.
   */
  function Trim(s: string): (r: string)
    ensures |r| <= |s|
    ensures r == [] || (!IsSpace(r[0]) && !IsSpace(r[|r| - 1]))
    ensures forall k :: 0 <= k < |s| && !IsSpace(s[k]) ==> r != []
    ensures exists i, j :: 0 <= i <= j <= |s| && r == s[i..j] && IsBlank(s[..i]) && IsBlank(s[j..])
  {
    var i := LeadingSpaces(s);
    var a := s[i..];
    var j := i + |a| - TrailingSpaces(a);
    assert a[..|a| - TrailingSpaces(a)] == s[i..j];
    assert IsBlank(s[..i]);
    assert IsBlank(s[j..]) by {
      forall k | 0 <= k < |s| - j ensures IsSpace(s[j..][k]) {
        assert s[j..][k] == a[|a| - TrailingSpaces(a) + k];
      }
    }
    a[..|a| - TrailingSpaces(a)]
  }

  lemma TrimEmptyIffBlank(s: string)
    ensures Trim(s) == [] <==> IsBlank(s)
  {
    if !IsBlank(s) {
      var k :| 0 <= k < |s| && !IsSpace(s[k]);
      assert Trim(s) != [];
    } else {
      assert LeadingSpaces(s) == |s|;
    }
  }

  /** The characters before the first line terminator: what `(.*)` captures. */
  function UpToLineEnd(s: string): (r: string)
    ensures r <= s
    ensures forall k :: 0 <= k < |r| ==> !IsLineTerminator(r[k])
    ensures |r| == |s| || IsLineTerminator(s[|r|])
  {
    s[..RunLength(s, 0, c => !IsLineTerminator(c))]
  }

  /** A line of text followed by a line break (or nothing) is cut at the break. */
  lemma UpToLineEndOf(d: string, rest: string)
    requires forall k :: 0 <= k < |d| ==> !IsLineTerminator(d[k])
    requires rest == [] || IsLineTerminator(rest[0])
    ensures UpToLineEnd(d + rest) == d
  {
    assert (d + rest)[..|d|] == d;
  }

  /** The position of the first `sep` in `s`, or its length. */
  function SepIndex(s: string, sep: char): (n: nat)
    ensures n <= |s|
    ensures forall k :: 0 <= k < n ==> s[k] != sep
    ensures n == |s| || s[n] == sep
  {
    RunLength(s, 0, c => c != sep)
  }

  /** `s.split(sep)` for a one-character separator: never empty. */
  function Split(s: string, sep: char): (parts: seq<string>)
    ensures |parts| >= 1
    ensures forall k :: 0 <= k < |parts| ==> sep !in parts[k]
    decreases |s|
  {
    var n := SepIndex(s, sep);
    if n == |s| then [s] else [s[..n]] + Split(s[n + 1..], sep)
  }

  /** `parts.join(sep)`. */
  function Join(parts: seq<string>, sep: string): string {
    if parts == [] then []
    else if |parts| == 1 then parts[0]
    else parts[0] + sep + Join(parts[1..], sep)
  }

  /** Joining the pieces of a split restores the string. */
  lemma {:induction false} JoinSplit(s: string, sep: char)
    ensures Join(Split(s, sep), [sep]) == s
    decreases |s|
  {
    var n := SepIndex(s, sep);
    if n < |s| {
      var rest := s[n + 1..];
      JoinSplit(rest, sep);
      JoinCons(s[..n], Split(rest, sep), [sep]);
      assert s == s[..n] + [sep] + rest;
    }
  }

  lemma JoinCons(p: string, parts: seq<string>, sep: string)
    requires |parts| >= 1
    ensures Join([p] + parts, sep) == p + sep + Join(parts, sep)
  {
    assert ([p] + parts)[1..] == parts;
  }

  /** A separator-free first piece is the first part of the split. */
  lemma SplitCons(a: string, sep: char, b: string)
    requires sep !in a
    ensures Split(a + [sep] + b, sep) == [a] + Split(b, sep)
  {
    var s := a + [sep] + b;
    assert SepIndex(s, sep) == |a| by {
      assert forall k :: 0 <= k < |a| ==> s[k] == a[k];
      assert s[|a|] == sep;
    }
    assert s[..|a|] == a;
    assert s[|a| + 1..] == b;
  }

  /** Splitting a join of separator-free pieces gives the pieces back. */
  lemma {:induction false} SplitJoin(parts: seq<string>, sep: char)
    requires |parts| >= 1
    requires forall k :: 0 <= k < |parts| ==> sep !in parts[k]
    ensures Split(Join(parts, [sep]), sep) == parts
    decreases |parts|
  {
    var s := Join(parts, [sep]);
    var p := parts[0];
    assert SepIndex(s, sep) == |p| by {
      assert s[..|p|] == p;
      assert forall k :: 0 <= k < |p| ==> s[k] != sep;
      if |parts| > 1 {
        assert s[|p|] == sep;
      }
    }
    if |parts| > 1 {
      SplitJoin(parts[1..], sep);
      assert s[|p| + 1..] == Join(parts[1..], [sep]);
      assert s[..|p|] == p;
      assert parts == [p] + parts[1..];
    }
  }

  /** Does `pat` occur in `s` starting at position `i`? */
  predicate OccursAt(s: string, i: nat, pat: string) {
    i <= |s| && pat <= s[i..]
  }

  predicate Contains(s: string, pat: string) {
    exists i :: 0 <= i <= |s| && OccursAt(s, i, pat)
  }

  // -------------------------------------------------------------------------
  // Numbers
  // -------------------------------------------------------------------------

  function DigitChar(d: nat): (c: char)
    requires d < 10
    ensures IsDigit(c)
  {
    ('0' as int + d) as char
  }

  function DigitValue(c: char): (d: nat)
    requires IsDigit(c)
    ensures d < 10
  {
    c as int - '0' as int
  }

  /** `String(n)` for a non-negative integer. */
  function NatToString(n: nat): (s: string)
    ensures |s| >= 1
    ensures forall k :: 0 <= k < |s| ==> IsDigit(s[k])
    ensures |s| > 1 ==> s[0] != '0'
  {
    if n < 10 then [DigitChar(n)] else NatToString(n / 10) + [DigitChar(n % 10)]
  }

  /** `String(i)` for any integer. */
  function IntToString(i: int): string {
    if i < 0 then "-" + NatToString(-i) else NatToString(i)
  }

  /** The decimal value of a run of digits: `parseInt(ds, 10)`. */
  function DigitsValue(ds: string): nat
    requires forall k :: 0 <= k < |ds| ==> IsDigit(ds[k])
  {
    if ds == [] then 0 else DigitsValue(ds[..|ds| - 1]) * 10 + DigitValue(ds[|ds| - 1])
  }

  lemma {:induction false} DigitsValueNatToString(n: nat)
    ensures DigitsValue(NatToString(n)) == n
  {
    if n >= 10 {
      DigitsValueNatToString(n / 10);
      var s := NatToString(n);
      assert s[..|s| - 1] == NatToString(n / 10);
    }
  }

  /** `String(n).padStart(2, "0")`. */
  function Pad2(n: nat): (s: string)
    ensures n < 100 ==> |s| == 2
    ensures forall k :: 0 <= k < |s| ==> IsDigit(s[k])
  {
    if n < 10 then "0" + NatToString(n)
    else
      assert n < 100 ==> |NatToString(n / 10)| == 1;
      NatToString(n)
  }

  lemma Pad2Value(n: nat)
    requires n < 100
    ensures DigitsValue(Pad2(n)) == n
  {
    if n < 10 {
      var p := Pad2(n);
      assert p == ['0', DigitChar(n)];
      assert p[..1] == "0";
      assert DigitsValue("0") == 0 by { assert "0"[..0] == []; }
    } else {
      DigitsValueNatToString(n);
    }
  }

  // -------------------------------------------------------------------------
  // `key\s*(token)` searches
  // -------------------------------------------------------------------------

  /**
   * `\s*(t+)` at position i, where the token class t excludes whitespace:
   * the whitespace run is taken whole (giving any of it back cannot help),
   * then the longest run of token characters, which must be non-empty.
   */
  function TokenAfter(s: string, i: nat, t: char -> bool): (r: Option<string>)
    requires i <= |s|
    ensures r.Some? ==> |r.value| > 0 && forall k :: 0 <= k < |r.value| ==> t(r.value[k])
    ensures r.Some? <==> i + RunLength(s, i, IsSpace) < |s| && t(s[i + RunLength(s, i, IsSpace)])
  {
    var w := RunLength(s, i, IsSpace);
    var n := RunLength(s, i + w, t);
    if n > 0 then Some(s[i + w..i + w + n]) else None
  }

  /**
   * The leftmost position q with from <= q <= hi at which `ok` holds: how an
   * unanchored regular expression search picks its match.
   */
  function FindFirst(from: nat, hi: nat, ok: nat -> bool): (r: Option<nat>)
    ensures r.Some? ==> from <= r.value <= hi && ok(r.value)
    ensures r.Some? ==> forall q :: from <= q < r.value ==> !ok(q)
    ensures r.None? ==> forall q :: from <= q <= hi ==> !ok(q)
    decreases hi + 1 - from
  {
    if from > hi then None
    else if ok(from) then Some(from)
    else FindFirst(from + 1, hi, ok)
  }

  /** The search stops at the first position where `ok` holds. */
  lemma {:induction false} FindFirstAt(from: nat, hi: nat, ok: nat -> bool, q: nat)
    requires from <= q <= hi && ok(q)
    requires forall p :: from <= p < q ==> !ok(p)
    ensures FindFirst(from, hi, ok) == Some(q)
    decreases q - from
  {
    if from < q {
      FindFirstAt(from + 1, hi, ok, q);
    }
  }

  /** A found position moved d further on. */
  function ShiftPos(r: Option<nat>, d: nat): Option<nat> {
    if r.Some? then Some(r.value + d) else None
  }

  /** A run counted from position i + j of s is the run from j in the suffix s[i..]. */
  lemma {:induction false} RunLengthDrop(s: string, i: nat, j: nat, p: char -> bool)
    requires i + j <= |s|
    ensures RunLength(s, i + j, p) == RunLength(s[i..], j, p)
    decreases |s| - i - j
  {
    if i + j < |s| {
      assert s[i..][j] == s[i + j];
      if p(s[i + j]) {
        RunLengthDrop(s, i, j + 1, p);
      }
    }
  }

  /** The token after position i depends only on the text from i on. */
  lemma TokenAfterSuffix(s: string, i: nat, t: char -> bool)
    requires i <= |s|
    ensures TokenAfter(s, i, t) == TokenAfter(s[i..], 0, t)
  {
    var u := s[i..];
    RunLengthDrop(s, i, 0, IsSpace);
    var w := RunLength(s, i, IsSpace);
    assert w == RunLength(u, 0, IsSpace);
    RunLengthDrop(s, i, w, t);
    var n := RunLength(s, i + w, t);
    assert n == RunLength(u, w, t);
    if n > 0 {
      SliceOfSuffix(s, i, w, n);
    }
  }

  lemma SliceOfSuffix(s: string, i: nat, w: nat, n: nat)
    requires i + w + n <= |s|
    ensures s[i + w..i + w + n] == s[i..][w..w + n]
  {
  }

  /** One space, then a token of t-characters that the next character does not continue. */
  lemma TokenAfterSpace(tok: string, rest: string, t: char -> bool)
    requires |tok| > 0 && !IsSpace(tok[0]) && forall k :: 0 <= k < |tok| ==> t(tok[k])
    requires rest == [] || !t(rest[0])
    ensures TokenAfter(" " + (tok + rest), 0, t) == Some(tok)
  {
    TokenAfterSpaces(" ", tok, rest, t);
  }

  /** Any run of white space, then a token of t-characters that the next character does not continue. */
  lemma TokenAfterSpaces(sp: string, tok: string, rest: string, t: char -> bool)
    requires forall k :: 0 <= k < |sp| ==> IsSpace(sp[k])
    requires |tok| > 0 && !IsSpace(tok[0]) && forall k :: 0 <= k < |tok| ==> t(tok[k])
    requires rest == [] || !t(rest[0])
    ensures TokenAfter(sp + (tok + rest), 0, t) == Some(tok)
  {
    var u := sp + (tok + rest);
    SpacesRun(sp, tok, rest);
    TokenRun(sp, tok, rest, t);
    assert u[|sp|..|sp| + |tok|] == tok;
  }

  lemma SpacesRun(sp: string, tok: string, rest: string)
    requires forall k :: 0 <= k < |sp| ==> IsSpace(sp[k])
    requires |tok| > 0 && !IsSpace(tok[0])
    ensures RunLength(sp + (tok + rest), 0, IsSpace) == |sp|
  {
    var u := sp + (tok + rest);
    assert u[0..][..|sp|] == sp;
    assert u[|sp|] == tok[0];
    RunLengthOf(u, 0, sp, IsSpace);
  }

  lemma TokenRun(sp: string, tok: string, rest: string, t: char -> bool)
    requires forall k :: 0 <= k < |tok| ==> t(tok[k])
    requires rest == [] || !t(rest[0])
    ensures RunLength(sp + (tok + rest), |sp|, t) == |tok|
  {
    var u := sp + (tok + rest);
    assert u[|sp|..][..|tok|] == tok;
    assert |sp| + |tok| == |u| || u[|sp| + |tok|] == rest[0];
    RunLengthOf(u, |sp|, tok, t);
  }

  /** The pattern `key\s*(t+)` matches at position q. */
  predicate LabelMatchAt(s: string, key: string, t: char -> bool, q: nat) {
    OccursAt(s, q, key) && TokenStarts(s, q + |key|, t)
  }

  /** After the white space from position i on, a t-character follows. */
  predicate TokenStarts(s: string, i: nat, t: char -> bool)
    decreases |s| - i
  {
    i < |s| && if IsSpace(s[i]) then TokenStarts(s, i + 1, t) else t(s[i])
  }

  /** A token follows exactly when `TokenAfter` finds one. */
  lemma {:induction false} TokenStartsSome(s: string, i: nat, t: char -> bool)
    requires i <= |s|
    ensures TokenStarts(s, i, t) <==> TokenAfter(s, i, t).Some?
    decreases |s| - i
  {
    if i < |s| && IsSpace(s[i]) {
      TokenStartsSome(s, i + 1, t);
      assert RunLength(s, i, IsSpace) == 1 + RunLength(s, i + 1, IsSpace);
    }
  }

  /** The leftmost position at or after `from` where the pattern matches. */
  function FindLabel(s: string, key: string, t: char -> bool, from: nat): (r: Option<nat>)
    ensures r.Some? ==> from <= r.value && r.value + |key| <= |s|
    decreases |s| + 1 - from
  {
    if from > |s| then None
    else if LabelMatchAt(s, key, t, from) then Some(from)
    else FindLabel(s, key, t, from + 1)
  }

  /** The search finds the leftmost match at or after `from`, and nothing when there is none. */
  lemma {:induction false} FindLabelSpec(s: string, key: string, t: char -> bool, from: nat)
    ensures var r := FindLabel(s, key, t, from);
      && (r.Some? ==> LabelMatchAt(s, key, t, r.value))
      && (r.Some? ==> forall q :: from <= q < r.value ==> !LabelMatchAt(s, key, t, q))
      && (r.None? ==> forall q :: from <= q <= |s| ==> !LabelMatchAt(s, key, t, q))
    decreases |s| + 1 - from
  {
    if from <= |s| && !LabelMatchAt(s, key, t, from) {
      FindLabelSpec(s, key, t, from + 1);
    }
  }

  /** The search stops at the first matching position. */
  lemma {:induction false} FindLabelFirst(s: string, key: string, t: char -> bool, from: nat, q: nat)
    requires from <= q <= |s| && LabelMatchAt(s, key, t, q)
    requires forall p :: from <= p < q ==> !LabelMatchAt(s, key, t, p)
    ensures FindLabel(s, key, t, from) == Some(q)
    decreases q - from
  {
    if from < q {
      FindLabelFirst(s, key, t, from + 1, q);
    }
  }

  /** `s.match(/key\s*(t+)/)?.[1]`. */
  function LabelValue(s: string, key: string, t: char -> bool): (r: Option<string>)
    ensures r.Some? ==> |r.value| > 0 && forall k :: 0 <= k < |r.value| ==> t(r.value[k])
  {
    match FindLabel(s, key, t, 0)
    case None => None
    case Some(q) => TokenAfter(s, q + |key|, t)
  }

  /** The token after a position depends only on the text from there on. */
  lemma TokenAfterShift(a: string, v: string, i: nat, t: char -> bool)
    requires i <= |v|
    ensures TokenAfter(a + v, |a| + i, t) == TokenAfter(v, i, t)
  {
    SliceShift(a, v, i, 0);
    TokenAfterSameSuffix(a + v, |a| + i, v, i, t);
  }

  /** Two positions followed by the same text have the same token after them. */
  lemma TokenAfterSameSuffix(s1: string, i1: nat, s2: string, i2: nat, t: char -> bool)
    requires i1 <= |s1| && i2 <= |s2| && s1[i1..] == s2[i2..]
    ensures TokenAfter(s1, i1, t) == TokenAfter(s2, i2, t)
  {
    TokenAfterSuffix(s1, i1, t);
    TokenAfterSuffix(s2, i2, t);
  }

  lemma LabelMatchShift(a: string, v: string, key: string, t: char -> bool, p: nat)
    requires p <= |v|
    ensures LabelMatchAt(a + v, key, t, |a| + p) == LabelMatchAt(v, key, t, p)
  {
    assert (a + v)[|a| + p..] == v[p..];
    if OccursAt(v, p, key) {
      TokenAfterShift(a, v, p + |key|, t);
      TokenStartsSome(a + v, |a| + p + |key|, t);
      TokenStartsSome(v, p + |key|, t);
    }
  }

  /** No occurrence of the key starts before position n. */
  predicate NoKeyBelow(s: string, key: string, n: nat) {
    forall q :: 0 <= q < n ==> !OccursAt(s, q, key)
  }

  /** A prefix in which no occurrence of the key starts leaves the value unchanged. */
  lemma LabelValueSkip(a: string, v: string, key: string, t: char -> bool)
    requires NoKeyBelow(a + v, key, |a|)
    ensures LabelValue(a + v, key, t) == LabelValue(v, key, t)
  {
    var s := a + v;
    FindLabelSkip(a, v, key, t);
    var r := FindLabel(v, key, t, 0);
    if r.Some? {
      TokenAfterShift(a, v, r.value + |key|, t);
    }
  }

  /** Past a prefix where the key never starts, the search finds the text's own match, shifted. */
  lemma FindLabelSkip(a: string, v: string, key: string, t: char -> bool)
    requires NoKeyBelow(a + v, key, |a|)
    ensures FindLabel(a + v, key, t, 0) == ShiftPos(FindLabel(v, key, t, 0), |a|)
  {
    FindLabelPrefix(a, v, key, t, 0);
    FindLabelShift(a, v, key, t, 0);
  }

  /** Searching from inside a prefix where the key never starts is searching from the end of the prefix. */
  lemma {:induction false} FindLabelPrefix(a: string, v: string, key: string, t: char -> bool, i: nat)
    requires i <= |a| && NoKeyBelow(a + v, key, |a|)
    ensures FindLabel(a + v, key, t, i) == FindLabel(a + v, key, t, |a|)
    decreases |a| - i
  {
    if i < |a| {
      assert !OccursAt(a + v, i, key);
      FindLabelPrefix(a, v, key, t, i + 1);
    }
  }

  /** Searching the text after a prefix finds the match of the text alone, shifted by the prefix. */
  lemma {:induction false} FindLabelShift(a: string, v: string, key: string, t: char -> bool, j: nat)
    requires j <= |v| + 1
    ensures FindLabel(a + v, key, t, |a| + j) == ShiftPos(FindLabel(v, key, t, j), |a|)
    decreases |v| + 1 - j
  {
    if j <= |v| {
      LabelMatchShift(a, v, key, t, j);
      FindLabelShift(a, v, key, t, j + 1);
    }
  }

  lemma SliceShift(a: string, v: string, p: nat, k: nat)
    requires p + k <= |v|
    ensures (a + v)[|a| + p + k..] == v[p + k..]
  {
  }

  /** A key at the very start, white space and a token: the value is that token. */
  lemma LabelValueAtStart(key: string, sp: string, tok: string, rest: string, t: char -> bool)
    requires forall k :: 0 <= k < |sp| ==> IsSpace(sp[k])
    requires |tok| > 0 && !IsSpace(tok[0]) && forall k :: 0 <= k < |tok| ==> t(tok[k])
    requires rest == [] || !t(rest[0])
    ensures LabelValue(key + (sp + (tok + rest)), key, t) == Some(tok)
  {
    var s := key + (sp + (tok + rest));
    TokenAfterShift(key, sp + (tok + rest), 0, t);
    TokenAfterSpaces(sp, tok, rest, t);
    assert OccursAt(s, 0, key);
    TokenStartsSome(s, |key|, t);
    FindLabelFirst(s, key, t, 0, 0);
  }

  /** No occurrence of the key starts inside a prefix that lacks its first character. */
  lemma NoKeyIn(a: string, v: string, key: string)
    requires |key| > 0 && key[0] !in a
    ensures NoKeyBelow(a + v, key, |a|)
  {
    forall q | 0 <= q < |a|
      ensures !OccursAt(a + v, q, key)
    {
      assert (a + v)[q..][0] == a[q];
    }
  }

  /** A key occurrence right after `prefix` is a match when `prefix` holds no key. */
  lemma OccursAfter(prefix: string, key: string, rest: string)
    ensures OccursAt(prefix + key + rest, |prefix|, key)
  {
    assert (prefix + key + rest)[|prefix|..] == key + rest;
  }

  /**
   * When the key occurs right after a prefix, and some character key[j]
   * appears neither in the prefix nor earlier in the key, no occurrence can
   * start inside the prefix: the value is the token after that occurrence.
   */
  lemma LabelValueAfter(prefix: string, key: string, rest: string, t: char -> bool, j: nat)
    requires j < |key| && key[j] !in prefix && key[j] !in key[..j]
    requires TokenAfter(prefix + key + rest, |prefix| + |key|, t).Some?
    ensures LabelValue(prefix + key + rest, key, t) == TokenAfter(prefix + key + rest, |prefix| + |key|, t)
  {
    var s := prefix + key + rest;
    OccursAfter(prefix, key, rest);
    forall q | 0 <= q < |prefix|
      ensures !LabelMatchAt(s, key, t, q)
    {
      var c := s[q + j];
      if q + j < |prefix| {
        assert c == prefix[q + j];
      } else {
        assert c == key[q + j - |prefix|] == key[..j][q + j - |prefix|];
      }
      assert c != key[j];
    }
    TokenStartsSome(s, |prefix| + |key|, t);
    FindLabelFirst(s, key, t, 0, |prefix|);
  }

  /** An occurrence of `x + y` is an occurrence of `x` followed by one of `y`. */
  lemma OccursConcat(s: string, i: nat, x: string, y: string)
    requires OccursAt(s, i, x + y)
    ensures OccursAt(s, i, x) && OccursAt(s, i + |x|, y)
  {
    assert (x + y)[..|x|] == x;
    assert s[i..][..|x|] == x;
    assert s[i + |x|..][..|y|] == s[i..][|x|..|x| + |y|];
    assert (x + y)[|x|..] == y;
  }

  /** An occurrence of `x + y` is an occurrence of `x` followed by one of `y`. */
  lemma OccursSplit(s: string, i: nat, x: string, y: string)
    ensures OccursAt(s, i, x + y) ==> OccursAt(s, i, x) && OccursAt(s, i + |x|, y)
  {
    if OccursAt(s, i, x + y) {
      OccursConcat(s, i, x, y);
    }
  }

  /** The run starting at an occurrence of `x` is exactly `x` when `x` is made of `p` and stops there. */
  lemma RunLengthOf(s: string, i: nat, x: string, p: char -> bool)
    requires OccursAt(s, i, x)
    requires forall k :: 0 <= k < |x| ==> p(x[k])
    requires i + |x| == |s| || !p(s[i + |x|])
    ensures RunLength(s, i, p) == |x|
  {
    assert forall k :: 0 <= k < |x| ==> s[i + k] == x[k] by {
      forall k | 0 <= k < |x| ensures s[i + k] == x[k] {
        assert s[i..][k] == x[k];
      }
    }
  }
}

=== FILE: todo_parser.dfy ===
/**
 * The TODO file parser: checkbox items with their status, indentation and
 * continuation lines; the same items grouped under `## ` headings with the
 * section's free-text notes; and the per-file summary counts.
 */
module TodoParser {
  import opened Wrappers
  import opened Text
  import opened Seqs

  datatype Status = Completed | Pending | Blocked | InProgress

  /** The four checkbox markers: `x`, a space, `!` and `~`. */
  function MarkerStatus(c: char): (r: Option<Status>)
    ensures r == Some(Completed) <==> c == 'x'
    ensures r == Some(Pending) <==> c == ' '
    ensures r == Some(Blocked) <==> c == '!'
    ensures r == Some(InProgress) <==> c == '~'
  {
    if c == 'x' then Some(Completed)
    else if c == ' ' then Some(Pending)
    else if c == '!' then Some(Blocked)
    else if c == '~' then Some(InProgress)
    else None
  }

  function MarkerChar(s: Status): (c: char)
    ensures MarkerStatus(c) == Some(s)
  {
    match s
    case Completed => 'x'
    case Pending => ' '
    case Blocked => '!'
    case InProgress => '~'
  }

  datatype TodoItem = TodoItem(text: string, status: Status, indent: nat, children: seq<string>)

  datatype Section = Section(heading: string, items: seq<TodoItem>, notes: seq<string>)

  // -------------------------------------------------------------------------
  // One line
  // -------------------------------------------------------------------------

  /** The line has a checkbox marker: whitespace, `- [m]`, then at least one whitespace character. */
  predicate HasCheckbox(line: string) {
    var n := LeadingSpaces(line);
    n + 6 <= |line| && line[n..n + 3] == "- [" && MarkerStatus(line[n + 3]).Some?
    && line[n + 4] == ']' && IsSpace(line[n + 5])
  }

  /**
   * The item a checkbox line yields: its indent is the length of the
   * leading whitespace, its text what follows the whitespace after the
   * marker, up to the end of the line, trimmed.
   */
  function Checkbox(line: string): (r: Option<TodoItem>)
    ensures r.Some? <==> HasCheckbox(line)
    ensures r.Some? ==>
      var n := LeadingSpaces(line);
      && r.value.indent == n
      && r.value.status == MarkerStatus(line[n + 3]).value
      && r.value.children == []
      && r.value.text == Trim(UpToLineEnd(line[n + 5 + RunLength(line, n + 5, IsSpace)..]))
  {
    var n := LeadingSpaces(line);
    if HasCheckbox(line) then
      var w := RunLength(line, n + 5, IsSpace);
      Some(TodoItem(Trim(UpToLineEnd(line[n + 5 + w..])), MarkerStatus(line[n + 3]).value, n, []))
    else None
  }

  function Spaces(k: nat): (r: string)
    ensures |r| == k && forall j :: 0 <= j < k ==> r[j] == ' '
  {
    seq(k, _ => ' ')
  }

  /** How an item is written in a TODO file. */
  function Render(text: string, status: Status, indent: nat): string {
    Spaces(indent) + "- [" + [MarkerChar(status)] + "] " + text
  }

  /** A one-line text with no surrounding whitespace. */
  predicate CleanText(t: string) {
    Trim(t) == t && forall j :: 0 <= j < |t| ==> !IsLineTerminator(t[j])
  }

  /** Reading a written item gives the item back. */
  lemma CheckboxRender(text: string, status: Status, indent: nat)
    requires CleanText(text)
    ensures Checkbox(Render(text, status, indent)) == Some(TodoItem(text, status, indent, []))
  {
    var line := Render(text, status, indent);
    assert line[indent..indent + 3] == "- [";
    assert line[indent + 3] == MarkerChar(status);
    assert LeadingSpaces(line) == indent by {
      assert !IsSpace(line[indent]);
    }
    var w := RunLength(line, indent + 5, IsSpace);
    assert line[indent + 6..] == text;
    if text == [] {
      assert w == 1;
    } else {
      assert !IsSpace(text[0]) by {
        assert Trim(text) != [] ==> !IsSpace(Trim(text)[0]);
      }
      assert line[indent + 6] == text[0];
      assert w == 1;
    }
    assert UpToLineEnd(text) == text;
  }

  /** `/^# /`: the file's title line. */
  predicate IsTitle(line: string) {
    |line| >= 2 && line[..2] == "# "
  }

  /** `/^## (.+)/`: a heading needs at least one character on its line after `## `. */
  function Heading(line: string): (r: Option<string>)
    ensures r.Some? <==> |line| >= 4 && line[..3] == "## " && !IsLineTerminator(line[3])
    ensures r.Some? ==> r.value == Trim(UpToLineEnd(line[3..]))
  {
    if |line| >= 4 && line[..3] == "## " && !IsLineTerminator(line[3]) then Some(Trim(UpToLineEnd(line[3..])))
    else None
  }

  /** A title line is never a heading and neither is ever a checkbox line. */
  lemma LineKindsDisjoint(line: string)
    ensures IsTitle(line) ==> Heading(line).None?
    ensures IsTitle(line) || Heading(line).Some? ==> !HasCheckbox(line)
  {
    if IsTitle(line) {
      assert line[1] == ' ';
    }
    if IsTitle(line) || Heading(line).Some? {
      assert line[0] == '#';
      assert !IsSpace(line[0]);
      assert LeadingSpaces(line) == 0;
    }
  }

  // -------------------------------------------------------------------------
  // parseTodoItems
  // -------------------------------------------------------------------------

  /** Does a non-checkbox line continue an item with the given indent? */
  predicate Continues(line: string, indent: nat) {
    LeadingSpaces(line) > indent && Trim(line) != ""
  }

  /**
   * One line of `parseTodoItems`: a checkbox line adds an item; any other
   * line is added, trimmed, to the last item's children iff it is non-blank
   * and more deeply indented than that item.
   */
  function ItemStep(items: seq<TodoItem>, line: string): (r: seq<TodoItem>)
    ensures HasCheckbox(line) ==> r == items + [Checkbox(line).value]
    ensures !HasCheckbox(line) && items != [] && Continues(line, Last(items).indent) ==>
      r == items[..|items| - 1] + [Last(items).(children := Last(items).children + [Trim(line)])]
    ensures !HasCheckbox(line) && (items == [] || !Continues(line, Last(items).indent)) ==> r == items
  {
    match Checkbox(line)
    case Some(item) => items + [item]
    case None =>
      if items != [] && Continues(line, Last(items).indent) then
        var last := Last(items);
        items[..|items| - 1] + [last.(children := last.children + [Trim(line)])]
      else items
  }

  function ItemsOf(lines: seq<string>): seq<TodoItem>
    decreases |lines|
  {
    if lines == [] then [] else ItemStep(ItemsOf(lines[..|lines| - 1]), Last(lines))
  }

  /** `parseTodoItems`. */
  function ParseTodoItems(content: string): seq<TodoItem> {
    ItemsOf(Split(content, '\n'))
  }

  /** An item without its continuation lines: what both parsers agree on. */
  function Head(it: TodoItem): TodoItem {
    it.(children := [])
  }

  function Heads(items: seq<TodoItem>): (r: seq<TodoItem>)
    ensures |r| == |items|
    ensures forall k :: 0 <= k < |items| ==> r[k] == Head(items[k])
  {
    seq(|items|, k requires 0 <= k < |items| => Head(items[k]))
  }

  /** The items the checkbox lines describe, in line order. */
  function CheckboxItems(lines: seq<string>): (r: seq<TodoItem>)
    ensures forall k :: 0 <= k < |r| ==> r[k].children == []
    decreases |lines|
  {
    if lines == [] then []
    else
      var line := Last(lines);
      CheckboxItems(lines[..|lines| - 1]) + (if HasCheckbox(line) then [Checkbox(line).value] else [])
  }

  lemma HeadsAppend(a: seq<TodoItem>, b: seq<TodoItem>)
    ensures Heads(a + b) == Heads(a) + Heads(b)
  {
  }

  lemma HeadsReplaceLast(items: seq<TodoItem>, it: TodoItem)
    requires items != [] && Head(it) == Head(Last(items))
    ensures Heads(items[..|items| - 1] + [it]) == Heads(items)
  {
    assert Heads(items[..|items| - 1] + [it]) == Heads(items[..|items| - 1]) + Heads([it]);
    assert items == items[..|items| - 1] + [Last(items)];
    HeadsAppend(items[..|items| - 1], [Last(items)]);
  }

  /**
   * One item per checkbox line, in line order, with the indent, status and
   * text that line gives; only the children come from other lines.
   */
  lemma {:induction false} ItemsAreCheckboxes(lines: seq<string>)
    ensures Heads(ItemsOf(lines)) == CheckboxItems(lines)
    decreases |lines|
  {
    if lines != [] {
      var init := lines[..|lines| - 1];
      var line := Last(lines);
      ItemsAreCheckboxes(init);
      var items := ItemsOf(init);
      if HasCheckbox(line) {
        HeadsAppend(items, [Checkbox(line).value]);
      } else if items != [] && Continues(line, Last(items).indent) {
        HeadsReplaceLast(items, Last(items).(children := Last(items).children + [Trim(line)]));
      }
    }
  }

  // -------------------------------------------------------------------------
  // parseTodoSections
  // -------------------------------------------------------------------------

  /**
   * The loop state: the sections pushed so far, the current section, and
   * whether the current section's last item still takes continuation lines
   * (`lastItem`, which is always that item when set).
   */
  datatype SecState = SecState(done: seq<Section>, current: Option<Section>, open: bool)

  predicate ValidState(st: SecState) {
    (st.open ==> st.current.Some? && st.current.value.items != [])
    && forall k :: 0 <= k < |st.done| ==> NonEmpty(st.done[k])
  }

  predicate NonEmpty(s: Section) {
    s.items != [] || s.notes != []
  }

  /** Push the current section unless it has neither items nor notes. */
  function Flush(done: seq<Section>, current: Option<Section>): (r: seq<Section>)
    ensures current.Some? && NonEmpty(current.value) ==> r == done + [current.value]
    ensures current.None? || !NonEmpty(current.value) ==> r == done
  {
    if current.Some? && NonEmpty(current.value) then done + [current.value] else done
  }

  function SectionStep(st: SecState, line: string): (r: SecState)
    requires ValidState(st)
    ensures ValidState(r)
  {
    if IsTitle(line) then st
    else if Heading(line).Some? then SecState(Flush(st.done, st.current), Some(Section(Heading(line).value, [], [])), false)
    else
      var cur := st.current.GetOr(Section("", [], []));
      match Checkbox(line)
      case Some(item) => SecState(st.done, Some(cur.(items := cur.items + [item])), true)
      case None =>
        var t := Trim(line);
        if t == "" then st.(current := Some(cur))
        else if st.open && LeadingSpaces(line) > Last(cur.items).indent then
          var last := Last(cur.items);
          var items := cur.items[..|cur.items| - 1] + [last.(children := last.children + [t])];
          st.(current := Some(cur.(items := items)))
        else SecState(st.done, Some(cur.(notes := cur.notes + [t])), false)
  }

  function SectionsOf(lines: seq<string>): (st: SecState)
    ensures ValidState(st)
    decreases |lines|
  {
    if lines == [] then SecState([], None, false) else SectionStep(SectionsOf(lines[..|lines| - 1]), Last(lines))
  }

  /** `parseTodoSections`: never outputs a section with neither items nor notes. */
  function ParseTodoSections(content: string): (r: seq<Section>)
    ensures forall k :: 0 <= k < |r| ==> r[k].items != [] || r[k].notes != []
  {
    var st := SectionsOf(Split(content, '\n'));
    Flush(st.done, st.current)
  }

  /** All sections' items, in order. */
  function AllItems(sections: seq<Section>): seq<TodoItem>
    decreases |sections|
  {
    if sections == [] then [] else AllItems(sections[..|sections| - 1]) + Last(sections).items
  }

  function Collected(st: SecState): seq<TodoItem> {
    AllItems(st.done) + (if st.current.Some? then st.current.value.items else [])
  }

  lemma AllItemsFlush(done: seq<Section>, current: Option<Section>)
    ensures AllItems(Flush(done, current)) == AllItems(done) + (if current.Some? then current.value.items else [])
  {
    if current.Some? && NonEmpty(current.value) {
      assert (done + [current.value])[..|done|] == done;
    }
  }

  /** What one line adds to the items collected so far. */
  function NewItems(line: string): seq<TodoItem> {
    if HasCheckbox(line) then [Checkbox(line).value] else []
  }

  lemma CollectedItem(st: SecState, line: string)
    requires ValidState(st) && HasCheckbox(line) && !IsTitle(line) && Heading(line).None?
    ensures Collected(SectionStep(st, line)) == Collected(st) + NewItems(line)
  {
    var cur := Cur(st);
    assert Collected(st) == AllItems(st.done) + cur.items;
    assert SectionStep(st, line) == SecState(st.done, Some(cur.(items := cur.items + [Checkbox(line).value])), true);
  }

  lemma CollectedChild(st: SecState, line: string)
    requires ValidState(st) && !HasCheckbox(line) && !IsTitle(line) && Heading(line).None?
    requires Trim(line) != "" && st.open && LeadingSpaces(line) > Last(Cur(st).items).indent
    ensures Heads(Collected(SectionStep(st, line))) == Heads(Collected(st))
  {
    var cur := Cur(st);
    var before := Collected(st);
    assert before == AllItems(st.done) + cur.items;
    var last := Last(cur.items);
    var it := last.(children := last.children + [Trim(line)]);
    assert SectionStep(st, line) == st.(current := Some(cur.(items := cur.items[..|cur.items| - 1] + [it])));
    assert Collected(SectionStep(st, line)) == before[..|before| - 1] + [it];
    HeadsReplaceLast(before, it);
  }

  lemma CollectedRest(st: SecState, line: string)
    requires ValidState(st) && !HasCheckbox(line) && !IsTitle(line) && Heading(line).None?
    requires !(Trim(line) != "" && st.open && LeadingSpaces(line) > Last(Cur(st).items).indent)
    ensures Collected(SectionStep(st, line)) == Collected(st)
  {
    var cur := Cur(st);
    assert Collected(st) == AllItems(st.done) + cur.items;
    assert SectionStep(st, line).current == Some(cur) || SectionStep(st, line).current == Some(cur.(notes := cur.notes + [Trim(line)]));
  }

  lemma SectionStepCollected(st: SecState, line: string)
    requires ValidState(st)
    ensures Heads(Collected(SectionStep(st, line))) == Heads(Collected(st)) + Heads(NewItems(line))
  {
    LineKindsDisjoint(line);
    if IsTitle(line) {
      assert SectionStep(st, line) == st;
    } else if Heading(line).Some? {
      AllItemsFlush(st.done, st.current);
    } else if HasCheckbox(line) {
      CollectedItem(st, line);
      HeadsAppend(Collected(st), NewItems(line));
    } else if Trim(line) != "" && st.open && LeadingSpaces(line) > Last(Cur(st).items).indent {
      CollectedChild(st, line);
    } else {
      CollectedRest(st, line);
    }
  }

  lemma {:induction false} SectionItemsAreCheckboxes(lines: seq<string>)
    ensures Heads(Collected(SectionsOf(lines))) == CheckboxItems(lines)
    decreases |lines|
  {
    if lines != [] {
      var init := lines[..|lines| - 1];
      SectionItemsAreCheckboxes(init);
      SectionStepCollected(SectionsOf(init), Last(lines));
      assert Heads(NewItems(Last(lines))) == NewItems(Last(lines));
    }
  }

  /**
   * The sections hold exactly the items `parseTodoItems` finds, in the same
   * order and with the same text, status and indent.
   */
  lemma SectionsAgreeWithItems(content: string)
    ensures Heads(AllItems(ParseTodoSections(content))) == Heads(ParseTodoItems(content))
  {
    var lines := Split(content, '\n');
    var st := SectionsOf(lines);
    SectionItemsAreCheckboxes(lines);
    ItemsAreCheckboxes(lines);
    AllItemsFlush(st.done, st.current);
  }

  // -------------------------------------------------------------------------
  // Which lines become notes, items and headings
  // -------------------------------------------------------------------------

  /**
   * What a line is to `parseTodoSections`, given the indent of the item
   * that still takes continuation lines, if any: a skipped line (the title,
   * or a blank line), a heading, an item, a continuation of the open item,
   * or a note.
   */
  datatype Role = Skip | HeadingLine(heading: string) | ItemLine(item: TodoItem) | Child | Note(note: string)

  function RoleOf(open: Option<nat>, line: string): Role {
    if IsTitle(line) then Skip
    else if Heading(line).Some? then HeadingLine(Heading(line).value)
    else if HasCheckbox(line) then ItemLine(Checkbox(line).value)
    else if Trim(line) == "" then Skip
    else if open.Some? && LeadingSpaces(line) > open.value then Child
    else Note(Trim(line))
  }

  /** A heading and a note close the open item; an item opens itself; other lines leave it. */
  function OpenStep(open: Option<nat>, line: string): Option<nat> {
    match RoleOf(open, line)
    case HeadingLine(_) => None
    case ItemLine(it) => Some(it.indent)
    case Note(_) => None
    case _ => open
  }

  /** The heading in force: that of the last `## ` line, or empty before the first. */
  function HeadingStep(h: string, line: string): string {
    if Heading(line).Some? then Heading(line).value else h
  }

  /** The notes a line adds, tagged with the heading in force. */
  function LineNotes(h: string, open: Option<nat>, line: string): seq<(string, string)> {
    match RoleOf(open, line)
    case Note(n) => [(h, n)]
    case _ => []
  }

  /** The items a line adds, tagged with the heading in force. */
  function LineItems(h: string, open: Option<nat>, line: string): seq<(string, TodoItem)> {
    match RoleOf(open, line)
    case ItemLine(it) => [(h, it)]
    case _ => []
  }

  function OpenAfter(lines: seq<string>): Option<nat>
    decreases |lines|
  {
    if lines == [] then None else OpenStep(OpenAfter(lines[..|lines| - 1]), Last(lines))
  }

  function HeadingAfter(lines: seq<string>): string
    decreases |lines|
  {
    if lines == [] then "" else HeadingStep(HeadingAfter(lines[..|lines| - 1]), Last(lines))
  }

  /** Every note line of the file, in order, with the heading it falls under. */
  function NoteLines(lines: seq<string>): seq<(string, string)>
    decreases |lines|
  {
    if lines == [] then []
    else
      var init := lines[..|lines| - 1];
      NoteLines(init) + LineNotes(HeadingAfter(init), OpenAfter(init), Last(lines))
  }

  /** Every checkbox line's item, in order, with the heading it falls under. */
  function ItemLines(lines: seq<string>): seq<(string, TodoItem)>
    decreases |lines|
  {
    if lines == [] then []
    else
      var init := lines[..|lines| - 1];
      ItemLines(init) + LineItems(HeadingAfter(init), OpenAfter(init), Last(lines))
  }

  /** A section's notes, each with the section's heading. */
  function SectionNotes(s: Section): (r: seq<(string, string)>)
    ensures |r| == |s.notes|
    ensures forall k :: 0 <= k < |r| ==> r[k] == (s.heading, s.notes[k])
  {
    seq(|s.notes|, k requires 0 <= k < |s.notes| => (s.heading, s.notes[k]))
  }

  /** A section's items without their continuation lines, each with the section's heading. */
  function SectionItems(s: Section): (r: seq<(string, TodoItem)>)
    ensures |r| == |s.items|
    ensures forall k :: 0 <= k < |r| ==> r[k] == (s.heading, Head(s.items[k]))
  {
    seq(|s.items|, k requires 0 <= k < |s.items| => (s.heading, Head(s.items[k])))
  }

  function NotesOf(ss: seq<Section>): seq<(string, string)>
    decreases |ss|
  {
    if ss == [] then [] else NotesOf(ss[..|ss| - 1]) + SectionNotes(Last(ss))
  }

  function ItemsIn(ss: seq<Section>): seq<(string, TodoItem)>
    decreases |ss|
  {
    if ss == [] then [] else ItemsIn(ss[..|ss| - 1]) + SectionItems(Last(ss))
  }

  /** The indent of the item the loop state keeps open, if any. */
  function StateOpen(st: SecState): Option<nat>
    requires ValidState(st)
  {
    if st.open then Some(Last(st.current.value.items).indent) else None
  }

  function Cur(st: SecState): Section {
    st.current.GetOr(Section("", [], []))
  }

  /** The loop state agrees with the line-by-line reading of the lines so far. */
  predicate Agrees(st: SecState, open: Option<nat>, h: string, notes: seq<(string, string)>, items: seq<(string, TodoItem)>) {
    && ValidState(st)
    && StateOpen(st) == open
    && Cur(st).heading == h
    && (st.current.None? ==> st.open == false)
    && NotesOf(st.done) + SectionNotes(Cur(st)) == notes
    && ItemsIn(st.done) + SectionItems(Cur(st)) == items
  }

  lemma OfSnoc(ss: seq<Section>, c: Section)
    ensures NotesOf(ss + [c]) == NotesOf(ss) + SectionNotes(c)
    ensures ItemsIn(ss + [c]) == ItemsIn(ss) + SectionItems(c)
  {
    assert (ss + [c])[..|ss|] == ss;
  }

  /** Pushing the current section loses none of its notes and items. */
  lemma OfFlush(done: seq<Section>, c: Section)
    ensures NotesOf(Flush(done, Some(c))) == NotesOf(done) + SectionNotes(c)
    ensures ItemsIn(Flush(done, Some(c))) == ItemsIn(done) + SectionItems(c)
  {
    OfSnoc(done, c);
  }

  lemma StepHeading(st: SecState, open: Option<nat>, h: string, notes: seq<(string, string)>, items: seq<(string, TodoItem)>, line: string)
    requires Agrees(st, open, h, notes, items) && Heading(line).Some? && !IsTitle(line)
    ensures Agrees(SectionStep(st, line), OpenStep(open, line), HeadingStep(h, line),
                   notes + LineNotes(h, open, line), items + LineItems(h, open, line))
  {
    var c := Cur(st);
    OfFlush(st.done, c);
    assert Flush(st.done, st.current) == Flush(st.done, Some(c));
  }

  lemma StepItem(st: SecState, open: Option<nat>, h: string, notes: seq<(string, string)>, items: seq<(string, TodoItem)>, line: string)
    requires Agrees(st, open, h, notes, items) && HasCheckbox(line) && !IsTitle(line) && Heading(line).None?
    ensures Agrees(SectionStep(st, line), OpenStep(open, line), HeadingStep(h, line),
                   notes + LineNotes(h, open, line), items + LineItems(h, open, line))
  {
    var c := Cur(st);
    var it := Checkbox(line).value;
    var c2 := c.(items := c.items + [it]);
    assert SectionStep(st, line) == SecState(st.done, Some(c2), true);
    assert SectionNotes(c2) == SectionNotes(c);
    assert SectionItems(c2) == SectionItems(c) + [(h, it)];
  }

  lemma StepBlank(st: SecState, open: Option<nat>, h: string, notes: seq<(string, string)>, items: seq<(string, TodoItem)>, line: string)
    requires Agrees(st, open, h, notes, items) && !HasCheckbox(line) && !IsTitle(line) && Heading(line).None?
    requires Trim(line) == ""
    ensures Agrees(SectionStep(st, line), OpenStep(open, line), HeadingStep(h, line),
                   notes + LineNotes(h, open, line), items + LineItems(h, open, line))
  {
    assert SectionStep(st, line) == st.(current := Some(Cur(st)));
  }

  lemma StepChild(st: SecState, open: Option<nat>, h: string, notes: seq<(string, string)>, items: seq<(string, TodoItem)>, line: string)
    requires Agrees(st, open, h, notes, items) && !HasCheckbox(line) && !IsTitle(line) && Heading(line).None?
    requires Trim(line) != "" && st.open && LeadingSpaces(line) > Last(Cur(st).items).indent
    ensures Agrees(SectionStep(st, line), OpenStep(open, line), HeadingStep(h, line),
                   notes + LineNotes(h, open, line), items + LineItems(h, open, line))
  {
    var c := Cur(st);
    var last := Last(c.items);
    var c2 := c.(items := c.items[..|c.items| - 1] + [last.(children := last.children + [Trim(line)])]);
    assert SectionStep(st, line) == st.(current := Some(c2));
    assert RoleOf(open, line) == Child;
    assert SectionNotes(c2) == SectionNotes(c);
    assert SectionItems(c2) == SectionItems(c);
  }

  lemma StepNote(st: SecState, open: Option<nat>, h: string, notes: seq<(string, string)>, items: seq<(string, TodoItem)>, line: string)
    requires Agrees(st, open, h, notes, items) && !HasCheckbox(line) && !IsTitle(line) && Heading(line).None?
    requires Trim(line) != "" && !(st.open && LeadingSpaces(line) > Last(Cur(st).items).indent)
    ensures Agrees(SectionStep(st, line), OpenStep(open, line), HeadingStep(h, line),
                   notes + LineNotes(h, open, line), items + LineItems(h, open, line))
  {
    var c := Cur(st);
    var c2 := c.(notes := c.notes + [Trim(line)]);
    assert SectionStep(st, line) == SecState(st.done, Some(c2), false);
    assert RoleOf(open, line) == Note(Trim(line));
    assert SectionNotes(c2) == SectionNotes(c) + [(h, Trim(line))];
    assert SectionItems(c2) == SectionItems(c);
  }

  /** One line keeps the loop state in agreement with the line-by-line reading. */
  lemma StepAgrees(st: SecState, open: Option<nat>, h: string, notes: seq<(string, string)>, items: seq<(string, TodoItem)>, line: string)
    requires Agrees(st, open, h, notes, items)
    ensures Agrees(SectionStep(st, line), OpenStep(open, line), HeadingStep(h, line),
                   notes + LineNotes(h, open, line), items + LineItems(h, open, line))
  {
    LineKindsDisjoint(line);
    if IsTitle(line) {
      assert SectionStep(st, line) == st;
    } else if Heading(line).Some? {
      StepHeading(st, open, h, notes, items, line);
    } else if HasCheckbox(line) {
      StepItem(st, open, h, notes, items, line);
    } else if Trim(line) == "" {
      StepBlank(st, open, h, notes, items, line);
    } else if st.open && LeadingSpaces(line) > Last(Cur(st).items).indent {
      StepChild(st, open, h, notes, items, line);
    } else {
      StepNote(st, open, h, notes, items, line);
    }
  }

  lemma {:induction false} SectionsAgree(lines: seq<string>)
    ensures Agrees(SectionsOf(lines), OpenAfter(lines), HeadingAfter(lines), NoteLines(lines), ItemLines(lines))
    decreases |lines|
  {
    if lines != [] {
      var init := lines[..|lines| - 1];
      SectionsAgree(init);
      StepAgrees(SectionsOf(init), OpenAfter(init), HeadingAfter(init), NoteLines(init), ItemLines(init), Last(lines));
    }
  }

  /**
   * The sections hold exactly the file's note lines and checkbox lines, in
   * file order, each under the heading of the last `## ` line above it
   * (the empty heading before the first). A note line is a non-blank line
   * that is neither the title, a heading nor a checkbox line, and is not
   * indented deeper than an item that no heading or note has closed.
   */
  lemma SectionsFollowLines(content: string)
    ensures NotesOf(ParseTodoSections(content)) == NoteLines(Split(content, '\n'))
    ensures ItemsIn(ParseTodoSections(content)) == ItemLines(Split(content, '\n'))
  {
    var lines := Split(content, '\n');
    var st := SectionsOf(lines);
    SectionsAgree(lines);
    if st.current.Some? {
      OfFlush(st.done, st.current.value);
    } else {
      assert SectionNotes(Cur(st)) == [] && SectionItems(Cur(st)) == [];
    }
  }

  /**
   * The rules of one loop iteration: a title line changes nothing; a
   * heading pushes the current section and opens an empty one; a note line
   * is added, trimmed, to the current section's notes and closes the open
   * item, leaving the items and pushed sections as they were.
   */
  lemma SectionStepRules(st: SecState, line: string)
    requires ValidState(st)
    ensures IsTitle(line) ==> SectionStep(st, line) == st
    ensures Heading(line).Some? ==>
      SectionStep(st, line) == SecState(Flush(st.done, st.current), Some(Section(Heading(line).value, [], [])), false)
    ensures RoleOf(StateOpen(st), line).Note? ==>
      var r := SectionStep(st, line);
      && r.done == st.done && !r.open
      && r.current == Some(Cur(st).(notes := Cur(st).notes + [Trim(line)]))
  {
    LineKindsDisjoint(line);
  }

  // -------------------------------------------------------------------------
  // parseTodoFile
  // -------------------------------------------------------------------------

  function CountStatus(items: seq<TodoItem>, s: Status): (n: nat)
    ensures n <= |items|
  {
    if items == [] then 0 else (if items[0].status == s then 1 else 0) + CountStatus(items[1..], s)
  }

  lemma {:induction false} CountsSum(items: seq<TodoItem>)
    ensures CountStatus(items, Completed) + CountStatus(items, Pending) + CountStatus(items, Blocked)
      + CountStatus(items, InProgress) == |items|
  {
    if items != [] {
      CountsSum(items[1..]);
    }
  }

  /** A status count is the length of the items filtered by that status. */
  lemma {:induction false} CountStatusIsFilter(items: seq<TodoItem>, s: Status)
    ensures CountStatus(items, s) == |Filter(items, (i: TodoItem) => i.status == s)|
    decreases |items|
  {
    if items != [] {
      CountStatusIsFilter(items[1..], s);
    }
  }

  /**
   * `Math.round(completed * 100 / total)`, 0 for no items: the nearest
   * whole percentage, halves rounded up.
   */
  function Progress(completed: nat, total: nat): (p: nat)
    requires completed <= total
    ensures p <= 100
    ensures total == 0 ==> p == 0
    ensures total > 0 ==> 2 * total * p <= 200 * completed + total < 2 * total * (p + 1)
  {
    if total == 0 then 0
    else
      var p := (200 * completed + total) / (2 * total);
      assert 200 * completed + total < 2 * total * 101;
      DivBound(200 * completed + total, 2 * total, 101);
      p
  }

  lemma DivBound(a: nat, b: nat, c: nat)
    requires b > 0 && a < b * c
    ensures a / b < c
  {
  }

  /** Everything completed shows 100%, nothing completed 0%. */
  lemma ProgressEnds(total: nat)
    ensures Progress(total, total) == (if total == 0 then 0 else 100)
    ensures Progress(0, total) == 0
  {
    if total > 0 {
      assert 200 * total + total == 100 * (2 * total) + total;
      DivExact(100, 2 * total, total);
      DivExact(0, 2 * total, total);
    }
  }

  lemma DivExact(q: nat, b: nat, r: nat)
    requires r < b
    ensures (q * b + r) / b == q
  {
    var d := (q * b + r) / b;
    var m := (q * b + r) % b;
    assert d * b + m == q * b + r;
    if d < q {
      MulMono(d + 1, q, b);
    } else if d > q {
      MulMono(q + 1, d, b);
    }
  }

  lemma MulMono(a: nat, c: nat, b: nat)
    requires a <= c
    ensures a * b <= c * b
  {
  }

  const TodoPrefix: string := "TODO-"
  const MarkdownSuffix: string := ".md"

  /** `filename.replace(/^TODO-/, "").replace(/\.md$/, "")`. */
  function RepoName(filename: string): (r: string)
    ensures |r| <= |filename|
  {
    var a := if TodoPrefix <= filename then filename[|TodoPrefix|..] else filename;
    if |a| >= |MarkdownSuffix| && a[|a| - |MarkdownSuffix|..] == MarkdownSuffix then a[..|a| - |MarkdownSuffix|] else a
  }

  /** The file for a repository gives that repository's name back. */
  lemma RepoNameOfFile(repo: string)
    ensures RepoName(TodoPrefix + repo + MarkdownSuffix) == repo
  {
    var f := TodoPrefix + repo + MarkdownSuffix;
    assert f[|TodoPrefix|..] == repo + MarkdownSuffix;
  }

  /** Only the exact prefix and suffix are removed: any other name is kept whole. */
  lemma RepoNameUntouched(filename: string)
    requires !(TodoPrefix <= filename)
    requires |filename| < |MarkdownSuffix| || filename[|filename| - |MarkdownSuffix|..] != MarkdownSuffix
    ensures RepoName(filename) == filename
  {
  }

  datatype TodoFile = TodoFile(
    filename: string,
    repoName: string,
    items: seq<TodoItem>,
    sections: seq<Section>,
    completed: nat,
    pending: nat,
    blocked: nat,
    inProgress: nat,
    total: nat,
    progress: nat)

  /**
   * `parseTodoFile`: each count is the number of items with its status, the
   * four counts partition the items, and the progress is the rounded
   * percentage of completed items.
   */
  function ParseTodoFile(filename: string, content: string): (r: TodoFile)
    ensures r.filename == filename && r.repoName == RepoName(filename)
    ensures r.items == ParseTodoItems(content) && r.sections == ParseTodoSections(content)
    ensures r.total == |r.items|
    ensures r.completed == CountStatus(r.items, Completed) && r.pending == CountStatus(r.items, Pending)
    ensures r.blocked == CountStatus(r.items, Blocked) && r.inProgress == CountStatus(r.items, InProgress)
    ensures r.progress == Progress(r.completed, r.total)
    ensures r.completed + r.pending + r.blocked + r.inProgress == r.total
    ensures r.progress <= 100 && (r.total == 0 ==> r.progress == 0)
    ensures r.total > 0 && r.completed == r.total ==> r.progress == 100
  {
    var items := ParseTodoItems(content);
    CountsSum(items);
    var completed := CountStatus(items, Completed);
    ProgressEnds(|items|);
    TodoFile(filename, RepoName(filename), items, ParseTodoSections(content),
      completed, CountStatus(items, Pending), CountStatus(items, Blocked), CountStatus(items, InProgress),
      |items|, Progress(completed, |items|))
  }
}

=== FILE: workspace_ops.dfy ===
/**
 * The pure parts of workspace management: turning a task description into
 * a directory-safe slug, naming the workspace directory and the branch of
 * each repository worktree, filling in the README header, the automatic
 * snapshot commit message, workspace age, and the review directory's
 * timestamp. File-system and git effects are left to the caller; the
 * current time is a parameter.
 */
module WorkspaceOps {
  import opened Wrappers
  import opened Text

  // -------------------------------------------------------------------------
  // sanitizeSlug
  // -------------------------------------------------------------------------

  predicate IsSlugChar(c: char) {
    ('a' <= c <= 'z') || ('0' <= c <= '9') || c == '-'
  }

  predicate IsHyphen(c: char) {
    c == '-'
  }

  /** No two hyphens in a row. */
  predicate NoDoubleHyphen(s: string) {
    forall k :: 0 <= k < |s| - 1 ==> !(s[k] == '-' && s[k + 1] == '-')
  }

  /** What a finished slug looks like: `[a-z0-9-]` only, no `--`, no hyphen at either end. */
  predicate CleanSlug(s: string) {
    && (forall k :: 0 <= k < |s| ==> IsSlugChar(s[k]))
    && NoDoubleHyphen(s)
    && (s != [] ==> s[0] != '-' && s[|s| - 1] != '-')
  }

  /** `toLowerCase()` then `/[^a-z0-9-]/g → "-"` on one character. */
  function SlugChar(c: char): (r: char)
    ensures IsSlugChar(r)
    ensures IsSlugChar(c) ==> r == c
    ensures r != '-' <==> IsSlugChar(LowerChar(c)) && LowerChar(c) != '-'
  {
    var l := LowerChar(c);
    if IsSlugChar(l) then l else '-'
  }

  function SlugChars(s: string): (r: string)
    ensures |r| == |s| && forall k :: 0 <= k < |s| ==> r[k] == SlugChar(s[k])
  {
    seq(|s|, k requires 0 <= k < |s| => SlugChar(s[k]))
  }

  /** The string with its hyphens left out. */
  function NonHyphens(s: string): string
    decreases |s|
  {
    if s == [] then [] else (if s[0] == '-' then [] else [s[0]]) + NonHyphens(s[1..])
  }

  /** `.replace(/-+/g, "-")`: each run of hyphens becomes a single hyphen. */
  function Collapse(s: string): (r: string)
    ensures |r| <= |s| && (r == [] <==> s == [])
    ensures s != [] ==> r[0] == s[0] && r[|r| - 1] == s[|s| - 1]
    ensures forall c :: c in r ==> c in s
    ensures NoDoubleHyphen(r)
    decreases |s|
  {
    if |s| <= 1 then s
    else if s[0] == '-' && s[1] == '-' then Collapse(s[1..])
    else [s[0]] + Collapse(s[1..])
  }

  /** Collapsing keeps every other character, in order. */
  lemma {:induction false} CollapseKeepsOthers(s: string)
    ensures NonHyphens(Collapse(s)) == NonHyphens(s)
    decreases |s|
  {
    if |s| > 1 {
      CollapseKeepsOthers(s[1..]);
      if !(s[0] == '-' && s[1] == '-') {
        assert ([s[0]] + Collapse(s[1..]))[1..] == Collapse(s[1..]);
      }
    }
  }

  /** A string without `--` is left as it is. */
  lemma {:induction false} CollapseNoDoubles(s: string)
    requires NoDoubleHyphen(s)
    ensures Collapse(s) == s
    decreases |s|
  {
    if |s| > 1 {
      CollapseNoDoubles(s[1..]);
      assert s == [s[0]] + s[1..];
    }
  }

  /** The number of hyphens at the end of s. */
  function TrailingHyphens(s: string): (n: nat)
    ensures n <= |s|
    ensures forall k :: |s| - n <= k < |s| ==> s[k] == '-'
    ensures n == |s| || s[|s| - n - 1] != '-'
    decreases |s|
  {
    if s == [] || s[|s| - 1] != '-' then 0 else 1 + TrailingHyphens(s[..|s| - 1])
  }

  /** `.replace(/-+$/, "")`. */
  function DropTrailingHyphens(s: string): (r: string)
    ensures r <= s
    ensures r == [] || r[|r| - 1] != '-'
    ensures forall k :: |r| <= k < |s| ==> s[k] == '-'
  {
    s[..|s| - TrailingHyphens(s)]
  }

  /** Where the text after the leading hyphens starts. */
  function TrimStart(s: string): (n: nat)
    ensures n <= |s|
  {
    RunLength(s, 0, IsHyphen)
  }

  /** `.replace(/^-+|-+$/g, "")`: the text between the leading and the trailing hyphens. */
  function TrimHyphens(s: string): (r: string)
    ensures r == [] || (r[0] != '-' && r[|r| - 1] != '-')
    ensures TrimStart(s) + |r| <= |s| && r == s[TrimStart(s)..TrimStart(s) + |r|]
    ensures r == [] <==> forall k :: 0 <= k < |s| ==> s[k] == '-'
  {
    var a := TrimStart(s);
    if a == |s| then [] else s[a..|s| - TrailingHyphens(s)]
  }

  lemma TrimUnhyphened(s: string)
    requires s == [] || (s[0] != '-' && s[|s| - 1] != '-')
    ensures TrimHyphens(s) == s
  {
  }

  /** A piece of a string keeps its characters and has no `--` the string lacks. */
  lemma SliceClean(s: string, i: nat, j: nat)
    requires i <= j <= |s|
    requires forall k :: 0 <= k < |s| ==> IsSlugChar(s[k])
    requires NoDoubleHyphen(s)
    ensures forall k :: 0 <= k < j - i ==> IsSlugChar(s[i..j][k])
    ensures NoDoubleHyphen(s[i..j])
  {
    assert forall k :: 0 <= k < j - i ==> s[i..j][k] == s[i + k];
  }

  /** The collapsed, trimmed slug before any cut. */
  function TrimmedSlug(input: string): (r: string)
    ensures CleanSlug(r)
  {
    var c := Collapse(SlugChars(input));
    var r := TrimHyphens(c);
    CollapsedSlugChars(input);
    SliceClean(c, TrimStart(c), TrimStart(c) + |r|);
    r
  }

  /** Collapsing keeps the characters slug characters. */
  lemma CollapsedSlugChars(input: string)
    ensures forall k :: 0 <= k < |Collapse(SlugChars(input))| ==> IsSlugChar(Collapse(SlugChars(input))[k])
  {
    var s := SlugChars(input);
    var c := Collapse(s);
    forall k | 0 <= k < |c|
      ensures IsSlugChar(c[k])
    {
      assert c[k] in c;
      var i :| 0 <= i < |s| && s[i] == c[k];
    }
  }

  /** The cut to `maxLength`, when the slug is longer, with the hyphens it exposes removed. */
  function Truncate(slug: string, maxLength: nat): (r: string)
    requires CleanSlug(slug)
    ensures CleanSlug(r) && |r| <= maxLength
    ensures |slug| <= maxLength ==> r == slug
    ensures r == [] ==> maxLength == 0 || slug == []
  {
    if |slug| <= maxLength then slug
    else
      var r := DropTrailingHyphens(slug[..maxLength]);
      SliceClean(slug, 0, maxLength);
      SliceClean(slug[..maxLength], 0, |r|);
      assert r == slug[..maxLength][0..|r|];
      assert r != [] ==> r[0] == slug[0];
      r
  }

  const DefaultSlugLength := 50
  const FallbackSlug := "workspace"

  lemma FallbackIsClean()
    ensures CleanSlug(FallbackSlug) && |FallbackSlug| == 9
  {
  }

  /**
   * `sanitizeSlug(input, maxLength)`: lower-cased, every character outside
   * `[a-z0-9-]` made a hyphen, hyphen runs collapsed and trimmed, cut to
   * `maxLength` without leaving a trailing hyphen, and `workspace` when
   * nothing is left.
   */
  function SanitizeSlug(input: string, maxLength: nat): (r: string)
    ensures CleanSlug(r) && r != []
    ensures maxLength >= |FallbackSlug| ==> |r| <= maxLength
  {
    var cut := Truncate(TrimmedSlug(input), maxLength);
    FallbackIsClean();
    if cut == [] then FallbackSlug else cut
  }

  /** A clean slug within the length bound is its own sanitised form. */
  lemma SanitizeClean(s: string, maxLength: nat)
    requires CleanSlug(s) && s != [] && |s| <= maxLength
    ensures SanitizeSlug(s, maxLength) == s
  {
    assert SlugChars(s) == s;
    CollapseNoDoubles(s);
    TrimUnhyphened(s);
  }

  /** For a bound that leaves room for the fallback, sanitising twice changes nothing more. */
  lemma SanitizeIdempotent(input: string, maxLength: nat)
    requires maxLength >= |FallbackSlug|
    ensures SanitizeSlug(SanitizeSlug(input, maxLength), maxLength) == SanitizeSlug(input, maxLength)
  {
    SanitizeClean(SanitizeSlug(input, maxLength), maxLength);
  }

  /**
   * When the input has a letter or digit and nothing is cut, the slug holds
   * exactly the input's letters (lower-cased) and digits, in order.
   */
  lemma SanitizeKeepsWords(input: string, maxLength: nat)
    requires |TrimmedSlug(input)| <= maxLength
    requires NonHyphens(SlugChars(input)) != []
    ensures NonHyphens(SanitizeSlug(input, maxLength)) == NonHyphens(SlugChars(input))
  {
    var c := Collapse(SlugChars(input));
    CollapseKeepsOthers(SlugChars(input));
    TrimKeepsOthers(c);
  }

  /** Trimming edge hyphens keeps every other character. */
  lemma TrimKeepsOthers(s: string)
    ensures NonHyphens(TrimHyphens(s)) == NonHyphens(s)
  {
    var a := TrimStart(s);
    if a < |s| {
      var b := |s| - TrailingHyphens(s);
      var x, y, z := s[..a], s[a..b], s[b..];
      assert s == x + y + z;
      assert TrimHyphens(s) == y;
      assert forall k :: 0 <= k < |x| ==> x[k] == '-' by {
        assert forall k :: 0 <= k < a ==> IsHyphen(s[k]);
      }
      assert forall k :: 0 <= k < |z| ==> z[k] == '-';
      HyphensAround(x, y, z);
    } else {
      AllHyphens(s);
    }
  }

  /** Hyphens on either side add nothing to the other characters. */
  lemma HyphensAround(x: string, y: string, z: string)
    requires forall k :: 0 <= k < |x| ==> x[k] == '-'
    requires forall k :: 0 <= k < |z| ==> z[k] == '-'
    ensures NonHyphens(x + y + z) == NonHyphens(y)
  {
    NonHyphensAppend(x + y, z);
    NonHyphensAppend(x, y);
    AllHyphens(x);
    AllHyphens(z);
  }

  lemma {:induction false} NonHyphensAppend(a: string, b: string)
    ensures NonHyphens(a + b) == NonHyphens(a) + NonHyphens(b)
    decreases |a|
  {
    if a != [] {
      NonHyphensAppend(a[1..], b);
      assert (a + b)[0] == a[0];
      assert (a + b)[1..] == a[1..] + b;
    } else {
      assert a + b == b;
    }
  }

  lemma {:induction false} AllHyphens(s: string)
    requires forall k :: 0 <= k < |s| ==> s[k] == '-'
    ensures NonHyphens(s) == []
    decreases |s|
  {
    if s != [] {
      AllHyphens(s[1..]);
    }
  }

  // -------------------------------------------------------------------------
  // setupWorkspace: the slug, the directory name and the dates
  // -------------------------------------------------------------------------

  predicate AllSlugChars(s: string) {
    forall k :: 0 <= k < |s| ==> IsSlugChar(s[k])
  }

  lemma CleanIsSlugChars(s: string)
    requires CleanSlug(s)
    ensures AllSlugChars(s)
  {
  }

  /** Not empty, and no hyphen at either end. */
  predicate Trimmed(s: string) {
    s != [] && s[0] != '-' && s[|s| - 1] != '-'
  }

  predicate EndsWith(s: string, p: string) {
    |p| <= |s| && s[|s| - |p|..] == p
  }

  /** `.replace(new RegExp("^" + p), "")` for a pattern free of metacharacters. */
  function DropPrefix(s: string, p: string): (r: string)
    ensures p <= s ==> s == p + r
    ensures !(p <= s) ==> r == s
    ensures AllSlugChars(s) ==> AllSlugChars(r)
  {
    if p <= s then s[|p|..] else s
  }

  /** `.replace(new RegExp(p + "$"), "")` for a pattern free of metacharacters. */
  function DropSuffix(s: string, p: string): (r: string)
    ensures EndsWith(s, p) ==> s == r + p
    ensures !EndsWith(s, p) ==> r == s
  {
    if EndsWith(s, p) then s[..|s| - |p|] else s
  }

  /**
   * `.replace(new RegExp(pat, "g"), rep)` for a pattern free of
   * metacharacters: occurrences are replaced left to right, and the search
   * resumes after each replaced one, so replaced occurrences never overlap.
   */
  function ReplaceAll(s: string, pat: string, rep: string): (r: string)
    requires |pat| > 0
    ensures AllSlugChars(s) && AllSlugChars(rep) ==> AllSlugChars(r)
    decreases |s|
  {
    if s == [] then []
    else if pat <= s then rep + ReplaceAll(s[|pat|..], pat, rep)
    else [s[0]] + ReplaceAll(s[1..], pat, rep)
  }

  /** Text in which the pattern never occurs is left unchanged. */
  lemma {:induction false} ReplaceAllAbsent(s: string, pat: string, rep: string)
    requires |pat| > 0
    requires forall i :: 0 <= i <= |s| ==> !OccursAt(s, i, pat)
    ensures ReplaceAll(s, pat, rep) == s
    decreases |s|
  {
    if s != [] {
      assert !OccursAt(s, 0, pat);
      forall i | 0 <= i <= |s[1..]|
        ensures !OccursAt(s[1..], i, pat)
      {
        assert s[1..][i..] == s[i + 1..];
        assert !OccursAt(s, i + 1, pat);
      }
      ReplaceAllAbsent(s[1..], pat, rep);
    }
  }

  /**
   * Removing a separately given ticket id from the slug: a leading
   * `ticket-`, every `-ticket-` (which becomes one hyphen) and a trailing
   * `-ticket`, all matched lower-cased; a slug that is just the ticket
   * becomes empty; then edge hyphens are trimmed and an empty result falls
   * back to `workspace`.
   */
  function StripTicket(slug: string, ticket: string): (r: string)
    requires ticket != []
    ensures Trimmed(r)
    ensures AllSlugChars(slug) ==> AllSlugChars(r)
  {
    var t := Lower(ticket);
    StripInner(DropPrefix(slug, t + "-"), t)
  }

  /** The steps of `StripTicket` after the leading ticket id is gone. */
  function StripInner(s1: string, t: string): (r: string)
    requires t != []
    ensures Trimmed(r)
    ensures AllSlugChars(s1) ==> AllSlugChars(r)
  {
    var s2 := ReplaceAll(s1, "-" + t + "-", "-");
    var s3 := DropSuffix(s2, "-" + t);
    var s4 := if s3 == t then [] else s3;
    var s5 := TrimHyphens(s4);
    assert AllSlugChars(s1) ==> AllSlugChars(s5) by {
      if AllSlugChars(s1) {
        assert AllSlugChars("-");
        assert forall k :: 0 <= k < |s3| ==> s3[k] == s2[k];
        assert forall k :: 0 <= k < |s5| ==> s5[k] == s4[TrimStart(s4) + k];
      }
    }
    FallbackIsClean();
    if s5 == [] then FallbackSlug else s5
  }

  /** A slug in which the (lower-cased) ticket id does not occur is kept as it is. */
  lemma StripAbsent(slug: string, ticket: string)
    requires ticket != [] && CleanSlug(slug) && slug != []
    requires !Contains(slug, Lower(ticket))
    ensures StripTicket(slug, ticket) == slug
  {
    var t := Lower(ticket);
    assert !(t + "-" <= slug) by {
      assert slug[0..] == slug;
      OccursSplit(slug, 0, t, "-");
    }
    forall i | 0 <= i <= |slug|
      ensures !OccursAt(slug, i, "-" + t + "-")
    {
      OccursSplit(slug, i, "-" + t, "-");
      OccursSplit(slug, i, "-", t);
    }
    ReplaceAllAbsent(slug, "-" + t + "-", "-");
    if |t| + 1 <= |slug| {
      var i := |slug| - |t| - 1;
      assert EndsWith(slug, "-" + t) ==> OccursAt(slug, i, "-" + t);
      OccursSplit(slug, i, "-", t);
    }
    assert OccursAt(t, 0, t);
    TrimUnhyphened(slug);
  }

  /** A ticket id at the front of the slug is removed, with its hyphen. */
  lemma StripLeading(ticket: string, rest: string)
    requires ticket != [] && CleanSlug(rest) && rest != []
    requires !Contains(rest, Lower(ticket))
    ensures StripTicket(Lower(ticket) + "-" + rest, ticket) == rest
  {
    var t := Lower(ticket);
    var slug := t + "-" + rest;
    assert t + "-" <= slug;
    assert DropPrefix(slug, t + "-") == rest;
    StripAbsent(rest, ticket);
    assert !(t + "-" <= rest) by {
      assert rest[0..] == rest;
      OccursSplit(rest, 0, t, "-");
    }
  }

  /** `setupWorkspace`'s directory name: `type-ticket-slug-date`, or `type-slug-date` without a ticket id. */
  function DirName(taskType: string, ticket: Option<string>, slug: string, date: string): string {
    if Truthy(ticket) then taskType + "-" + ticket.value + "-" + slug + "-" + date
    else taskType + "-" + slug + "-" + date
  }

  /**
   * The slug of a new workspace: from the pre-generated slug when one is
   * given, otherwise from the description, with a given ticket id stripped.
   */
  function WorkspaceSlug(description: string, ticket: Option<string>, preSlug: Option<string>): (r: string)
    ensures Trimmed(r)
    ensures AllSlugChars(r)
    ensures !Truthy(ticket) ==> CleanSlug(r)
  {
    var source := if Truthy(preSlug) then preSlug.value else description;
    var base := SanitizeSlug(source, DefaultSlugLength);
    CleanIsSlugChars(base);
    if Truthy(ticket) then StripTicket(base, ticket.value) else base
  }

  /** `s.slice(a, b)` for non-negative bounds: both are clamped to the length. */
  function Slice(s: string, a: nat, b: nat): (r: string)
    ensures a <= b <= |s| ==> r == s[a..b]
  {
    var lo := if a < |s| then a else |s|;
    var hi := if b < |s| then b else |s|;
    if lo <= hi then s[lo..hi] else []
  }

  /** `toISOString().slice(0, 10).replace(/-/g, "")`. */
  function CompactDate(iso: string): (r: string)
    ensures '-' !in r
  {
    NoHyphenLeft(Slice(iso, 0, 10));
    NonHyphens(Slice(iso, 0, 10))
  }

  /** `${date.slice(0, 4)}-${date.slice(4, 6)}-${date.slice(6, 8)}`. */
  function FormatDate(date: string): string {
    Slice(date, 0, 4) + "-" + Slice(date, 4, 6) + "-" + Slice(date, 6, 8)
  }

  predicate AllDigits(s: string) {
    forall k :: 0 <= k < |s| ==> IsDigit(s[k])
  }

  /** The `YYYY-MM-DD` that starts an ISO timestamp of a four-digit year. */
  predicate IsoDate(iso: string) {
    && |iso| >= 10 && iso[4] == '-' && iso[7] == '-'
    && AllDigits(iso[..4]) && AllDigits(iso[5..7]) && AllDigits(iso[8..10])
  }

  lemma {:induction false} NoHyphenLeft(s: string)
    ensures '-' !in NonHyphens(s)
    decreases |s|
  {
    if s != [] {
      NoHyphenLeft(s[1..]);
    }
  }

  lemma {:induction false} NonHyphensOfDigits(s: string)
    requires AllDigits(s)
    ensures NonHyphens(s) == s
    decreases |s|
  {
    if s != [] {
      NonHyphensOfDigits(s[1..]);
      assert s == [s[0]] + s[1..];
    }
  }

  /** The compact date is the eight digits of the ISO date, and formatting it gives the ISO date back. */
  lemma DateRoundTrip(iso: string)
    requires IsoDate(iso)
    ensures CompactDate(iso) == iso[..4] + iso[5..7] + iso[8..10]
    ensures |CompactDate(iso)| == 8 && AllDigits(CompactDate(iso))
    ensures FormatDate(CompactDate(iso)) == iso[..10]
  {
    var y, m, d := iso[..4], iso[5..7], iso[8..10];
    assert Slice(iso, 0, 10) == y + "-" + m + "-" + d;
    NonHyphensAppend(y + "-" + m + "-", d);
    NonHyphensAppend(y + "-" + m, "-");
    NonHyphensAppend(y + "-", m);
    NonHyphensAppend(y, "-");
    NonHyphensOfDigits(y);
    NonHyphensOfDigits(m);
    NonHyphensOfDigits(d);
    var c := y + m + d;
    assert Slice(c, 0, 4) == y && Slice(c, 4, 6) == m && Slice(c, 6, 8) == d;
  }
}

=== FILE: workspace_readme.dfy ===
/**
 * The README a new workspace starts with, and why the README parser reads
 * back exactly what was written into it: the description as the title and
 * the task type, ticket id and date from their labelled lines.
 */
module WorkspaceReadme {
  import opened Wrappers
  import opened Text
  import opened ReadmeParser
  import opened WorkspaceOps

  /** `ticketId ?? "N/A"`: only a missing ticket id becomes N/A; an empty one is written as it is. */
  function TicketText(ticket: Option<string>): (r: string)
    ensures ticket.None? ==> r == "N/A"
    ensures ticket.Some? ==> r == ticket.value
  {
    if ticket.Some? then ticket.value else "N/A"
  }

  /** One `**Label**: value` line of the overview. */
  function LabelLine(key: string, value: string): string {
    key + " " + value + "\n"
  }

  const OverviewHeading := "\n\n## Overview\n\n"

  /** The first line of the template without its line break. */
  function TitleLine(description: string): string {
    "# " + TaskLabel + " " + description
  }

  /**
   * The template with its four placeholders filled in, up to the end of
   * the date line; `body` is the rest of the template, which holds no
   * placeholder.
   */
  function ReadmeText(description: string, taskType: string, ticketText: string, date: string, body: string): string {
    TitleLine(description) + OverviewHeading
      + LabelLine(TaskTypeLabel, taskType) + LabelLine(TicketIdLabel, ticketText) + LabelLine(DateLabel, date)
      + body
  }

  /** What `setupWorkspace` writes: the formatted date and the ticket id or N/A. */
  function WorkspaceReadmeText(description: string, taskType: string, ticket: Option<string>, compactDate: string, body: string): string {
    ReadmeText(description, taskType, TicketText(ticket), FormatDate(compactDate), body)
  }

  /** A value the `(\S+)` of a label pattern reads back whole. */
  predicate Token(s: string) {
    |s| > 0 && '*' !in s && forall k :: 0 <= k < |s| ==> IsNotSpace(s[k])
  }

  /** A description the title pattern reads back whole and that holds none of the labels. */
  predicate TitleDescription(d: string) {
    && |d| > 0 && !IsSpace(d[0])
    && (forall k :: 0 <= k < |d| ==> !IsLineTerminator(d[k]))
    && !Contains(d, TaskTypeLabel) && !Contains(d, TicketIdLabel) && !Contains(d, DateLabel)
  }

  /** A label of the form `**Name**:` with a name free of `*` and `:`. */
  predicate BoldLabel(k: string) {
    && |k| >= 6 && k[0] == '*' && k[1] == '*'
    && k[|k| - 3] == '*' && k[|k| - 2] == '*' && k[|k| - 1] == ':'
    && forall i :: 2 <= i < |k| - 3 ==> k[i] != '*' && k[i] != ':'
  }

  lemma LabelShapes()
    ensures BoldLabel(TaskTypeLabel) && BoldLabel(TicketIdLabel) && BoldLabel(DateLabel)
    ensures '\n' !in TaskTypeLabel && '\n' !in TicketIdLabel && '\n' !in DateLabel
    ensures TicketIdLabel[3] != TaskTypeLabel[3]
    ensures DateLabel[2] != TaskTypeLabel[2] && DateLabel[2] != TicketIdLabel[2]
  {
  }

  const TitlePrefix := "# " + TaskLabel + " "

  lemma HeadShape(d: string, w: string)
    ensures TitleLine(d) + (OverviewHeading + w) == TitlePrefix + (d + (OverviewHeading + w))
    ensures '*' !in TitlePrefix && '*' !in OverviewHeading && OverviewHeading[0] == '\n'
  {
  }

  /** No occurrence of the key starts inside `d` when `d` holds none and the next character is not in the key. */
  lemma NoKeyAcross(d: string, w: string, key: string)
    requires !Contains(d, key) && w != [] && w[0] !in key
    ensures NoKeyBelow(d + w, key, |d|)
  {
    forall q | 0 <= q < |d|
      ensures !OccursAt(d + w, q, key)
    {
      if q + |key| <= |d| {
        assert !OccursAt(d, q, key);
        assert (d + w)[q..][..|key|] == d[q..][..|key|];
      } else {
        assert (d + w)[q..][|d| - q] == w[0];
      }
    }
  }

  /** The text is split into its lines, innermost last. */
  lemma ReadmeShape(d: string, tt: string, tid: string, date: string, body: string)
    ensures ReadmeText(d, tt, tid, date, body)
      == TitleLine(d) + (OverviewHeading + (LabelLine(TaskTypeLabel, tt) + (LabelLine(TicketIdLabel, tid) + (LabelLine(DateLabel, date) + body))))
  {
  }

  lemma LineShape(k: string, tok: string, w: string)
    ensures LabelLine(k, tok) + w == k + (" " + (tok + ("\n" + w)))
  {
  }

  /** Text without a `*` before the rest does not change any bold label's value. */
  lemma SkipStarFree(a: string, w: string, key: string)
    requires |key| > 0 && key[0] == '*' && '*' !in a
    ensures LabelValue(a + w, key, IsNotSpace) == LabelValue(w, key, IsNotSpace)
  {
    NoKeyIn(a, w, key);
    LabelValueSkip(a, w, key, IsNotSpace);
  }

  /** A labelled line's own label reads back its value. */
  lemma LineValue(k: string, tok: string, w: string)
    requires Token(tok)
    ensures LabelValue(LabelLine(k, tok) + w, k, IsNotSpace) == Some(tok)
  {
    LineShape(k, tok, w);
    LabelValueAtStart(k, " ", tok, "\n" + w, IsNotSpace);
  }

  /**
   * No other bold label occurs inside a labelled line: the label differs
   * from the line's own at some position j, and a `*` inside the line
   * can only be part of the line's own label.
   */
  lemma LineClear(k: string, tok: string, w: string, key: string, j: nat)
    requires BoldLabel(k) && BoldLabel(key) && '*' !in tok
    requires j < |k| && j < |key| && key[j] != k[j]
    ensures NoKeyBelow(LabelLine(k, tok) + w, key, |LabelLine(k, tok)|)
  {
    var line := LabelLine(k, tok);
    var s := line + w;
    forall q | 0 <= q < |line|
      ensures !OccursAt(s, q, key)
    {
      if q == 0 {
        assert s[q..][j] == s[j] == k[j];
      } else if q == 1 {
        assert s[q..][1] == s[2] == k[2];
      } else if q < |k| - 3 {
        assert s[q..][0] == s[q] == k[q];
      } else if q < |k| {
        var m := |k| - 1 - q;
        assert s[q..][m] == s[|k| - 1] == ':';
      } else if q == |k| {
        assert s[q..][0] == s[q] == ' ';
      } else if q < |k| + 1 + |tok| {
        assert s[q..][0] == s[q] == tok[q - |k| - 1];
      } else {
        assert s[q..][0] == s[q] == '\n';
      }
    }
  }

  lemma SkipLine(k: string, tok: string, w: string, key: string, j: nat)
    requires BoldLabel(k) && BoldLabel(key) && '*' !in tok
    requires j < |k| && j < |key| && key[j] != k[j]
    ensures LabelValue(LabelLine(k, tok) + w, key, IsNotSpace) == LabelValue(w, key, IsNotSpace)
  {
    LineClear(k, tok, w, key, j);
    LabelValueSkip(LabelLine(k, tok), w, key, IsNotSpace);
  }

  /** Everything before the labelled lines is passed over by a bold label search. */
  lemma SkipHead(d: string, w: string, key: string)
    requires BoldLabel(key) && '\n' !in key && !Contains(d, key)
    ensures LabelValue(TitleLine(d) + (OverviewHeading + w), key, IsNotSpace) == LabelValue(w, key, IsNotSpace)
  {
    HeadShape(d, w);
    SkipStarFree(TitlePrefix, d + (OverviewHeading + w), key);
    NoKeyAcross(d, OverviewHeading + w, key);
    LabelValueSkip(d, OverviewHeading + w, key, IsNotSpace);
    SkipStarFree(OverviewHeading, w, key);
  }

  lemma ReadmeTitle(d: string, tt: string, tid: string, date: string, body: string)
    requires TitleDescription(d)
    ensures Title(ReadmeText(d, tt, tid, date, body)) == Some(d)
  {
    ReadmeShape(d, tt, tid, date, body);
    var rest := OverviewHeading + (LabelLine(TaskTypeLabel, tt) + (LabelLine(TicketIdLabel, tid) + (LabelLine(DateLabel, date) + body)));
    assert rest[0] == '\n';
    TitleOfFirstLine(d, rest);
  }

  lemma ReadmeTaskType(d: string, tt: string, tid: string, date: string, body: string)
    requires TitleDescription(d) && Token(tt)
    ensures LabelValue(ReadmeText(d, tt, tid, date, body), TaskTypeLabel, IsNotSpace) == Some(tt)
  {
    ReadmeShape(d, tt, tid, date, body);
    var w := LabelLine(TicketIdLabel, tid) + (LabelLine(DateLabel, date) + body);
    LabelShapes();
    SkipHead(d, LabelLine(TaskTypeLabel, tt) + w, TaskTypeLabel);
    LineValue(TaskTypeLabel, tt, w);
  }

  lemma ReadmeTicket(d: string, tt: string, tid: string, date: string, body: string)
    requires TitleDescription(d) && Token(tt) && Token(tid)
    ensures LabelValue(ReadmeText(d, tt, tid, date, body), TicketIdLabel, IsNotSpace) == Some(tid)
  {
    ReadmeShape(d, tt, tid, date, body);
    var w := LabelLine(DateLabel, date) + body;
    LabelShapes();
    SkipHead(d, LabelLine(TaskTypeLabel, tt) + (LabelLine(TicketIdLabel, tid) + w), TicketIdLabel);
    SkipLine(TaskTypeLabel, tt, LabelLine(TicketIdLabel, tid) + w, TicketIdLabel, 3);
    LineValue(TicketIdLabel, tid, w);
  }

  lemma ReadmeDate(d: string, tt: string, tid: string, date: string, body: string)
    requires TitleDescription(d) && Token(tt) && Token(tid) && Token(date)
    ensures LabelValue(ReadmeText(d, tt, tid, date, body), DateLabel, IsNotSpace) == Some(date)
  {
    ReadmeShape(d, tt, tid, date, body);
    var w3 := LabelLine(DateLabel, date) + body;
    var w2 := LabelLine(TicketIdLabel, tid) + w3;
    LabelShapes();
    SkipHead(d, LabelLine(TaskTypeLabel, tt) + w2, DateLabel);
    SkipLine(TaskTypeLabel, tt, w2, DateLabel, 2);
    SkipLine(TicketIdLabel, tid, w3, DateLabel, 2);
    LineValue(DateLabel, date, body);
  }

  /** An ISO date is a token. */
  lemma IsoDateToken(iso: string)
    requires IsoDate(iso)
    ensures Token(iso[..10])
  {
    forall k | 0 <= k < 10
      ensures iso[k] != '*' && IsNotSpace(iso[k])
    {
      if k < 4 {
        assert iso[..4][k] == iso[k];
      } else if 5 <= k < 7 {
        assert iso[5..7][k - 5] == iso[k];
      } else if 8 <= k {
        assert iso[8..10][k - 8] == iso[k];
      }
    }
  }

  /**
   * Reading back a freshly written README: the parser finds the
   * description as the title, the task type, the ticket id (N/A when none
   * was given) and the ISO date of the day the workspace was made.
   */
  lemma ReadmeRoundTrip(description: string, taskType: string, ticket: Option<string>, iso: string, body: string)
    requires TitleDescription(description) && Token(taskType) && Token(TicketText(ticket)) && IsoDate(iso)
    ensures ParseReadmeMeta(WorkspaceReadmeText(description, taskType, ticket, CompactDate(iso), body)).title == description
    ensures ParseReadmeMeta(WorkspaceReadmeText(description, taskType, ticket, CompactDate(iso), body)).taskType == taskType
    ensures ParseReadmeMeta(WorkspaceReadmeText(description, taskType, ticket, CompactDate(iso), body)).ticketId == TicketText(ticket)
    ensures ParseReadmeMeta(WorkspaceReadmeText(description, taskType, ticket, CompactDate(iso), body)).date == iso[..10]
  {
    DateRoundTrip(iso);
    IsoDateToken(iso);
    var tid, date := TicketText(ticket), iso[..10];
    ReadmeTitle(description, taskType, tid, date, body);
    ReadmeTaskType(description, taskType, tid, date, body);
    ReadmeTicket(description, taskType, tid, date, body);
    ReadmeDate(description, taskType, tid, date, body);
  }
}

=== FILE: workspace_repo.dfy ===
/**
 * The naming decisions of `setupRepository`: the `path:alias` argument
 * syntax, the repository's directory name, and the branch created for the
 * worktree, read back from the workspace directory name. Cloning,
 * fetching, base-branch detection and the worktree itself are effects
 * left to the caller; today's compact date is a parameter.
 */
module WorkspaceRepo {
  import opened Wrappers
  import opened Text
  import opened WorkspaceOps

  // -------------------------------------------------------------------------
  // Alias syntax
  // -------------------------------------------------------------------------

  /** A repository argument after alias parsing: the path to clone, the alias, and the worktree directory. */
  datatype RepoRef = RepoRef(path: string, alias: string, dir: string)

  /**
   * `path:alias` names the repository by the text before the first colon
   * and the alias by everything after it; its worktree directory is
   * `path___alias`. An argument without a colon is its own path and
   * directory, with no alias.
   */
  function ParseAlias(arg: string): (r: RepoRef)
    ensures ':' !in r.path
    ensures ':' !in arg ==> r == RepoRef(arg, [], arg)
  {
    if ':' in arg then
      var parts := Split(arg, ':');
      var alias := Join(parts[1..], ":");
      RepoRef(parts[0], alias, parts[0] + "___" + alias)
    else
      RepoRef(arg, [], arg)
  }

  /** With a colon, the path and alias are the two sides of the first colon, and the directory joins them with `___`. */
  lemma AliasParts(arg: string)
    requires ':' in arg
    ensures arg == ParseAlias(arg).path + ":" + ParseAlias(arg).alias
    ensures ParseAlias(arg).dir == ParseAlias(arg).path + "___" + ParseAlias(arg).alias
  {
    var n := SepIndex(arg, ':');
    var a, b := arg[..n], arg[n + 1..];
    assert arg == a + [':'] + b;
    SplitCons(a, ':', b);
    JoinSplit(b, ':');
  }

  /** Writing a colon-free path and any alias as `path:alias` parses back to them. */
  lemma AliasRoundTrip(path: string, alias: string)
    requires ':' !in path
    ensures ParseAlias(path + ":" + alias) == RepoRef(path, alias, path + "___" + alias)
  {
    var arg := path + ":" + alias;
    assert arg[|path|] == ':';
    SplitCons(path, ':', alias);
    assert arg == path + [':'] + alias;
    JoinSplit(alias, ':');
  }

  // -------------------------------------------------------------------------
  // Repository name
  // -------------------------------------------------------------------------

  function DropTrailingSlashes(s: string): (r: string)
    ensures r <= s
    ensures r == [] || r[|r| - 1] != '/'
  {
    if s != [] && s[|s| - 1] == '/' then DropTrailingSlashes(s[..|s| - 1]) else s
  }

  /** The characters after the last slash. */
  function LastSegment(s: string): (r: string)
    ensures '/' !in r
    ensures EndsWith(s, r)
    ensures |r| < |s| ==> s[|s| - |r| - 1] == '/'
  {
    if s == [] || s[|s| - 1] == '/' then []
    else LastSegment(s[..|s| - 1]) + [s[|s| - 1]]
  }

  /** POSIX `path.basename`: the last segment once trailing slashes are gone. */
  function Basename(s: string): (r: string)
    ensures '/' !in r
  {
    LastSegment(DropTrailingSlashes(s))
  }

  lemma {:induction false} LastSegmentOf(dir: string, name: string)
    requires '/' !in name
    ensures LastSegment(dir + "/" + name) == name
    decreases |name|
  {
    var s := dir + "/" + name;
    if name != [] {
      var init := name[..|name| - 1];
      assert s[..|s| - 1] == dir + "/" + init;
      LastSegmentOf(dir, init);
      assert name == init + [name[|name| - 1]];
    }
  }

  /** The repository name is the name after the last directory separator. */
  lemma BasenameOf(dir: string, name: string)
    requires '/' !in name && name != []
    ensures Basename(dir + "/" + name) == name
  {
    LastSegmentOf(dir, name);
  }

  // -------------------------------------------------------------------------
  // Reading the workspace name
  // -------------------------------------------------------------------------

  predicate AllLetters(s: string) {
    forall k :: 0 <= k < |s| ==> IsAsciiLetter(s[k])
  }

  /**
   * `/^[A-Z]+[-]?\d+$/i`: ASCII letters, an optional hyphen, then ASCII
   * digits to the end. Letters are never digits or hyphens, so the letter
   * run is taken whole.
   */
  predicate IsTicketSegment(s: string) {
    var n := RunLength(s, 0, IsAsciiLetter);
    var m := if n < |s| && s[n] == '-' then n + 1 else n;
    n > 0 && m < |s| && AllDigits(s[m..])
  }

  /** A ticket segment begins with a letter, ends with a digit, and holds nothing else but letters, digits and at most one hyphen. */
  lemma TicketSegmentShape(s: string)
    requires IsTicketSegment(s)
    ensures s != [] && IsAsciiLetter(s[0]) && IsDigit(s[|s| - 1])
    ensures forall k :: 0 <= k < |s| ==> IsAsciiLetter(s[k]) || IsDigit(s[k]) || s[k] == '-'
  {
    var n := RunLength(s, 0, IsAsciiLetter);
    var m := if n < |s| && s[n] == '-' then n + 1 else n;
    forall k | m <= k < |s| ensures IsDigit(s[k]) {
      assert s[m..][k - m] == s[k];
    }
  }

  /** Letters followed by digits, with or without one hyphen between, are a ticket segment. */
  lemma TicketSegmentOf(letters: string, sep: string, digits: string)
    requires letters != [] && AllLetters(letters)
    requires sep == [] || sep == "-"
    requires digits != [] && AllDigits(digits)
    ensures IsTicketSegment(letters + sep + digits)
  {
    var s := letters + sep + digits;
    assert s[|letters|] != '-' ==> sep == [];
    RunLengthOf(s, 0, letters, IsAsciiLetter);
    assert s[|letters + sep|..] == digits;
  }

  /** A segment with no digit is never a ticket segment. */
  lemma NoDigitNoTicket(s: string)
    requires forall k :: 0 <= k < |s| ==> !IsDigit(s[k])
    ensures !IsTicketSegment(s)
  {
    if IsTicketSegment(s) {
      TicketSegmentShape(s);
    }
  }

  /**
   * `workspaceName.match(/(\d{8})$/)`: the eight digits that end the name,
   * or else `today`, the compact form of the current date.
   */
  function NameDate(name: string, today: string): (r: string)
    ensures r == today || (|r| == 8 && AllDigits(r) && EndsWith(name, r))
  {
    if |name| >= 8 && AllDigits(name[|name| - 8..]) then name[|name| - 8..] else today
  }

  /** What `setupRepository` reads from a workspace name. The ticket is empty when there is none. */
  datatype NameInfo = NameInfo(taskType: string, ticket: string, description: string, date: string)

  /** The text before the first hyphen of the workspace name. */
  function TaskTypeOf(name: string): (r: string)
    ensures '-' !in r && r <= name
    ensures |r| < |name| ==> name[|r|] == '-'
  {
    name[..SepIndex(name, '-')]
  }

  /**
   * The workspace name split at hyphens: the first piece is the task type;
   * the second is the ticket id when it has the ticket shape. The
   * description is the name without `taskType-ticketId-` (or `taskType-`)
   * in front and without `-date` at the end.
   */
  function ParseName(name: string, today: string): (r: NameInfo)
    ensures r.taskType == TaskTypeOf(name)
    ensures r.ticket == [] || IsTicketSegment(r.ticket)
    ensures r.date == NameDate(name, today)
  {
    var parts := Split(name, '-');
    var taskType := parts[0];
    var date := NameDate(name, today);
    if |parts| > 1 && IsTicketSegment(parts[1]) then
      var rest := DropPrefix(name, taskType + "-" + parts[1] + "-");
      NameInfo(taskType, parts[1], DropSuffix(rest, "-" + date), date)
    else
      var rest := DropPrefix(name, taskType + "-");
      NameInfo(taskType, [], DropSuffix(rest, "-" + date), date)
  }

  /** The ticket id is the second hyphen-separated piece exactly when that piece has the ticket shape. */
  lemma ParseNameTicket(name: string, today: string)
    ensures var parts := Split(name, '-');
      ParseName(name, today).ticket != [] <==> |parts| > 1 && IsTicketSegment(parts[1])
    ensures var parts := Split(name, '-');
      ParseName(name, today).ticket != [] ==> ParseName(name, today).ticket == parts[1]
  {
    var parts := Split(name, '-');
    if |parts| > 1 && IsTicketSegment(parts[1]) {
      TicketSegmentShape(parts[1]);
    }
  }

  /**
   * The branch: `type/ticket-description`, with `-alias` added when there
   * is an alias; without a ticket, `type/description-alias`, or
   * `type/description-date` when there is no alias either.
   */
  function Branch(n: NameInfo, alias: string): (r: string)
    requires n.ticket == [] || IsTicketSegment(n.ticket)
    ensures n.taskType + "/" <= r
    ensures alias != [] ==> EndsWith(r, "-" + alias)
    ensures alias == [] && n.ticket == [] ==> EndsWith(r, "-" + n.date)
    ensures n.ticket != [] ==> n.taskType + "/" + n.ticket + "-" + n.description <= r
  {
    var head := if n.ticket != [] then n.taskType + "/" + n.ticket + "-" + n.description
      else n.taskType + "/" + n.description;
    if alias != [] then head + "-" + alias
    else if n.ticket != [] then head
    else head + "-" + n.date
  }

  /** `setupRepository`'s branch name for a workspace and a repository argument. */
  function BranchName(workspaceName: string, repoArg: string, today: string): (r: string)
    ensures TaskTypeOf(workspaceName) + "/" <= r
  {
    Branch(ParseName(workspaceName, today), ParseAlias(repoArg).alias)
  }

  // -------------------------------------------------------------------------
  // Branches of the directories `setupWorkspace` names
  // -------------------------------------------------------------------------

  predicate IsCompactDate(date: string) {
    |date| == 8 && AllDigits(date)
  }

  lemma TicketNameShape(tt: string, ticket: string, slug: string, date: string)
    requires ticket != []
    ensures DirName(tt, Some(ticket), slug, date) == tt + ['-'] + (ticket + ['-'] + (slug + "-" + date))
    ensures DirName(tt, Some(ticket), slug, date) == (tt + "-" + ticket + "-") + (slug + "-" + date)
    ensures DirName(tt, Some(ticket), slug, date) == (tt + "-" + ticket + "-" + slug) + "-" + date
  {
  }

  lemma PlainNameShape(tt: string, ticket: Option<string>, slug: string, date: string)
    requires !Truthy(ticket)
    ensures DirName(tt, ticket, slug, date) == tt + ['-'] + (slug + "-" + date)
    ensures DirName(tt, ticket, slug, date) == (tt + "-") + (slug + "-" + date)
    ensures DirName(tt, ticket, slug, date) == (tt + "-" + slug) + "-" + date
  {
  }

  /** A name ending in `-date` for a compact date yields that date and loses the suffix. */
  lemma DateSuffix(body: string, date: string, today: string)
    requires IsCompactDate(date)
    ensures NameDate(body + "-" + date, today) == date
    ensures DropSuffix(body + "-" + date, "-" + date) == body
  {
    var s := body + "-" + date;
    assert s[|s| - 8..] == date;
    assert EndsWith(s, "-" + date);
  }

  /** The first hyphen-separated piece is unchanged by appending more pieces. */
  lemma TaskTypeAppend(a: string, b: string)
    ensures TaskTypeOf(a + "-" + b) == TaskTypeOf(a)
    ensures Split(a + "-" + b, '-')[0] == TaskTypeOf(a)
  {
    var s := a + "-" + b;
    var n, m := SepIndex(a, '-'), SepIndex(s, '-');
    assert s[n] == '-';
    forall k | 0 <= k < n ensures s[k] != '-' {
      assert s[k] == a[k];
    }
    assert s[..n] == a[..n];
  }

  lemma DropPrefixOf(p: string, rest: string)
    ensures DropPrefix(p + rest, p) == rest
  {
    assert p <= p + rest;
  }

  /** The name `setupWorkspace` gives a workspace with a hyphen-free ticket id reads back into its parts. */
  lemma TicketNameParts(tt: string, ticket: string, slug: string, date: string, today: string)
    requires '-' !in tt && '-' !in ticket && IsTicketSegment(ticket)
    requires IsCompactDate(date)
    ensures ParseName(DirName(tt, Some(ticket), slug, date), today) == NameInfo(tt, ticket, slug, date)
  {
    assert ticket != [];
    var rest := slug + "-" + date;
    TicketNameShape(tt, ticket, slug, date);
    SplitCons(tt, '-', ticket + ['-'] + rest);
    SplitCons(ticket, '-', rest);
    DateSuffix(tt + "-" + ticket + "-" + slug, date, today);
    DateSuffix(slug, date, today);
    DropPrefixOf(tt + "-" + ticket + "-", rest);
  }

  /** Without a ticket id, and with a slug that does not begin with a ticket-shaped piece, the name reads back into its parts. */
  lemma PlainNameParts(tt: string, ticket: Option<string>, slug: string, date: string, today: string)
    requires !Truthy(ticket) && '-' !in tt
    requires !IsTicketSegment(TaskTypeOf(slug))
    requires IsCompactDate(date)
    ensures ParseName(DirName(tt, ticket, slug, date), today) == NameInfo(tt, [], slug, date)
  {
    TaskTypeAppend(slug, date);
    var rest := slug + "-" + date;
    PlainNameShape(tt, ticket, slug, date);
    SplitCons(tt, '-', rest);
    DateSuffix(tt + "-" + slug, date, today);
    DateSuffix(slug, date, today);
    DropPrefixOf(tt + "-", rest);
  }

  /**
   * A workspace named with a hyphen-free ticket id (the shape the ticket
   * test accepts) gets the branch `type/ticket-slug`, plus `-alias` when the
   * repository has one, and never the date.
   */
  lemma TicketBranch(tt: string, ticket: string, slug: string, date: string, repoArg: string, today: string)
    requires '-' !in tt && '-' !in ticket && IsTicketSegment(ticket)
    requires IsCompactDate(date)
    ensures var alias := ParseAlias(repoArg).alias;
      BranchName(DirName(tt, Some(ticket), slug, date), repoArg, today)
      == tt + "/" + ticket + "-" + slug + (if alias != [] then "-" + alias else [])
  {
    TicketNameParts(tt, ticket, slug, date, today);
  }

  /**
   * A workspace named without a ticket id, whose slug does not begin with a
   * ticket-shaped piece, gets the branch `type/slug-alias` when the
   * repository has an alias and `type/slug-date` otherwise.
   */
  lemma PlainBranch(tt: string, ticket: Option<string>, slug: string, date: string, repoArg: string, today: string)
    requires !Truthy(ticket) && '-' !in tt
    requires !IsTicketSegment(TaskTypeOf(slug))
    requires IsCompactDate(date)
    ensures var alias := ParseAlias(repoArg).alias;
      BranchName(DirName(tt, ticket, slug, date), repoArg, today)
      == tt + "/" + slug + "-" + (if alias != [] then alias else date)
  {
    PlainNameParts(tt, ticket, slug, date, today);
  }

  /**
   * Without a ticket id, a slug whose first word has the ticket shape (as
   * `oauth2` in `oauth2-login`) is read as a ticket: the branch is
   * `type/word-rest`, with `-alias` when there is one, and never carries
   * the date.
   */
  lemma TicketLikeSlugBranch(tt: string, ticket: Option<string>, word: string, rest: string, date: string, repoArg: string, today: string)
    requires !Truthy(ticket) && '-' !in tt
    requires '-' !in word && IsTicketSegment(word)
    requires IsCompactDate(date)
    ensures var alias := ParseAlias(repoArg).alias;
      BranchName(DirName(tt, ticket, word + "-" + rest, date), repoArg, today)
      == tt + "/" + word + "-" + rest + (if alias != [] then "-" + alias else [])
  {
    assert word != [];
    assert DirName(tt, ticket, word + "-" + rest, date) == DirName(tt, Some(word), rest, date);
    TicketBranch(tt, word, rest, date, repoArg, today);
  }

  /** The description `OAuth2 login` (slug `oauth2-login`) yields the branch `feature/oauth2-login`, without its date. */
  lemma OAuthSlugBranch(date: string, today: string)
    requires IsCompactDate(date)
    ensures BranchName(DirName("feature", None, "oauth2" + "-" + "login", date), "app", today)
      == "feature" + "/" + "oauth2" + "-" + "login"
  {
    var w := "oauth2";
    TicketSegmentOf("oauth", [], "2");
    assert "oauth" + [] + "2" == w;
    assert '-' !in w && '-' !in "feature";
    assert ParseAlias("app").alias == [];
    TicketLikeSlugBranch("feature", None, w, "login", date, "app", today);
  }

  // -------------------------------------------------------------------------
  // Ticket ids with a hyphen
  // -------------------------------------------------------------------------

  lemma HyphenAsPlain(tt: string, letters: string, digits: string, slug: string, date: string)
    ensures DirName(tt, Some(letters + "-" + digits), slug, date) == DirName(tt, None, letters + "-" + digits + "-" + slug, date)
  {
  }

  lemma HyphenNameShape(tt: string, letters: string, digits: string, slug: string, date: string)
    ensures var ticket := letters + "-" + digits;
      DirName(tt, Some(ticket), slug, date) == tt + ['-'] + (letters + ['-'] + (digits + ['-'] + (slug + "-" + date)))
    ensures var ticket := letters + "-" + digits;
      DirName(tt, Some(ticket), slug, date) == (tt + "-" + ticket + "-") + (slug + "-" + date)
    ensures var ticket := letters + "-" + digits;
      DirName(tt, Some(ticket), slug, date) == (tt + "-" + ticket + "-" + slug) + "-" + date
  {
  }

  lemma HyphenSplit(tt: string, letters: string, digits: string, rest: string)
    requires '-' !in tt && '-' !in letters && '-' !in digits
    ensures Split(tt + ['-'] + (letters + ['-'] + (digits + ['-'] + rest)), '-') == [tt, letters, digits] + Split(rest, '-')
  {
    var x := Split(rest, '-');
    var y := Split(digits + ['-'] + rest, '-');
    var z := Split(letters + ['-'] + (digits + ['-'] + rest), '-');
    SplitCons(digits, '-', rest);
    assert y == [digits] + x;
    SplitCons(letters, '-', digits + ['-'] + rest);
    assert z == [letters] + y;
    SplitCons(tt, '-', letters + ['-'] + (digits + ['-'] + rest));
    assert [tt] + ([letters] + ([digits] + x)) == [tt, letters, digits] + x;
  }

  lemma TicketOfHyphen(letters: string, digits: string, parts: seq<string>)
    requires letters != [] && AllLetters(letters)
    requires digits != [] && AllDigits(digits)
    requires |parts| > 2 && parts[1] == letters && parts[2] == digits
    ensures TicketOfParts(parts) == letters + "-" + digits
  {
  }

  lemma TicketOfSingle(parts: seq<string>)
    requires |parts| > 1 && IsTicketSegment(parts[1]) && !AllLetters(parts[1])
    ensures TicketOfParts(parts) == parts[1]
  {
  }

  /**
   * As written, a ticket id such as `PROJ-123` is never recognised: the
   * name is split at every hyphen, so the piece tested is `PROJ`, which has
   * no digits. The ticket id is read as the front of the description.
   */
  lemma HyphenTicketMissed(tt: string, letters: string, digits: string, slug: string, date: string, today: string)
    requires '-' !in tt && letters != [] && AllLetters(letters)
    requires digits != [] && AllDigits(digits)
    requires IsCompactDate(date)
    ensures ParseName(DirName(tt, Some(letters + "-" + digits), slug, date), today)
      == NameInfo(tt, [], letters + "-" + digits + "-" + slug, date)
  {
    var body := letters + "-" + digits + "-" + slug;
    HyphenAsPlain(tt, letters, digits, slug, date);
    assert body == letters + "-" + (digits + "-" + slug);
    TaskTypeAppend(letters, digits + "-" + slug);
    assert TaskTypeOf(letters) == letters;
    NoDigitNoTicket(letters);
    PlainNameParts(tt, None, body, date, today);
  }

  /** The branch for such a ticket id therefore ends with the date (or the alias), unlike a ticket branch. */
  lemma HyphenTicketBranch(tt: string, letters: string, digits: string, slug: string, date: string, repoArg: string, today: string)
    requires '-' !in tt && letters != [] && AllLetters(letters)
    requires digits != [] && AllDigits(digits)
    requires IsCompactDate(date)
    ensures var alias := ParseAlias(repoArg).alias;
      BranchName(DirName(tt, Some(letters + "-" + digits), slug, date), repoArg, today)
      == tt + "/" + (letters + "-" + digits + "-" + slug) + "-" + (if alias != [] then alias else date)
  {
    HyphenTicketMissed(tt, letters, digits, slug, date, today);
  }

  /**
   * The ticket id as evidently intended by the pattern's optional hyphen:
   * a letters-only piece followed by a digits-only piece is read as one
   * hyphenated ticket id; otherwise the second piece is tested as before.
   */
  function TicketOfParts(parts: seq<string>): (r: string)
    ensures r == [] || IsTicketSegment(r)
  {
    if |parts| > 2 && parts[1] != [] && AllLetters(parts[1]) && parts[2] != [] && AllDigits(parts[2]) then
      TicketSegmentOf(parts[1], "-", parts[2]);
      parts[1] + "-" + parts[2]
    else if |parts| > 1 && IsTicketSegment(parts[1]) then parts[1]
    else []
  }

  /** `ParseName` with the hyphenated ticket ids recognised. */
  function ParseNameFixed(name: string, today: string): (r: NameInfo)
    ensures r.taskType == TaskTypeOf(name)
    ensures r.ticket == [] || IsTicketSegment(r.ticket)
    ensures r.date == NameDate(name, today)
  {
    var parts := Split(name, '-');
    var taskType := parts[0];
    var date := NameDate(name, today);
    var ticket := TicketOfParts(parts);
    if ticket != [] then
      var rest := DropPrefix(name, taskType + "-" + ticket + "-");
      NameInfo(taskType, ticket, DropSuffix(rest, "-" + date), date)
    else
      var rest := DropPrefix(name, taskType + "-");
      NameInfo(taskType, [], DropSuffix(rest, "-" + date), date)
  }

  function BranchNameFixed(workspaceName: string, repoArg: string, today: string): (r: string)
    ensures TaskTypeOf(workspaceName) + "/" <= r
  {
    Branch(ParseNameFixed(workspaceName, today), ParseAlias(repoArg).alias)
  }

  lemma FixedHyphenParts(tt: string, letters: string, digits: string, slug: string, date: string, today: string)
    requires '-' !in tt && letters != [] && AllLetters(letters)
    requires digits != [] && AllDigits(digits)
    requires IsCompactDate(date)
    ensures ParseNameFixed(DirName(tt, Some(letters + "-" + digits), slug, date), today)
      == NameInfo(tt, letters + "-" + digits, slug, date)
  {
    var ticket := letters + "-" + digits;
    var rest := slug + "-" + date;
    assert '-' !in letters && '-' !in digits;
    HyphenNameShape(tt, letters, digits, slug, date);
    HyphenSplit(tt, letters, digits, rest);
    TicketOfHyphen(letters, digits, Split(DirName(tt, Some(ticket), slug, date), '-'));
    DateSuffix(tt + "-" + ticket + "-" + slug, date, today);
    DateSuffix(slug, date, today);
    DropPrefixOf(tt + "-" + ticket + "-", rest);
  }

  lemma FixedPlainParts(tt: string, ticket: string, slug: string, date: string, today: string)
    requires '-' !in tt && '-' !in ticket && IsTicketSegment(ticket)
    requires IsCompactDate(date)
    ensures ParseNameFixed(DirName(tt, Some(ticket), slug, date), today) == NameInfo(tt, ticket, slug, date)
  {
    TicketSegmentShape(ticket);
    assert !AllLetters(ticket) by {
      assert IsDigit(ticket[|ticket| - 1]);
    }
    var rest := slug + "-" + date;
    TicketNameShape(tt, ticket, slug, date);
    SplitCons(tt, '-', ticket + ['-'] + rest);
    SplitCons(ticket, '-', rest);
    TicketOfSingle(Split(DirName(tt, Some(ticket), slug, date), '-'));
    DateSuffix(tt + "-" + ticket + "-" + slug, date, today);
    DateSuffix(slug, date, today);
    DropPrefixOf(tt + "-" + ticket + "-", rest);
  }

  /** A ticket segment either has no hyphen or is letters, one hyphen, and digits. */
  lemma TicketPieces(ticket: string) returns (letters: string, digits: string)
    requires IsTicketSegment(ticket)
    ensures '-' in ticket ==> ticket == letters + "-" + digits
    ensures '-' in ticket ==> letters != [] && AllLetters(letters) && digits != [] && AllDigits(digits)
  {
    var n := RunLength(ticket, 0, IsAsciiLetter);
    letters, digits := ticket[..n], ticket[n + 1..];
    if n < |ticket| && ticket[n] == '-' {
      assert ticket == letters + "-" + digits;
      forall k | 0 <= k < |digits| ensures IsDigit(digits[k]) {
        assert digits[k] == ticket[n + 1..][k];
      }
    } else {
      forall k | 0 <= k < |ticket| ensures ticket[k] != '-' {
        if k >= n {
          assert ticket[n..][k - n] == ticket[k];
        }
      }
    }
  }

  /** With the fix, the name of a workspace with any accepted ticket id reads back into its parts. */
  lemma TicketFixedParts(tt: string, ticket: string, slug: string, date: string, today: string)
    requires '-' !in tt && IsTicketSegment(ticket)
    requires IsCompactDate(date)
    ensures ParseNameFixed(DirName(tt, Some(ticket), slug, date), today) == NameInfo(tt, ticket, slug, date)
  {
    var letters, digits := TicketPieces(ticket);
    if '-' in ticket {
      FixedHyphenParts(tt, letters, digits, slug, date, today);
    } else {
      FixedPlainParts(tt, ticket, slug, date, today);
    }
  }

  /**
   * With the fix, every ticket id the ticket pattern accepts, with or
   * without its hyphen, gives the branch `type/ticket-slug`, plus `-alias`
   * when the repository has one.
   */
  lemma TicketBranchFixed(tt: string, ticket: string, slug: string, date: string, repoArg: string, today: string)
    requires '-' !in tt && IsTicketSegment(ticket)
    requires IsCompactDate(date)
    ensures var alias := ParseAlias(repoArg).alias;
      BranchNameFixed(DirName(tt, Some(ticket), slug, date), repoArg, today)
      == tt + "/" + ticket + "-" + slug + (if alias != [] then "-" + alias else [])
  {
    TicketFixedParts(tt, ticket, slug, date, today);
  }

  // -------------------------------------------------------------------------
  // Ticket ids without the ticket shape
  // -------------------------------------------------------------------------

  /** Where the third piece cannot join the second into a ticket, the corrected parse is the parse as written. */
  lemma FixedAgrees(name: string, today: string)
    requires var parts := Split(name, '-');
      |parts| < 3 || parts[1] == [] || !AllLetters(parts[1])
    ensures ParseNameFixed(name, today) == ParseName(name, today)
  {
  }

  /** A ticket id without a hyphen is the second piece of the workspace name. */
  lemma TicketIsSecondPiece(tt: string, ticket: string, slug: string, date: string)
    requires '-' !in tt && ticket != [] && '-' !in ticket
    ensures var parts := Split(DirName(tt, Some(ticket), slug, date), '-');
      |parts| > 1 && parts[1] == ticket
  {
    var rest := slug + "-" + date;
    TicketNameShape(tt, ticket, slug, date);
    SplitCons(tt, '-', ticket + ['-'] + rest);
    SplitCons(ticket, '-', rest);
  }

  /** Such an id without the ticket shape is read as the front of the description. */
  lemma OtherTicketParts(tt: string, ticket: string, slug: string, date: string, today: string)
    requires '-' !in tt && ticket != [] && '-' !in ticket && !IsTicketSegment(ticket)
    requires IsCompactDate(date)
    ensures ParseName(DirName(tt, Some(ticket), slug, date), today) == NameInfo(tt, [], ticket + "-" + slug, date)
  {
    var body := ticket + "-" + slug;
    assert DirName(tt, Some(ticket), slug, date) == DirName(tt, None, body, date);
    TaskTypeAppend(ticket, slug);
    assert TaskTypeOf(ticket) == ticket;
    PlainNameParts(tt, None, body, date, today);
  }

  /**
   * A ticket id without a hyphen that lacks the ticket shape, such as
   * `#456`, is read as the front of the description: the branch is
   * `type/ticket-slug-alias`, or `type/ticket-slug-date` without an alias.
   */
  lemma OtherTicketBranch(tt: string, ticket: string, slug: string, date: string, repoArg: string, today: string)
    requires '-' !in tt && ticket != [] && '-' !in ticket && !IsTicketSegment(ticket)
    requires IsCompactDate(date)
    ensures var alias := ParseAlias(repoArg).alias;
      BranchName(DirName(tt, Some(ticket), slug, date), repoArg, today)
      == tt + "/" + (ticket + "-" + slug) + "-" + (if alias != [] then alias else date)
  {
    var body := ticket + "-" + slug;
    assert DirName(tt, Some(ticket), slug, date) == DirName(tt, None, body, date);
    TaskTypeAppend(ticket, slug);
    assert TaskTypeOf(ticket) == ticket;
    PlainBranch(tt, None, body, date, repoArg, today);
  }

  /** The corrected parse reads such an id as the parse as written does, unless the id is all letters. */
  lemma OtherTicketFixed(tt: string, ticket: string, slug: string, date: string, today: string)
    requires '-' !in tt && ticket != [] && '-' !in ticket && !IsTicketSegment(ticket) && !AllLetters(ticket)
    ensures ParseNameFixed(DirName(tt, Some(ticket), slug, date), today)
      == ParseName(DirName(tt, Some(ticket), slug, date), today)
  {
    TicketIsSecondPiece(tt, ticket, slug, date);
    FixedAgrees(DirName(tt, Some(ticket), slug, date), today);
  }

  /** `#456`, the example ticket id of the analysis prompt, gives `feature/#456-login-<date>`, as written and corrected. */
  lemma HashTicketBranch(date: string, today: string)
    requires IsCompactDate(date)
    ensures BranchName(DirName("feature", Some("#456"), "login", date), "app", today)
      == "feature" + "/" + ("#456" + "-" + "login") + "-" + date
    ensures BranchNameFixed(DirName("feature", Some("#456"), "login", date), "app", today)
      == "feature" + "/" + ("#456" + "-" + "login") + "-" + date
  {
    var t := "#456";
    assert t[0] == '#' && !IsAsciiLetter(t[0]);
    assert !AllLetters(t);
    assert RunLength(t, 0, IsAsciiLetter) == 0;
    assert '-' !in t && '-' !in "feature";
    assert ParseAlias("app").alias == [];
    OtherTicketBranch("feature", t, "login", date, "app", today);
    OtherTicketFixed("feature", t, "login", date, today);
  }

}

=== FILE: workspace_snapshot.dfy ===
/**
 * The automatic commit message of `commitWorkspaceSnapshot`: the TODO
 * files of the workspace are scanned line by line for checkbox markers and
 * the message reports how many of the marked lines are checked. Staging
 * and committing are git effects left to the caller; the workspace's files
 * are given as (name, content) pairs.
 */
module WorkspaceSnapshot {
  import opened Wrappers
  import opened Text
  import opened Seqs
  import opened TodoParser
  import opened WorkspaceOps
  import Events

  /** `/^TODO-.*\.md$/`: `TODO-`, then any characters but line terminators, then `.md` at the very end. */
  predicate TodoFileName(name: string) {
    && |name| >= 8 && name[..5] == "TODO-" && name[|name| - 3..] == ".md"
    && forall k :: 5 <= k < |name| - 3 ==> !IsLineTerminator(name[k])
  }

  /**
   * `/^\s*- \[m\]/` for the four markers: leading whitespace, then `- [`,
   * a marker, `]`. Unlike the TODO parser's pattern, nothing need follow.
   */
  predicate HasMarker(line: string) {
    var n := LeadingSpaces(line);
    n + 5 <= |line| && line[n..n + 3] == "- [" && MarkerStatus(line[n + 3]).Some? && line[n + 4] == ']'
  }

  /** The status a marked line announces. */
  function Mark(line: string): (r: Option<Status>)
    ensures r.Some? <==> HasMarker(line)
  {
    if HasMarker(line) then MarkerStatus(line[LeadingSpaces(line) + 3]) else None
  }

  /**
   * The lines the snapshot counts are exactly the marked lines; the TODO
   * parser takes a marked line as an item exactly when whitespace follows
   * the marker, and then both read the same status.
   */
  lemma MarkAndCheckbox(line: string)
    ensures var n := LeadingSpaces(line);
      HasCheckbox(line) <==> HasMarker(line) && n + 5 < |line| && IsSpace(line[n + 5])
    ensures HasCheckbox(line) ==> Mark(line) == Some(Checkbox(line).value.status)
  {
  }

  /** How many marked lines there are, and how many of them are checked. */
  datatype Tally = Tally(completed: nat, total: nat)

  function Add(a: Tally, b: Tally): Tally {
    Tally(a.completed + b.completed, a.total + b.total)
  }

  /** The tally of a sequence of lines. */
  function Marks(lines: seq<string>): (r: Tally)
    ensures r.completed <= r.total <= |lines|
    decreases |lines|
  {
    if lines == [] then Tally(0, 0)
    else
      var t := Marks(lines[..|lines| - 1]);
      match Mark(Last(lines))
      case None => t
      case Some(s) => Tally(t.completed + (if s == Completed then 1 else 0), t.total + 1)
  }

  lemma {:induction false} CountStatusAppend(a: seq<TodoItem>, b: seq<TodoItem>, s: Status)
    ensures CountStatus(a + b, s) == CountStatus(a, s) + CountStatus(b, s)
    decreases |a|
  {
    if a != [] {
      CountStatusAppend(a[1..], b, s);
      assert (a + b)[1..] == a[1..] + b;
    } else {
      assert a + b == b;
    }
  }

  /**
   * Every item the TODO parser finds is counted by the snapshot, completed
   * ones as completed; when whitespace follows every marker, the counts
   * are exactly the parser's.
   */
  lemma {:induction false} MarksCoverItems(lines: seq<string>)
    ensures |CheckboxItems(lines)| <= Marks(lines).total
    ensures CountStatus(CheckboxItems(lines), Completed) <= Marks(lines).completed
    ensures (forall k :: 0 <= k < |lines| ==> HasMarker(lines[k]) ==> HasCheckbox(lines[k])) ==>
      |CheckboxItems(lines)| == Marks(lines).total
      && CountStatus(CheckboxItems(lines), Completed) == Marks(lines).completed
    decreases |lines|
  {
    if lines != [] {
      var init, line := lines[..|lines| - 1], Last(lines);
      MarksCoverItems(init);
      MarkAndCheckbox(line);
      var extra := if HasCheckbox(line) then [Checkbox(line).value] else [];
      CountStatusAppend(CheckboxItems(init), extra, Completed);
      assert forall k :: 0 <= k < |init| ==> init[k] == lines[k];
    }
  }

  lemma {:induction false} CountStatusHeads(items: seq<TodoItem>, s: Status)
    ensures CountStatus(Heads(items), s) == CountStatus(items, s)
    decreases |items|
  {
    if items != [] {
      CountStatusHeads(items[1..], s);
      assert Heads(items)[1..] == Heads(items[1..]);
    }
  }

  /** In terms of one TODO file: the snapshot counts at least the items `parseTodoFile` reports. */
  lemma FileCountsCoverItems(content: string)
    ensures var items := ParseTodoItems(content);
      |items| <= Marks(Split(content, '\n')).total
      && CountStatus(items, Completed) <= Marks(Split(content, '\n')).completed
  {
    var lines := Split(content, '\n');
    ItemsAreCheckboxes(lines);
    MarksCoverItems(lines);
    CountStatusHeads(ItemsOf(lines), Completed);
  }

  /** The tally over the workspace's TODO files; other files are not read. */
  function FilesTally(files: seq<(string, string)>): (r: Tally)
    ensures r.completed <= r.total
    decreases |files|
  {
    if files == [] then Tally(0, 0)
    else
      var rest := FilesTally(files[1..]);
      if TodoFileName(files[0].0) then Add(Marks(Split(files[0].1, '\n')), rest) else rest
  }

  /** One file contributes its marked lines when it is a TODO file, and nothing otherwise. */
  lemma FilesTallyOne(name: string, content: string)
    ensures FilesTally([(name, content)])
      == if TodoFileName(name) then Marks(Split(content, '\n')) else Tally(0, 0)
  {
    assert [(name, content)][1..] == [];
  }

  /** The tally of a workspace is the sum of the tallies of any split of its files. */
  lemma {:induction false} FilesTallyAppend(a: seq<(string, string)>, b: seq<(string, string)>)
    ensures FilesTally(a + b) == Add(FilesTally(a), FilesTally(b))
    decreases |a|
  {
    if a == [] {
      assert a + b == b;
    } else {
      FilesTallyAppend(a[1..], b);
      var ab := a + b;
      assert ab[0] == a[0] && ab[1..] == a[1..] + b;
      var m := Marks(Split(a[0].1, '\n'));
      if TodoFileName(a[0].0) {
        assert FilesTally(ab) == Add(m, FilesTally(ab[1..]));
        assert FilesTally(a) == Add(m, FilesTally(a[1..]));
      } else {
        assert FilesTally(ab) == FilesTally(ab[1..]);
        assert FilesTally(a) == FilesTally(a[1..]);
      }
    }
  }

  /** Files none of which is named `TODO-*.md` are not read: they count nothing. */
  lemma {:induction false} OnlyTodoFilesCount(files: seq<(string, string)>)
    requires forall k :: 0 <= k < |files| ==> !TodoFileName(files[k].0)
    ensures FilesTally(files) == Tally(0, 0)
    decreases |files|
  {
    if files != [] {
      assert !TodoFileName(files[0].0);
      OnlyTodoFilesCount(files[1..]);
    }
  }

  const NoItemsMessage := "Snapshot: workspace updated"
  const CountsPrefix := "Snapshot: "
  const CountsSuffix := " TODO items completed"

  /** `Snapshot: c/t TODO items completed`. */
  function CountsMessage(t: Tally): string {
    CountsPrefix + NatToString(t.completed) + "/" + NatToString(t.total) + CountsSuffix
  }

  /**
   * The commit message: the caller's when one is given; otherwise
   * `Snapshot: c/t TODO items completed` with the tally over every TODO
   * file, or a fixed message when no line is marked.
   */
  function SnapshotMessage(message: Option<string>, files: seq<(string, string)>): (r: string)
    ensures Truthy(message) ==> r == message.value
    ensures !Truthy(message) ==> ("Snapshot: " <= r && |r| > 10)
    ensures !Truthy(message) && FilesTally(files).total > 0 ==> ReadCounts(r) == Some(FilesTally(files))
    ensures !Truthy(message) && FilesTally(files).total == 0 ==> r == NoItemsMessage
  {
    if Truthy(message) then message.value
    else
      var t := FilesTally(files);
      if t.total > 0 then
        CountsReadBack(t);
        CountsMessage(t)
      else NoItemsMessage
  }

  /** Reads the counts back out of a `Snapshot: c/t TODO items completed` message. */
  function ReadCounts(msg: string): Option<Tally> {
    if |msg| >= |CountsPrefix| + |CountsSuffix| && msg[..|CountsPrefix|] == CountsPrefix
       && msg[|msg| - |CountsSuffix|..] == CountsSuffix
    then
      var parts := Split(msg[|CountsPrefix|..|msg| - |CountsSuffix|], '/');
      if |parts| == 2 then
        match (Events.ParseCanonicalNat(parts[0]), Events.ParseCanonicalNat(parts[1]))
        case (Some(c), Some(t)) => Some(Tally(c, t))
        case _ => None
      else None
    else None
  }

  /** The counts message names its tally unambiguously: reading it gives the tally back. */
  lemma CountsReadBack(t: Tally)
    ensures ReadCounts(CountsMessage(t)) == Some(t)
  {
    var c, n := NatToString(t.completed), NatToString(t.total);
    var msg := CountsMessage(t);
    var mid := c + "/" + n;
    assert msg == CountsPrefix + mid + CountsSuffix;
    assert msg[..|CountsPrefix|] == CountsPrefix;
    assert msg[|msg| - |CountsSuffix|..] == CountsSuffix;
    assert msg[|CountsPrefix|..|msg| - |CountsSuffix|] == mid;
    assert '/' !in c && '/' !in n;
    SplitCons(c, '/', n);
    SplitJoin([n], '/');
    assert Split(mid, '/') == [c, n];
    Events.ParseCanonicalNatToString(t.completed);
    Events.ParseCanonicalNatToString(t.total);
  }

  /** Without a message of the caller's, the fixed message appears exactly when no TODO line is marked. */
  lemma FixedMessageIffNoMarks(message: Option<string>, files: seq<(string, string)>)
    requires !Truthy(message)
    ensures SnapshotMessage(message, files) == NoItemsMessage <==> FilesTally(files).total == 0
  {
    assert ReadCounts(NoItemsMessage) == None by {
      assert |NoItemsMessage| < |CountsPrefix| + |CountsSuffix|;
    }
  }

  /**
   * Without a message of the caller's, a workspace whose files split into
   * two parts reports the sum of both parts' counts; a non-TODO file adds
   * nothing.
   */
  lemma MessageOfParts(a: seq<(string, string)>, b: seq<(string, string)>)
    requires FilesTally(a).total + FilesTally(b).total > 0
    ensures SnapshotMessage(None, a + b) == CountsMessage(Add(FilesTally(a), FilesTally(b)))
  {
    FilesTallyAppend(a, b);
  }

  /** A workspace with a single TODO file reports that file's counts. */
  lemma SingleFileMessage(name: string, content: string)
    requires TodoFileName(name)
    requires Marks(Split(content, '\n')).total > 0
    ensures var t := Marks(Split(content, '\n'));
      SnapshotMessage(None, [(name, content)])
      == "Snapshot: " + NatToString(t.completed) + "/" + NatToString(t.total) + " TODO items completed"
  {
    FilesTallyOne(name, content);
  }
}

=== FILE: workspace_time.dfy ===
/**
 * Time in workspace management: a workspace's age in whole days and
 * whether it is stale, and the timestamp naming a review directory. The
 * clock is a parameter: milliseconds since the epoch for ages, the local
 * calendar fields for the timestamp.
 */
module WorkspaceTime {
  import opened Text

  // -------------------------------------------------------------------------
  // Age
  // -------------------------------------------------------------------------

  /** `24 * 60 * 60 * 1000`: milliseconds in a day. */
  const DayMs: nat := 24 * 60 * 60 * 1000

  /** `Math.floor((now - mtime) / DayMs)`: whole days elapsed, rounded down (negative for a future mtime). */
  function AgeDays(now: int, mtime: int): (r: int)
    ensures r * DayMs <= now - mtime < (r + 1) * DayMs
  {
    (now - mtime) / DayMs
  }

  predicate IsStale(ageDays: int, staleDays: int) {
    ageDays >= staleDays
  }

  /** A workspace is stale exactly when at least `staleDays` whole days have passed since its last change. */
  lemma StaleIffOld(now: int, mtime: int, staleDays: int)
    ensures IsStale(AgeDays(now, mtime), staleDays) <==> now - mtime >= staleDays * DayMs
  {
    var r := AgeDays(now, mtime);
    if r >= staleDays {
      assert staleDays * DayMs <= r * DayMs;
    } else {
      assert (r + 1) * DayMs <= staleDays * DayMs;
    }
  }

  /** Age never decreases as the clock moves forward. */
  lemma AgeMonotone(now1: int, now2: int, mtime: int)
    requires now1 <= now2
    ensures AgeDays(now1, mtime) <= AgeDays(now2, mtime)
  {
    var a, b := AgeDays(now1, mtime), AgeDays(now2, mtime);
    assert a * DayMs < (b + 1) * DayMs;
  }

  /** Once stale, a workspace that is not touched stays stale. */
  lemma StaysStale(now1: int, now2: int, mtime: int, staleDays: int)
    requires now1 <= now2 && IsStale(AgeDays(now1, mtime), staleDays)
    ensures IsStale(AgeDays(now2, mtime), staleDays)
  {
    AgeMonotone(now1, now2, mtime);
  }

  /**
   * `listStaleWorkspaces` calls a workspace stale when its mtime is before
   * `now - days * DayMs`. The two tests agree except for a workspace exactly
   * `days` days old, which only the age listing calls stale.
   */
  lemma StaleTestsAgree(now: int, mtime: int, days: int)
    ensures mtime < now - days * DayMs ==> IsStale(AgeDays(now, mtime), days)
    ensures IsStale(AgeDays(now, mtime), days) && now - mtime != days * DayMs ==> mtime < now - days * DayMs
    ensures now - mtime == days * DayMs ==> IsStale(AgeDays(now, mtime), days)
  {
    StaleIffOld(now, mtime, days);
  }

  // -------------------------------------------------------------------------
  // Review timestamp
  // -------------------------------------------------------------------------

  /** The local calendar fields of `new Date()`; `month` counts from 0 as `getMonth()` does. */
  datatype LocalTime = LocalTime(year: int, month: nat, day: nat, hours: nat, minutes: nat, seconds: nat)

  predicate ValidTime(t: LocalTime) {
    t.month < 12 && 1 <= t.day <= 31 && t.hours < 24 && t.minutes < 60 && t.seconds < 60
  }

  /** `prepareReviewDir`'s timestamp: `YYYYMMDD-HHMMSS`, each field but the year padded to two digits. */
  function ReviewTimestamp(t: LocalTime): string {
    IntToString(t.year) + Pad2(t.month + 1) + Pad2(t.day) + "-" + Pad2(t.hours) + Pad2(t.minutes) + Pad2(t.seconds)
  }

  lemma FourDigits(n: nat)
    requires 1000 <= n <= 9999
    ensures |NatToString(n)| == 4
  {
    assert n / 10 / 10 / 10 == n / 1000 < 10;
    assert |NatToString(n / 10 / 10)| == 2;
    assert |NatToString(n / 10)| == 3;
  }

  /**
   * For a valid time with a four-digit year, the timestamp is 8 digits, a
   * hyphen and 6 digits, and each field reads back from its position.
   */
  lemma TimestampFields(t: LocalTime)
    requires ValidTime(t) && 1000 <= t.year <= 9999
    ensures var s := ReviewTimestamp(t);
      && |s| == 15 && s[8] == '-'
      && (forall k :: 0 <= k < 15 && k != 8 ==> IsDigit(s[k]))
      && s[..4] == IntToString(t.year) && DigitsValue(s[..4]) == t.year
      && DigitsValue(s[4..6]) == t.month + 1 && DigitsValue(s[6..8]) == t.day
      && DigitsValue(s[9..11]) == t.hours && DigitsValue(s[11..13]) == t.minutes
      && DigitsValue(s[13..15]) == t.seconds
  {
    var y, mo, d := IntToString(t.year), Pad2(t.month + 1), Pad2(t.day);
    var h, mi, se := Pad2(t.hours), Pad2(t.minutes), Pad2(t.seconds);
    FourDigits(t.year);
    var s := ReviewTimestamp(t);
    assert s == y + mo + d + "-" + h + mi + se;
    assert s[..4] == y && s[4..6] == mo && s[6..8] == d;
    assert s[9..11] == h && s[11..13] == mi && s[13..15] == se;
    DigitsValueNatToString(t.year);
    Pad2Value(t.month + 1);
    Pad2Value(t.day);
    Pad2Value(t.hours);
    Pad2Value(t.minutes);
    Pad2Value(t.seconds);
  }
}

=== FILE: wrappers.dfy ===
/** Optional values: the model's rendering of `undefined` / `null` fields. */
module Wrappers {

  datatype Option<+T> = None | Some(value: T) {

    /** `x ?? d`: the value when present, the default otherwise. */
    function GetOr(default: T): T {
      match this
      case Some(v) => v
      case None => default
    }

    /** `a ?? b` on two optional values. */
    function OrElse(other: Option<T>): Option<T> {
      match this
      case Some(_) => this
      case None => other
    }
  }
}
